=== FILE: README.md ===
# Suffix-tree builders, modelled in Dafny

The repository builds suffix trees of a text in two ways. `SuffixTree` in
`suffix_tree.py` is Ukkonen's online algorithm. `SuffixTree` in
`naif_suffix_tree.py` is the quadratic naive builder. Both append the
sentinel `$` when the text does not already end with it. When the prepared
text's only `$` is its last symbol, both number every leaf with the position
of the suffix it ends.

The model has six hand-written files and one file of worked examples:

- `sentinel.dfy` (module `SentinelText`) prepares the text and states why a
  text whose only `$` is its last symbol has prefix-free suffixes.
- `naive.dfy` (module `NaiveSuffixTree`) is the naive builder. Nodes are an
  immutable recursive datatype whose children map a symbol to the child
  node. Insertion, edge splitting and path compression are pure functions.
- `naive_proofs.dfy` (module `NaiveSuffixTreeProofs`) proves what the naive
  builder delivers. For a text whose only `$` is last, its leaves are
  exactly one per suffix: suffix k ends at a leaf numbered k whose path
  label is `text[k..]`. Every internal node branches, so path compression
  changes nothing.
- `ukkonen.dfy` (module `UkkonenSuffixTree`) is Ukkonen's builder as a
  state machine over a node arena.
  - Nodes live in a sequence and refer to one another by position. The root
    is position 0.
  - Leaves share one end. The model marks that end `Open` and reads it from
    the builder's `leafEnd`, so moving `leafEnd` lengthens every leaf at
    once, as the shared one-element list does in the source.
  - Every pass of the inner loop is one `Step`. `Extend` is one phase and
    `Build` runs all phases, then numbers the leaves.
- `ukkonen_paths.dfy` (module `UkkonenPaths`) says what a finished arena
  means.
  - `Locate` reads a string down from a node, edge label by edge label.
  - `IsSuffixTree` holds when every suffix ends at the leaf numbered with
    its position and every leaf is reached by its own suffix.
  - A lemma shows that any arena with that property has exactly the naive
    builder's leaves.
- `ukkonen_numbering.dfy` (module `UkkonenNumbering`) states what the
  depth-first numbering computes, for every input.
  - On an arena where every node has at most one parent and the root none,
    numbering from a node the root reaches gives every childless node below
    it the index `size - height - d`. Here d is the total edge
    length on the way down to that node.
  - The numbering changes nothing outside that node's subtree.
  - The fuel `Build` passes is always enough, so on such an arena the
    numbering never fails.
  - The phases always leave a tree: the root reaches every node, along one
    path only. So `Build` fails only when a phase fails, and it numbers
    every leaf.
- `ukkonen_runs.dfy` (module `UkkonenRuns`) proves what `Build` answers on
  five inputs: "banana", "aaaa", "abcabcabc", "aabaa" and "abaaab".
  - Every intermediate state is written out, and each pass is derived from
    the definitions.
  - For each input it proves that the answer is a suffix tree and that its
    leaves equal the naive tree's.
  - Together the five inputs take every branch of the phase loop:
    - a new leaf, with and without a node waiting for its suffix link;
    - a walk-down past a whole edge;
    - rule 3 at the root and below it, where it links the waiting node,
      with remainders carried across phases;
    - a split, and suffix links between splits;
    - both ways of moving the active point on.

## Model

| member | source | states |
|---|---|---|
| SentinelText.WithSentinel | suffix_tree.py:16-20 | the prepared text ends with `$`, starts with the input, and equals the input exactly when the input already ends with `$` |
| SentinelText.WithSentinelIdempotent | naif_suffix_tree.py:16 | preparing an already prepared text leaves it unchanged |
| SentinelText.WithSentinelUnique | naif_suffix_tree.py:16-17 | an input without `$` yields a text whose only `$` is its last symbol |
| SentinelText.SuffixesPrefixFree | naif_suffix_tree.py:34-42 | in such a text no suffix is a prefix of another, so every insertion ends at a new leaf |
| NaiveSuffixTree.Label | naif_suffix_tree.py:108-114 | an edge label has the edge's length, at least one, and reads the text from the edge's start |
| NaiveSuffixTree.MatchLength | naif_suffix_tree.py:51-56 | the comparison stops inside the edge and the text, and when it stops early the two symbols differ |
| NaiveSuffixTree.MatchedSymbols | naif_suffix_tree.py:51-56 | each edge symbol the comparison stepped over equals the text symbol at the same offset |
| NaiveSuffixTree.MatchedPrefix | naif_suffix_tree.py:51-56 | every symbol before the stopping point matches |
| NaiveSuffixTree.SplitNode | naif_suffix_tree.py:61-80 | the split node keeps the edge's start and has the split length; below it hang the shortened child and a new leaf for the suffix |
| NaiveSuffixTree.SplitNodeLabel | naif_suffix_tree.py:61-80 | cutting an edge inside loses no symbol: the split node's label followed by the shortened child's label is the old edge label |
| NaiveSuffixTree.SplitEdge | naif_suffix_tree.py:69-70 | the parent keeps its other children and now leads to the split node under the same symbol |
| NaiveSuffixTree.SplitEdgeWellFormed | naif_suffix_tree.py:61-80 | a split at a mismatch keeps every edge inside the text and every child keyed by its label's first symbol |
| NaiveSuffixTree.InsertFrom | naif_suffix_tree.py:29-59 | inserting a suffix keeps the tree well formed and only adds children |
| NaiveSuffixTree.InsertSuffixes | naif_suffix_tree.py:23-24 | inserting the remaining suffixes keeps the tree well formed |
| NaiveSuffixTree.CompressChild | naif_suffix_tree.py:93-106 | after merging, an internal child does not have exactly one child, and nothing below it does |
| NaiveSuffixTree.CompressNode | naif_suffix_tree.py:88-106 | compression keeps the node's edge and symbols, and leaves no unary internal node below |
| NaiveSuffixTree.Build | naif_suffix_tree.py:15-27 | the built tree is over the prepared text, its size is that text's length, and no internal node has a single child |
| NaiveSuffixTreeProofs.InsertFromLeaves | naif_suffix_tree.py:29-59 | inserting a rest that is prefix-free with the existing labels adds exactly one leaf, labelled by that rest |
| NaiveSuffixTreeProofs.InsertSuffixesLeaves | naif_suffix_tree.py:23-24 | after inserting the remaining suffixes the leaves are exactly all suffixes |
| NaiveSuffixTreeProofs.InsertFromBranching | naif_suffix_tree.py:61-80 | insertion only creates internal nodes with two children, so every internal node keeps branching |
| NaiveSuffixTreeProofs.InsertSuffixesBranching | naif_suffix_tree.py:23-24 | the uncompressed tree has no unary internal node |
| NaiveSuffixTreeProofs.CompressNodeIdentity | naif_suffix_tree.py:88-106 | on a branching tree compression is the identity |
| NaiveSuffixTreeProofs.BuildUncompressed | naif_suffix_tree.py:26-27 | the built tree is the tree of inserted suffixes, untouched by compression |
| NaiveSuffixTreeProofs.BuildLeaves | naif_suffix_tree.py:15-27 | for a text whose only `$` is last, the leaves are exactly one per suffix: index k with path label `text[k..]` |
| NaiveSuffixTreeProofs.BuildLeafIndex | naif_suffix_tree.py:39-40 | a pair is a leaf exactly when its label is the suffix at its index, and that index is the size minus the leaf's depth |
| NaiveSuffixTreeProofs.BuildLeavesDistinct | naif_suffix_tree.py:78-79 | two leaves share a suffix index exactly when they share a path label |
| UkkonenSuffixTree.CharAt | suffix_tree.py:78 | indexing succeeds exactly for indices from minus the length up to the length, counts negative indices from the end, and agrees with the text on ordinary indices |
| UkkonenSuffixTree.NewNode | suffix_tree.py:39-45 | a new node is appended with the given edge, no children, no suffix index, and a suffix link to the root |
| UkkonenSuffixTree.LeafEndLengthens | suffix_tree.py:70 | moving the shared leaf end lengthens every open leaf by the same amount and leaves closed edges alone |
| UkkonenSuffixTree.Attach | suffix_tree.py:81 | a new open leaf hangs under the parent at the given symbol; no other node changes |
| UkkonenSuffixTree.WalkDown | suffix_tree.py:54-64 | it moves to the child exactly when the active length reaches the edge length, subtracts that length, and keeps the active position fixed |
| UkkonenSuffixTree.LinkPending | suffix_tree.py:83-85 | the waiting internal node, if any, gets its suffix link and nothing waits afterwards |
| UkkonenSuffixTree.AddLeaf | suffix_tree.py:80-85 | one open leaf is added under the active node at the edge symbol, the waiting node links to the active node, and other nodes are unchanged |
| UkkonenSuffixTree.Rule3 | suffix_tree.py:93-99 | the active length grows by one, and the waiting node links to the active node only when that is not the root |
| UkkonenSuffixTree.Carve | suffix_tree.py:101-104 | the split node takes the first `depth` symbols of the edge and replaces the child under the parent |
| UkkonenSuffixTree.Hang | suffix_tree.py:106-109 | the split node gets exactly two children: the new open leaf under the current symbol and the shortened child under its new first symbol; no other node changes |
| UkkonenSuffixTree.SplitNodes | suffix_tree.py:101-109 | the split adds a closed internal node and an open leaf, shortens the child from the front, and changes no other node |
| UkkonenSuffixTree.SplitOpensOne | suffix_tree.py:101-109 | a split appends a closed node and an open leaf, so exactly one more leaf is on the shared end |
| UkkonenSuffixTree.Split | suffix_tree.py:101-113 | after a split the new internal node has exactly two children, under the current symbol and under the edge's next symbol; it waits for its link, and a node that was waiting links to it |
| UkkonenSuffixTree.Advance | suffix_tree.py:115-121 | one suffix fewer remains, and the active point moves by rule 1 at the root or follows the suffix link elsewhere |
| UkkonenSuffixTree.Step | suffix_tree.py:74-121 | a pass keeps the arena valid; leaves on the shared end plus remaining suffixes stay constant; a pass that continues either adds a leaf and has exactly one suffix fewer or walks down an edge with the same count and a shorter active length; one that breaks keeps the count and leaves a non-empty active length |
| UkkonenSuffixTree.StepOnEdge | suffix_tree.py:87-121 | the same for a pass that finds an edge at the active symbol |
| UkkonenSuffixTree.InsideEdge | suffix_tree.py:93-121 | the same for a pass that stops inside that edge; a split always leaves exactly one suffix fewer |
| UkkonenSuffixTree.Loop | suffix_tree.py:74-121 | the phase loop ends with no suffix remaining or inside an edge, and keeps leaves plus remaining suffixes constant |
| UkkonenSuffixTree.Extend | suffix_tree.py:66-121 | a phase moves the leaf end to its position and adds one to leaves plus remaining suffixes |
| UkkonenSuffixTree.Phases | suffix_tree.py:136-138 | after all phases the leaf end is the last position and leaves plus remaining suffixes count the phases run |
| UkkonenSuffixTree.Init | suffix_tree.py:15-34 | the start state is the prepared text with a single root linked to itself and an empty active point |
| UkkonenSuffixTree.Number | suffix_tree.py:123-134 | numbering changes only suffix indices, and a childless node numbered at height h gets index size minus h |
| UkkonenSuffixTree.NumberChildren | suffix_tree.py:132-134 | numbering every child changes only suffix indices |
| UkkonenSuffixTree.AttachShape | suffix_tree.py:81 | hanging a new leaf keeps every node under at most one edge and the child symbols in the text; under a symbol the parent did not have yet, the root still reaches every node |
| UkkonenSuffixTree.AttachReached | suffix_tree.py:80-81 | a leaf hung under a new symbol of a node the root reaches leaves every node, the new leaf included, reached from the root |
| UkkonenSuffixTree.SplitNodesShape | suffix_tree.py:101-109 | splitting an edge keeps every node under at most one edge and the child symbols in the text, and keeps every node reached from the root |
| UkkonenSuffixTree.SplitNodesReached | suffix_tree.py:101-109 | after a split the root reaches every old node, the old child now through the split node, and the split node and the new leaf too |
| UkkonenSuffixTree.StepShape | suffix_tree.py:74-121 | a pass that does not fail keeps the arena a tree: every node reached from the root and under at most one edge, the root under none |
| UkkonenSuffixTree.PhasesShape | suffix_tree.py:136-138 | phases that succeed leave the arena a tree, every node reached from the root |
| UkkonenSuffixTree.Build | suffix_tree.py:136-139 | the built arena is valid over the prepared text, its leaf end is the last position, and leaves on the shared end plus remaining suffixes equal the size |
| UkkonenNumbering.NumberSpec | suffix_tree.py:123-134 | on a tree, numbering from a node succeeds; every childless node below it gets size minus height minus the edge lengths on its path; nodes outside the subtree are unchanged |
| UkkonenNumbering.NumberChildrenSpec | suffix_tree.py:132-134 | the loop over the children succeeds, numbers the leaves below each child at the child's height, and changes nothing outside those subtrees |
| UkkonenNumbering.RootPathUnique | suffix_tree.py:123-134 | in an arena where every node has one parent, two paths from the root that end at the same node are the same path, so the depth-first numbering reaches each leaf along one path only and gives it one height |
| UkkonenNumbering.BuiltShape | suffix_tree.py:136-138 | the arena the phases build is a tree, every node reached from the root, whose child symbols are among the text's distinct symbols |
| UkkonenNumbering.BuildNumbersPaths | suffix_tree.py:136-139 | `Build` fails only when a phase fails; its answer is a tree, and every childless node on a path from the root carries the size minus that path's total edge length |
| UkkonenNumbering.NumberedEveryLeaf | suffix_tree.py:123-134 | when the root reaches every node, a numbering from the root numbers every childless node, by the size minus the edge length of its path from the root |
| UkkonenNumbering.BuildNumbersLeaves | suffix_tree.py:136-139 | `Build` fails only when a phase fails; its answer is a tree in which every childless node has a path from the root and carries the size minus that path's total edge length, the start of the suffix the path spells |
| UkkonenPaths.EdgeText | suffix_tree.py:47-52 | an edge label has the edge's length and reads the text from the edge's start |
| UkkonenPaths.SplitKeepsLabel | suffix_tree.py:101-109 | the split node's label followed by the shortened child's label is the old label, and the split node's children are keyed by the leaf's and the child's symbols |
| UkkonenPaths.LocateSpells | suffix_tree.py:123-134 | a successful walk is a downward path whose labels spell exactly the string walked |
| UkkonenPaths.LeavesNumberedOnce | suffix_tree.py:128-129 | in a suffix tree no two leaves carry the same suffix index |
| UkkonenPaths.LeafLabelSpelled | suffix_tree.py:128-129 | each leaf's root-to-leaf path spells the suffix at its index |
| UkkonenPaths.LeafLabelsAreSuffixes | suffix_tree.py:123-139 | a suffix tree's leaves are exactly one per suffix, labelled by that suffix |
| UkkonenPaths.AgreesWithNaive | suffix_tree.py:136-139 | a suffix-tree arena over the prepared text of an input, when that text's only `$` is its last symbol, has exactly the leaves of the naive tree for the same input |
| UkkonenRuns.BananaMatchesNaive | suffix_tree.py:136-139 | on "banana" the builder answers a suffix tree whose leaves equal the naive tree's |
| UkkonenRuns.AaaaMatchesNaive | suffix_tree.py:136-139 | the same on "aaaa" |
| UkkonenRuns.AbcMatchesNaive | suffix_tree.py:136-139 | the same on "abcabcabc" |
| UkkonenRuns.AabaaMatchesNaive | suffix_tree.py:136-139 | the same on "aabaa" |
| UkkonenRuns.AbaaabMatchesNaive | suffix_tree.py:136-139 | the same on "abaaab" |

## Left out

- `cv` (naif_suffix_tree.py:12) is never read by either builder; the model omits it.
- `compression.py` and `main.py` hold only descriptions, no code; they are not part of this model.
- Running time and Python's recursion limit are not modelled.
- The root's transient `None` suffix link (suffix_tree.py:22-24, 41-44) is not modelled: the root is created with a link to itself, which the source sets on the next line.
- Python object identity becomes arena positions. Updates to a node are applied in the source's order.
- UkkonenSuffixTree.Number visits children in order of first occurrence in the text, not in dictionary insertion order. A leaf's index depends only on its depth, so the order does not change the result.
- UkkonenSuffixTree.Number carries a depth bound of the arena's size and fails with `DepthExceeded` past it. The source has no bound. `UkkonenNumbering.NumberSpec` proves the bound is never reached on a tree, and `UkkonenNumbering.BuiltShape` proves the phases always build one.
- UkkonenSuffixTree.Step fails with `EmptyEdgeWalk` when a walk-down crosses an edge of length zero or less. The source moves to the child and goes on with the loop, but the active length then does not shrink. The model stops there so that the loop provably ends. Whether such an edge can arise is not proved.
- UkkonenSuffixTree.Step fails with `IndexOutOfRange` where Python raises `IndexError`.
- UkkonenSuffixTree.Build: the phases are not proved to succeed on every input; that would need the invariant relating the active point to the tree. `UkkonenNumbering.BuildNumbersLeaves` proves that only a phase can fail.
- UkkonenSuffixTree.Build: for every input the model proves that the result is valid, that it is a tree, the leaf count, and each leaf's index in terms of its depth. The suffix-tree property and the agreement with the naive builder are proved only for the five inputs in `UkkonenRuns`.
- NaiveSuffixTree.CompressChild: the merge at naif_suffix_tree.py:101 moves the parent's edge to the grandchild without extending its label. The model follows that code. Compression is proved never to merge on built trees, so the label is never lost.
- NaiveSuffixTreeProofs.BuildLeaves and the other leaf lemmas require the prepared text to have `$` only as its last symbol. The source accepts any input. But a `$` before the end makes one suffix a prefix of another, and the naive builder then gives that suffix no leaf.

=== FILE: naive.dfy ===
/** The quadratic reference builder (naif_suffix_tree.py): every suffix is
    inserted from the root, an edge is split where the suffix diverges from
    it, and a final pass merges internal nodes that have a single child.

    A node owns its children outright, so the tree is an immutable value and
    the source's in-place updates become a rebuilt path from the node that
    changed up to the root. */
module NaiveSuffixTree {
  import opened SentinelText

  /** The edge into a node is text[start..end] (inclusive). */
  datatype Node = Node(start: int, end: int, children: map<char, Node>, suffixIndex: int)

  /** The tree together with the text it indexes. */
  datatype Tree = Tree(text: string, size: nat, root: Node)

  /** The root has no incoming edge. */
  const EmptyRoot: Node := Node(-1, -1, map[], NoSuffix)

  // ---------------------------------------------------------------------------
  // Edges and labels

  function EdgeLength(n: Node): int {
    n.end - n.start + 1
  }

  /** The edge into `n` is a non-empty slice of `text`. */
  predicate EdgeWithin(text: string, n: Node) {
    0 <= n.start <= n.end < |text|
  }

  /** The symbols on the edge into `n`; its length is the edge length. */
  function Label(text: string, n: Node): (s: string)
    requires EdgeWithin(text, n)
    ensures |s| == EdgeLength(n) >= 1
    ensures forall k :: 0 <= k < |s| ==> s[k] == text[n.start + k]
  {
    text[n.start..n.end + 1]
  }

  /** Every edge below `v` is a non-empty slice of `text`, filed under its
      first symbol. */
  predicate WellFormed(text: string, v: Node) {
    forall c | c in v.children ::
      && EdgeWithin(text, v.children[c])
      && text[v.children[c].start] == c
      && WellFormed(text, v.children[c])
  }

  /** Below `v`, every internal node (suffix index unset) has at least two
      children. Leaves are not looked into: the merge pass does not either. */
  predicate Branching(v: Node) {
    forall c | c in v.children ::
      v.children[c].suffixIndex == NoSuffix ==>
        |v.children[c].children| >= 2 && Branching(v.children[c])
  }

  /** Below `v`, no internal node has exactly one child. */
  predicate NoUnaryBelow(v: Node) {
    forall c | c in v.children ::
      v.children[c].suffixIndex == NoSuffix ==>
        |v.children[c].children| != 1 && NoUnaryBelow(v.children[c])
  }

  // ---------------------------------------------------------------------------
  // The leaves of a tree, as (suffix index, path label) pairs

  /** Every leaf below `v` with the label of the path from `v` to it. */
  ghost function Leaves(text: string, v: Node): set<(int, string)>
    requires WellFormed(text, v)
    decreases v, 0
  {
    set c, p | c in v.children && p in Through(text, v.children[c]) :: p
  }

  /** Every leaf reached through the edge into `ch`, with the label of the
      path that starts with that edge. A node without children is a leaf. */
  ghost function Through(text: string, ch: Node): set<(int, string)>
    requires EdgeWithin(text, ch) && WellFormed(text, ch)
    decreases ch, 1
  {
    if ch.children == map[] then {(ch.suffixIndex, Label(text, ch))}
    else set p | p in Leaves(text, ch) :: (p.0, Label(text, ch) + p.1)
  }

  /** The leaves below `v` except those reached through key `c0`. */
  ghost function LeavesExcept(text: string, v: Node, c0: char): set<(int, string)>
    requires WellFormed(text, v)
  {
    set c, p | c in v.children && c != c0 && p in Through(text, v.children[c]) :: p
  }

  /** The leaf set every suffix-tree builder must produce for the first `n`
      suffixes: suffix k ends at a leaf with index k and path label text[k..]. */
  ghost function SuffixLeaves(text: string, n: int): set<(int, string)>
    requires 0 <= n <= |text|
  {
    set k | 0 <= k < n :: (k, text[k..])
  }

  /** Neither `s` nor any path label in `ls` is a prefix of the other. */
  ghost predicate PrefixFreeWith(ls: set<(int, string)>, s: string) {
    forall p | p in ls :: !IsPrefix(p.1, s) && !IsPrefix(s, p.1)
  }

  // ---------------------------------------------------------------------------
  // Construction

  /** Where the comparison loop of `_insert_suffix` stops when it compares the
      edge starting at `edgeStart` (of length `len`) with the text at `pos`,
      having matched `j` symbols so far: at the first offset that differs, or
      where the edge or the text runs out. */
  function MatchLength(text: string, edgeStart: int, pos: int, len: int, j: int): (r: int)
    requires 0 <= edgeStart && edgeStart + len <= |text|
    requires 0 <= j <= len && 0 <= pos && pos + j <= |text|
    ensures j <= r <= len && pos + r <= |text|
    ensures r < len && pos + r < |text| ==> text[edgeStart + r] != text[pos + r]
    decreases len - j
  {
    if j < len && pos + j < |text| then
      if text[edgeStart + j] != text[pos + j] then j
      else MatchLength(text, edgeStart, pos, len, j + 1)
    else j
  }

  /** Everything the comparison loop stepped over matched, symbol by symbol:
      edge position `a` agrees with the text at the same offset from `pos`. */
  lemma {:induction false} MatchedSymbols(text: string, edgeStart: int, pos: int, len: int, j: int)
    requires 0 <= edgeStart && edgeStart + len <= |text|
    requires 0 <= j <= len && 0 <= pos && pos + j <= |text|
    ensures var r := MatchLength(text, edgeStart, pos, len, j);
      forall a | edgeStart + j <= a < edgeStart + r :: text[a] == text[a - edgeStart + pos]
    decreases len - j
  {
    if j < len && pos + j < |text| && text[edgeStart + j] == text[pos + j] {
      MatchedSymbols(text, edgeStart, pos, len, j + 1);
    }
  }

  /** Everything the comparison loop stepped over matched. */
  lemma MatchedPrefix(text: string, edgeStart: int, pos: int, len: int, j: int)
    requires 0 <= edgeStart && edgeStart + len <= |text|
    requires 0 <= j <= len && 0 <= pos && pos + j <= |text|
    ensures var r := MatchLength(text, edgeStart, pos, len, j);
      text[edgeStart + j..edgeStart + r] == text[pos + j..pos + r]
  {
    var r := MatchLength(text, edgeStart, pos, len, j);
    MatchedSymbols(text, edgeStart, pos, len, j);
    var e, t := text[edgeStart + j..edgeStart + r], text[pos + j..pos + r];
    forall k | 0 <= k < |e|
      ensures e[k] == t[k]
    {
      assert e[k] == text[edgeStart + j + k];
    }
  }

  /** The internal node `_split_edge` creates: it keeps the first `splitAt`
      symbols of the edge into `child`, `child` keeps the rest, and a new leaf
      for suffix `suffixStart` hangs off it from text position textPos + splitAt. */
  function SplitNode(text: string, child: Node, splitAt: int, textPos: int, suffixStart: int): (mid: Node)
    requires 0 <= child.start + splitAt < |text|
    requires 0 <= textPos + splitAt < |text|
    ensures mid.start == child.start && EdgeLength(mid) == splitAt
    ensures mid.suffixIndex == NoSuffix
    ensures text[textPos + splitAt] in mid.children
    ensures mid.children[text[textPos + splitAt]] == Node(textPos + splitAt, |text| - 1, map[], suffixStart)
    ensures var moved := child.(start := child.start + splitAt);
      text[moved.start] != text[textPos + splitAt] ==>
        && mid.children.Keys == {text[moved.start], text[textPos + splitAt]}
        && mid.children[text[moved.start]] == moved
  {
    var splitEnd := child.start + splitAt - 1;
    var moved := child.(start := splitEnd + 1);
    var newPos := textPos + splitAt;
    var leaf := Node(newPos, |text| - 1, map[], suffixStart);
    Node(child.start, splitEnd, map[text[moved.start] := moved][text[newPos] := leaf], NoSuffix)
  }

  /** Splitting inside an edge loses no symbol: the split node's label
      followed by the shortened child's label is the old edge label, and both
      pieces still lie inside the text. */
  lemma SplitNodeLabel(text: string, child: Node, splitAt: int, textPos: int, suffixStart: int)
    requires EdgeWithin(text, child) && 1 <= splitAt < EdgeLength(child)
    requires 0 <= textPos + splitAt < |text|
    ensures var mid := SplitNode(text, child, splitAt, textPos, suffixStart);
      var moved := child.(start := child.start + splitAt);
      && EdgeWithin(text, mid) && EdgeWithin(text, moved)
      && Label(text, mid) + Label(text, moved) == Label(text, child)
  {
    var a, b, e := child.start, child.start + splitAt, child.end + 1;
    assert text[a..e] == text[a..b] + text[b..e];
  }

  /** `_split_edge`: the edge from `parent` into `child`, filed under
      `edgeChar`, now leads to the split node; every other child stays. */
  function SplitEdge(text: string, parent: Node, edgeChar: char, child: Node,
                     splitAt: int, textPos: int, suffixStart: int): (r: Node)
    requires 0 <= child.start + splitAt < |text|
    requires 0 <= textPos + splitAt < |text|
    ensures r.start == parent.start && r.end == parent.end
    ensures r.suffixIndex == parent.suffixIndex
    ensures r.children.Keys == parent.children.Keys + {edgeChar}
    ensures forall c | c in parent.children && c != edgeChar :: r.children[c] == parent.children[c]
    ensures r.children[edgeChar] == SplitNode(text, child, splitAt, textPos, suffixStart)
  {
    parent.(children := parent.children[edgeChar := SplitNode(text, child, splitAt, textPos, suffixStart)])
  }

  /** Moving the start of an edge forward (within the edge) keeps the node well formed. */
  lemma ShiftedWellFormed(text: string, x: Node, d: int)
    requires WellFormed(text, x)
    ensures WellFormed(text, x.(start := d))
  {
    assert x.(start := d).children == x.children;
  }

  /** A split at a point of divergence keeps every edge non-empty and filed
      under its first symbol. */
  lemma SplitEdgeWellFormed(text: string, parent: Node, edgeChar: char, child: Node,
                            splitAt: int, textPos: int, suffixStart: int)
    requires WellFormed(text, parent) && edgeChar in parent.children
    requires parent.children[edgeChar] == child
    requires 1 <= splitAt < EdgeLength(child)
    requires 0 <= textPos + splitAt < |text|
    requires text[textPos + splitAt] != text[child.start + splitAt]
    ensures WellFormed(text, SplitEdge(text, parent, edgeChar, child, splitAt, textPos, suffixStart))
  {
    var moved := child.(start := child.start + splitAt);
    ShiftedWellFormed(text, child, child.start + splitAt);
    var mid := SplitNode(text, child, splitAt, textPos, suffixStart);
    assert WellFormed(text, mid);
  }

  /** The descent loop of `_insert_suffix`, resumed at `node` with `pos` the
      next text position of suffix `suffixStart` still to be placed. */
  function InsertFrom(text: string, node: Node, pos: int, suffixStart: int): (r: Node)
    requires WellFormed(text, node) && 0 <= pos
    ensures WellFormed(text, r)
    ensures r.start == node.start && r.end == node.end && r.suffixIndex == node.suffixIndex
    ensures node.children.Keys <= r.children.Keys
    decreases node
  {
    if pos >= |text| then node
    else
      var c := text[pos];
      if c !in node.children then
        node.(children := node.children[c := Node(pos, |text| - 1, map[], suffixStart)])
      else
        var child := node.children[c];
        var len := EdgeLength(child);
        var j := MatchLength(text, child.start, pos, len, 0);
        if j < len && pos + j < |text| then
          SplitEdgeWellFormed(text, node, c, child, j, pos, suffixStart);
          SplitEdge(text, node, c, child, j, pos, suffixStart)
        else
          node.(children := node.children[c := InsertFrom(text, child, pos + len, suffixStart)])
  }

  /** The construction loop: suffixes i, i+1, ..., |text|-1 inserted in turn. */
  function InsertSuffixes(text: string, root: Node, i: nat): (r: Node)
    requires WellFormed(text, root) && i <= |text|
    ensures WellFormed(text, r)
    decreases |text| - i
  {
    if i == |text| then root
    else InsertSuffixes(text, InsertFrom(text, root, i, i), i + 1)
  }

  // ---------------------------------------------------------------------------
  // Path compression

  /** The body of the merge loop for one child `x`: a single-child internal
      node is replaced by its only child, repeatedly; the node that remains
      is compressed in turn unless it is a leaf. */
  function CompressChild(x: Node): (r: Node)
    ensures r.suffixIndex == NoSuffix ==> |r.children| != 1 && NoUnaryBelow(r)
    decreases x, 1
  {
    if |x.children| == 1 && x.suffixIndex == NoSuffix then
      SingleKey(x.children);
      var c :| c in x.children; CompressChild(x.children[c])
    else if x.suffixIndex == NoSuffix then CompressNode(x)
    else x
  }

  /** `_compress_node`: every child of `v` goes through the merge loop. */
  function CompressNode(v: Node): (r: Node)
    ensures r.start == v.start && r.end == v.end && r.suffixIndex == v.suffixIndex
    ensures r.children.Keys == v.children.Keys
    ensures NoUnaryBelow(r)
    decreases v, 0
  {
    v.(children := map c | c in v.children :: CompressChild(v.children[c]))
  }

  lemma SingleKey<V>(m: map<char, V>)
    requires |m| == 1
    ensures forall a, b | a in m && b in m :: a == b
  {
    var a :| a in m.Keys;
    assert |m.Keys - {a}| == 0;
  }

  /** `SuffixTree.__init__`: prepare the text, insert every suffix, compress. */
  function Build(input: string): (t: Tree)
    ensures t.text == WithSentinel(input) && t.size == |t.text|
    ensures WellFormed(t.text, InsertSuffixes(t.text, EmptyRoot, 0))
    ensures NoUnaryBelow(t.root)
  {
    var text := WithSentinel(input);
    Tree(text, |text|, CompressNode(InsertSuffixes(text, EmptyRoot, 0)))
  }
}

=== FILE: naive_proofs.dfy ===
/** What the naive builder guarantees: for a text whose only '$' is its last
    symbol, every suffix ends at its own leaf, whose suffix index is the
    suffix's start and whose path label is the suffix; and the merge pass
    finds nothing to merge in a tree built by suffix insertion. */
module NaiveSuffixTreeProofs {
  import opened SentinelText
  import opened NaiveSuffixTree

  // ---------------------------------------------------------------------------
  // Leaf sets under updates of one child

  lemma LeavesAround(text: string, v: Node, c0: char)
    requires WellFormed(text, v)
    ensures c0 in v.children ==>
      Leaves(text, v) == LeavesExcept(text, v, c0) + Through(text, v.children[c0])
    ensures c0 !in v.children ==> Leaves(text, v) == LeavesExcept(text, v, c0)
  {
  }

  /** A leaf reached through one child is a leaf of the parent. */
  lemma ThroughInLeaves(text: string, v: Node, c: char, p: (int, string))
    requires WellFormed(text, v) && c in v.children
    requires EdgeWithin(text, v.children[c]) && WellFormed(text, v.children[c])
    requires p in Through(text, v.children[c])
    ensures p in Leaves(text, v)
  {
  }

  lemma LeavesExceptUpdate(text: string, v: Node, c0: char, x: Node)
    requires WellFormed(text, v)
    requires WellFormed(text, v.(children := v.children[c0 := x]))
    ensures LeavesExcept(text, v.(children := v.children[c0 := x]), c0) == LeavesExcept(text, v, c0)
  {
    var w := v.(children := v.children[c0 := x]);
    forall p | p in LeavesExcept(text, w, c0)
      ensures p in LeavesExcept(text, v, c0)
    {
      var c :| c in w.children && c != c0 && p in Through(text, w.children[c]);
      assert w.children[c] == v.children[c];
    }
    forall p | p in LeavesExcept(text, v, c0)
      ensures p in LeavesExcept(text, w, c0)
    {
      var c :| c in v.children && c != c0 && p in Through(text, v.children[c]);
      assert w.children[c] == v.children[c];
    }
  }

  /** Replacing the child under `c0` by `x` replaces that child's leaves by
      those of `x`. */
  lemma LeavesReplace(text: string, v: Node, c0: char, x: Node)
    requires WellFormed(text, v) && EdgeWithin(text, x) && WellFormed(text, x)
    requires WellFormed(text, v.(children := v.children[c0 := x]))
    ensures Leaves(text, v.(children := v.children[c0 := x]))
      == LeavesExcept(text, v, c0) + Through(text, x)
  {
    var w := v.(children := v.children[c0 := x]);
    LeavesAround(text, w, c0);
    LeavesExceptUpdate(text, v, c0, x);
  }

  // ---------------------------------------------------------------------------
  // Shape of the leaves reached through one edge

  lemma {:induction false} ThroughNonEmpty(text: string, ch: Node)
    requires EdgeWithin(text, ch) && WellFormed(text, ch)
    ensures Through(text, ch) != {}
    decreases ch
  {
    if ch.children != map[] {
      var c :| c in ch.children;
      ThroughNonEmpty(text, ch.children[c]);
      var p :| p in Through(text, ch.children[c]);
      assert p in Leaves(text, ch);
      assert (p.0, Label(text, ch) + p.1) in Through(text, ch);
    }
  }

  lemma ThroughStartsWithLabel(text: string, ch: Node)
    requires EdgeWithin(text, ch) && WellFormed(text, ch)
    ensures forall p | p in Through(text, ch) :: IsPrefix(Label(text, ch), p.1)
  {
    forall p | p in Through(text, ch)
      ensures IsPrefix(Label(text, ch), p.1)
    {
      if ch.children != map[] {
        var q :| q in Leaves(text, ch) && p == (q.0, Label(text, ch) + q.1);
        assert (Label(text, ch) + q.1)[..|Label(text, ch)|] == Label(text, ch);
      }
    }
  }

  /** The leaves of a node depend on its children only. */
  lemma LeavesOfChildren(text: string, x: Node, y: Node)
    requires WellFormed(text, x) && x.children == y.children
    ensures WellFormed(text, y) && Leaves(text, x) == Leaves(text, y)
  {
  }

  // ---------------------------------------------------------------------------
  // Insertion of one suffix

  /** Every path label of `ls` with `s` put in front. */
  ghost function Prefixed(s: string, ls: set<(int, string)>): set<(int, string)> {
    set q | q in ls :: (q.0, s + q.1)
  }

  lemma PrefixedUnion(s: string, a: set<(int, string)>, b: set<(int, string)>)
    ensures Prefixed(s, a + b) == Prefixed(s, a) + Prefixed(s, b)
  {
  }

  lemma PrefixedSingleton(s: string, k: int, t: string)
    ensures Prefixed(s, {(k, t)}) == {(k, s + t)}
  {
    assert (k, t) in {(k, t)};
  }

  lemma PrefixedTwice(s: string, t: string, ls: set<(int, string)>)
    ensures Prefixed(s, Prefixed(t, ls)) == Prefixed(s + t, ls)
  {
    forall q | q in ls
      ensures s + (t + q.1) == (s + t) + q.1
    {
    }
    forall p | p in Prefixed(s + t, ls)
      ensures p in Prefixed(s, Prefixed(t, ls))
    {
      var q :| q in ls && p == (q.0, (s + t) + q.1);
      assert (q.0, t + q.1) in Prefixed(t, ls);
    }
  }

  lemma ThroughInternal(text: string, x: Node)
    requires EdgeWithin(text, x) && WellFormed(text, x) && x.children != map[]
    ensures Through(text, x) == Prefixed(Label(text, x), Leaves(text, x))
  {
  }

  /** A node with two children under different keys has the leaves of both. */
  lemma LeavesOfPair(text: string, m: Node, k1: char, a: Node, k2: char, b: Node)
    requires m.children == map[k1 := a, k2 := b] && k1 != k2
    requires WellFormed(text, m)
    requires EdgeWithin(text, a) && WellFormed(text, a)
    requires EdgeWithin(text, b) && WellFormed(text, b)
    ensures Leaves(text, m) == Through(text, a) + Through(text, b)
  {
    forall p | p in Leaves(text, m)
      ensures p in Through(text, a) + Through(text, b)
    {
      var c :| c in m.children && p in Through(text, m.children[c]);
      assert c == k1 || c == k2;
    }
    forall p | p in Through(text, a) + Through(text, b)
      ensures p in Leaves(text, m)
    {
      if p in Through(text, a) {
        assert m.children[k1] == a;
        ThroughInLeaves(text, m, k1, p);
      } else {
        assert m.children[k2] == b;
        ThroughInLeaves(text, m, k2, p);
      }
    }
  }

  /** An edge cut in two: the upper part followed by the leaves of the lower
      part gives the leaves of the whole edge. */
  lemma ThroughShifted(text: string, child: Node, j: int, upper: string)
    requires EdgeWithin(text, child) && WellFormed(text, child)
    requires 1 <= j < EdgeLength(child)
    requires upper + Label(text, child.(start := child.start + j)) == Label(text, child)
    ensures WellFormed(text, child.(start := child.start + j))
    ensures Prefixed(upper, Through(text, child.(start := child.start + j))) == Through(text, child)
  {
    var moved := child.(start := child.start + j);
    ShiftedWellFormed(text, child, child.start + j);
    if child.children != map[] {
      LeavesOfChildren(text, child, moved);
      ThroughInternal(text, moved);
      ThroughInternal(text, child);
      PrefixedTwice(upper, Label(text, moved), Leaves(text, child));
    }
  }

  lemma SplitNodeWellFormed(text: string, child: Node, j: int, pos: int, i: int)
    requires EdgeWithin(text, child) && WellFormed(text, child)
    requires 1 <= j < EdgeLength(child)
    requires 0 <= pos && pos + j < |text|
    requires text[child.start + j] != text[pos + j]
    ensures EdgeWithin(text, SplitNode(text, child, j, pos, i))
    ensures WellFormed(text, SplitNode(text, child, j, pos, i))
  {
    var moved := child.(start := child.start + j);
    var leaf := Node(pos + j, |text| - 1, map[], i);
    ShiftedWellFormed(text, child, child.start + j);
    assert EdgeWithin(text, moved) && WellFormed(text, moved) && text[moved.start] == text[child.start + j];
    assert EdgeWithin(text, leaf) && WellFormed(text, leaf);
  }

  /** A leaf created for suffix `i` at text position `at` is reached along
      the rest of the text. */
  lemma ThroughNewLeaf(text: string, at: int, i: int)
    requires 0 <= at < |text|
    ensures Through(text, Node(at, |text| - 1, map[], i)) == {(i, text[at..])}
  {
    assert Label(text, Node(at, |text| - 1, map[], i)) == text[at..];
  }

  lemma SliceJoin(text: string, a: int, b: int)
    requires 0 <= a <= b <= |text|
    ensures text[a..b] + text[b..] == text[a..]
  {
  }

  /** The path labels through a node with two children: the node's label
      followed by those through either child. */
  lemma ThroughPair(text: string, m: Node, k1: char, a: Node, k2: char, b: Node)
    requires m.children == map[k1 := a, k2 := b] && k1 != k2
    requires EdgeWithin(text, m) && WellFormed(text, m)
    requires EdgeWithin(text, a) && WellFormed(text, a)
    requires EdgeWithin(text, b) && WellFormed(text, b)
    ensures Through(text, m) == Prefixed(Label(text, m), Through(text, a)) + Prefixed(Label(text, m), Through(text, b))
  {
    var l, ta, tb := Label(text, m), Through(text, a), Through(text, b);
    LeavesOfPair(text, m, k1, a, k2, b);
    assert k1 in m.children;
    ThroughInternal(text, m);
    PrefixedUnion(l, ta, tb);
    calc {
      Through(text, m);
      Prefixed(l, Leaves(text, m));
      Prefixed(l, ta + tb);
      Prefixed(l, ta) + Prefixed(l, tb);
    }
  }

  /** The shape of the node a split creates, with the facts about it the
      leaf-set argument needs. */
  lemma SplitNodeFacts(text: string, child: Node, j: int, pos: int, i: int)
    requires EdgeWithin(text, child) && WellFormed(text, child)
    requires 1 <= j < EdgeLength(child)
    requires 0 <= pos && pos + j < |text|
    requires text[child.start + j] != text[pos + j]
    requires text[child.start..child.start + j] == text[pos..pos + j]
    ensures var moved := child.(start := child.start + j);
      var mid := SplitNode(text, child, j, pos, i);
      && mid.children == map[text[moved.start] := moved, text[pos + j] := Node(pos + j, |text| - 1, map[], i)]
      && text[moved.start] != text[pos + j]
      && EdgeWithin(text, mid) && WellFormed(text, mid) && Label(text, mid) == text[pos..pos + j]
      && EdgeWithin(text, moved) && WellFormed(text, moved)
      && text[pos..pos + j] + Label(text, moved) == Label(text, child)
  {
    ShiftedWellFormed(text, child, child.start + j);
    SplitNodeWellFormed(text, child, j, pos, i);
  }

  /** The new leaf of a split, seen from above the split node, carries the
      whole suffix. */
  lemma SplitLeafThrough(text: string, pos: int, j: int, i: int)
    requires 0 <= pos <= pos + j < |text|
    ensures Prefixed(text[pos..pos + j], Through(text, Node(pos + j, |text| - 1, map[], i))) == {(i, text[pos..])}
  {
    ThroughNewLeaf(text, pos + j, i);
    SliceJoin(text, pos, pos + j);
    PrefixedSingleton(text[pos..pos + j], i, text[pos + j..]);
  }

  /** The node created by a split at a point of divergence carries the old
      child's leaves (behind the same path labels) plus the new leaf, whose
      path label is the rest of the suffix being inserted. */
  lemma ThroughSplit(text: string, child: Node, j: int, pos: int, i: int)
    requires EdgeWithin(text, child) && WellFormed(text, child)
    requires 1 <= j < EdgeLength(child)
    requires 0 <= pos && pos + j < |text|
    requires text[child.start + j] != text[pos + j]
    requires text[child.start..child.start + j] == text[pos..pos + j]
    ensures var mid := SplitNode(text, child, j, pos, i);
      && EdgeWithin(text, mid) && WellFormed(text, mid)
      && Through(text, mid) == Through(text, child) + {(i, text[pos..])}
  {
    var moved := child.(start := child.start + j);
    var leaf := Node(pos + j, |text| - 1, map[], i);
    var mid := SplitNode(text, child, j, pos, i);
    SplitNodeFacts(text, child, j, pos, i);
    ThroughShifted(text, child, j, text[pos..pos + j]);
    SplitLeafThrough(text, pos, j, i);
    ThroughPair(text, mid, text[moved.start], moved, text[pos + j], leaf);
  }

  lemma PrefixCancel(a: string, x: string, y: string)
    ensures IsPrefix(a + x, a + y) <==> IsPrefix(x, y)
  {
    if IsPrefix(x, y) {
      assert (a + y)[..|a + x|] == a + y[..|x|];
    }
    if IsPrefix(a + x, a + y) {
      assert y[..|x|] == (a + y)[..|a + x|][|a|..];
    }
  }

  /** If the text runs out while still inside the edge into `child`, the
      rest of the text is a prefix of the path label of a leaf below it. */
  lemma TextEndsInsideEdge(text: string, child: Node, pos: int, j: int)
    requires EdgeWithin(text, child) && WellFormed(text, child)
    requires 0 <= j <= EdgeLength(child) && 0 <= pos && pos + j == |text|
    requires text[child.start..child.start + j] == text[pos..pos + j]
    ensures exists p :: p in Through(text, child) && IsPrefix(text[pos..], p.1)
  {
    ThroughNonEmpty(text, child);
    ThroughStartsWithLabel(text, child);
    var p :| p in Through(text, child);
    var lbl := Label(text, child);
    assert IsPrefix(lbl, p.1);
    assert p.1[..j] == lbl[..j] by {
      assert p.1[..|lbl|] == lbl;
    }
    assert lbl[..j] == text[child.start..child.start + j];
    assert text[pos..] == text[pos..pos + j];
  }

  /** A leaf edge matched in full while text remains: its label is a proper
      prefix of the rest of the text. */
  lemma LeafEdgeConsumed(text: string, child: Node, pos: int)
    requires EdgeWithin(text, child) && WellFormed(text, child) && child.children == map[]
    requires 0 <= pos && pos + EdgeLength(child) <= |text|
    requires text[child.start..child.start + EdgeLength(child)] == text[pos..pos + EdgeLength(child)]
    ensures (child.suffixIndex, Label(text, child)) in Through(text, child)
    ensures IsPrefix(Label(text, child), text[pos..])
  {
  }

  lemma PrefixFreeStep(a: string, x: string, y: string)
    requires !IsPrefix(a + x, a + y) && !IsPrefix(a + y, a + x)
    ensures !IsPrefix(x, y) && !IsPrefix(y, x)
  {
    PrefixCancel(a, x, y);
    PrefixCancel(a, y, x);
  }

  /** Below an internal child whose whole edge matched, the rest of the text
      is still prefix-free with every path label. */
  lemma PrefixFreeBelow(text: string, v: Node, c: char, pos: int)
    requires WellFormed(text, v) && c in v.children && v.children[c].children != map[]
    requires 0 <= pos && pos + EdgeLength(v.children[c]) <= |text|
    requires Label(text, v.children[c]) == text[pos..pos + EdgeLength(v.children[c])]
    requires PrefixFreeWith(Leaves(text, v), text[pos..])
    ensures PrefixFreeWith(Leaves(text, v.children[c]), text[pos + EdgeLength(v.children[c])..])
  {
    var child := v.children[c];
    var lbl := Label(text, child);
    var rest := text[pos + EdgeLength(child)..];
    SliceJoin(text, pos, pos + EdgeLength(child));
    assert text[pos..] == lbl + rest;
    ThroughInternal(text, child);
    forall q | q in Leaves(text, child)
      ensures !IsPrefix(q.1, rest) && !IsPrefix(rest, q.1)
    {
      var p := (q.0, lbl + q.1);
      assert p in Prefixed(lbl, Leaves(text, child));
      ThroughInLeaves(text, v, c, p);
      PrefixFreeStep(lbl, q.1, rest);
    }
  }

  /** Descending into a child and inserting there adds the new leaf behind
      the child's edge label. */
  lemma ThroughDescend(text: string, child: Node, sub: Node, rest: string, i: int)
    requires EdgeWithin(text, child) && WellFormed(text, child) && child.children != map[]
    requires WellFormed(text, sub) && sub.start == child.start && sub.end == child.end
    requires child.children.Keys <= sub.children.Keys
    requires Leaves(text, sub) == Leaves(text, child) + {(i, rest)}
    ensures EdgeWithin(text, sub)
    ensures Through(text, sub) == Through(text, child) + {(i, Label(text, child) + rest)}
  {
    var lbl := Label(text, child);
    assert Label(text, sub) == lbl;
    calc {
      Through(text, sub);
    ==  { ThroughInternal(text, sub); }
      Prefixed(lbl, Leaves(text, child) + {(i, rest)});
    ==  { PrefixedUnion(lbl, Leaves(text, child), {(i, rest)});
          PrefixedSingleton(lbl, i, rest); }
      Prefixed(lbl, Leaves(text, child)) + {(i, lbl + rest)};
    ==  { ThroughInternal(text, child); }
      Through(text, child) + {(i, lbl + rest)};
    }
  }

  /** Insertion where no edge starts with the next symbol: a new leaf. */
  lemma InsertNewLeafLeaves(text: string, v: Node, pos: int, i: int)
    requires WellFormed(text, v) && 0 <= pos < |text| && text[pos] !in v.children
    ensures Leaves(text, InsertFrom(text, v, pos, i)) == Leaves(text, v) + {(i, text[pos..])}
  {
    var c := text[pos];
    var leaf := Node(pos, |text| - 1, map[], i);
    assert InsertFrom(text, v, pos, i) == v.(children := v.children[c := leaf]);
    LeavesReplace(text, v, c, leaf);
    LeavesAround(text, v, c);
    ThroughNewLeaf(text, pos, i);
  }

  lemma InsertFromSplitForm(text: string, v: Node, pos: int, i: int, child: Node, j: int)
    requires WellFormed(text, v) && 0 <= pos < |text| && text[pos] in v.children
    requires child == v.children[text[pos]]
    requires j == MatchLength(text, child.start, pos, EdgeLength(child), 0)
    requires j < EdgeLength(child) && pos + j < |text|
    ensures InsertFrom(text, v, pos, i)
      == v.(children := v.children[text[pos] := SplitNode(text, child, j, pos, i)])
  {
  }

  lemma InsertFromDescendChildren(text: string, v: Node, pos: int, i: int, child: Node, next: int)
    requires WellFormed(text, v) && 0 <= pos < |text| && text[pos] in v.children
    requires child == v.children[text[pos]] && next == pos + EdgeLength(child)
    requires var j := MatchLength(text, child.start, pos, EdgeLength(child), 0);
      !(j < EdgeLength(child) && pos + j < |text|)
    ensures InsertFrom(text, v, pos, i).children == v.children[text[pos] := InsertFrom(text, child, next, i)]
  {
  }

  lemma InsertFromDescendForm(text: string, v: Node, pos: int, i: int, child: Node, next: int)
    requires WellFormed(text, v) && 0 <= pos < |text| && text[pos] in v.children
    requires child == v.children[text[pos]] && next == pos + EdgeLength(child)
    requires var j := MatchLength(text, child.start, pos, EdgeLength(child), 0);
      !(j < EdgeLength(child) && pos + j < |text|)
    ensures InsertFrom(text, v, pos, i)
      == v.(children := v.children[text[pos] := InsertFrom(text, child, next, i)])
  {
    InsertFromDescendChildren(text, v, pos, i, child, next);
  }

  /** Insertion that diverges inside the edge under text[pos]: a split. */
  lemma InsertSplitLeaves(text: string, v: Node, pos: int, i: int, child: Node, j: int)
    requires WellFormed(text, v) && 0 <= pos < |text| && text[pos] in v.children
    requires child == v.children[text[pos]]
    requires j == MatchLength(text, child.start, pos, EdgeLength(child), 0)
    requires j < EdgeLength(child) && pos + j < |text|
    ensures Leaves(text, InsertFrom(text, v, pos, i)) == Leaves(text, v) + {(i, text[pos..])}
  {
    var c := text[pos];
    assert j >= 1;
    MatchedPrefix(text, child.start, pos, EdgeLength(child), 0);
    assert text[child.start..child.start + j] == text[pos..pos + j];
    ThroughSplit(text, child, j, pos, i);
    var mid := SplitNode(text, child, j, pos, i);
    InsertFromSplitForm(text, v, pos, i, child, j);
    LeavesReplace(text, v, c, mid);
    LeavesAround(text, v, c);
  }

  /** Replacing an internal child by one with one more leaf adds that leaf,
      behind the child's edge label, to the leaves of the parent. */
  lemma ReplaceChildAddsLeaf(text: string, v: Node, c: char, sub: Node, rest: string, i: int)
    requires WellFormed(text, v) && c in v.children && v.children[c].children != map[]
    requires WellFormed(text, sub)
    requires sub.start == v.children[c].start && sub.end == v.children[c].end
    requires v.children[c].children.Keys <= sub.children.Keys
    requires WellFormed(text, v.(children := v.children[c := sub]))
    requires Leaves(text, sub) == Leaves(text, v.children[c]) + {(i, rest)}
    ensures Leaves(text, v.(children := v.children[c := sub]))
      == Leaves(text, v) + {(i, Label(text, v.children[c]) + rest)}
  {
    ThroughDescend(text, v.children[c], sub, rest, i);
    LeavesReplace(text, v, c, sub);
    LeavesAround(text, v, c);
  }

  /** The same, for a parent `r` already known to be `v` after the replacement. */
  lemma ReplacedChildAddsLeaf(text: string, v: Node, c: char, sub: Node, r: Node, rest: string, i: int)
    requires WellFormed(text, v) && c in v.children && v.children[c].children != map[]
    requires WellFormed(text, sub)
    requires sub.start == v.children[c].start && sub.end == v.children[c].end
    requires v.children[c].children.Keys <= sub.children.Keys
    requires Leaves(text, sub) == Leaves(text, v.children[c]) + {(i, rest)}
    requires r == v.(children := v.children[c := sub]) && WellFormed(text, r)
    ensures Leaves(text, r) == Leaves(text, v) + {(i, Label(text, v.children[c]) + rest)}
  {
    ReplaceChildAddsLeaf(text, v, c, sub, rest, i);
  }

  /** When the whole edge into `child` matched, its label is the next piece
      of the text. */
  lemma DescendLabel(text: string, child: Node, pos: int)
    requires EdgeWithin(text, child) && 0 <= pos && pos + EdgeLength(child) <= |text|
    requires MatchLength(text, child.start, pos, EdgeLength(child), 0) == EdgeLength(child)
    ensures Label(text, child) == text[pos..pos + EdgeLength(child)]
    ensures Label(text, child) + text[pos + EdgeLength(child)..] == text[pos..]
  {
    MatchedPrefix(text, child.start, pos, EdgeLength(child), 0);
    SliceJoin(text, pos, pos + EdgeLength(child));
  }

  /** Insertion that matches the whole edge into an internal child goes on
      below that child. */
  lemma InsertDescendLeaves(text: string, v: Node, pos: int, i: int, child: Node, below: int)
    requires WellFormed(text, v) && 0 <= pos < |text| && text[pos] in v.children
    requires child == v.children[text[pos]] && child.children != map[]
    requires MatchLength(text, child.start, pos, EdgeLength(child), 0) == EdgeLength(child)
    requires below == pos + EdgeLength(child) < |text|
    requires Leaves(text, InsertFrom(text, child, below, i)) == Leaves(text, child) + {(i, text[below..])}
    ensures Leaves(text, InsertFrom(text, v, pos, i)) == Leaves(text, v) + {(i, text[pos..])}
  {
    DescendStep(text, v, pos, i, child, below);
    ReplacedChildAddsLeaf(text, v, text[pos], InsertFrom(text, child, below, i),
                          InsertFrom(text, v, pos, i), text[below..], i);
  }

  /** The descent case of `_insert_suffix` in one piece: the parent gets the
      child after insertion, and the child's label runs up to `below`. */
  lemma DescendStep(text: string, v: Node, pos: int, i: int, child: Node, below: int)
    requires WellFormed(text, v) && 0 <= pos < |text| && text[pos] in v.children
    requires child == v.children[text[pos]] && child.children != map[]
    requires MatchLength(text, child.start, pos, EdgeLength(child), 0) == EdgeLength(child)
    requires below == pos + EdgeLength(child) < |text|
    ensures InsertFrom(text, v, pos, i) == v.(children := v.children[text[pos] := InsertFrom(text, child, below, i)])
    ensures Label(text, child) + text[below..] == text[pos..]
  {
    InsertFromDescendForm(text, v, pos, i, child, below);
    DescendLabel(text, child, pos);
  }

  /** Prefix-freeness: the text does not run out inside the edge. */
  lemma TextOutlastsMatch(text: string, v: Node, pos: int, child: Node)
    requires WellFormed(text, v) && 0 <= pos < |text| && text[pos] in v.children
    requires child == v.children[text[pos]]
    requires PrefixFreeWith(Leaves(text, v), text[pos..])
    ensures pos + MatchLength(text, child.start, pos, EdgeLength(child), 0) < |text|
  {
    var j := MatchLength(text, child.start, pos, EdgeLength(child), 0);
    if pos + j == |text| {
      TextEndsInsideChild(text, v, pos, child, j);
      assert false;
    }
  }

  /** When the text runs out inside the edge into `child`, what is left of
      it is a prefix of some path label below `v`. */
  lemma TextEndsInsideChild(text: string, v: Node, pos: int, child: Node, j: int)
    requires WellFormed(text, v) && 0 <= pos < |text| && text[pos] in v.children
    requires child == v.children[text[pos]]
    requires j == MatchLength(text, child.start, pos, EdgeLength(child), 0) && pos + j == |text|
    ensures exists p :: p in Leaves(text, v) && IsPrefix(text[pos..], p.1)
  {
    MatchedPrefix(text, child.start, pos, EdgeLength(child), 0);
    TextEndsInsideEdge(text, child, pos, j);
    var p :| p in Through(text, child) && IsPrefix(text[pos..], p.1);
    ThroughInLeaves(text, v, text[pos], p);
  }

  /** Prefix-freeness: a leaf edge is never matched in full. */
  lemma FullyMatchedIsInternal(text: string, v: Node, pos: int, child: Node)
    requires WellFormed(text, v) && 0 <= pos < |text| && text[pos] in v.children
    requires child == v.children[text[pos]]
    requires MatchLength(text, child.start, pos, EdgeLength(child), 0) == EdgeLength(child)
    requires pos + EdgeLength(child) < |text|
    requires PrefixFreeWith(Leaves(text, v), text[pos..])
    ensures child.children != map[]
  {
    if child.children == map[] {
      var len := EdgeLength(child);
      MatchedPrefix(text, child.start, pos, len, 0);
      assert text[child.start..child.start + len] == text[pos..pos + len];
      LeafLabelIsLeaf(text, v, text[pos], pos);
      assert false;
    }
  }

  /** A leaf child whose whole edge matched the text at `pos`: its leaf is
      a leaf of the parent and its label is a prefix of the rest. */
  lemma LeafLabelIsLeaf(text: string, v: Node, c: char, pos: int)
    requires WellFormed(text, v) && c in v.children && v.children[c].children == map[]
    requires 0 <= pos && pos + EdgeLength(v.children[c]) <= |text|
    requires text[v.children[c].start..v.children[c].start + EdgeLength(v.children[c])]
          == text[pos..pos + EdgeLength(v.children[c])]
    ensures (v.children[c].suffixIndex, Label(text, v.children[c])) in Leaves(text, v)
    ensures IsPrefix(Label(text, v.children[c]), text[pos..])
  {
    var child := v.children[c];
    assert EdgeWithin(text, child) && WellFormed(text, child);
    LeafEdgeConsumed(text, child, pos);
    ThroughInLeaves(text, v, c, (child.suffixIndex, Label(text, child)));
  }

  /** When the insertion neither finds a free key nor diverges inside the
      edge, prefix-freeness means the whole edge matched, text remains, and
      the child is internal. */
  lemma FullMatchDescends(text: string, v: Node, pos: int, child: Node)
    requires WellFormed(text, v) && 0 <= pos < |text| && text[pos] in v.children
    requires child == v.children[text[pos]]
    requires var j := MatchLength(text, child.start, pos, EdgeLength(child), 0);
      !(j < EdgeLength(child) && pos + j < |text|)
    requires PrefixFreeWith(Leaves(text, v), text[pos..])
    ensures MatchLength(text, child.start, pos, EdgeLength(child), 0) == EdgeLength(child)
    ensures pos + EdgeLength(child) < |text|
    ensures child.children != map[]
  {
    TextOutlastsMatch(text, v, pos, child);
    FullyMatchedIsInternal(text, v, pos, child);
  }

  /** Placing the rest text[pos..] of suffix `i` below `v` adds exactly one
      leaf, for suffix `i`, whose path label below `v` is text[pos..], as long
      as no path label below `v` is a prefix of text[pos..] or the other way
      round. */
  lemma {:induction false} InsertFromLeaves(text: string, v: Node, pos: int, i: int)
    requires WellFormed(text, v) && 0 <= pos < |text|
    requires PrefixFreeWith(Leaves(text, v), text[pos..])
    ensures Leaves(text, InsertFrom(text, v, pos, i)) == Leaves(text, v) + {(i, text[pos..])}
    decreases v, 1
  {
    if text[pos] !in v.children {
      InsertNewLeafLeaves(text, v, pos, i);
    } else {
      var child := v.children[text[pos]];
      var j := MatchLength(text, child.start, pos, EdgeLength(child), 0);
      if j < EdgeLength(child) && pos + j < |text| {
        InsertSplitLeaves(text, v, pos, i, child, j);
      } else {
        FullMatchDescends(text, v, pos, child);
        var below := pos + EdgeLength(child);
        InsertBelowLeaves(text, v, pos, i, child, below);
        InsertDescendLeaves(text, v, pos, i, child, below);
      }
    }
  }

  lemma PrefixFreeAfterEdge(text: string, v: Node, pos: int, child: Node)
    requires WellFormed(text, v) && 0 <= pos < |text| && text[pos] in v.children
    requires child == v.children[text[pos]] && child.children != map[]
    requires MatchLength(text, child.start, pos, EdgeLength(child), 0) == EdgeLength(child)
    requires pos + EdgeLength(child) < |text|
    requires PrefixFreeWith(Leaves(text, v), text[pos..])
    ensures PrefixFreeWith(Leaves(text, child), text[pos + EdgeLength(child)..])
  {
    DescendLabel(text, child, pos);
    PrefixFreeBelow(text, v, text[pos], pos);
  }

  /** The descent case: the recursion into the child. */
  lemma {:induction false} InsertBelowLeaves(text: string, v: Node, pos: int, i: int, child: Node, below: int)
    requires WellFormed(text, v) && 0 <= pos < |text| && text[pos] in v.children
    requires child == v.children[text[pos]] && child.children != map[]
    requires MatchLength(text, child.start, pos, EdgeLength(child), 0) == EdgeLength(child)
    requires below == pos + EdgeLength(child) < |text|
    requires PrefixFreeWith(Leaves(text, v), text[pos..])
    ensures WellFormed(text, child)
    ensures Leaves(text, InsertFrom(text, child, below, i)) == Leaves(text, child) + {(i, text[below..])}
    decreases v, 0
  {
    PrefixFreeAfterEdge(text, v, pos, child);
    InsertFromLeaves(text, child, below, i);
  }

  // ---------------------------------------------------------------------------
  // All suffixes

  lemma SuffixLeavesStep(text: string, k: int)
    requires 0 <= k < |text|
    ensures SuffixLeaves(text, k + 1) == SuffixLeaves(text, k) + {(k, text[k..])}
  {
  }

  /** The next suffix is prefix-free with every suffix already inserted. */
  lemma SuffixLeavesPrefixFree(text: string, k: int)
    requires SentinelOnlyAtEnd(text) && 0 <= k < |text|
    ensures PrefixFreeWith(SuffixLeaves(text, k), text[k..])
  {
    forall p | p in SuffixLeaves(text, k)
      ensures !IsPrefix(p.1, text[k..]) && !IsPrefix(text[k..], p.1)
    {
      SuffixesPrefixFree(text, p.0, k);
      SuffixesPrefixFree(text, k, p.0);
    }
  }

  /** Inserting suffixes k, k+1, ... into a tree that holds the first k
      suffixes yields a tree holding all of them. */
  lemma {:induction false} InsertSuffixesLeaves(text: string, root: Node, k: nat)
    requires SentinelOnlyAtEnd(text) && WellFormed(text, root) && k <= |text|
    requires Leaves(text, root) == SuffixLeaves(text, k)
    ensures Leaves(text, InsertSuffixes(text, root, k)) == SuffixLeaves(text, |text|)
    decreases |text| - k
  {
    if k < |text| {
      SuffixLeavesPrefixFree(text, k);
      InsertFromLeaves(text, root, k, k);
      SuffixLeavesStep(text, k);
      InsertSuffixesLeaves(text, InsertFrom(text, root, k, k), k + 1);
    }
  }

  // ---------------------------------------------------------------------------
  // Every internal node branches, so the merge pass changes nothing

  lemma BranchingOfChildren(x: Node, y: Node)
    requires Branching(x) && x.children == y.children
    ensures Branching(y)
  {
  }

  /** The node a split creates, written out. */
  lemma SplitNodeShape(text: string, child: Node, j: int, pos: int, i: int)
    requires 0 <= child.start + j < |text| && 0 <= pos + j < |text|
    ensures SplitNode(text, child, j, pos, i)
      == Node(child.start, child.start + j - 1,
              map[text[child.start + j] := child.(start := child.start + j),
                  text[pos + j] := Node(pos + j, |text| - 1, map[], i)], NoSuffix)
  {
  }

  lemma PairCard<V>(a: char, x: V, b: char, y: V)
    requires a != b
    ensures |map[a := x, b := y]| == 2
  {
    assert map[a := x, b := y].Keys == {a, b};
  }

  lemma BranchingPair(m: Node, k1: char, a: Node, k2: char, b: Node)
    requires m.children == map[k1 := a, k2 := b]
    requires a.suffixIndex == NoSuffix ==> |a.children| >= 2 && Branching(a)
    requires b.suffixIndex == NoSuffix ==> |b.children| >= 2 && Branching(b)
    ensures Branching(m)
  {
  }

  /** A split at a point of divergence creates an internal node with exactly
      two children, which keeps every internal node branching. */
  lemma SplitNodeBranching(text: string, child: Node, j: int, pos: int, i: int)
    requires 0 <= child.start + j < |text| && 0 <= pos + j < |text|
    requires text[child.start + j] != text[pos + j]
    requires i != NoSuffix
    requires child.suffixIndex == NoSuffix ==> |child.children| >= 2 && Branching(child)
    ensures |SplitNode(text, child, j, pos, i).children| == 2
    ensures Branching(SplitNode(text, child, j, pos, i))
  {
    var moved := child.(start := child.start + j);
    var leaf := Node(pos + j, |text| - 1, map[], i);
    var kids := map[text[child.start + j] := moved, text[pos + j] := leaf];
    SplitNodeShape(text, child, j, pos, i);
    PairCard(text[child.start + j], moved, text[pos + j], leaf);
    if child.suffixIndex == NoSuffix {
      BranchingOfChildren(child, moved);
    }
    BranchingPair(Node(child.start, child.start + j - 1, kids, NoSuffix),
                  text[child.start + j], moved, text[pos + j], leaf);
  }

  lemma InsertFromDone(text: string, v: Node, pos: int, i: int)
    requires WellFormed(text, v) && |text| <= pos
    ensures InsertFrom(text, v, pos, i) == v
  {
  }

  lemma InsertFromNewLeafForm(text: string, v: Node, pos: int, i: int)
    requires WellFormed(text, v) && 0 <= pos < |text| && text[pos] !in v.children
    ensures InsertFrom(text, v, pos, i)
      == v.(children := v.children[text[pos] := Node(pos, |text| - 1, map[], i)])
  {
  }

  /** Replacing one child by a leaf or by a branching internal node keeps
      the parent branching. */
  lemma BranchingReplace(v: Node, c: char, x: Node)
    requires Branching(v)
    requires x.suffixIndex == NoSuffix ==> |x.children| >= 2 && Branching(x)
    ensures Branching(v.(children := v.children[c := x]))
  {
  }

  lemma BranchingChild(v: Node, c: char)
    requires Branching(v) && c in v.children
    ensures v.children[c].suffixIndex == NoSuffix ==>
      |v.children[c].children| >= 2 && Branching(v.children[c])
  {
  }

  lemma KeysGrow<V>(a: map<char, V>, b: map<char, V>)
    requires a.Keys <= b.Keys
    ensures |a| <= |b|
  {
    assert a.Keys + (b.Keys - a.Keys) == b.Keys;
  }

  lemma InsertNewLeafBranching(text: string, v: Node, pos: int, i: int)
    requires WellFormed(text, v) && 0 <= pos < |text| && text[pos] !in v.children
    requires Branching(v) && i != NoSuffix
    ensures Branching(InsertFrom(text, v, pos, i))
  {
    InsertFromNewLeafForm(text, v, pos, i);
    BranchingReplace(v, text[pos], Node(pos, |text| - 1, map[], i));
  }

  lemma InsertSplitBranching(text: string, v: Node, pos: int, i: int, child: Node, j: int)
    requires WellFormed(text, v) && 0 <= pos < |text| && text[pos] in v.children
    requires Branching(v) && i != NoSuffix
    requires child == v.children[text[pos]]
    requires j == MatchLength(text, child.start, pos, EdgeLength(child), 0)
    requires j < EdgeLength(child) && pos + j < |text|
    ensures Branching(InsertFrom(text, v, pos, i))
  {
    InsertFromSplitForm(text, v, pos, i, child, j);
    BranchingChild(v, text[pos]);
    SplitNodeBranching(text, child, j, pos, i);
    BranchingReplace(v, text[pos], SplitNode(text, child, j, pos, i));
  }

  /** `_insert_suffix` keeps every internal node branching. */
  lemma {:induction false} InsertFromBranching(text: string, v: Node, pos: int, i: int)
    requires WellFormed(text, v) && 0 <= pos && Branching(v) && i != NoSuffix
    ensures Branching(InsertFrom(text, v, pos, i))
    decreases v, 2
  {
    if |text| <= pos {
      InsertFromDone(text, v, pos, i);
    } else {
      if text[pos] !in v.children {
        InsertNewLeafBranching(text, v, pos, i);
      } else {
        var child := v.children[text[pos]];
        var j := MatchLength(text, child.start, pos, EdgeLength(child), 0);
        if j < EdgeLength(child) && pos + j < |text| {
          InsertSplitBranching(text, v, pos, i, child, j);
        } else {
          var next := pos + EdgeLength(child);
          InsertFromDescendForm(text, v, pos, i, child, next);
          InsertDescendBranching(text, v, pos, i, child, next);
        }
      }
    }
  }

  /** The descent case, with `next` the text position after the child's
      edge. */
  lemma {:induction false} InsertDescendBranching(text: string, v: Node, pos: int, i: int,
                                                 child: Node, next: int)
    requires WellFormed(text, v) && 0 <= pos < |text| && text[pos] in v.children
    requires Branching(v) && i != NoSuffix && 0 <= next
    requires child == v.children[text[pos]]
    requires InsertFrom(text, v, pos, i)
      == v.(children := v.children[text[pos] := InsertFrom(text, child, next, i)])
    ensures Branching(InsertFrom(text, v, pos, i))
    decreases v, 1
  {
    BranchingChild(v, text[pos]);
    InsertBelowBranching(text, child, next, i);
    BranchingReplace(v, text[pos], InsertFrom(text, child, next, i));
  }

  /** An insertion below a leaf or a branching internal node leaves a leaf
      or a branching internal node. */
  lemma {:induction false} InsertBelowBranching(text: string, child: Node, pos: int, i: int)
    requires WellFormed(text, child) && 0 <= pos && i != NoSuffix
    requires child.suffixIndex == NoSuffix ==> |child.children| >= 2 && Branching(child)
    ensures InsertFrom(text, child, pos, i).suffixIndex == NoSuffix ==>
      |InsertFrom(text, child, pos, i).children| >= 2 && Branching(InsertFrom(text, child, pos, i))
    decreases child, 3
  {
    if child.suffixIndex == NoSuffix {
      InsertFromBranching(text, child, pos, i);
      KeysGrow(child.children, InsertFrom(text, child, pos, i).children);
    }
  }

  lemma {:induction false} InsertSuffixesBranching(text: string, root: Node, k: nat)
    requires WellFormed(text, root) && Branching(root) && k <= |text|
    ensures Branching(InsertSuffixes(text, root, k))
    decreases |text| - k
  {
    if k < |text| {
      InsertFromBranching(text, root, k, k);
      InsertSuffixesBranching(text, InsertFrom(text, root, k, k), k + 1);
    }
  }

  /** On a branching tree the merge loop of `_compress_node` finds nothing to
      merge. */
  lemma {:induction false} CompressNodeIdentity(v: Node)
    requires Branching(v)
    ensures CompressNode(v) == v
    decreases v, 0
  {
    forall c | c in v.children
      ensures CompressChild(v.children[c]) == v.children[c]
    {
      CompressChildIdentity(v.children[c]);
    }
    assert CompressNode(v).children == v.children;
  }

  lemma {:induction false} CompressChildIdentity(x: Node)
    requires x.suffixIndex == NoSuffix ==> |x.children| >= 2 && Branching(x)
    ensures CompressChild(x) == x
    decreases x, 1
  {
    if x.suffixIndex == NoSuffix {
      CompressNodeIdentity(x);
    }
  }

  // ---------------------------------------------------------------------------
  // The naive builder

  /** The merge pass of `SuffixTree.__init__` leaves the tree built by suffix
      insertion as it is, for every input. */
  lemma BuildUncompressed(input: string)
    ensures Build(input).root == InsertSuffixes(Build(input).text, EmptyRoot, 0)
  {
    var text := WithSentinel(input);
    InsertSuffixesBranching(text, EmptyRoot, 0);
    CompressNodeIdentity(InsertSuffixes(text, EmptyRoot, 0));
  }

  /** For a text whose only '$' is its last symbol, the leaves of the naive
      tree are exactly one per suffix: suffix k ends at a leaf with suffix
      index k whose path label from the root is text[k..]. */
  lemma BuildLeaves(input: string)
    requires SentinelOnlyAtEnd(WithSentinel(input))
    ensures var t := Build(input);
      WellFormed(t.text, t.root) && Leaves(t.text, t.root) == SuffixLeaves(t.text, t.size)
  {
    var t := Build(input);
    BuildUncompressed(input);
    assert Leaves(t.text, EmptyRoot) == {};
    assert SuffixLeaves(t.text, 0) == {};
    InsertSuffixesLeaves(t.text, EmptyRoot, 0);
  }

  /** The same, leaf by leaf: a pair (index, label) is a leaf of the naive tree
      exactly when the label is the suffix starting at the index; the index is
      therefore size minus the depth of the leaf. */
  lemma BuildLeafIndex(input: string, k: int, path: string)
    requires SentinelOnlyAtEnd(WithSentinel(input))
    ensures var t := Build(input);
      WellFormed(t.text, t.root)
      && ((k, path) in Leaves(t.text, t.root) <==> 0 <= k < t.size && path == t.text[k..])
    ensures var t := Build(input);
      WellFormed(t.text, t.root)
      && ((k, path) in Leaves(t.text, t.root) ==> k == t.size - |path|)
  {
    BuildLeaves(input);
  }

  /** No two leaves share a suffix index and no two share a path label. */
  lemma BuildLeavesDistinct(input: string, p: (int, string), q: (int, string))
    requires SentinelOnlyAtEnd(WithSentinel(input))
    ensures var t := Build(input);
      WellFormed(t.text, t.root)
      && (p in Leaves(t.text, t.root) && q in Leaves(t.text, t.root) ==>
            (p.0 == q.0 <==> p.1 == q.1))
  {
    BuildLeaves(input);
  }
}

=== FILE: sentinel.dfy ===
/** The text both suffix-tree builders work on: the caller's input, terminated
    by the sentinel '$'. Suffixes of a text whose only '$' is its last symbol
    are pairwise prefix-free, which is what gives every suffix its own leaf.
    Both builders also share the marker of a node that is not a numbered
    leaf. */
module SentinelText {

  const Sentinel: char := '$'

  /** Suffix index of a node that is not a numbered leaf (`suffix_index = -1`
      in both builders' node constructors). */
  const NoSuffix: int := -1

  predicate EndsWithSentinel(s: string) {
    |s| > 0 && s[|s| - 1] == Sentinel
  }

  /** `a` is a prefix of `b`. */
  predicate IsPrefix(a: string, b: string) {
    |a| <= |b| && b[..|a|] == a
  }

  /** The sentinel occurs in `text` exactly once, as its last symbol. */
  predicate SentinelOnlyAtEnd(text: string) {
    && EndsWithSentinel(text)
    && forall k :: 0 <= k < |text| - 1 ==> text[k] != Sentinel
  }

  /** The text a builder indexes: the input itself when it already ends with
      the sentinel, otherwise the input with one sentinel appended. */
  function WithSentinel(input: string): (text: string)
    ensures EndsWithSentinel(text)
    ensures |input| <= |text| && text[..|input|] == input
    ensures |text| == |input| <==> EndsWithSentinel(input)
    ensures |text| <= |input| + 1
  {
    if EndsWithSentinel(input) then input else input + [Sentinel]
  }

  /** Preparing an already prepared text changes nothing. */
  lemma WithSentinelIdempotent(input: string)
    ensures WithSentinel(WithSentinel(input)) == WithSentinel(input)
  {
  }

  /** An input free of '$' yields a text whose only '$' is the last symbol. */
  lemma WithSentinelUnique(input: string)
    requires forall k :: 0 <= k < |input| ==> input[k] != Sentinel
    ensures SentinelOnlyAtEnd(WithSentinel(input))
  {
    var text := WithSentinel(input);
    assert !EndsWithSentinel(input);
    forall k | 0 <= k < |text| - 1
      ensures text[k] != Sentinel
    {
      assert text[k] == input[k];
    }
  }

  /** Two different suffixes of a text whose only '$' is last are never
      prefixes of one another. */
  lemma {:induction false} SuffixesPrefixFree(text: string, i: nat, k: nat)
    requires SentinelOnlyAtEnd(text)
    requires i < |text| && k < |text| && i != k
    ensures !IsPrefix(text[i..], text[k..])
  {
    if |text| - i <= |text| - k {
      // text[i..] is the shorter one; its last symbol is the sentinel,
      // which text[k..] holds only at its own, later, end.
      var d := |text| - 1 - i;
      assert text[k..][d] != text[i..][d];
    }
  }
}

=== FILE: ukkonen.dfy ===
/** Ukkonen's online builder (suffix_tree.py) as a state machine over a node
    arena. Nodes live in a sequence and refer to each other by position, so
    the source's shared objects become ids: a child or a suffix link is the
    id of the node it points at, and an update to a node is an update of
    the sequence at its id, applied in the source's order.

    Every leaf created during construction ends at the same one-element list
    `leaf_end`; here such a leaf carries the marker `Open` and its end is read
    from the builder's `leafEnd` field, so moving that field moves all of
    them at once. */
module UkkonenSuffixTree {
  import opened SentinelText

  /** The root is the first node created. */
  const Root: nat := 0

  /** An edge end: `Open` is the shared end of all leaves, `Closed` a fixed
      position (the root's own `[-1]` and every split node's end). */
  datatype End = Open | Closed(at: int)

  /** A node: the edge into it is text[start..end] (inclusive). */
  datatype Node = Node(start: int, end: End, children: map<char, nat>, link: nat, suffixIndex: int)

  datatype Option<T> = None | Some(value: T)

  /** What makes a step fail. An index outside the text is Python's
      IndexError; the other two stand for a walk that would not progress and
      for a numbering walk deeper than the arena (a cycle). */
  datatype Fault =
    | IndexOutOfRange(index: int)
    | EmptyEdgeWalk(node: nat)
    | DepthExceeded(node: nat)

  datatype Result<T> = Ok(value: T) | Err(fault: Fault)

  /** The builder's fields: the text, the arena, the active point
      (node, edge, length), the count of suffixes still to insert, the shared
      leaf end and the internal node waiting for its suffix link. */
  datatype Builder = Builder(
    text: string,
    size: int,
    nodes: seq<Node>,
    activeNode: nat,
    activeEdge: int,
    activeLength: int,
    remaining: int,
    leafEnd: int,
    lastNewNode: Option<nat>)

  // ---------------------------------------------------------------------------
  // Text access and arena validity

  /** Python's `text[k]`: a negative index counts back from the end, and any
      other index outside the text is an error. */
  function CharAt(text: string, k: int): (r: Result<char>)
    ensures r.Ok? <==> -|text| <= k < |text|
    ensures r.Ok? ==> r.value in text
    ensures 0 <= k < |text| ==> r == Ok(text[k])
    ensures -|text| <= k < 0 ==> r == Ok(text[|text| + k])
  {
    if 0 <= k < |text| then Ok(text[k])
    else if -|text| <= k < 0 then Ok(text[|text| + k])
    else Err(IndexOutOfRange(k))
  }

  /** A node of an arena of `count` nodes: its link and children are ids of
      that arena, and no child is the root. */
  predicate NodeOk(n: Node, count: int) {
    && n.link < count
    && forall c | c in n.children :: Root < n.children[c] < count
  }

  predicate ArenaOk(nodes: seq<Node>) {
    forall id | 0 <= id < |nodes| :: NodeOk(nodes[id], |nodes|)
  }

  /** What every reachable builder state satisfies: the root keeps start -1,
      end -1 and its link to itself, every id in the arena is in range, and
      the active length and the remaining count are never negative. */
  predicate Valid(b: Builder) {
    && b.size == |b.text|
    && 1 <= |b.nodes|
    && b.nodes[Root].start == -1
    && b.nodes[Root].end == Closed(-1)
    && b.nodes[Root].link == Root
    && ArenaOk(b.nodes)
    && b.activeNode < |b.nodes|
    && (b.lastNewNode.Some? ==> Root < b.lastNewNode.value < |b.nodes|)
    && 0 <= b.activeLength
    && 0 <= b.remaining
  }

  lemma ArenaAppend(nodes: seq<Node>, n: Node)
    requires ArenaOk(nodes) && NodeOk(n, |nodes| + 1)
    ensures ArenaOk(nodes + [n])
  {
    forall id | 0 <= id < |nodes| + 1
      ensures NodeOk((nodes + [n])[id], |nodes| + 1)
    {
      if id < |nodes| {
        assert (nodes + [n])[id] == nodes[id];
      }
    }
  }

  lemma ArenaUpdate(nodes: seq<Node>, id: nat, n: Node)
    requires ArenaOk(nodes) && id < |nodes| && NodeOk(n, |nodes|)
    ensures ArenaOk(nodes[id := n])
  {
  }

  // ---------------------------------------------------------------------------
  // Counting open leaves

  /** How many nodes of the arena end at the shared leaf end. */
  function OpenCount(nodes: seq<Node>): (k: nat)
    ensures k <= |nodes|
  {
    if nodes == [] then 0
    else OpenCount(nodes[..|nodes| - 1]) + (if nodes[|nodes| - 1].end == Open then 1 else 0)
  }

  /** An arena one node longer, whose older nodes end as before, has one
      more open leaf exactly when the new node is one. */
  lemma OpenCountGrow(a: seq<Node>, b: seq<Node>)
    requires |b| == |a| + 1
    requires forall k | 0 <= k < |a| :: a[k].end == b[k].end
    ensures OpenCount(b) == OpenCount(a) + (if b[|a|].end == Open then 1 else 0)
  {
    OpenCountSameEnds(a, b[..|a|]);
  }

  /** Arenas whose nodes end alike, position by position, have as many open
      leaves. */
  lemma {:induction false} OpenCountSameEnds(a: seq<Node>, b: seq<Node>)
    requires |a| == |b|
    requires forall k | 0 <= k < |a| :: a[k].end == b[k].end
    ensures OpenCount(a) == OpenCount(b)
  {
    if a != [] {
      OpenCountSameEnds(a[..|a| - 1], b[..|b| - 1]);
    }
  }

  // ---------------------------------------------------------------------------
  // Node creation and edges

  /** `_new_node`: a childless node appended to the arena, linked to the
      root, with no suffix index. */
  function NewNode(nodes: seq<Node>, start: int, end: End): (r: seq<Node>)
    ensures |r| == |nodes| + 1 && r[..|nodes|] == nodes
    ensures r[|nodes|].start == start && r[|nodes|].end == end
    ensures r[|nodes|].link == Root
    ensures r[|nodes|].children == map[] && r[|nodes|].suffixIndex == NoSuffix
  {
    nodes + [Node(start, end, map[], Root, NoSuffix)]
  }

  /** Where the edge into `n` ends: an open leaf ends at the shared leaf end. */
  function EndValue(n: Node, leafEnd: int): int {
    match n.end
    case Open => leafEnd
    case Closed(at) => at
  }

  /** `_edge_length`. */
  function EdgeLength(n: Node, leafEnd: int): int {
    EndValue(n, leafEnd) - n.start + 1
  }

  /** Moving the shared leaf end lengthens every open leaf by the same amount
      and leaves every other edge as it was. */
  lemma LeafEndLengthens(nodes: seq<Node>, from: int, to: int)
    ensures forall id | 0 <= id < |nodes| && nodes[id].end == Open ::
      EdgeLength(nodes[id], to) == EdgeLength(nodes[id], from) + (to - from)
    ensures forall id | 0 <= id < |nodes| && nodes[id].end != Open ::
      EdgeLength(nodes[id], to) == EdgeLength(nodes[id], from)
  {
  }

  // ---------------------------------------------------------------------------
  // Arena updates: one field of one node at a time

  function WithChild(nodes: seq<Node>, id: nat, c: char, child: nat): (r: seq<Node>)
    requires id < |nodes|
    ensures |r| == |nodes|
    ensures r[id] == nodes[id].(children := nodes[id].children[c := child])
    ensures forall k {:trigger r[k]} | 0 <= k < |nodes| && k != id :: r[k] == nodes[k]
    ensures forall k {:trigger r[k]} | 0 <= k < |nodes| :: r[k].end == nodes[k].end
  {
    var r := nodes[id := nodes[id].(children := nodes[id].children[c := child])];
    r
  }

  function WithLink(nodes: seq<Node>, id: nat, target: nat): (r: seq<Node>)
    requires id < |nodes|
    ensures |r| == |nodes|
    ensures r[id] == nodes[id].(link := target)
    ensures forall k {:trigger r[k]} | 0 <= k < |nodes| && k != id :: r[k] == nodes[k]
    ensures forall k {:trigger r[k]} | 0 <= k < |nodes| :: r[k].end == nodes[k].end
  {
    var r := nodes[id := nodes[id].(link := target)];
    r
  }

  function WithStart(nodes: seq<Node>, id: nat, start: int): (r: seq<Node>)
    requires id < |nodes|
    ensures |r| == |nodes|
    ensures r[id] == nodes[id].(start := start)
    ensures forall k {:trigger r[k]} | 0 <= k < |nodes| && k != id :: r[k] == nodes[k]
    ensures forall k {:trigger r[k]} | 0 <= k < |nodes| :: r[k].end == nodes[k].end
  {
    var r := nodes[id := nodes[id].(start := start)];
    r
  }

  /** `_new_node(start, leaf_end)` stored under key `c` of `parent`: the new
      open leaf gets the next free id. */
  function Attach(nodes: seq<Node>, parent: nat, c: char, start: int): (r: seq<Node>)
    requires parent < |nodes|
    ensures |r| == |nodes| + 1
    ensures r[|nodes|] == Node(start, Open, map[], Root, NoSuffix)
    ensures r[parent] == nodes[parent].(children := nodes[parent].children[c := |nodes|])
    ensures forall k {:trigger r[k]} | 0 <= k < |nodes| && k != parent :: r[k] == nodes[k]
    ensures forall k {:trigger r[k]} | 0 <= k < |nodes| :: r[k].end == nodes[k].end
  {
    var n1 := NewNode(nodes, start, Open);
    WithChild(n1, parent, c, |nodes|)
  }

  lemma ArenaWithChild(nodes: seq<Node>, id: nat, c: char, child: nat)
    requires ArenaOk(nodes) && id < |nodes| && Root < child < |nodes|
    ensures ArenaOk(WithChild(nodes, id, c, child))
  {
    var r := WithChild(nodes, id, c, child);
    assert NodeOk(r[id], |nodes|);
  }

  lemma ArenaWithLink(nodes: seq<Node>, id: nat, target: nat)
    requires ArenaOk(nodes) && id < |nodes| && target < |nodes|
    ensures ArenaOk(WithLink(nodes, id, target))
  {
    var r := WithLink(nodes, id, target);
    assert NodeOk(r[id], |nodes|);
  }

  lemma ArenaWithStart(nodes: seq<Node>, id: nat, start: int)
    requires ArenaOk(nodes) && id < |nodes|
    ensures ArenaOk(WithStart(nodes, id, start))
  {
    var r := WithStart(nodes, id, start);
    assert NodeOk(r[id], |nodes|);
  }

  lemma ArenaAttach(nodes: seq<Node>, parent: nat, c: char, start: int)
    requires ArenaOk(nodes) && parent < |nodes|
    ensures ArenaOk(Attach(nodes, parent, c, start))
  {
    var n1 := NewNode(nodes, start, Open);
    ArenaAppend(nodes, n1[|nodes|]);
    ArenaWithChild(n1, parent, c, |nodes|);
  }

  // ---------------------------------------------------------------------------
  // The steps of one extension

  /** `_walk_down`: when the active length covers the whole edge into `next`,
      the active point moves to `next` and the covered symbols move from the
      length to the edge; otherwise nothing changes. */
  function WalkDown(b: Builder, next: nat): (res: (bool, Builder))
    requires Valid(b) && next < |b.nodes|
    ensures Valid(res.1)
    ensures res.0 <==> b.activeLength >= EdgeLength(b.nodes[next], b.leafEnd)
    ensures res.0 ==> res.1.activeNode == next
    ensures res.0 ==> res.1.activeLength == b.activeLength - EdgeLength(b.nodes[next], b.leafEnd)
    ensures res.1.activeEdge + res.1.activeLength == b.activeEdge + b.activeLength
    ensures res.1 == b.(activeNode := res.1.activeNode, activeEdge := res.1.activeEdge,
                        activeLength := res.1.activeLength)
    ensures !res.0 ==> res.1 == b
  {
    var len := EdgeLength(b.nodes[next], b.leafEnd);
    if b.activeLength >= len then
      (true, b.(activeEdge := b.activeEdge + len, activeLength := b.activeLength - len, activeNode := next))
    else (false, b)
  }

  /** A node waiting for its suffix link gets `target` as its link and stops
      waiting; with none waiting nothing changes. */
  function LinkPending(b: Builder, target: nat): (r: Builder)
    requires Valid(b) && target < |b.nodes|
    ensures Valid(r)
    ensures b.lastNewNode.Some? ==> r.nodes == WithLink(b.nodes, b.lastNewNode.value, target)
    ensures b.lastNewNode.None? ==> r.nodes == b.nodes
    ensures r == b.(nodes := r.nodes, lastNewNode := None)
  {
    match b.lastNewNode
    case None => b
    case Some(l) =>
      ArenaWithLink(b.nodes, l, target);
      b.(nodes := WithLink(b.nodes, l, target), lastNewNode := None)
  }

  /** Rule 2 with no split: a new open leaf starting at `pos` hangs from the
      active node under `edgeChar`; a node waiting for its suffix link is
      linked to the active node and stops waiting. */
  function AddLeaf(b: Builder, pos: int, edgeChar: char): (r: Builder)
    requires Valid(b) && edgeChar in b.text
    ensures Valid(r)
    ensures |r.nodes| == |b.nodes| + 1
    ensures r.nodes[|b.nodes|] == Node(pos, Open, map[], Root, NoSuffix)
    ensures r.nodes[b.activeNode].children == b.nodes[b.activeNode].children[edgeChar := |b.nodes|]
    ensures b.lastNewNode.Some? ==> r.nodes[b.lastNewNode.value].link == b.activeNode
    ensures forall id | 0 <= id < |b.nodes| && id != b.activeNode && Some(id) != b.lastNewNode ::
      r.nodes[id] == b.nodes[id]
    ensures r == b.(nodes := r.nodes, lastNewNode := None)
    ensures OpenCount(r.nodes) == OpenCount(b.nodes) + 1
  {
    ArenaAttach(b.nodes, b.activeNode, edgeChar, pos);
    var r := LinkPending(b.(nodes := Attach(b.nodes, b.activeNode, edgeChar, pos)), b.activeNode);
    OpenCountGrow(b.nodes, r.nodes);
    r
  }

  /** Rule 3: the next symbol is already on the edge, so the phase ends with
      the active point one symbol further along. A node waiting for its link
      is linked to the active node, unless that is the root. */
  function Rule3(b: Builder): (r: Builder)
    requires Valid(b)
    ensures Valid(r)
    ensures r.activeLength == b.activeLength + 1
    ensures b.lastNewNode.Some? && b.activeNode != Root ==>
      r.nodes == WithLink(b.nodes, b.lastNewNode.value, b.activeNode) && r.lastNewNode == None
    ensures !(b.lastNewNode.Some? && b.activeNode != Root) ==>
      r.nodes == b.nodes && r.lastNewNode == b.lastNewNode
    ensures r == b.(nodes := r.nodes, lastNewNode := r.lastNewNode, activeLength := r.activeLength)
    ensures OpenCount(r.nodes) == OpenCount(b.nodes)
  {
    if b.lastNewNode.Some? && b.activeNode != Root then
      var r := LinkPending(b, b.activeNode).(activeLength := b.activeLength + 1);
      OpenCountSameEnds(b.nodes, r.nodes);
      r
    else
      b.(activeLength := b.activeLength + 1)
  }

  /** First half of a split: node `s` (the next free id), closed after
      `depth` symbols of the edge into `next`, replaces `next` under key
      `edgeChar` of `parent`. */
  function Carve(nodes: seq<Node>, parent: nat, edgeChar: char, next: nat, depth: int): (r: seq<Node>)
    requires parent < |nodes| && next < |nodes|
    ensures |r| == |nodes| + 1
    ensures r[|nodes|] == Node(nodes[next].start, Closed(nodes[next].start + depth - 1), map[], Root, NoSuffix)
    ensures r[parent] == nodes[parent].(children := nodes[parent].children[edgeChar := |nodes|])
    ensures forall k {:trigger r[k]} | 0 <= k < |nodes| && k != parent :: r[k] == nodes[k]
    ensures forall k {:trigger r[k]} | 0 <= k < |nodes| :: r[k].end == nodes[k].end
  {
    var n1 := NewNode(nodes, nodes[next].start, Closed(nodes[next].start + depth - 1));
    WithChild(n1, parent, edgeChar, |nodes|)
  }

  /** Second half of a split: below node `s`, the new open leaf starting at
      `pos` goes under `leafChar`, and `next`, now starting `depth` symbols
      later, under `c`. The two symbols differ (the split happens because
      they do), so `s` ends with exactly two children. */
  function Hang(nodes: seq<Node>, s: nat, next: nat, depth: int, pos: int, leafChar: char, c: char): (r: seq<Node>)
    requires s < |nodes| && next < |nodes| && s != next
    requires nodes[s].children == map[] && leafChar != c
    ensures |r| == |nodes| + 1
    ensures r[s] == nodes[s].(children := map[leafChar := |nodes|][c := next])
    ensures r[s].children.Keys == {leafChar, c} && |r[s].children| == 2
    ensures r[|nodes|] == Node(pos, Open, map[], Root, NoSuffix)
    ensures r[next] == nodes[next].(start := nodes[next].start + depth)
    ensures forall k {:trigger r[k]} | 0 <= k < |nodes| && k != next && k != s :: r[k] == nodes[k]
    ensures forall k {:trigger r[k]} | 0 <= k < |nodes| :: r[k].end == nodes[k].end
  {
    var n3 := Attach(nodes, s, leafChar, pos);
    var n4 := WithStart(n3, next, n3[next].start + depth);
    WithChild(n4, s, c, next)
  }

  /** The arena side of a split of the edge into `next`, `depth` symbols
      down from `parent`: node `s` (the next free id) takes over the first
      `depth` symbols and hangs from `parent` under `edgeChar`; below it the
      new open leaf `s + 1` starting at `pos` goes under `leafChar`, and
      `next`, now starting `depth` symbols later, under `c`. */
  function SplitNodes(nodes: seq<Node>, parent: nat, edgeChar: char, next: nat, depth: int,
                      pos: int, leafChar: char, c: char): (r: seq<Node>)
    requires parent < |nodes| && next < |nodes| && leafChar != c
    ensures |r| == |nodes| + 2
    ensures r[|nodes|] == Node(nodes[next].start, Closed(nodes[next].start + depth - 1),
                               map[leafChar := |nodes| + 1][c := next], Root, NoSuffix)
    ensures |r[|nodes|].children| == 2
    ensures r[|nodes| + 1] == Node(pos, Open, map[], Root, NoSuffix)
    ensures r[next].start == nodes[next].start + depth
    ensures r[next].end == nodes[next].end
    ensures next != parent ==> r[next].children == nodes[next].children
    ensures r[parent].children == nodes[parent].children[edgeChar := |nodes|]
    ensures r[parent].end == nodes[parent].end && r[parent].link == nodes[parent].link
    ensures parent != next ==> r[parent].start == nodes[parent].start
    ensures forall k {:trigger r[k]} | 0 <= k < |nodes| && k != next && k != parent :: r[k] == nodes[k]
    ensures forall k {:trigger r[k]} | 0 <= k < |nodes| :: r[k].end == nodes[k].end
  {
    var n2 := Carve(nodes, parent, edgeChar, next, depth);
    var r := Hang(n2, |nodes|, next, depth, pos, leafChar, c);
    assert r[|nodes|] == n2[|nodes|].(children := map[leafChar := |nodes| + 1][c := next]);
    assert r[next] == n2[next].(start := n2[next].start + depth);
    assert next != parent ==> r[parent] == n2[parent];
    r
  }

  lemma ArenaCarve(nodes: seq<Node>, parent: nat, edgeChar: char, next: nat, depth: int)
    requires ArenaOk(nodes) && parent < |nodes| && next < |nodes|
    ensures ArenaOk(Carve(nodes, parent, edgeChar, next, depth))
  {
    var n1 := NewNode(nodes, nodes[next].start, Closed(nodes[next].start + depth - 1));
    ArenaAppend(nodes, n1[|nodes|]);
    ArenaWithChild(n1, parent, edgeChar, |nodes|);
  }

  lemma ArenaHang(nodes: seq<Node>, s: nat, next: nat, depth: int, pos: int, leafChar: char, c: char)
    requires ArenaOk(nodes) && s < |nodes| && Root < next < |nodes| && s != next
    requires nodes[s].children == map[] && leafChar != c
    ensures ArenaOk(Hang(nodes, s, next, depth, pos, leafChar, c))
  {
    var n3 := Attach(nodes, s, leafChar, pos);
    ArenaAttach(nodes, s, leafChar, pos);
    var n4 := WithStart(n3, next, n3[next].start + depth);
    ArenaWithStart(n3, next, n3[next].start + depth);
    ArenaWithChild(n4, s, c, next);
  }

  lemma ArenaSplitNodes(nodes: seq<Node>, parent: nat, edgeChar: char, next: nat, depth: int,
                        pos: int, leafChar: char, c: char)
    requires ArenaOk(nodes) && parent < |nodes| && next < |nodes|
    requires Root < next && leafChar != c
    ensures ArenaOk(SplitNodes(nodes, parent, edgeChar, next, depth, pos, leafChar, c))
  {
    ArenaCarve(nodes, parent, edgeChar, next, depth);
    ArenaHang(Carve(nodes, parent, edgeChar, next, depth), |nodes|, next, depth, pos, leafChar, c);
  }

  /** Rule 2 in the middle of the edge into `next`: a closed node takes over
      the first `activeLength` symbols of that edge, the old child keeps the
      rest and a new open leaf starting at `pos` branches off. `c` is the
      text's symbol just after the shared part (the source reads it twice,
      once for the rule-3 test and once to file the shortened child, at the
      same index). A node waiting for its link
      is linked to the new closed node, which then waits in its place. */
  function Split(b: Builder, pos: int, edgeChar: char, next: nat, c: char): (r: Builder)
    requires Valid(b) && 0 <= pos < |b.text|
    requires edgeChar in b.nodes[b.activeNode].children
    requires b.nodes[b.activeNode].children[edgeChar] == next
    requires CharAt(b.text, b.nodes[next].start + b.activeLength) == Ok(c) && c != b.text[pos]
    ensures Valid(r)
    ensures |r.nodes| == |b.nodes| + 2
    ensures r.nodes[|b.nodes|].children.Keys == {b.text[pos], c} && |r.nodes[|b.nodes|].children| == 2
    ensures b.lastNewNode.None? ==>
      r.nodes == SplitNodes(b.nodes, b.activeNode, edgeChar, next, b.activeLength, pos, b.text[pos], c)
    ensures b.lastNewNode.Some? ==>
      r.nodes == WithLink(SplitNodes(b.nodes, b.activeNode, edgeChar, next, b.activeLength, pos, b.text[pos], c),
                          b.lastNewNode.value, |b.nodes|)
    ensures r == b.(nodes := r.nodes, lastNewNode := Some(|b.nodes|))
    ensures OpenCount(r.nodes) == OpenCount(b.nodes) + 1
  {
    var n := SplitNodes(b.nodes, b.activeNode, edgeChar, next, b.activeLength, pos, b.text[pos], c);
    SplitKeepsValid(b, pos, edgeChar, next, c);
    SplitOpensOne(b.nodes, n);
    var r := LinkPending(b.(nodes := n), |b.nodes|).(lastNewNode := Some(|b.nodes|));
    OpenCountSameEnds(n, r.nodes);
    r
  }

  lemma SplitKeepsValid(b: Builder, pos: int, edgeChar: char, next: nat, c: char)
    requires Valid(b) && 0 <= pos < |b.text|
    requires edgeChar in b.nodes[b.activeNode].children
    requires b.nodes[b.activeNode].children[edgeChar] == next && c != b.text[pos]
    ensures Valid(b.(nodes := SplitNodes(b.nodes, b.activeNode, edgeChar, next, b.activeLength, pos, b.text[pos], c)))
  {
    ArenaSplitNodes(b.nodes, b.activeNode, edgeChar, next, b.activeLength, pos, b.text[pos], c);
  }

  /** Two nodes appended, the first closed and the second open, with the
      older nodes ending as before: one more open leaf. */
  lemma SplitOpensOne(a: seq<Node>, b: seq<Node>)
    requires |b| == |a| + 2
    requires forall k | 0 <= k < |a| :: a[k].end == b[k].end
    requires b[|a|].end != Open && b[|a| + 1].end == Open
    ensures OpenCount(b) == OpenCount(a) + 1
  {
    OpenCountGrow(a, b[..|a| + 1]);
    OpenCountGrow(b[..|a| + 1], b);
  }

  /** After a completed extension: one suffix fewer remains,
      and the active point moves to where the next shorter suffix continues:
      at the root by shortening the active length and recomputing the active
      edge from the count, elsewhere by following the suffix link. */
  function Advance(b: Builder, pos: int): (r: Builder)
    requires Valid(b) && 0 < b.remaining
    ensures Valid(r)
    ensures r.remaining == b.remaining - 1
    ensures b.activeNode == Root && b.activeLength > 0 ==>
      && r.activeNode == Root
      && r.activeLength == b.activeLength - 1
      && r.activeEdge == pos - r.remaining + 1
    ensures b.activeNode != Root ==>
      && r.activeNode == b.nodes[b.activeNode].link
      && r.activeLength == b.activeLength && r.activeEdge == b.activeEdge
    ensures b.activeNode == Root && b.activeLength == 0 ==>
      r.activeNode == Root && r.activeLength == 0 && r.activeEdge == b.activeEdge
    ensures r == b.(remaining := r.remaining, activeNode := r.activeNode,
                    activeEdge := r.activeEdge, activeLength := r.activeLength)
  {
    var b1 := b.(remaining := b.remaining - 1);
    if b1.activeNode == Root && b1.activeLength > 0 then
      b1.(activeLength := b1.activeLength - 1, activeEdge := pos - b1.remaining + 1)
    else if b1.activeNode != Root then
      b1.(activeNode := b1.nodes[b1.activeNode].link)
    else b1
  }

  // ---------------------------------------------------------------------------
  // Phases

  /** How one pass of the `while` body ends: `Next` goes round again (after a
      completed extension, or after a walk down), `Stop` is rule 3's `break`. */
  datatype Outcome = Next(state: Builder) | Stop(state: Builder) | Fail(fault: Fault)

  /** One pass of the `while` body of `_extend` in phase `pos`. A completed
      extension adds one open leaf and removes one pending suffix; a walk
      down shortens the active length; rule 3 changes neither count. */
  function Step(b: Builder, pos: int): (o: Outcome)
    requires Valid(b) && 0 <= pos < |b.text| && 0 < b.remaining
    ensures !o.Fail? ==> Valid(o.state)
    ensures !o.Fail? ==> o.state.text == b.text && o.state.leafEnd == b.leafEnd
    ensures !o.Fail? ==> |b.nodes| <= |o.state.nodes|
    ensures !o.Fail? ==> OpenCount(o.state.nodes) + o.state.remaining == OpenCount(b.nodes) + b.remaining
    ensures o.Next? ==>
      || b.remaining == o.state.remaining + 1
      || (o.state.remaining == b.remaining && o.state.activeLength < b.activeLength)
    ensures o.Stop? ==> o.state.remaining == b.remaining && o.state.activeLength >= 1
  {
    var b1 := if b.activeLength == 0 then b.(activeEdge := pos) else b;
    match CharAt(b1.text, b1.activeEdge)
    case Err(f) => Fail(f)
    case Ok(edgeChar) =>
      if edgeChar !in b1.nodes[b1.activeNode].children then
        Next(Advance(AddLeaf(b1, pos, edgeChar), pos))
      else
        StepOnEdge(b1, pos, edgeChar)
  }

  /** The part of a pass where the active node has an edge under
      `edgeChar`: walk down it, or compare inside it. */
  function StepOnEdge(b: Builder, pos: int, edgeChar: char): (o: Outcome)
    requires Valid(b) && 0 <= pos < |b.text| && 0 < b.remaining
    requires edgeChar in b.nodes[b.activeNode].children
    ensures !o.Fail? ==> Valid(o.state)
    ensures !o.Fail? ==> o.state.text == b.text && o.state.leafEnd == b.leafEnd
    ensures !o.Fail? ==> |b.nodes| <= |o.state.nodes|
    ensures !o.Fail? ==> OpenCount(o.state.nodes) + o.state.remaining == OpenCount(b.nodes) + b.remaining
    ensures o.Next? ==>
      || b.remaining == o.state.remaining + 1
      || (o.state.remaining == b.remaining && o.state.activeLength < b.activeLength)
    ensures o.Stop? ==> o.state.remaining == b.remaining && o.state.activeLength >= 1
  {
    var next := b.nodes[b.activeNode].children[edgeChar];
    var walk := WalkDown(b, next);
    if walk.0 then
      if EdgeLength(b.nodes[next], b.leafEnd) < 1 then Fail(EmptyEdgeWalk(next))
      else Next(walk.1)
    else InsideEdge(b, pos, edgeChar)
  }

  /** The active point lies inside the edge under `edgeChar`: the phase ends
      by rule 3 when the symbol after it is the one being added, and the
      edge is split otherwise. */
  function InsideEdge(b: Builder, pos: int, edgeChar: char): (o: Outcome)
    requires Valid(b) && 0 <= pos < |b.text| && 0 < b.remaining
    requires edgeChar in b.nodes[b.activeNode].children
    requires b.activeLength < EdgeLength(b.nodes[b.nodes[b.activeNode].children[edgeChar]], b.leafEnd)
    ensures !o.Fail? ==> Valid(o.state)
    ensures !o.Fail? ==> o.state.text == b.text && o.state.leafEnd == b.leafEnd
    ensures !o.Fail? ==> |b.nodes| <= |o.state.nodes|
    ensures !o.Fail? ==> OpenCount(o.state.nodes) + o.state.remaining == OpenCount(b.nodes) + b.remaining
    ensures o.Next? ==> b.remaining == o.state.remaining + 1
    ensures o.Stop? ==> o.state.remaining == b.remaining && o.state.activeLength >= 1
  {
    var next := b.nodes[b.activeNode].children[edgeChar];
    match CharAt(b.text, b.nodes[next].start + b.activeLength)
    case Err(f) => Fail(f)
    case Ok(c) =>
      if c == b.text[pos] then Stop(Rule3(b))
      else SplitAndAdvance(b, pos, edgeChar, next, c)
  }

  /** The split branch of `InsideEdge`: split the edge, then move the active
      point on. */
  function SplitAndAdvance(b: Builder, pos: int, edgeChar: char, next: nat, c: char): Outcome
    requires Valid(b) && 0 <= pos < |b.text| && 0 < b.remaining
    requires edgeChar in b.nodes[b.activeNode].children && b.nodes[b.activeNode].children[edgeChar] == next
    requires CharAt(b.text, b.nodes[next].start + b.activeLength) == Ok(c) && c != b.text[pos]
  {
    Next(Advance(Split(b, pos, edgeChar, next, c), pos))
  }

  /** The `while` loop of `_extend`: passes until no suffix is pending or
      rule 3 ends the phase. The sum of open leaves and pending suffixes never
      changes, and the loop only stops with suffixes pending after rule 3,
      which leaves a positive active length. */
  function Loop(b: Builder, pos: int): (r: Result<Builder>)
    requires Valid(b) && 0 <= pos < |b.text|
    ensures r.Ok? ==> Valid(r.value)
    ensures r.Ok? ==> r.value.text == b.text && r.value.leafEnd == b.leafEnd
    ensures r.Ok? ==> |b.nodes| <= |r.value.nodes|
    ensures r.Ok? ==> OpenCount(r.value.nodes) + r.value.remaining == OpenCount(b.nodes) + b.remaining
    ensures r.Ok? ==> r.value.remaining == 0 || r.value.activeLength >= 1
    decreases b.remaining, b.activeLength
  {
    if b.remaining == 0 then Ok(b)
    else
      match Step(b, pos)
      case Fail(f) => Err(f)
      case Stop(b') => Ok(b')
      case Next(b') => Loop(b', pos)
  }

  /** `_extend`: phase `pos` moves the shared leaf end to `pos` (lengthening
      every open leaf), adds one pending suffix, forgets any node waiting for
      a link, and runs the loop. */
  function Extend(b: Builder, pos: int): (r: Result<Builder>)
    requires Valid(b) && 0 <= pos < |b.text|
    ensures r.Ok? ==> Valid(r.value)
    ensures r.Ok? ==> r.value.text == b.text && r.value.leafEnd == pos
    ensures r.Ok? ==> OpenCount(r.value.nodes) + r.value.remaining == OpenCount(b.nodes) + b.remaining + 1
  {
    Loop(b.(leafEnd := pos, remaining := b.remaining + 1, lastNewNode := None), pos)
  }

  /** The phases `pos`, `pos + 1`, ... up to the end of the text. After them
      every phase has added one suffix, either as an open leaf or as a
      suffix still pending. */
  function Phases(b: Builder, pos: nat): (r: Result<Builder>)
    requires Valid(b) && pos <= |b.text|
    ensures r.Ok? ==> Valid(r.value) && r.value.text == b.text
    ensures r.Ok? && pos < |b.text| ==> r.value.leafEnd == |b.text| - 1
    ensures r.Ok? ==> OpenCount(r.value.nodes) + r.value.remaining == OpenCount(b.nodes) + b.remaining + (|b.text| - pos)
    decreases |b.text| - pos
  {
    if pos == |b.text| then Ok(b)
    else
      match Extend(b, pos)
      case Err(f) => Err(f)
      case Ok(b') => Phases(b', pos + 1)
  }

  /** The state `__init__` sets up before building: the prepared text, an
      arena holding only the root (start -1, its own end -1, linked to
      itself), the active point at the root, nothing pending. */
  function Init(input: string): (b: Builder)
    ensures Valid(b)
    ensures b.text == WithSentinel(input) && b.size == |b.text|
    ensures |b.nodes| == 1 && b.nodes[Root].link == Root && b.nodes[Root].start == -1
    ensures b.activeNode == Root && b.activeLength == 0 && b.remaining == 0
    ensures OpenCount(b.nodes) == 0
  {
    var text := WithSentinel(input);
    Builder(text, |text|, [Node(-1, Closed(-1), map[], Root, NoSuffix)], Root, -1, 0, 0, -1, None)
  }

  // ---------------------------------------------------------------------------
  // Tree shape

  /** Every child is filed under a symbol of `keys`. */
  predicate KeysIn(nodes: seq<Node>, keys: seq<char>) {
    forall id, c | 0 <= id < |nodes| && c in nodes[id].children :: c in keys
  }

  /** Each node hangs under at most one edge of the arena, and no node is
      its own child. */
  predicate UniqueParents(nodes: seq<Node>) {
    && (forall p, q, c, d |
          && 0 <= p < |nodes| && 0 <= q < |nodes|
          && c in nodes[p].children && d in nodes[q].children
          && nodes[p].children[c] == nodes[q].children[d]
          :: p == q && c == d)
    && (forall p, c | 0 <= p < |nodes| && c in nodes[p].children :: nodes[p].children[c] != p)
  }

  /** `path` goes down from `id`, each node a child of the one before. */
  predicate IsPath(nodes: seq<Node>, id: nat, path: seq<nat>)
    decreases |path|
  {
    && id < |nodes|
    && (path != [] ==>
          path[0] in nodes[id].children.Values && IsPath(nodes, path[0], path[1..]))
  }

  /** The node a path from `id` ends at. */
  function Last(id: nat, path: seq<nat>): nat {
    if path == [] then id else path[|path| - 1]
  }

  /** Node `k` lies in the subtree of `id` (`id` itself included). */
  ghost predicate Below(nodes: seq<Node>, id: nat, k: nat) {
    exists p :: IsPath(nodes, id, p) && Last(id, p) == k
  }

  /** Every node of the arena is reached from the root. */
  ghost predicate Reached(nodes: seq<Node>) {
    forall k | 0 <= k < |nodes| :: Below(nodes, Root, k)
  }

  /** The builder's arena is a tree: every node is reached from the root and
      hangs under at most one edge, the root under none (`NodeOk`), and the
      edges are filed under symbols of its text. */
  ghost predicate Shaped(b: Builder) {
    KeysIn(b.nodes, b.text) && UniqueParents(b.nodes) && Reached(b.nodes)
  }

  /** One more step down: a path extended by a child of its last node. */
  lemma {:induction false} PathSnoc(nodes: seq<Node>, id: nat, p: seq<nat>, k: nat)
    requires IsPath(nodes, id, p) && Last(id, p) < |nodes| && k < |nodes|
    requires k in nodes[Last(id, p)].children.Values
    ensures IsPath(nodes, id, p + [k]) && Last(id, p + [k]) == k
    decreases |p|
  {
    if p != [] {
      PathSnoc(nodes, p[0], p[1..], k);
      assert (p + [k])[1..] == p[1..] + [k];
    }
  }

  /** A path stays a path in an arena that keeps every edge and only adds. */
  lemma {:induction false} PathKept(a: seq<Node>, b: seq<Node>, id: nat, p: seq<nat>)
    requires |a| <= |b|
    requires forall u | 0 <= u < |a| :: a[u].children.Values <= b[u].children.Values
    requires IsPath(a, id, p)
    ensures IsPath(b, id, p)
    decreases |p|
  {
    if p != [] {
      PathKept(a, b, p[0], p[1..]);
    }
  }

  /** Reachability depends on the child maps alone. */
  lemma {:induction false} SameChildrenPath(a: seq<Node>, b: seq<Node>, id: nat, p: seq<nat>)
    requires |a| == |b| && forall k | 0 <= k < |a| :: b[k].children == a[k].children
    ensures IsPath(a, id, p) == IsPath(b, id, p)
    decreases |p|
  {
    if p != [] {
      SameChildrenPath(a, b, p[0], p[1..]);
    }
  }

  /** Only the children matter for the shape. */
  lemma SameChildrenShape(a: seq<Node>, b: seq<Node>, keys: seq<char>)
    requires |a| == |b| && forall k | 0 <= k < |a| :: b[k].children == a[k].children
    ensures KeysIn(a, keys) == KeysIn(b, keys)
    ensures UniqueParents(a) == UniqueParents(b)
    ensures Reached(a) == Reached(b)
  {
    forall k | 0 <= k < |a| && Below(a, Root, k)
      ensures Below(b, Root, k)
    {
      var p :| IsPath(a, Root, p) && Last(Root, p) == k;
      SameChildrenPath(a, b, Root, p);
    }
    forall k | 0 <= k < |b| && Below(b, Root, k)
      ensures Below(a, Root, k)
    {
      var p :| IsPath(b, Root, p) && Last(Root, p) == k;
      SameChildrenPath(a, b, Root, p);
    }
  }

  /** The new leaf of `Attach` hangs from a node the root reaches, and an
      edge that was there stays, so every node is still reached. */
  lemma AttachReached(nodes: seq<Node>, parent: nat, c: char, start: int)
    requires ArenaOk(nodes) && parent < |nodes| && c !in nodes[parent].children
    requires Reached(nodes)
    ensures Reached(Attach(nodes, parent, c, start))
  {
    var r := Attach(nodes, parent, c, start);
    forall u | 0 <= u < |nodes|
      ensures nodes[u].children.Values <= r[u].children.Values
    {
      if u == parent {
        forall v | v in nodes[u].children.Values
          ensures v in r[u].children.Values
        {
          var d :| d in nodes[u].children && nodes[u].children[d] == v;
          assert r[u].children[d] == v;
        }
      }
    }
    forall k | 0 <= k < |r|
      ensures Below(r, Root, k)
    {
      var j := if k < |nodes| then k else parent;
      assert Below(nodes, Root, j);
      var p :| IsPath(nodes, Root, p) && Last(Root, p) == j;
      PathKept(nodes, r, Root, p);
      if k == |nodes| {
        assert r[parent].children[c] == k;
        PathSnoc(r, Root, p, k);
      }
    }
  }

  /** An edge of the arena after `Attach` is the new one, into the new
      leaf, or an edge that was there before, into an older node. */
  lemma AttachEdge(nodes: seq<Node>, parent: nat, c: char, start: int, p: int, d: char)
    requires ArenaOk(nodes) && parent < |nodes|
    requires 0 <= p < |nodes| + 1 && d in Attach(nodes, parent, c, start)[p].children
    ensures var v := Attach(nodes, parent, c, start)[p].children[d];
      || (p == parent && d == c && v == |nodes|)
      || ((p, d) != (parent, c) && p < |nodes| && d in nodes[p].children
          && v == nodes[p].children[d] && v < |nodes|)
  {
    var r := Attach(nodes, parent, c, start);
    if p < |nodes| && p != parent {
      assert r[p] == nodes[p];
    }
  }

  lemma AttachShape(nodes: seq<Node>, parent: nat, c: char, start: int, keys: seq<char>)
    requires ArenaOk(nodes) && parent < |nodes| && c in keys
    requires KeysIn(nodes, keys) && UniqueParents(nodes)
    ensures KeysIn(Attach(nodes, parent, c, start), keys)
    ensures UniqueParents(Attach(nodes, parent, c, start))
    ensures c !in nodes[parent].children && Reached(nodes) ==> Reached(Attach(nodes, parent, c, start))
  {
    if c !in nodes[parent].children && Reached(nodes) {
      AttachReached(nodes, parent, c, start);
    }
    var r := Attach(nodes, parent, c, start);
    forall id, d | 0 <= id < |r| && d in r[id].children
      ensures d in keys && r[id].children[d] != id
    {
      AttachEdge(nodes, parent, c, start, id, d);
    }
    forall p, q, d, e |
      && 0 <= p < |r| && 0 <= q < |r| && d in r[p].children && e in r[q].children
      && r[p].children[d] == r[q].children[e]
      ensures p == q && d == e
    {
      AttachEdge(nodes, parent, c, start, p, d);
      AttachEdge(nodes, parent, c, start, q, e);
    }
  }

  /** An edge of the arena after a split is one of the three the split
      makes, or an edge that was there before, into an older node other
      than the split child. */
  lemma SplitEdgeKind(nodes: seq<Node>, parent: nat, edgeChar: char, next: nat, depth: int,
                      pos: int, leafChar: char, c: char, p: int, d: char)
    requires ArenaOk(nodes) && UniqueParents(nodes)
    requires parent < |nodes| && edgeChar in nodes[parent].children
    requires nodes[parent].children[edgeChar] == next && leafChar != c
    requires 0 <= p < |nodes| + 2 && d in SplitNodes(nodes, parent, edgeChar, next, depth, pos, leafChar, c)[p].children
    ensures var v := SplitNodes(nodes, parent, edgeChar, next, depth, pos, leafChar, c)[p].children[d];
      || (p == parent && d == edgeChar && v == |nodes|)
      || (p == |nodes| && d == leafChar && v == |nodes| + 1)
      || (p == |nodes| && d == c && v == next)
      || ((p, d) != (parent, edgeChar) && p < |nodes| && d in nodes[p].children
          && v == nodes[p].children[d] && v < |nodes| && v != next)
  {
    var r := SplitNodes(nodes, parent, edgeChar, next, depth, pos, leafChar, c);
    var n := |nodes|;
    assert next != parent;
    if p < n && (p, d) != (parent, edgeChar) {
      if p != parent && p != next {
        assert r[p] == nodes[p];
      }
      assert d in nodes[p].children && r[p].children[d] == nodes[p].children[d];
    }
  }

  /** A split rewires one edge and adds two: the parent's edge now leads to
      the split node, below which hang the new leaf and the old child. */
  lemma SplitNodesShape(nodes: seq<Node>, parent: nat, edgeChar: char, next: nat, depth: int,
                        pos: int, leafChar: char, c: char, keys: seq<char>)
    requires ArenaOk(nodes) && parent < |nodes| && edgeChar in nodes[parent].children
    requires nodes[parent].children[edgeChar] == next
    requires leafChar != c && leafChar in keys && c in keys
    requires KeysIn(nodes, keys) && UniqueParents(nodes)
    ensures KeysIn(SplitNodes(nodes, parent, edgeChar, next, depth, pos, leafChar, c), keys)
    ensures UniqueParents(SplitNodes(nodes, parent, edgeChar, next, depth, pos, leafChar, c))
    ensures Reached(nodes) ==> Reached(SplitNodes(nodes, parent, edgeChar, next, depth, pos, leafChar, c))
  {
    if Reached(nodes) {
      SplitNodesReached(nodes, parent, edgeChar, next, depth, pos, leafChar, c);
    }
    var r := SplitNodes(nodes, parent, edgeChar, next, depth, pos, leafChar, c);
    SplitNodesKeys(nodes, parent, edgeChar, next, depth, pos, leafChar, c, keys, r);
    SplitNodesUnique(nodes, parent, edgeChar, next, depth, pos, leafChar, c, r);
  }

  /** Every edge of `a` is an edge of `r`, except perhaps the one under
      `edgeChar` of `parent`. */
  predicate EdgesKeptBut(a: seq<Node>, r: seq<Node>, parent: nat, edgeChar: char) {
    && |a| <= |r|
    && forall u, d | 0 <= u < |a| && d in a[u].children && (u, d) != (parent, edgeChar) ::
         d in r[u].children && r[u].children[d] == a[u].children[d]
  }

  /** The edge under `edgeChar` of `parent` now runs through node `s`. */
  predicate Rerouted(a: seq<Node>, r: seq<Node>, parent: nat, edgeChar: char, s: nat) {
    && parent < |a| && edgeChar in a[parent].children
    && parent < |r| && s < |r| && edgeChar in r[parent].children && r[parent].children[edgeChar] == s
    && a[parent].children[edgeChar] in r[s].children.Values
  }

  /** One edge of the old arena, from a node the root reaches in the new
      one, leads to a node the root reaches in the new one. */
  lemma ReroutedStep(a: seq<Node>, r: seq<Node>, parent: nat, edgeChar: char, s: nat, id: nat, k: nat)
    requires EdgesKeptBut(a, r, parent, edgeChar) && Rerouted(a, r, parent, edgeChar, s)
    requires id < |a| && k < |a| && k in a[id].children.Values
    requires Below(r, Root, id)
    ensures Below(r, Root, k)
  {
    var q :| IsPath(r, Root, q) && Last(Root, q) == id;
    var d :| d in a[id].children && a[id].children[d] == k;
    if (id, d) == (parent, edgeChar) {
      PathSnoc(r, Root, q, s);
      PathSnoc(r, Root, q + [s], k);
    } else {
      PathSnoc(r, Root, q, k);
    }
  }

  /** A path of the old arena, from a node the root reaches in the new one,
      ends at a node the root reaches in the new one. */
  lemma {:induction false} ReroutedPath(a: seq<Node>, r: seq<Node>, parent: nat, edgeChar: char, s: nat,
                                        id: nat, p: seq<nat>)
    requires EdgesKeptBut(a, r, parent, edgeChar) && Rerouted(a, r, parent, edgeChar, s)
    requires IsPath(a, id, p) && Below(r, Root, id)
    ensures Below(r, Root, Last(id, p))
    decreases |p|
  {
    if p != [] {
      ReroutedStep(a, r, parent, edgeChar, s, id, p[0]);
      ReroutedPath(a, r, parent, edgeChar, s, p[0], p[1..]);
      assert Last(id, p) == Last(p[0], p[1..]);
    }
  }

  /** Rerouting an edge through a new node keeps every old node reached from
      the root. */
  lemma ReroutedReached(a: seq<Node>, r: seq<Node>, parent: nat, edgeChar: char, s: nat, k: nat)
    requires EdgesKeptBut(a, r, parent, edgeChar) && Rerouted(a, r, parent, edgeChar, s)
    requires Reached(a) && 0 < |a| && k < |a|
    ensures Below(r, Root, k) && Below(r, Root, parent)
  {
    assert IsPath(r, Root, []) && Last(Root, []) == Root;
    assert Below(a, Root, k) && Below(a, Root, parent);
    var p :| IsPath(a, Root, p) && Last(Root, p) == k;
    ReroutedPath(a, r, parent, edgeChar, s, Root, p);
    var p' :| IsPath(a, Root, p') && Last(Root, p') == parent;
    ReroutedPath(a, r, parent, edgeChar, s, Root, p');
  }

  /** A split keeps every edge but the parent's edge into `next`, which now
      runs through the split node `|nodes|`; the new leaf hangs below it. */
  lemma SplitReroutes(nodes: seq<Node>, parent: nat, edgeChar: char, next: nat, depth: int,
                      pos: int, leafChar: char, c: char)
    requires ArenaOk(nodes) && UniqueParents(nodes)
    requires parent < |nodes| && edgeChar in nodes[parent].children
    requires nodes[parent].children[edgeChar] == next && leafChar != c
    ensures var r := SplitNodes(nodes, parent, edgeChar, next, depth, pos, leafChar, c);
      && EdgesKeptBut(nodes, r, parent, edgeChar) && Rerouted(nodes, r, parent, edgeChar, |nodes|)
      && r[|nodes|].children[leafChar] == |nodes| + 1
  {
    var r := SplitNodes(nodes, parent, edgeChar, next, depth, pos, leafChar, c);
    assert next != parent;
    assert r[|nodes|].children[c] == next;
    forall u, d | 0 <= u < |nodes| && d in nodes[u].children && (u, d) != (parent, edgeChar)
      ensures d in r[u].children && r[u].children[d] == nodes[u].children[d]
    {
      if u != parent && u != next {
        assert r[u] == nodes[u];
      }
    }
  }

  /** After a split every node is still reached from the root, and so are
      the split node and the new leaf below it. */
  lemma SplitNodesReached(nodes: seq<Node>, parent: nat, edgeChar: char, next: nat, depth: int,
                          pos: int, leafChar: char, c: char)
    requires ArenaOk(nodes) && UniqueParents(nodes)
    requires parent < |nodes| && edgeChar in nodes[parent].children
    requires nodes[parent].children[edgeChar] == next && leafChar != c
    requires Reached(nodes)
    ensures Reached(SplitNodes(nodes, parent, edgeChar, next, depth, pos, leafChar, c))
  {
    var r := SplitNodes(nodes, parent, edgeChar, next, depth, pos, leafChar, c);
    SplitReroutes(nodes, parent, edgeChar, next, depth, pos, leafChar, c);
    ReroutedLeaf(nodes, r, parent, edgeChar, leafChar);
  }

  /** The arena after rerouting through the new node `|a|`, with a new leaf
      `|a| + 1` below it, has every node reached from the root. */
  lemma ReroutedLeaf(a: seq<Node>, r: seq<Node>, parent: nat, edgeChar: char, leafChar: char)
    requires |r| == |a| + 2
    requires EdgesKeptBut(a, r, parent, edgeChar) && Rerouted(a, r, parent, edgeChar, |a|)
    requires leafChar in r[|a|].children && r[|a|].children[leafChar] == |a| + 1
    requires Reached(a) && 0 < |a|
    ensures Reached(r)
  {
    var n: nat := |a|;
    forall k | 0 <= k < |r|
      ensures Below(r, Root, k)
    {
      ReroutedReached(a, r, parent, edgeChar, n, if k < n then k else parent);
      if k >= n {
        var q :| IsPath(r, Root, q) && Last(Root, q) == parent;
        PathSnoc(r, Root, q, n);
        if k == n + 1 {
          PathSnoc(r, Root, q + [n], n + 1);
        }
      }
    }
  }

  lemma SplitNodesKeys(nodes: seq<Node>, parent: nat, edgeChar: char, next: nat, depth: int,
                       pos: int, leafChar: char, c: char, keys: seq<char>, r: seq<Node>)
    requires ArenaOk(nodes) && parent < |nodes| && edgeChar in nodes[parent].children
    requires nodes[parent].children[edgeChar] == next
    requires leafChar != c && leafChar in keys && c in keys
    requires KeysIn(nodes, keys) && UniqueParents(nodes)
    requires r == SplitNodes(nodes, parent, edgeChar, next, depth, pos, leafChar, c)
    ensures KeysIn(r, keys)
  {
    forall id, d | 0 <= id < |r| && d in r[id].children
      ensures d in keys
    {
      SplitEdgeKind(nodes, parent, edgeChar, next, depth, pos, leafChar, c, id, d);
    }
  }

  lemma SplitNodesUnique(nodes: seq<Node>, parent: nat, edgeChar: char, next: nat, depth: int,
                         pos: int, leafChar: char, c: char, r: seq<Node>)
    requires ArenaOk(nodes) && parent < |nodes| && edgeChar in nodes[parent].children
    requires nodes[parent].children[edgeChar] == next && leafChar != c
    requires UniqueParents(nodes)
    requires r == SplitNodes(nodes, parent, edgeChar, next, depth, pos, leafChar, c)
    ensures UniqueParents(r)
  {
    forall id, d | 0 <= id < |r| && d in r[id].children
      ensures r[id].children[d] != id
    {
      SplitEdgeKind(nodes, parent, edgeChar, next, depth, pos, leafChar, c, id, d);
    }
    forall p, q, d, e |
      && 0 <= p < |r| && 0 <= q < |r| && d in r[p].children && e in r[q].children
      && r[p].children[d] == r[q].children[e]
      ensures p == q && d == e
    {
      SplitSameEdge(nodes, parent, edgeChar, next, depth, pos, leafChar, c, p, d, q, e);
    }
  }

  /** Two edges of the split arena into the same node are the same edge. */
  lemma SplitSameEdge(nodes: seq<Node>, parent: nat, edgeChar: char, next: nat, depth: int,
                      pos: int, leafChar: char, c: char, p: int, d: char, q: int, e: char)
    requires ArenaOk(nodes) && UniqueParents(nodes)
    requires parent < |nodes| && edgeChar in nodes[parent].children
    requires nodes[parent].children[edgeChar] == next && leafChar != c
    requires var r := SplitNodes(nodes, parent, edgeChar, next, depth, pos, leafChar, c);
      && 0 <= p < |r| && 0 <= q < |r| && d in r[p].children && e in r[q].children
      && r[p].children[d] == r[q].children[e]
    ensures p == q && d == e
  {
    SplitEdgeKind(nodes, parent, edgeChar, next, depth, pos, leafChar, c, p, d);
    SplitEdgeKind(nodes, parent, edgeChar, next, depth, pos, leafChar, c, q, e);
    if p < |nodes| && q < |nodes| && (p, d) != (parent, edgeChar) && (q, e) != (parent, edgeChar) {
      assert nodes[p].children[d] == nodes[q].children[e];
    }
  }

  lemma AddLeafShape(b: Builder, pos: int, edgeChar: char)
    requires Valid(b) && edgeChar in b.text && Shaped(b)
    requires edgeChar !in b.nodes[b.activeNode].children
    ensures Shaped(AddLeaf(b, pos, edgeChar))
  {
    var a := Attach(b.nodes, b.activeNode, edgeChar, pos);
    AttachShape(b.nodes, b.activeNode, edgeChar, pos, b.text);
    SameChildrenShape(a, AddLeaf(b, pos, edgeChar).nodes, b.text);
  }

  /** Setting a suffix link leaves every child map as it was. */
  lemma WithLinkShape(nodes: seq<Node>, id: nat, target: nat, keys: seq<char>)
    requires id < |nodes|
    ensures KeysIn(WithLink(nodes, id, target), keys) == KeysIn(nodes, keys)
    ensures UniqueParents(WithLink(nodes, id, target)) == UniqueParents(nodes)
    ensures Reached(WithLink(nodes, id, target)) == Reached(nodes)
  {
    var r := WithLink(nodes, id, target);
    assert forall k | 0 <= k < |nodes| :: r[k].children == nodes[k].children;
    SameChildrenShape(nodes, r, keys);
  }

  lemma SplitShape(b: Builder, pos: int, edgeChar: char, next: nat, c: char)
    requires Valid(b) && 0 <= pos < |b.text|
    requires edgeChar in b.nodes[b.activeNode].children
    requires b.nodes[b.activeNode].children[edgeChar] == next
    requires CharAt(b.text, b.nodes[next].start + b.activeLength) == Ok(c) && c != b.text[pos]
    requires Shaped(b)
    ensures Shaped(Split(b, pos, edgeChar, next, c))
  {
    var n := SplitNodes(b.nodes, b.activeNode, edgeChar, next, b.activeLength, pos, b.text[pos], c);
    assert c in b.text by {
      var k := b.nodes[next].start + b.activeLength;
      if k >= 0 {
        assert c == b.text[k];
      } else {
        assert c == b.text[|b.text| + k];
      }
    }
    SplitNodesShape(b.nodes, b.activeNode, edgeChar, next, b.activeLength, pos, b.text[pos], c, b.text);
    if b.lastNewNode.Some? {
      WithLinkShape(n, b.lastNewNode.value, |b.nodes|, b.text);
    }
  }

  lemma Rule3Shape(b: Builder)
    requires Valid(b) && Shaped(b)
    ensures Shaped(Rule3(b))
  {
    SameChildrenShape(b.nodes, Rule3(b).nodes, b.text);
  }

  /** The ways a pass along an existing edge can go, each stated once: a
      walk down past the whole edge, a pass that stops inside the edge, and
      there rule 3 or a split. Proofs about one pass only supply the
      values. */
  lemma EdgeWalk(b: Builder, pos: int, edgeChar: char)
    requires Valid(b) && 0 <= pos < |b.text| && 0 < b.remaining
    requires edgeChar in b.nodes[b.activeNode].children
    requires WalkDown(b, b.nodes[b.activeNode].children[edgeChar]).0
    requires EdgeLength(b.nodes[b.nodes[b.activeNode].children[edgeChar]], b.leafEnd) >= 1
    ensures StepOnEdge(b, pos, edgeChar) == Next(WalkDown(b, b.nodes[b.activeNode].children[edgeChar]).1)
  {
  }

  lemma EdgeInside(b: Builder, pos: int, edgeChar: char)
    requires Valid(b) && 0 <= pos < |b.text| && 0 < b.remaining
    requires edgeChar in b.nodes[b.activeNode].children
    requires b.activeLength < EdgeLength(b.nodes[b.nodes[b.activeNode].children[edgeChar]], b.leafEnd)
    ensures StepOnEdge(b, pos, edgeChar) == InsideEdge(b, pos, edgeChar)
  {
  }

  lemma InsideRule3(b: Builder, pos: int, edgeChar: char, c: char)
    requires Valid(b) && 0 <= pos < |b.text| && 0 < b.remaining
    requires edgeChar in b.nodes[b.activeNode].children
    requires b.activeLength < EdgeLength(b.nodes[b.nodes[b.activeNode].children[edgeChar]], b.leafEnd)
    requires CharAt(b.text, b.nodes[b.nodes[b.activeNode].children[edgeChar]].start + b.activeLength) == Ok(c)
    requires c == b.text[pos]
    ensures InsideEdge(b, pos, edgeChar) == Stop(Rule3(b))
  {
    var next := b.nodes[b.activeNode].children[edgeChar];
    assert CharAt(b.text, b.nodes[next].start + b.activeLength) == Ok(b.text[pos]);
  }

  lemma InsideSplit(b: Builder, pos: int, edgeChar: char, c: char)
    requires Valid(b) && 0 <= pos < |b.text| && 0 < b.remaining
    requires edgeChar in b.nodes[b.activeNode].children
    requires b.activeLength < EdgeLength(b.nodes[b.nodes[b.activeNode].children[edgeChar]], b.leafEnd)
    requires CharAt(b.text, b.nodes[b.nodes[b.activeNode].children[edgeChar]].start + b.activeLength) == Ok(c)
    requires c != b.text[pos]
    ensures InsideEdge(b, pos, edgeChar)
         == Next(Advance(Split(b, pos, edgeChar, b.nodes[b.activeNode].children[edgeChar], c), pos))
  {
    assert InsideEdge(b, pos, edgeChar) == SplitAndAdvance(b, pos, edgeChar, b.nodes[b.activeNode].children[edgeChar], c);
  }

  lemma EdgeRule3(b: Builder, pos: int, edgeChar: char)
    requires Valid(b) && 0 <= pos < |b.text| && 0 < b.remaining
    requires edgeChar in b.nodes[b.activeNode].children
    requires b.activeLength < EdgeLength(b.nodes[b.nodes[b.activeNode].children[edgeChar]], b.leafEnd)
    requires CharAt(b.text, b.nodes[b.nodes[b.activeNode].children[edgeChar]].start + b.activeLength).Ok?
    requires CharAt(b.text, b.nodes[b.nodes[b.activeNode].children[edgeChar]].start + b.activeLength).value == b.text[pos]
    ensures StepOnEdge(b, pos, edgeChar) == Stop(Rule3(b))
  {
    EdgeInside(b, pos, edgeChar);
    InsideRule3(b, pos, edgeChar, b.text[pos]);
  }

  lemma EdgeSplit(b: Builder, pos: int, edgeChar: char)
    requires Valid(b) && 0 <= pos < |b.text| && 0 < b.remaining
    requires edgeChar in b.nodes[b.activeNode].children
    requires b.activeLength < EdgeLength(b.nodes[b.nodes[b.activeNode].children[edgeChar]], b.leafEnd)
    requires CharAt(b.text, b.nodes[b.nodes[b.activeNode].children[edgeChar]].start + b.activeLength).Ok?
    requires CharAt(b.text, b.nodes[b.nodes[b.activeNode].children[edgeChar]].start + b.activeLength).value != b.text[pos]
    ensures StepOnEdge(b, pos, edgeChar)
         == Next(Advance(Split(b, pos, edgeChar, b.nodes[b.activeNode].children[edgeChar],
                               CharAt(b.text, b.nodes[b.nodes[b.activeNode].children[edgeChar]].start + b.activeLength).value), pos))
  {
    EdgeInside(b, pos, edgeChar);
    InsideSplit(b, pos, edgeChar, CharAt(b.text, b.nodes[b.nodes[b.activeNode].children[edgeChar]].start + b.activeLength).value);
  }

  /** A pass of the loop keeps the arena a tree filed under text symbols. */
  lemma StepShape(b: Builder, pos: int)
    requires Valid(b) && 0 <= pos < |b.text| && 0 < b.remaining && Shaped(b)
    ensures var o := Step(b, pos); !o.Fail? ==> Shaped(o.state)
  {
    var b1 := if b.activeLength == 0 then b.(activeEdge := pos) else b;
    match CharAt(b1.text, b1.activeEdge)
    case Err(_) =>
    case Ok(edgeChar) =>
      if edgeChar !in b1.nodes[b1.activeNode].children {
        AddLeafShape(b1, pos, edgeChar);
      } else {
        var next := b1.nodes[b1.activeNode].children[edgeChar];
        if b1.activeLength < EdgeLength(b1.nodes[next], b1.leafEnd) {
          match CharAt(b1.text, b1.nodes[next].start + b1.activeLength)
          case Err(_) =>
          case Ok(c) =>
            if c == b1.text[pos] {
              EdgeRule3(b1, pos, edgeChar);
              Rule3Shape(b1);
            } else {
              EdgeSplit(b1, pos, edgeChar);
              SplitShape(b1, pos, edgeChar, next, c);
            }
        } else if EdgeLength(b1.nodes[next], b1.leafEnd) >= 1 {
          EdgeWalk(b1, pos, edgeChar);
        }
      }
  }

  lemma {:induction false} LoopShape(b: Builder, pos: int)
    requires Valid(b) && 0 <= pos < |b.text| && Shaped(b)
    ensures var r := Loop(b, pos); r.Ok? ==> Shaped(r.value)
    decreases b.remaining, b.activeLength
  {
    if b.remaining != 0 {
      StepShape(b, pos);
      match Step(b, pos)
      case Fail(_) =>
      case Stop(_) =>
      case Next(b') => LoopShape(b', pos);
    }
  }

  /** A phase is one run of the loop from the state with the leaf end moved
      and one more suffix pending; the arena it starts from is unchanged. */
  lemma ExtendRunsLoop(b: Builder, b1: Builder, pos: int)
    requires Valid(b) && 0 <= pos < |b.text|
    requires b1 == b.(leafEnd := pos, remaining := b.remaining + 1, lastNewNode := None)
    ensures Valid(b1) && Extend(b, pos) == Loop(b1, pos)
    ensures Shaped(b1) == Shaped(b)
  {
  }

  lemma ExtendShape(b: Builder, pos: int)
    requires Valid(b) && 0 <= pos < |b.text| && Shaped(b)
    ensures var r := Extend(b, pos); r.Ok? ==> Shaped(r.value)
  {
    var b1 := b.(leafEnd := pos, remaining := b.remaining + 1, lastNewNode := None);
    ExtendRunsLoop(b, b1, pos);
    LoopShape(b1, pos);
  }

  /** One phase, then the rest: `Phases` fails exactly when a phase fails,
      and otherwise answers what the remaining phases answer. */
  lemma PhasesUnfold(b: Builder, pos: nat)
    requires Valid(b) && pos < |b.text|
    ensures Extend(b, pos).Err? ==> Phases(b, pos) == Err(Extend(b, pos).fault)
    ensures Extend(b, pos).Ok? ==>
      Valid(Extend(b, pos).value) && Extend(b, pos).value.text == b.text
      && Phases(b, pos) == Phases(Extend(b, pos).value, pos + 1)
  {
  }

  /** The phases from `pos` on either fail or leave a shaped arena. */
  ghost predicate PhasesShaped(b: Builder, pos: nat)
    requires Valid(b) && pos <= |b.text|
  {
    var r := Phases(b, pos); r.Ok? ==> Shaped(r.value)
  }

  lemma {:induction false} PhasesShape(b: Builder, pos: nat)
    requires Valid(b) && pos <= |b.text| && Shaped(b)
    ensures PhasesShaped(b, pos)
    decreases |b.text| - pos, 1
  {
    if pos < |b.text| {
      ExtendShape(b, pos);
      PhasesUnfold(b, pos);
      match Extend(b, pos)
      case Err(_) =>
      case Ok(e) => PhasesShapeAfter(b, pos, e);
    }
  }

  /** The rest of `PhasesShape` once phase `pos` has succeeded with `e`. */
  lemma {:induction false} PhasesShapeAfter(b: Builder, pos: nat, e: Builder)
    requires Valid(b) && pos < |b.text| && Extend(b, pos) == Ok(e)
    requires Valid(e) && e.text == b.text && Shaped(e)
    ensures PhasesShaped(b, pos)
    decreases |b.text| - pos, 0
  {
    PhasesShape(e, pos + 1);
    PhasesUnfold(b, pos);
  }

  // ---------------------------------------------------------------------------
  // Numbering the leaves

  /** The distinct symbols of `s`, in the order they first occur. */
  function Alphabet(s: string): (a: seq<char>)
    ensures forall c :: c in a <==> c in s
    ensures forall i, j | 0 <= i < j < |a| :: a[i] != a[j]
  {
    if s == [] then []
    else
      var a := Alphabet(s[..|s| - 1]);
      assert s == s[..|s| - 1] + [s[|s| - 1]];
      if s[|s| - 1] in a then a else a + [s[|s| - 1]]
  }

  /** `b` is `a` with some leaves renumbered: same length, and every node
      keeps its edge, children and link; only childless nodes may change
      their suffix index. */
  predicate Renumbered(a: seq<Node>, b: seq<Node>) {
    && |a| == |b|
    && forall k | 0 <= k < |a| ::
         b[k] == a[k].(suffixIndex := b[k].suffixIndex)
         && (a[k].children != map[] ==> b[k].suffixIndex == a[k].suffixIndex)
  }

  lemma RenumberedTrans(a: seq<Node>, b: seq<Node>, c: seq<Node>)
    requires Renumbered(a, b) && Renumbered(b, c)
    ensures Renumbered(a, c)
  {
  }

  /** `_set_suffix_indices` on node `id`, reached `height` symbols below the
      root: a childless node gets suffix index `size - height`; otherwise each
      child is numbered, `height` growing by the child's edge length.
      Children are taken in the order of `keys`. `fuel` bounds the depth. */
  function Number(nodes: seq<Node>, size: int, leafEnd: int, keys: seq<char>,
                  id: nat, height: int, fuel: nat): (r: Result<seq<Node>>)
    requires ArenaOk(nodes) && id < |nodes|
    ensures r.Ok? ==> Renumbered(nodes, r.value) && ArenaOk(r.value)
    ensures r.Ok? && nodes[id].children == map[] ==> r.value[id].suffixIndex == size - height
    decreases fuel, 0, 0
  {
    if nodes[id].children == map[] then
      Ok(nodes[id := nodes[id].(suffixIndex := size - height)])
    else if fuel == 0 then Err(DepthExceeded(id))
    else NumberChildren(nodes, size, leafEnd, keys, nodes[id].children, keys, height, fuel - 1)
  }

  /** The loop of `_set_suffix_indices` over the children in `kids` whose
      keys are in `todo`. */
  function NumberChildren(nodes: seq<Node>, size: int, leafEnd: int, keys: seq<char>,
                          kids: map<char, nat>, todo: seq<char>, height: int, fuel: nat): (r: Result<seq<Node>>)
    requires ArenaOk(nodes)
    requires forall c | c in kids :: kids[c] < |nodes|
    ensures r.Ok? ==> Renumbered(nodes, r.value) && ArenaOk(r.value)
    decreases fuel, 1, |todo|
  {
    if todo == [] then Ok(nodes)
    else if todo[0] !in kids then NumberChildren(nodes, size, leafEnd, keys, kids, todo[1..], height, fuel)
    else
      var child := kids[todo[0]];
      match Number(nodes, size, leafEnd, keys, child, height + EdgeLength(nodes[child], leafEnd), fuel)
      case Err(f) => Err(f)
      case Ok(nodes') =>
        var r := NumberChildren(nodes', size, leafEnd, keys, kids, todo[1..], height, fuel);
        if r.Ok? then RenumberedTrans(nodes, nodes', r.value); r else r
  }

  /** Renumbering leaves keeps a builder valid and its open leaves as they
      were. */
  lemma RenumberedValid(b: Builder, nodes: seq<Node>)
    requires Valid(b) && Renumbered(b.nodes, nodes) && ArenaOk(nodes)
    ensures Valid(b.(nodes := nodes))
    ensures OpenCount(nodes) == OpenCount(b.nodes)
  {
    OpenCountSameEnds(b.nodes, nodes);
  }

  /** `SuffixTree(text)`: prepare the text, run one phase per position, then
      number the leaves from the root, whose height is 0. */
  function Build(input: string): (r: Result<Builder>)
    ensures r.Ok? ==> Valid(r.value) && r.value.text == WithSentinel(input)
    ensures r.Ok? ==> r.value.leafEnd == r.value.size - 1
    ensures r.Ok? ==> OpenCount(r.value.nodes) + r.value.remaining == r.value.size
  {
    var b := Init(input);
    match Phases(b, 0)
    case Err(f) => Err(f)
    case Ok(built) =>
      match Number(built.nodes, built.size, built.leafEnd, Alphabet(built.text),
                   Root, 0, |built.nodes|)
      case Err(f) => Err(f)
      case Ok(numbered) =>
        RenumberedValid(built, numbered);
        Ok(built.(nodes := numbered))
  }
}

=== FILE: ukkonen_numbering.dfy ===
/** What `_set_suffix_indices` computes, stated without running it: in an
    arena where every node has at most one parent and the root none, and
    whose child symbols are all among the keys, numbering from a node the
    root reaches gives every childless node below it the suffix index
    `size - height - d`, where d is the total length of the edges on the way
    down to it, and leaves every node outside that subtree as it was. The
    fuel `Build` passes, the arena's size, is always enough, so there the
    numbering never fails. The arena the phases build is such a tree with
    every node reached from the root, so every leaf is numbered. */
module UkkonenNumbering {
  import opened SentinelText
  import opened UkkonenSuffixTree
  import opened UkkonenPaths

  // ---------------------------------------------------------------------------
  // Paths

  /** The node `path[i]` hangs from: `id` for the first step, otherwise the
      step before. */
  function ParentOn(id: nat, path: seq<nat>, i: nat): nat
    requires i < |path|
  {
    if i == 0 then id else path[i - 1]
  }

  /** Total length of the edges along `path`: how far below `id` its last
      node sits. */
  function PathHeight(nodes: seq<Node>, leafEnd: int, id: nat, path: seq<nat>): int
    requires IsPath(nodes, id, path)
    decreases |path|
  {
    if path == [] then 0
    else
      assert IsPath(nodes, path[0], path[1..]);
      EdgeLength(nodes[path[0]], leafEnd) + PathHeight(nodes, leafEnd, path[0], path[1..])
  }

  /** `path` goes down from `id` to a childless node. */
  predicate LeafPath(nodes: seq<Node>, id: nat, path: seq<nat>) {
    && IsPath(nodes, id, path)
    && Last(id, path) < |nodes|
    && nodes[Last(id, path)].children == map[]
  }

  /** A path is a path all the way: every step is a child of the one before,
      and every node on it, the last included, is in the arena. */
  lemma {:induction false} PathSteps(nodes: seq<Node>, id: nat, path: seq<nat>)
    requires IsPath(nodes, id, path)
    ensures forall i | 0 <= i < |path| :: path[i] < |nodes|
    ensures forall i | 0 <= i < |path| :: path[i] in nodes[ParentOn(id, path, i)].children.Values
    ensures Last(id, path) < |nodes|
    decreases |path|
  {
    if path != [] {
      PathSteps(nodes, path[0], path[1..]);
      forall i | 1 <= i < |path|
        ensures path[i] < |nodes| && ParentOn(id, path, i) < |nodes|
        ensures path[i] in nodes[ParentOn(id, path, i)].children.Values
      {
        assert path[i] == path[1..][i - 1];
        assert ParentOn(id, path, i) == ParentOn(path[0], path[1..], i - 1);
      }
      assert Last(id, path) == Last(path[0], path[1..]);
    }
  }

  /** Two paths join into one exactly when the second starts where the first
      ends; the joined path ends where the second does and is as high as the
      two together. */
  lemma {:induction false} PathJoin(nodes: seq<Node>, leafEnd: int, id: nat, p: seq<nat>, q: seq<nat>)
    ensures IsPath(nodes, id, p + q) <==> IsPath(nodes, id, p) && IsPath(nodes, Last(id, p), q)
    ensures Last(id, p + q) == Last(Last(id, p), q)
    ensures IsPath(nodes, id, p + q) ==>
      PathHeight(nodes, leafEnd, id, p + q) == PathHeight(nodes, leafEnd, id, p) + PathHeight(nodes, leafEnd, Last(id, p), q)
    decreases |p|
  {
    if p != [] {
      assert (p + q)[0] == p[0];
      assert (p + q)[1..] == p[1..] + q;
      PathJoin(nodes, leafEnd, p[0], p[1..], q);
    } else {
      assert p + q == q;
    }
  }

  /** A path that is not empty is a first step to a child followed by a
      path from that child. */
  lemma PathTail(nodes: seq<Node>, leafEnd: int, id: nat, p: seq<nat>)
    requires IsPath(nodes, id, p) && p != []
    ensures p[0] in nodes[id].children.Values && IsPath(nodes, p[0], p[1..])
    ensures Last(id, p) == Last(p[0], p[1..])
    ensures PathHeight(nodes, leafEnd, id, p) == EdgeLength(nodes[p[0]], leafEnd) + PathHeight(nodes, leafEnd, p[0], p[1..])
    ensures LeafPath(nodes, id, p) == LeafPath(nodes, p[0], p[1..])
  {
  }

  /** The first `n` steps of a path are a path to the `n`-th node. */
  lemma PathPrefix(nodes: seq<Node>, id: nat, path: seq<nat>, n: nat)
    requires IsPath(nodes, id, path) && n <= |path|
    ensures IsPath(nodes, id, path[..n])
    ensures n > 0 ==> Last(id, path[..n]) == path[n - 1]
    ensures n < |path| ==> Last(id, path[..n]) == ParentOn(id, path, n)
  {
    PathJoin(nodes, 0, id, path[..n], path[n..]);
    assert path[..n] + path[n..] == path;
  }

  // ---------------------------------------------------------------------------
  // Trees

  /** Every child in the arena is a node other than the root. */
  lemma ChildNotRoot(nodes: seq<Node>, u: nat, v: nat)
    requires ArenaOk(nodes) && u < |nodes| && v in nodes[u].children.Values
    ensures Root < v < |nodes|
  {
    var c :| c in nodes[u].children && nodes[u].children[c] == v;
  }

  /** With unique parents a node hangs from one parent only. */
  lemma OneParent(nodes: seq<Node>, u: nat, w: nat, v: nat)
    requires UniqueParents(nodes) && u < |nodes| && w < |nodes|
    requires v in nodes[u].children.Values && v in nodes[w].children.Values
    ensures u == w
  {
    var c :| c in nodes[u].children && nodes[u].children[c] == v;
    var d :| d in nodes[w].children && nodes[w].children[d] == v;
  }

  /** A path down from the root that is not empty ends at a child: the last
      step hangs from the end of the path one step shorter. */
  lemma LastStep(nodes: seq<Node>, p: seq<nat>)
    requires ArenaOk(nodes) && IsPath(nodes, Root, p) && p != []
    ensures IsPath(nodes, Root, p[..|p| - 1]) && p == p[..|p| - 1] + [Last(Root, p)]
    ensures Last(Root, p[..|p| - 1]) < |nodes|
    ensures Last(Root, p) in nodes[Last(Root, p[..|p| - 1])].children.Values
    ensures Root < Last(Root, p) < |nodes|
  {
    var i := |p| - 1;
    var q := p[..i];
    PathSteps(nodes, Root, p);
    PathPrefix(nodes, Root, p, i);
    assert p == q + [p[i]];
    var u := ParentOn(Root, p, i);
    assert Last(Root, q) == u && u < |nodes|;
    assert p[i] in nodes[u].children.Values;
    ChildNotRoot(nodes, u, p[i]);
  }

  /** With unique parents there is at most one way down from the root to each node. */
  lemma {:induction false} RootPathUnique(nodes: seq<Node>, p: seq<nat>, q: seq<nat>)
    requires ArenaOk(nodes) && UniqueParents(nodes)
    requires IsPath(nodes, Root, p) && IsPath(nodes, Root, q)
    ensures Last(Root, p) == Last(Root, q) ==> p == q
    decreases |p|
  {
    if p != [] {
      LastStep(nodes, p);
    }
    if q != [] {
      LastStep(nodes, q);
    }
    if p != [] && q != [] && Last(Root, p) == Last(Root, q) {
      var p', q' := p[..|p| - 1], q[..|q| - 1];
      OneParent(nodes, Last(Root, p'), Last(Root, q'), Last(Root, p));
      RootPathUnique(nodes, p', q');
    }
  }

  /** No node appears twice on a path down from the root, and the root not
      at all. */
  lemma RootPathDistinct(nodes: seq<Node>, p: seq<nat>)
    requires ArenaOk(nodes) && UniqueParents(nodes) && IsPath(nodes, Root, p)
    ensures forall i | 0 <= i < |p| :: Root < p[i] < |nodes|
    ensures forall i, j | 0 <= i < j < |p| :: p[i] != p[j]
  {
    PathSteps(nodes, Root, p);
    forall i | 0 <= i < |p|
      ensures Root < p[i] < |nodes|
    {
      ChildNotRoot(nodes, ParentOn(Root, p, i), p[i]);
    }
    forall i, j | 0 <= i < j < |p|
      ensures p[i] != p[j]
    {
      PathPrefix(nodes, Root, p, i + 1);
      PathPrefix(nodes, Root, p, j + 1);
      RootPathUnique(nodes, p[..i + 1], p[..j + 1]);
    }
  }

  /** A sequence of distinct numbers, all in `lo..hi`, is at most `hi - lo`
      long. */
  lemma {:induction false} DistinctBound(s: seq<nat>, lo: nat, hi: nat)
    requires lo <= hi
    requires forall i | 0 <= i < |s| :: lo <= s[i] < hi
    requires forall i, j | 0 <= i < j < |s| :: s[i] != s[j]
    ensures |s| <= hi - lo
    decreases hi - lo
  {
    if s != [] {
      assert lo <= s[0] < hi;
      if k :| 0 <= k < |s| && s[k] == hi - 1 {
        var t := s[..k] + s[k + 1..];
        assert forall i | 0 <= i < |t| :: t[i] == s[if i < k then i else i + 1];
        DistinctBound(t, lo, hi - 1);
      } else {
        DistinctBound(s, lo, hi - 1);
      }
    }
  }

  /** A path down from the root is shorter than the arena. */
  lemma RootPathShort(nodes: seq<Node>, p: seq<nat>)
    requires ArenaOk(nodes) && UniqueParents(nodes) && IsPath(nodes, Root, p)
    ensures |p| < |nodes|
  {
    RootPathDistinct(nodes, p);
    DistinctBound(p, Root + 1, |nodes|);
  }

  /** A subtree lies inside the subtree of its parent. */
  lemma BelowChild(nodes: seq<Node>, pid: nat, c: char, k: nat)
    requires pid < |nodes| && c in nodes[pid].children
    ensures Below(nodes, nodes[pid].children[c], k) ==> Below(nodes, pid, k)
  {
    var kc := nodes[pid].children[c];
    if Below(nodes, kc, k) {
      var p :| IsPath(nodes, kc, p) && Last(kc, p) == k;
      PathJoin(nodes, 0, pid, [kc], p);
      assert IsPath(nodes, pid, [kc] + p) && Last(pid, [kc] + p) == k;
    }
  }

  /** With unique parents the subtrees of two children of one node share no node. */
  lemma SiblingsDisjoint(nodes: seq<Node>, r: seq<nat>, pid: nat, c: char, d: char, k: nat)
    requires ArenaOk(nodes) && UniqueParents(nodes)
    requires IsPath(nodes, Root, r) && Last(Root, r) == pid && pid < |nodes|
    requires c in nodes[pid].children && d in nodes[pid].children
    ensures Below(nodes, nodes[pid].children[c], k) && Below(nodes, nodes[pid].children[d], k) ==> c == d
  {
    var kc, kd := nodes[pid].children[c], nodes[pid].children[d];
    if Below(nodes, kc, k) && Below(nodes, kd, k) {
      var p1 :| IsPath(nodes, kc, p1) && Last(kc, p1) == k;
      var p2 :| IsPath(nodes, kd, p2) && Last(kd, p2) == k;
      PathJoin(nodes, 0, pid, [kc], p1);
      PathJoin(nodes, 0, pid, [kd], p2);
      PathJoin(nodes, 0, Root, r, [kc] + p1);
      PathJoin(nodes, 0, Root, r, [kd] + p2);
      RootPathUnique(nodes, r + ([kc] + p1), r + ([kd] + p2));
      assert (r + ([kc] + p1))[|r|] == kc && (r + ([kd] + p2))[|r|] == kd;
    }
  }

  // ---------------------------------------------------------------------------
  // Renumbering keeps the shape

  /** Renumbering leaves keeps every path, its height and whether it ends at
      a childless node. */
  lemma {:induction false} RenumberedPath(a: seq<Node>, b: seq<Node>, leafEnd: int, id: nat, p: seq<nat>)
    requires Renumbered(a, b)
    ensures IsPath(a, id, p) == IsPath(b, id, p)
    ensures IsPath(a, id, p) ==> PathHeight(a, leafEnd, id, p) == PathHeight(b, leafEnd, id, p)
    ensures LeafPath(a, id, p) == LeafPath(b, id, p)
    decreases |p|
  {
    if id < |a| {
      assert b[id].children == a[id].children;
    }
    if Last(id, p) < |a| {
      assert b[Last(id, p)].children == a[Last(id, p)].children;
    }
    if p != [] {
      RenumberedPath(a, b, leafEnd, p[0], p[1..]);
      if p[0] < |a| {
        assert b[p[0]].start == a[p[0]].start && b[p[0]].end == a[p[0]].end;
      }
    }
  }

  lemma RenumberedBelow(a: seq<Node>, b: seq<Node>, id: nat, k: nat)
    requires Renumbered(a, b)
    ensures Below(a, id, k) == Below(b, id, k)
  {
    if Below(a, id, k) {
      var p :| IsPath(a, id, p) && Last(id, p) == k;
      RenumberedPath(a, b, 0, id, p);
    }
    if Below(b, id, k) {
      var p :| IsPath(b, id, p) && Last(id, p) == k;
      RenumberedPath(a, b, 0, id, p);
    }
  }

  /** Renumbering keeps the tree shape and the child symbols. */
  lemma RenumberedShape(a: seq<Node>, b: seq<Node>, keys: seq<char>)
    requires Renumbered(a, b)
    ensures KeysIn(a, keys) == KeysIn(b, keys)
    ensures UniqueParents(a) == UniqueParents(b)
    ensures Reached(a) == Reached(b)
  {
    assert forall k | 0 <= k < |a| :: b[k].children == a[k].children;
    SameChildrenShape(a, b, keys);
  }

  // ---------------------------------------------------------------------------
  // What the numbering computes

  /** Every childless node below `id` has in `out` the suffix index
      `size - height` less the edge lengths down to it. */
  ghost predicate LeavesNumbered(nodes: seq<Node>, out: seq<Node>, size: int, leafEnd: int, id: nat, height: int) {
    && |out| == |nodes|
    && forall p | LeafPath(nodes, id, p) ::
         out[Last(id, p)].suffixIndex == size - height - PathHeight(nodes, leafEnd, id, p)
  }

  /** Every node outside the subtree of `id` is in `out` as it was. */
  ghost predicate OutsideUnchanged(nodes: seq<Node>, out: seq<Node>, id: nat) {
    && |out| == |nodes|
    && forall k | 0 <= k < |nodes| && !Below(nodes, id, k) :: out[k] == nodes[k]
  }

  /** Node `k` lies below a child of `pid` whose symbol is in `todo`. */
  ghost predicate PendingBelow(nodes: seq<Node>, pid: nat, todo: seq<char>, k: nat)
    requires pid < |nodes|
  {
    exists c | c in todo && c in nodes[pid].children :: Below(nodes, nodes[pid].children[c], k)
  }

  lemma RenumberedLeaves(a: seq<Node>, b: seq<Node>, out: seq<Node>, size: int, leafEnd: int, id: nat, height: int)
    requires Renumbered(a, b)
    ensures LeavesNumbered(a, out, size, leafEnd, id, height) == LeavesNumbered(b, out, size, leafEnd, id, height)
  {
    forall p
      ensures LeafPath(a, id, p) == LeafPath(b, id, p)
      ensures LeafPath(a, id, p) ==> PathHeight(a, leafEnd, id, p) == PathHeight(b, leafEnd, id, p)
    {
      RenumberedPath(a, b, leafEnd, id, p);
    }
  }

  /** `_set_suffix_indices` from node `id`, reached from the root along `r`:
      in an arena with unique parents whose child symbols are among the
      distinct `keys`, with at least as much fuel as there are nodes not on
      `r`, the numbering succeeds, gives every childless node below `id` the index
      `size - height` less its depth below `id`, and changes nothing outside
      the subtree of `id`. */
  lemma {:induction false} NumberSpec(nodes: seq<Node>, size: int, leafEnd: int, keys: seq<char>,
                                      id: nat, height: int, fuel: nat, r: seq<nat>)
    requires ArenaOk(nodes) && UniqueParents(nodes) && KeysIn(nodes, keys)
    requires forall i, j | 0 <= i < j < |keys| :: keys[i] != keys[j]
    requires id < |nodes| && IsPath(nodes, Root, r) && Last(Root, r) == id
    requires |nodes| <= |r| + fuel
    ensures Number(nodes, size, leafEnd, keys, id, height, fuel).Ok?
    ensures LeavesNumbered(nodes, Number(nodes, size, leafEnd, keys, id, height, fuel).value, size, leafEnd, id, height)
    ensures OutsideUnchanged(nodes, Number(nodes, size, leafEnd, keys, id, height, fuel).value, id)
    decreases fuel, 0, 0, 1
  {
    if nodes[id].children == map[] {
      NumberLeaf(nodes, size, leafEnd, keys, id, height, fuel);
    } else {
      NumberInner(nodes, size, leafEnd, keys, id, height, fuel, r);
    }
  }

  /** `NumberSpec` at a childless node: only that node gets an index. */
  lemma NumberLeaf(nodes: seq<Node>, size: int, leafEnd: int, keys: seq<char>,
                   id: nat, height: int, fuel: nat)
    requires ArenaOk(nodes) && id < |nodes| && nodes[id].children == map[]
    ensures Number(nodes, size, leafEnd, keys, id, height, fuel).Ok?
    ensures LeavesNumbered(nodes, Number(nodes, size, leafEnd, keys, id, height, fuel).value, size, leafEnd, id, height)
    ensures OutsideUnchanged(nodes, Number(nodes, size, leafEnd, keys, id, height, fuel).value, id)
  {
    assert IsPath(nodes, id, []) && Last(id, []) == id;
    var out := nodes[id := nodes[id].(suffixIndex := size - height)];
    assert Number(nodes, size, leafEnd, keys, id, height, fuel) == Ok(out);
    forall p | LeafPath(nodes, id, p)
      ensures out[Last(id, p)].suffixIndex == size - height - PathHeight(nodes, leafEnd, id, p)
    {
      assert p == [];
    }
  }

  /** `NumberSpec` at a node with children: the loop over all of them. */
  lemma {:induction false} NumberInner(nodes: seq<Node>, size: int, leafEnd: int, keys: seq<char>,
                                       id: nat, height: int, fuel: nat, r: seq<nat>)
    requires ArenaOk(nodes) && UniqueParents(nodes) && KeysIn(nodes, keys)
    requires forall i, j | 0 <= i < j < |keys| :: keys[i] != keys[j]
    requires id < |nodes| && IsPath(nodes, Root, r) && Last(Root, r) == id
    requires |nodes| <= |r| + fuel
    requires nodes[id].children != map[]
    ensures Number(nodes, size, leafEnd, keys, id, height, fuel).Ok?
    ensures LeavesNumbered(nodes, Number(nodes, size, leafEnd, keys, id, height, fuel).value, size, leafEnd, id, height)
    ensures OutsideUnchanged(nodes, Number(nodes, size, leafEnd, keys, id, height, fuel).value, id)
    decreases fuel, 0, 0, 0
  {
    var kids := nodes[id].children;
    var c :| c in kids;
    PathJoin(nodes, 0, Root, r, [kids[c]]);
    assert IsPath(nodes, id, [kids[c]]);
    RootPathShort(nodes, r + [kids[c]]);
    NumberUnfold(nodes, size, leafEnd, keys, id, height, fuel);
    NumberFromChildren(nodes, size, leafEnd, keys, id, height, fuel - 1, r);
  }

  /** At a node with children, `Number` is the loop over all of them. */
  lemma NumberUnfold(nodes: seq<Node>, size: int, leafEnd: int, keys: seq<char>,
                     id: nat, height: int, fuel: nat)
    requires ArenaOk(nodes) && id < |nodes| && nodes[id].children != map[] && fuel > 0
    ensures Number(nodes, size, leafEnd, keys, id, height, fuel)
         == NumberChildren(nodes, size, leafEnd, keys, nodes[id].children, keys, height, fuel - 1)
  {
  }

  /** Numbering every child of `id` numbers the leaves below `id` and leaves
      the rest of the arena alone. */
  lemma {:induction false} NumberFromChildren(nodes: seq<Node>, size: int, leafEnd: int, keys: seq<char>,
                                              id: nat, height: int, fuel: nat, r: seq<nat>)
    requires ArenaOk(nodes) && UniqueParents(nodes) && KeysIn(nodes, keys)
    requires forall i, j | 0 <= i < j < |keys| :: keys[i] != keys[j]
    requires id < |nodes| && IsPath(nodes, Root, r) && Last(Root, r) == id
    requires |nodes| <= |r| + 1 + fuel && nodes[id].children != map[]
    ensures var o := NumberChildren(nodes, size, leafEnd, keys, nodes[id].children, keys, height, fuel);
      && o.Ok?
      && LeavesNumbered(nodes, o.value, size, leafEnd, id, height)
      && OutsideUnchanged(nodes, o.value, id)
    decreases fuel, 2, 0, 0
  {
    NumberChildrenSpec(nodes, size, leafEnd, keys, id, keys, height, fuel, r);
    var kids := nodes[id].children;
    var out := NumberChildren(nodes, size, leafEnd, keys, kids, keys, height, fuel).value;
    forall p | LeafPath(nodes, id, p)
      ensures out[Last(id, p)].suffixIndex == size - height - PathHeight(nodes, leafEnd, id, p)
    {
      assert p != [];
      PathTail(nodes, leafEnd, id, p);
      var c :| c in kids && kids[c] == p[0];
    }
    forall k | 0 <= k < |nodes| && !Below(nodes, id, k)
      ensures out[k] == nodes[k]
    {
      forall c | c in keys && c in kids
        ensures !Below(nodes, kids[c], k)
      {
        BelowChild(nodes, id, c, k);
      }
    }
  }

  /** The loop of `_set_suffix_indices` over the children of `pid` whose
      symbols are in the distinct `todo`: it succeeds, numbers the leaves
      below each of those children, and changes nothing outside their
      subtrees. */
  lemma {:induction false} NumberChildrenSpec(nodes: seq<Node>, size: int, leafEnd: int, keys: seq<char>,
                                              pid: nat, todo: seq<char>, height: int, fuel: nat, r: seq<nat>)
    requires ArenaOk(nodes) && UniqueParents(nodes) && KeysIn(nodes, keys)
    requires forall i, j | 0 <= i < j < |keys| :: keys[i] != keys[j]
    requires pid < |nodes| && IsPath(nodes, Root, r) && Last(Root, r) == pid
    requires |nodes| <= |r| + 1 + fuel
    requires forall i, j | 0 <= i < j < |todo| :: todo[i] != todo[j]
    ensures var o := NumberChildren(nodes, size, leafEnd, keys, nodes[pid].children, todo, height, fuel);
      && o.Ok?
      && (forall c | c in todo && c in nodes[pid].children ::
            LeavesNumbered(nodes, o.value, size, leafEnd, nodes[pid].children[c],
                           height + EdgeLength(nodes[nodes[pid].children[c]], leafEnd)))
      && (forall k | 0 <= k < |nodes| && !PendingBelow(nodes, pid, todo, k) :: o.value[k] == nodes[k])
    decreases fuel, 1, |todo|, 1
  {
    var kids := nodes[pid].children;
    if todo == [] {
    } else if todo[0] !in kids {
      NumberChildrenSpec(nodes, size, leafEnd, keys, pid, todo[1..], height, fuel, r);
      forall c | c in todo && c in kids
        ensures c in todo[1..]
      {
        var i :| 0 <= i < |todo| && todo[i] == c;
        assert todo[1..][i - 1] == c;
      }
    } else {
      NumberChildrenSplit(nodes, size, leafEnd, keys, pid, todo, height, fuel, r);
    }
  }

  /** `NumberChildrenSpec` when the first symbol of `todo` names a child:
      that child is numbered first, then the others on the result. */
  lemma {:induction false} NumberChildrenSplit(nodes: seq<Node>, size: int, leafEnd: int, keys: seq<char>,
                                               pid: nat, todo: seq<char>, height: int, fuel: nat, r: seq<nat>)
    requires ArenaOk(nodes) && UniqueParents(nodes) && KeysIn(nodes, keys)
    requires forall i, j | 0 <= i < j < |keys| :: keys[i] != keys[j]
    requires pid < |nodes| && IsPath(nodes, Root, r) && Last(Root, r) == pid
    requires |nodes| <= |r| + 1 + fuel
    requires forall i, j | 0 <= i < j < |todo| :: todo[i] != todo[j]
    requires todo != [] && todo[0] in nodes[pid].children
    ensures var o := NumberChildren(nodes, size, leafEnd, keys, nodes[pid].children, todo, height, fuel);
      && o.Ok?
      && (forall c | c in todo && c in nodes[pid].children ::
            LeavesNumbered(nodes, o.value, size, leafEnd, nodes[pid].children[c],
                           height + EdgeLength(nodes[nodes[pid].children[c]], leafEnd)))
      && (forall k | 0 <= k < |nodes| && !PendingBelow(nodes, pid, todo, k) :: o.value[k] == nodes[k])
    decreases fuel, 1, |todo|, 0
  {
    var kids := nodes[pid].children;
    var c := todo[0];
    var kc := kids[c];
    var h := height + EdgeLength(nodes[kc], leafEnd);
    PathJoin(nodes, 0, Root, r, [kc]);
    assert IsPath(nodes, pid, [kc]);
    NumberSpec(nodes, size, leafEnd, keys, kc, h, fuel, r + [kc]);
    var n1 := Number(nodes, size, leafEnd, keys, kc, h, fuel).value;
    RenumberedShape(nodes, n1, keys);
    RenumberedPath(nodes, n1, leafEnd, Root, r);
    assert n1[pid].children == kids;
    NumberChildrenSpec(n1, size, leafEnd, keys, pid, todo[1..], height, fuel, r);
    NumberChildrenFirst(nodes, size, leafEnd, keys, kids, todo, height, fuel, kc, h, n1);
    var out := NumberChildren(n1, size, leafEnd, keys, kids, todo[1..], height, fuel).value;
    SplitKeepsFirst(nodes, n1, out, size, leafEnd, pid, todo, h, r);
    SplitNumbersRest(nodes, n1, out, size, leafEnd, pid, todo, height);
    SplitFrame(nodes, n1, out, pid, todo);
  }

  /** One pass of the loop over the children: the first child in `todo` is
      numbered, then the loop goes on over the rest. */
  lemma NumberChildrenFirst(nodes: seq<Node>, size: int, leafEnd: int, keys: seq<char>,
                            kids: map<char, nat>, todo: seq<char>, height: int, fuel: nat,
                            child: nat, h: int, n1: seq<Node>)
    requires ArenaOk(nodes) && forall c | c in kids :: kids[c] < |nodes|
    requires todo != [] && todo[0] in kids && child == kids[todo[0]]
    requires h == height + EdgeLength(nodes[child], leafEnd)
    requires Number(nodes, size, leafEnd, keys, child, h, fuel) == Ok(n1)
    ensures ArenaOk(n1) && |n1| == |nodes|
    ensures NumberChildren(nodes, size, leafEnd, keys, kids, todo, height, fuel)
         == NumberChildren(n1, size, leafEnd, keys, kids, todo[1..], height, fuel)
  {
  }

  /** The leaves below the first child keep, through the numbering of the
      later children, the indices the first child's numbering gave them. */
  lemma SplitKeepsFirst(nodes: seq<Node>, n1: seq<Node>, out: seq<Node>, size: int, leafEnd: int,
                        pid: nat, todo: seq<char>, h: int, r: seq<nat>)
    requires ArenaOk(nodes) && UniqueParents(nodes) && Renumbered(nodes, n1)
    requires pid < |nodes| && IsPath(nodes, Root, r) && Last(Root, r) == pid
    requires forall i, j | 0 <= i < j < |todo| :: todo[i] != todo[j]
    requires todo != [] && todo[0] in nodes[pid].children
    requires LeavesNumbered(nodes, n1, size, leafEnd, nodes[pid].children[todo[0]], h)
    requires |out| == |n1|
    requires forall k | 0 <= k < |n1| && !PendingBelow(n1, pid, todo[1..], k) :: out[k] == n1[k]
    ensures LeavesNumbered(nodes, out, size, leafEnd, nodes[pid].children[todo[0]], h)
  {
    var kids := nodes[pid].children;
    var kc := kids[todo[0]];
    assert n1[pid].children == kids;
    forall p | LeafPath(nodes, kc, p)
      ensures out[Last(kc, p)].suffixIndex == size - h - PathHeight(nodes, leafEnd, kc, p)
    {
      var l := Last(kc, p);
      assert Below(nodes, kc, l);
      forall d | d in todo[1..] && d in kids
        ensures !Below(n1, kids[d], l)
      {
        var j :| 0 <= j < |todo[1..]| && todo[1..][j] == d;
        assert todo[j + 1] == d;
        SiblingsDisjoint(nodes, r, pid, todo[0], d, l);
        RenumberedBelow(nodes, n1, kids[d], l);
      }
    }
  }

  /** The leaves below the later children get the indices the numbering of
      those children gives them. */
  lemma SplitNumbersRest(nodes: seq<Node>, n1: seq<Node>, out: seq<Node>, size: int, leafEnd: int,
                         pid: nat, todo: seq<char>, height: int)
    requires ArenaOk(nodes) && Renumbered(nodes, n1) && pid < |nodes|
    requires todo != [] && todo[0] in nodes[pid].children
    requires LeavesNumbered(nodes, out, size, leafEnd, nodes[pid].children[todo[0]],
                            height + EdgeLength(nodes[nodes[pid].children[todo[0]]], leafEnd))
    requires forall c | c in todo[1..] && c in n1[pid].children ::
      LeavesNumbered(n1, out, size, leafEnd, n1[pid].children[c],
                     height + EdgeLength(n1[n1[pid].children[c]], leafEnd))
    ensures forall c | c in todo && c in nodes[pid].children ::
      LeavesNumbered(nodes, out, size, leafEnd, nodes[pid].children[c],
                     height + EdgeLength(nodes[nodes[pid].children[c]], leafEnd))
  {
    var kids := nodes[pid].children;
    assert n1[pid].children == kids;
    forall c | c in todo && c in kids
      ensures LeavesNumbered(nodes, out, size, leafEnd, kids[c], height + EdgeLength(nodes[kids[c]], leafEnd))
    {
      if c != todo[0] {
        var i :| 0 <= i < |todo| && todo[i] == c;
        assert todo[1..][i - 1] == c;
        assert n1[kids[c]].start == nodes[kids[c]].start && n1[kids[c]].end == nodes[kids[c]].end;
        RenumberedLeaves(nodes, n1, out, size, leafEnd, kids[c], height + EdgeLength(nodes[kids[c]], leafEnd));
      }
    }
  }

  /** A node below none of the children in `todo` is left alone by the first
      child's numbering and by the later children's. */
  lemma SplitFrame(nodes: seq<Node>, n1: seq<Node>, out: seq<Node>, pid: nat, todo: seq<char>)
    requires Renumbered(nodes, n1) && pid < |nodes| && todo != [] && todo[0] in nodes[pid].children
    requires OutsideUnchanged(nodes, n1, nodes[pid].children[todo[0]])
    requires |out| == |n1|
    requires forall k | 0 <= k < |n1| && !PendingBelow(n1, pid, todo[1..], k) :: out[k] == n1[k]
    ensures forall k | 0 <= k < |nodes| && !PendingBelow(nodes, pid, todo, k) :: out[k] == nodes[k]
  {
    var kids := nodes[pid].children;
    assert n1[pid].children == kids;
    forall k | 0 <= k < |nodes| && !PendingBelow(nodes, pid, todo, k)
      ensures out[k] == nodes[k]
    {
      assert !Below(nodes, kids[todo[0]], k);
      forall d | d in todo[1..] && d in kids
        ensures !Below(n1, kids[d], k)
      {
        assert d in todo;
        RenumberedBelow(nodes, n1, kids[d], k);
      }
    }
  }

  // ---------------------------------------------------------------------------
  // The built tree

  /** The arena `__init__` sets up, the root alone, is a tree. */
  lemma InitShape(input: string)
    ensures Shaped(Init(input))
  {
    var b := Init(input);
    assert forall id | 0 <= id < |b.nodes| :: b.nodes[id].children == map[];
    assert IsPath(b.nodes, Root, []) && Last(Root, []) == Root;
  }

  /** The phases leave an arena which is a tree, every node reached from
      the root, and whose child symbols are all in the text's alphabet. */
  lemma BuiltShape(input: string)
    ensures var r := Phases(Init(input), 0);
      r.Ok? ==> Shaped(r.value) && KeysIn(r.value.nodes, Alphabet(r.value.text))
  {
    InitShape(input);
    PhasesShape(Init(input), 0);
  }

  /** In an arena the root reaches entirely, a numbering from the root
      reaches every childless node: each has a path down from the root and
      carries `size` less the total length of that path's edges. */
  lemma NumberedEveryLeaf(nodes: seq<Node>, out: seq<Node>, size: int, leafEnd: int)
    requires Reached(nodes) && LeavesNumbered(nodes, out, size, leafEnd, Root, 0)
    ensures forall k | 0 <= k < |nodes| && nodes[k].children == map[] ::
      exists p :: (LeafPath(nodes, Root, p) && Last(Root, p) == k
        && out[k].suffixIndex == size - PathHeight(nodes, leafEnd, Root, p))
  {
    forall k | 0 <= k < |nodes| && nodes[k].children == map[]
      ensures exists p :: (LeafPath(nodes, Root, p) && Last(Root, p) == k
        && out[k].suffixIndex == size - PathHeight(nodes, leafEnd, Root, p))
    {
      assert Below(nodes, Root, k);
      var p :| IsPath(nodes, Root, p) && Last(Root, p) == k;
      assert LeafPath(nodes, Root, p);
    }
  }

  /** `SuffixTree(text)` fails only if a phase fails: numbering the leaves of
      the tree the phases built always succeeds. Whenever it succeeds, the
      result is a tree, and every childless node reached from the root along
      edges whose lengths add up to d carries the suffix index `size - d`. */
  lemma BuildNumbersPaths(input: string)
    ensures Build(input).Ok? <==> Phases(Init(input), 0).Ok?
    ensures Build(input).Ok? ==> Shaped(Build(input).value)
    ensures Build(input).Ok? ==>
      var t := Build(input).value;
      LeavesNumbered(t.nodes, t.nodes, t.size, t.leafEnd, Root, 0)
  {
    var b := Init(input);
    if Phases(b, 0).Ok? {
      var built := Phases(b, 0).value;
      BuiltShape(input);
      var keys := Alphabet(built.text);
      assert IsPath(built.nodes, Root, []) && Last(Root, []) == Root;
      NumberSpec(built.nodes, built.size, built.leafEnd, keys, Root, 0, |built.nodes|, []);
      var numbered := Number(built.nodes, built.size, built.leafEnd, keys, Root, 0, |built.nodes|).value;
      assert Build(input) == Ok(built.(nodes := numbered));
      RenumberedShape(built.nodes, numbered, built.text);
      RenumberedLeaves(built.nodes, numbered, numbered, built.size, built.leafEnd, Root, 0);
    }
  }

  /** `SuffixTree(text)` fails only if a phase fails, and otherwise answers
      a tree, every node reached from the root, in which every childless
      node carries the suffix index `size - d`, where d is the total length
      of the edges on its path from the root: the position in the text where
      the suffix spelled by that path starts. */
  lemma BuildNumbersLeaves(input: string)
    ensures Build(input).Ok? <==> Phases(Init(input), 0).Ok?
    ensures Build(input).Ok? ==> Shaped(Build(input).value)
    ensures Build(input).Ok? ==>
      var t := Build(input).value;
      forall k | 0 <= k < |t.nodes| && t.nodes[k].children == map[] ::
        exists p :: (LeafPath(t.nodes, Root, p) && Last(Root, p) == k
          && t.nodes[k].suffixIndex == t.size - PathHeight(t.nodes, t.leafEnd, Root, p))
  {
    BuildNumbersPaths(input);
    if Build(input).Ok? {
      var t := Build(input).value;
      NumberedEveryLeaf(t.nodes, t.nodes, t.size, t.leafEnd);
    }
  }
}

=== FILE: ukkonen_paths.dfy ===
/** What a finished Ukkonen arena means as a suffix tree: the edge labels it
    spells, the walk that reads a string down from a node, and the property
    every suffix-tree builder must deliver — suffix k of the text is spelled
    by a root-to-leaf path ending at the leaf numbered k, and every leaf is
    reached that way. The last lemma ties that property to the leaf set the
    naive builder is proved to produce. */
module UkkonenPaths {
  import opened SentinelText
  import opened UkkonenSuffixTree
  import NaiveSuffixTree
  import NaiveSuffixTreeProofs

  /** The edge into `n` lies inside the text (it may be empty). */
  predicate EdgeInText(text: string, n: Node, leafEnd: int) {
    0 <= n.start <= EndValue(n, leafEnd) + 1 <= |text|
  }

  /** The label of the edge into `n`: text[start..end], both inclusive. */
  function EdgeText(text: string, n: Node, leafEnd: int): (s: string)
    requires EdgeInText(text, n, leafEnd)
    ensures |s| == EdgeLength(n, leafEnd)
    ensures forall i | 0 <= i < |s| :: s[i] == text[n.start + i]
  {
    text[n.start..EndValue(n, leafEnd) + 1]
  }

  /** A split cuts the edge into `next` after `depth` symbols without
      changing what the path spells: the new closed node's label followed by
      the shortened child's label is the old label. The new node's two
      children are keyed by the leaf's symbol and the child's. */
  lemma SplitKeepsLabel(text: string, nodes: seq<Node>, leafEnd: int, parent: nat, edgeChar: char,
                        next: nat, depth: int, pos: int, leafChar: char, c: char)
    requires parent < |nodes| && next < |nodes| && leafChar != c
    requires EdgeInText(text, nodes[next], leafEnd) && 0 <= depth <= EdgeLength(nodes[next], leafEnd)
    ensures var r := SplitNodes(nodes, parent, edgeChar, next, depth, pos, leafChar, c);
      && EdgeInText(text, r[|nodes|], leafEnd) && EdgeInText(text, r[next], leafEnd)
      && EdgeText(text, r[|nodes|], leafEnd) + EdgeText(text, r[next], leafEnd) == EdgeText(text, nodes[next], leafEnd)
      && r[|nodes|].children.Keys == {leafChar, c} && |r[|nodes|].children| == 2
  {
    var r := SplitNodes(nodes, parent, edgeChar, next, depth, pos, leafChar, c);
    var st := nodes[next].start;
    var en := EndValue(nodes[next], leafEnd);
    assert EdgeText(text, r[|nodes|], leafEnd) == text[st..st + depth];
    assert EdgeText(text, r[next], leafEnd) == text[st + depth..en + 1];
    assert text[st..en + 1] == text[st..st + depth] + text[st + depth..en + 1];
  }

  /** Every node of `path` is in the arena and its edge inside the text. */
  predicate PathInText(text: string, nodes: seq<Node>, leafEnd: int, path: seq<nat>) {
    forall i | 0 <= i < |path| :: path[i] < |nodes| && EdgeInText(text, nodes[path[i]], leafEnd)
  }

  /** The string a path spells: its edge labels one after another. */
  function Spell(text: string, nodes: seq<Node>, leafEnd: int, path: seq<nat>): (s: string)
    requires PathInText(text, nodes, leafEnd, path)
    ensures path == [] ==> s == []
    ensures path != [] ==> |s| >= |EdgeText(text, nodes[path[0]], leafEnd)|
  {
    if path == [] then []
    else EdgeText(text, nodes[path[0]], leafEnd) + Spell(text, nodes, leafEnd, path[1..])
  }

  /** Reads `s` down from `id`: at each node take the child keyed by the next
      symbol and consume its whole edge label. The walk succeeds only when `s`
      runs out exactly at a node, and answers the nodes it passed through. */
  function Locate(text: string, nodes: seq<Node>, leafEnd: int, id: nat, s: string): Option<seq<nat>>
    requires ArenaOk(nodes) && id < |nodes|
    decreases |s|
  {
    if s == [] then Some([])
    else if s[0] !in nodes[id].children then None
    else
      var child := nodes[id].children[s[0]];
      if !EdgeInText(text, nodes[child], leafEnd) then None
      else
        var e := EdgeText(text, nodes[child], leafEnd);
        if e == [] || |s| < |e| || s[..|e|] != e then None
        else
          match Locate(text, nodes, leafEnd, child, s[|e|..])
          case None => None
          case Some(p) => Some([child] + p)
  }

  /** A successful walk is a downward path from `id` that spells exactly `s`,
      and it is empty only for the empty string. */
  lemma {:induction false} LocateSpells(text: string, nodes: seq<Node>, leafEnd: int, id: nat, s: string)
    requires ArenaOk(nodes) && id < |nodes|
    ensures var r := Locate(text, nodes, leafEnd, id, s);
      r.Some? ==>
        && IsPath(nodes, id, r.value) && PathInText(text, nodes, leafEnd, r.value)
        && Spell(text, nodes, leafEnd, r.value) == s
        && (r.value == [] <==> s == [])
    decreases |s|
  {
    if s != [] && s[0] in nodes[id].children {
      var child := nodes[id].children[s[0]];
      if EdgeInText(text, nodes[child], leafEnd) {
        var e := EdgeText(text, nodes[child], leafEnd);
        if e != [] && |e| <= |s| && s[..|e|] == e {
          LocateSpells(text, nodes, leafEnd, child, s[|e|..]);
          assert s == e + s[|e|..];
        }
      }
    }
  }

  /** A node of the finished tree other than the root, with no children. */
  predicate IsLeaf(b: Builder, id: int) {
    0 < id < |b.nodes| && b.nodes[id].children == map[]
  }

  /** Suffix `k` of the text is spelled from the root down to a leaf, and
      that leaf is numbered `k`. */
  predicate SuffixAtLeaf(b: Builder, k: int)
    requires ArenaOk(b.nodes) && Root < |b.nodes| && 0 <= k <= |b.text|
  {
    match Locate(b.text, b.nodes, b.leafEnd, Root, b.text[k..])
    case None => false
    case Some(p) => p != [] && IsLeaf(b, p[|p| - 1]) && b.nodes[p[|p| - 1]].suffixIndex == k
  }

  /** Leaf `id` is numbered with a position of the text, and the suffix from
      there reads down to `id` itself. */
  predicate LeafReached(b: Builder, id: int)
    requires ArenaOk(b.nodes) && IsLeaf(b, id)
  {
    var k := b.nodes[id].suffixIndex;
    && 0 <= k < |b.text|
    && match Locate(b.text, b.nodes, b.leafEnd, Root, b.text[k..])
       case None => false
       case Some(p) => p != [] && p[|p| - 1] == id
  }

  /** The arena is a suffix tree of its text: every suffix ends at its own
      leaf and every leaf is the end of its suffix. */
  predicate IsSuffixTree(b: Builder) {
    && ArenaOk(b.nodes) && Root < |b.nodes|
    && (forall k | 0 <= k < |b.text| :: SuffixAtLeaf(b, k))
    && (forall id | 0 < id < |b.nodes| && IsLeaf(b, id) :: LeafReached(b, id))
  }

  /** The leaves of the finished tree as (suffix index, path label) pairs,
      the same shape as the naive builder's leaf set. */
  ghost function LeafLabels(b: Builder): set<(int, string)> {
    set id | 0 < id < |b.nodes| && IsLeaf(b, id) && 0 <= b.nodes[id].suffixIndex <= |b.text| ::
      (b.nodes[id].suffixIndex, b.text[b.nodes[id].suffixIndex..])
  }

  /** In a suffix tree no two leaves carry the same suffix index: both would
      be where the same walk ends. */
  lemma LeavesNumberedOnce(b: Builder, i: int, j: int)
    requires IsSuffixTree(b) && IsLeaf(b, i) && IsLeaf(b, j)
    requires b.nodes[i].suffixIndex == b.nodes[j].suffixIndex
    ensures i == j
  {
    assert LeafReached(b, i) && LeafReached(b, j);
  }

  /** The label of each leaf is what the root-to-leaf walk spells. */
  lemma LeafLabelSpelled(b: Builder, id: int)
    requires IsSuffixTree(b) && IsLeaf(b, id)
    ensures var k := b.nodes[id].suffixIndex;
      0 <= k < |b.text|
      && exists p :: Locate(b.text, b.nodes, b.leafEnd, Root, b.text[k..]) == Some(p)
                     && p != [] && p[|p| - 1] == id
                     && IsPath(b.nodes, Root, p) && PathInText(b.text, b.nodes, b.leafEnd, p)
                     && Spell(b.text, b.nodes, b.leafEnd, p) == b.text[k..]
  {
    assert LeafReached(b, id);
    LocateSpells(b.text, b.nodes, b.leafEnd, Root, b.text[b.nodes[id].suffixIndex..]);
  }

  /** A suffix tree has exactly the leaves the naive builder is proved to
      build for the same text: one per suffix, labelled by that suffix. */
  lemma LeafLabelsAreSuffixes(b: Builder)
    requires IsSuffixTree(b)
    ensures LeafLabels(b) == NaiveSuffixTree.SuffixLeaves(b.text, |b.text|)
  {
    forall p | p in NaiveSuffixTree.SuffixLeaves(b.text, |b.text|)
      ensures p in LeafLabels(b)
    {
      var k := p.0;
      assert SuffixAtLeaf(b, k);
      var path := Locate(b.text, b.nodes, b.leafEnd, Root, b.text[k..]).value;
      var id := path[|path| - 1];
      assert IsLeaf(b, id) && p == (b.nodes[id].suffixIndex, b.text[b.nodes[id].suffixIndex..]);
    }
    forall p | p in LeafLabels(b)
      ensures p in NaiveSuffixTree.SuffixLeaves(b.text, |b.text|)
    {
      var id :| IsLeaf(b, id) && 0 <= b.nodes[id].suffixIndex <= |b.text|
                && p == (b.nodes[id].suffixIndex, b.text[b.nodes[id].suffixIndex..]);
      assert LeafReached(b, id);
    }
  }

  /** Any suffix-tree arena over the prepared text of `input` has the leaves
      of the naive builder's tree for `input`: same suffix indices, same
      path labels. */
  lemma AgreesWithNaive(input: string, b: Builder)
    requires SentinelOnlyAtEnd(WithSentinel(input))
    requires b.text == WithSentinel(input) && IsSuffixTree(b)
    ensures var t := NaiveSuffixTree.Build(input);
      NaiveSuffixTree.WellFormed(t.text, t.root)
      && LeafLabels(b) == NaiveSuffixTree.Leaves(t.text, t.root)
  {
    NaiveSuffixTreeProofs.BuildLeaves(input);
    LeafLabelsAreSuffixes(b);
  }
}

=== FILE: ukkonen_runs.dfy ===
/** What Ukkonen's builder answers on five inputs, "banana", "aaaa",
    "abcabcabc", "aabaa" and "abaaab", derived pass by pass from its
    definition. Together they take every branch of the phase loop: a leaf
    hung at the active node, with and without a node waiting for its suffix
    link; a split, whose new node becomes the target of the previous split's
    link; rule 3 ending a phase early, both at the root and below it, where
    it links the node still waiting; suffixes carried over several phases;
    walk-downs past a whole edge; and the active point moving on along a
    suffix link or, at the root, by shortening.

    For an input such as "banana" the lemmas are, in order:
    - `BananaStart`, the state `Init` builds, and one constant per pass of the
      inner loop: `Banana<p>_<k>` is the state after the k-th pass of phase
      p, `Banana<p>` the state when phase p ends;
    - `Banana<p>Step<k>` (with its `...Arena`, `...Link`, `...Walk`, `...Op`
      and `...Edge` parts): one pass of `Step` from the state before it to
      the state after it, each node update spelled out;
    - `BananaPhase<p>` and the `BananaFrom<p>` chain: `Extend` and `Phases`;
    - `BananaAlphabet<i>`, `BananaLeaf<id>`, `BananaChildren<id>_<j>` (with
      `...Skip` for the symbols that are no child's key) and
      `BananaNumber<id>`: the depth-first numbering of the leaves, child by
      child in alphabet order;
    - `BananaBuild`: `Build("banana")` answers `BananaTree`;
    - `BananaWalk<k>_<d>` and `BananaSuffix<k>`: suffix k read down from the
      root ends at the leaf numbered k;
    - `BananaIsSuffixTree` and `BananaMatchesNaive`: the tree is a suffix tree
      of "banana$", and its leaves are the naive builder's leaves.

    Every state is a literal, so each lemma only evaluates the model's
    functions on known values; none of them assumes anything about the
    builder beyond its definition. */
module UkkonenRuns {
  import opened SentinelText
  import opened UkkonenSuffixTree
  import opened UkkonenPaths
  import NaiveSuffixTree

  const BananaStart: Builder :=
    Builder("banana$", 7,
      [Node(-1, Closed(-1), map[], 0, -1)],
      0, -1, 0, 0, -1, None)

  const Banana0: Builder :=
    Builder("banana$", 7,
      [Node(-1, Closed(-1), map['b' := 1], 0, -1),
      Node(0, Open, map[], 0, -1)],
      0, 0, 0, 0, 0, None)

  lemma Banana0Step1Arena()
    ensures Attach(BananaStart.nodes, 0, 'b', 0) == Banana0.nodes
  {
    var x := Attach(BananaStart.nodes, 0, 'b', 0);
    var y := Banana0.nodes;
    assert x[0] == y[0];
    assert x[1] == y[1];
  }

  lemma Banana0Step1Op()
    ensures AddLeaf(BananaStart.(leafEnd := 0, remaining := 1, lastNewNode := None).(activeEdge := 0), 0, 'b') == BananaStart.(leafEnd := 0, remaining := 1, lastNewNode := None).(activeEdge := 0).(nodes := Banana0.nodes, lastNewNode := None)
  {
    Banana0Step1Arena();
  }

  lemma Banana0Step1Advance()
    ensures Advance(BananaStart.(leafEnd := 0, remaining := 1, lastNewNode := None).(activeEdge := 0).(nodes := Banana0.nodes, lastNewNode := None), 0) == Banana0
  {
  }

  lemma Banana0Step1()
    ensures Step(BananaStart.(leafEnd := 0, remaining := 1, lastNewNode := None), 0) == Next(Banana0)
  {
    assert CharAt(Banana0.text, 0) == Ok('b');
    assert 'b' !in BananaStart.nodes[0].children;
    Banana0Step1Op();
    Banana0Step1Advance();
  }

  lemma BananaPhase0()
    ensures Extend(BananaStart, 0) == Ok(Banana0)
  {
    Banana0Step1();
  }

  const Banana1: Builder :=
    Builder("banana$", 7,
      [Node(-1, Closed(-1), map['a' := 2, 'b' := 1], 0, -1),
      Node(0, Open, map[], 0, -1),
      Node(1, Open, map[], 0, -1)],
      0, 1, 0, 0, 1, None)

  lemma Banana1Step1Arena()
    ensures Attach(Banana0.nodes, 0, 'a', 1) == Banana1.nodes
  {
    var x := Attach(Banana0.nodes, 0, 'a', 1);
    var y := Banana1.nodes;
    assert x[0] == y[0];
    assert x[1] == y[1];
    assert x[2] == y[2];
  }

  lemma Banana1Step1Op()
    ensures AddLeaf(Banana0.(leafEnd := 1, remaining := 1, lastNewNode := None).(activeEdge := 1), 1, 'a') == Banana0.(leafEnd := 1, remaining := 1, lastNewNode := None).(activeEdge := 1).(nodes := Banana1.nodes, lastNewNode := None)
  {
    Banana1Step1Arena();
  }

  lemma Banana1Step1Advance()
    ensures Advance(Banana0.(leafEnd := 1, remaining := 1, lastNewNode := None).(activeEdge := 1).(nodes := Banana1.nodes, lastNewNode := None), 1) == Banana1
  {
  }

  lemma Banana1Step1()
    ensures Step(Banana0.(leafEnd := 1, remaining := 1, lastNewNode := None), 1) == Next(Banana1)
  {
    assert CharAt(Banana1.text, 1) == Ok('a');
    assert 'a' !in Banana0.nodes[0].children;
    Banana1Step1Op();
    Banana1Step1Advance();
  }

  lemma BananaPhase1()
    ensures Extend(Banana0, 1) == Ok(Banana1)
  {
    Banana1Step1();
  }

  const Banana2: Builder :=
    Builder("banana$", 7,
      [Node(-1, Closed(-1), map['a' := 2, 'b' := 1, 'n' := 3], 0, -1),
      Node(0, Open, map[], 0, -1),
      Node(1, Open, map[], 0, -1),
      Node(2, Open, map[], 0, -1)],
      0, 2, 0, 0, 2, None)

  lemma Banana2Step1Arena()
    ensures Attach(Banana1.nodes, 0, 'n', 2) == Banana2.nodes
  {
    var x := Attach(Banana1.nodes, 0, 'n', 2);
    var y := Banana2.nodes;
    assert x[0] == y[0];
    assert x[1] == y[1];
    assert x[2] == y[2];
    assert x[3] == y[3];
  }

  lemma Banana2Step1Op()
    ensures AddLeaf(Banana1.(leafEnd := 2, remaining := 1, lastNewNode := None).(activeEdge := 2), 2, 'n') == Banana1.(leafEnd := 2, remaining := 1, lastNewNode := None).(activeEdge := 2).(nodes := Banana2.nodes, lastNewNode := None)
  {
    Banana2Step1Arena();
  }

  lemma Banana2Step1Advance()
    ensures Advance(Banana1.(leafEnd := 2, remaining := 1, lastNewNode := None).(activeEdge := 2).(nodes := Banana2.nodes, lastNewNode := None), 2) == Banana2
  {
  }

  lemma Banana2Step1()
    ensures Step(Banana1.(leafEnd := 2, remaining := 1, lastNewNode := None), 2) == Next(Banana2)
  {
    assert CharAt(Banana2.text, 2) == Ok('n');
    assert 'n' !in Banana1.nodes[0].children;
    Banana2Step1Op();
    Banana2Step1Advance();
  }

  lemma BananaPhase2()
    ensures Extend(Banana1, 2) == Ok(Banana2)
  {
    Banana2Step1();
  }

  const Banana3: Builder :=
    Builder("banana$", 7,
      [Node(-1, Closed(-1), map['a' := 2, 'b' := 1, 'n' := 3], 0, -1),
      Node(0, Open, map[], 0, -1),
      Node(1, Open, map[], 0, -1),
      Node(2, Open, map[], 0, -1)],
      0, 3, 1, 1, 3, None)

  lemma Banana3Step1Op()
    ensures Rule3(Banana2.(leafEnd := 3, remaining := 1, lastNewNode := None).(activeEdge := 3)) == Banana3
  {
  }

  lemma Banana3Step1Walk()
    ensures WalkDown(Banana2.(leafEnd := 3, remaining := 1, lastNewNode := None).(activeEdge := 3), 2) == (false, Banana2.(leafEnd := 3, remaining := 1, lastNewNode := None).(activeEdge := 3))
  {
  }

  lemma Banana3Step1Edge()
    ensures StepOnEdge(Banana2.(leafEnd := 3, remaining := 1, lastNewNode := None).(activeEdge := 3), 3, 'a') == Stop(Banana3)
  {
    assert Banana2.nodes[0].children['a'] == 2;
    Banana3Step1Walk();
    assert CharAt(Banana3.text, 1) == Ok('a');
    Banana3Step1Op();
    EdgeRule3(Banana2.(leafEnd := 3, remaining := 1, lastNewNode := None).(activeEdge := 3), 3, 'a');
  }

  lemma Banana3Step1()
    ensures Step(Banana2.(leafEnd := 3, remaining := 1, lastNewNode := None), 3) == Stop(Banana3)
  {
    assert CharAt(Banana3.text, 3) == Ok('a');
    assert 'a' in Banana2.nodes[0].children;
    Banana3Step1Edge();
  }

  lemma BananaPhase3()
    ensures Extend(Banana2, 3) == Ok(Banana3)
  {
    Banana3Step1();
  }

  const Banana4: Builder :=
    Builder("banana$", 7,
      [Node(-1, Closed(-1), map['a' := 2, 'b' := 1, 'n' := 3], 0, -1),
      Node(0, Open, map[], 0, -1),
      Node(1, Open, map[], 0, -1),
      Node(2, Open, map[], 0, -1)],
      0, 3, 2, 2, 4, None)

  lemma Banana4Step1Op()
    ensures Rule3(Banana3.(leafEnd := 4, remaining := 2, lastNewNode := None)) == Banana4
  {
  }

  lemma Banana4Step1Walk()
    ensures WalkDown(Banana3.(leafEnd := 4, remaining := 2, lastNewNode := None), 2) == (false, Banana3.(leafEnd := 4, remaining := 2, lastNewNode := None))
  {
  }

  lemma Banana4Step1Edge()
    ensures StepOnEdge(Banana3.(leafEnd := 4, remaining := 2, lastNewNode := None), 4, 'a') == Stop(Banana4)
  {
    assert Banana3.nodes[0].children['a'] == 2;
    Banana4Step1Walk();
    assert CharAt(Banana4.text, 2) == Ok('n');
    Banana4Step1Op();
    EdgeRule3(Banana3.(leafEnd := 4, remaining := 2, lastNewNode := None), 4, 'a');
  }

  lemma Banana4Step1()
    ensures Step(Banana3.(leafEnd := 4, remaining := 2, lastNewNode := None), 4) == Stop(Banana4)
  {
    assert CharAt(Banana4.text, 3) == Ok('a');
    assert 'a' in Banana3.nodes[0].children;
    Banana4Step1Edge();
  }

  lemma BananaPhase4()
    ensures Extend(Banana3, 4) == Ok(Banana4)
  {
    Banana4Step1();
  }

  const Banana5: Builder :=
    Builder("banana$", 7,
      [Node(-1, Closed(-1), map['a' := 2, 'b' := 1, 'n' := 3], 0, -1),
      Node(0, Open, map[], 0, -1),
      Node(1, Open, map[], 0, -1),
      Node(2, Open, map[], 0, -1)],
      0, 3, 3, 3, 5, None)

  lemma Banana5Step1Op()
    ensures Rule3(Banana4.(leafEnd := 5, remaining := 3, lastNewNode := None)) == Banana5
  {
  }

  lemma Banana5Step1Walk()
    ensures WalkDown(Banana4.(leafEnd := 5, remaining := 3, lastNewNode := None), 2) == (false, Banana4.(leafEnd := 5, remaining := 3, lastNewNode := None))
  {
  }

  lemma Banana5Step1Edge()
    ensures StepOnEdge(Banana4.(leafEnd := 5, remaining := 3, lastNewNode := None), 5, 'a') == Stop(Banana5)
  {
    assert Banana4.nodes[0].children['a'] == 2;
    Banana5Step1Walk();
    assert CharAt(Banana5.text, 3) == Ok('a');
    Banana5Step1Op();
    EdgeRule3(Banana4.(leafEnd := 5, remaining := 3, lastNewNode := None), 5, 'a');
  }

  lemma Banana5Step1()
    ensures Step(Banana4.(leafEnd := 5, remaining := 3, lastNewNode := None), 5) == Stop(Banana5)
  {
    assert CharAt(Banana5.text, 3) == Ok('a');
    assert 'a' in Banana4.nodes[0].children;
    Banana5Step1Edge();
  }

  lemma BananaPhase5()
    ensures Extend(Banana4, 5) == Ok(Banana5)
  {
    Banana5Step1();
  }

  const Banana6_1: Builder :=
    Builder("banana$", 7,
      [Node(-1, Closed(-1), map['a' := 4, 'b' := 1, 'n' := 3], 0, -1),
      Node(0, Open, map[], 0, -1),
      Node(4, Open, map[], 0, -1),
      Node(2, Open, map[], 0, -1),
      Node(1, Closed(3), map['$' := 5, 'n' := 2], 0, -1),
      Node(6, Open, map[], 0, -1)],
      0, 4, 2, 3, 6, Some(4))

  lemma Banana6Step1Arena()
    ensures SplitNodes(Banana5.nodes, 0, 'a', 2, 3, 6, '$', 'n') == Banana6_1.nodes
  {
    var x := SplitNodes(Banana5.nodes, 0, 'a', 2, 3, 6, '$', 'n');
    var y := Banana6_1.nodes;
    assert x[0] == y[0];
    assert x[1] == y[1];
    assert x[2] == y[2];
    assert x[3] == y[3];
    assert x[4] == y[4];
    assert x[5] == y[5];
  }

  lemma Banana6Step1Op()
    ensures Split(Banana5.(leafEnd := 6, remaining := 4, lastNewNode := None), 6, 'a', 2, 'n') == Banana5.(leafEnd := 6, remaining := 4, lastNewNode := None).(nodes := Banana6_1.nodes, lastNewNode := Some(4))
  {
    Banana6Step1Arena();
  }

  lemma Banana6Step1Advance()
    ensures Advance(Banana5.(leafEnd := 6, remaining := 4, lastNewNode := None).(nodes := Banana6_1.nodes, lastNewNode := Some(4)), 6) == Banana6_1
  {
  }

  lemma Banana6Step1Walk()
    ensures WalkDown(Banana5.(leafEnd := 6, remaining := 4, lastNewNode := None), 2) == (false, Banana5.(leafEnd := 6, remaining := 4, lastNewNode := None))
  {
  }

  lemma Banana6Step1Edge()
    ensures StepOnEdge(Banana5.(leafEnd := 6, remaining := 4, lastNewNode := None), 6, 'a') == Next(Banana6_1)
  {
    assert Banana5.nodes[0].children['a'] == 2;
    Banana6Step1Walk();
    assert CharAt(Banana6_1.text, 4) == Ok('n');
    Banana6Step1Op();
    Banana6Step1Advance();
    EdgeSplit(Banana5.(leafEnd := 6, remaining := 4, lastNewNode := None), 6, 'a');
  }

  lemma Banana6Step1()
    ensures Step(Banana5.(leafEnd := 6, remaining := 4, lastNewNode := None), 6) == Next(Banana6_1)
  {
    assert CharAt(Banana6_1.text, 3) == Ok('a');
    assert 'a' in Banana5.nodes[0].children;
    Banana6Step1Edge();
  }

  const Banana6_2: Builder :=
    Builder("banana$", 7,
      [Node(-1, Closed(-1), map['a' := 4, 'b' := 1, 'n' := 6], 0, -1),
      Node(0, Open, map[], 0, -1),
      Node(4, Open, map[], 0, -1),
      Node(4, Open, map[], 0, -1),
      Node(1, Closed(3), map['$' := 5, 'n' := 2], 6, -1),
      Node(6, Open, map[], 0, -1),
      Node(2, Closed(3), map['$' := 7, 'n' := 3], 0, -1),
      Node(6, Open, map[], 0, -1)],
      0, 5, 1, 2, 6, Some(6))

  lemma Banana6Step2Arena()
    ensures SplitNodes(Banana6_1.nodes, 0, 'n', 3, 2, 6, '$', 'n') == Banana6_2.nodes[4 := Banana6_2.nodes[4].(link := 0)]
  {
    var x := SplitNodes(Banana6_1.nodes, 0, 'n', 3, 2, 6, '$', 'n');
    var y := Banana6_2.nodes[4 := Banana6_2.nodes[4].(link := 0)];
    assert x[0] == y[0];
    assert x[1] == y[1];
    assert x[2] == y[2];
    assert x[3] == y[3];
    assert x[4] == y[4];
    assert x[5] == y[5];
    assert x[6] == y[6];
    assert x[7] == y[7];
  }

  lemma Banana6Step2Link()
    ensures WithLink(Banana6_2.nodes[4 := Banana6_2.nodes[4].(link := 0)], 4, 6) == Banana6_2.nodes
  {
    var z := WithLink(Banana6_2.nodes[4 := Banana6_2.nodes[4].(link := 0)], 4, 6);
    assert z[0] == Banana6_2.nodes[0];
    assert z[1] == Banana6_2.nodes[1];
    assert z[2] == Banana6_2.nodes[2];
    assert z[3] == Banana6_2.nodes[3];
    assert z[4] == Banana6_2.nodes[4];
    assert z[5] == Banana6_2.nodes[5];
    assert z[6] == Banana6_2.nodes[6];
    assert z[7] == Banana6_2.nodes[7];
  }

  lemma Banana6Step2Op()
    ensures Split(Banana6_1, 6, 'n', 3, 'n') == Banana6_1.(nodes := Banana6_2.nodes, lastNewNode := Some(6))
  {
    Banana6Step2Arena();
    Banana6Step2Link();
  }

  lemma Banana6Step2Advance()
    ensures Advance(Banana6_1.(nodes := Banana6_2.nodes, lastNewNode := Some(6)), 6) == Banana6_2
  {
  }

  lemma Banana6Step2Walk()
    ensures WalkDown(Banana6_1, 3) == (false, Banana6_1)
  {
  }

  lemma Banana6Step2Edge()
    ensures StepOnEdge(Banana6_1, 6, 'n') == Next(Banana6_2)
  {
    assert Banana6_1.nodes[0].children['n'] == 3;
    Banana6Step2Walk();
    assert CharAt(Banana6_2.text, 4) == Ok('n');
    Banana6Step2Op();
    Banana6Step2Advance();
    EdgeSplit(Banana6_1, 6, 'n');
  }

  lemma Banana6Step2()
    ensures Step(Banana6_1, 6) == Next(Banana6_2)
  {
    assert CharAt(Banana6_2.text, 4) == Ok('n');
    assert 'n' in Banana6_1.nodes[0].children;
    Banana6Step2Edge();
  }

  const Banana6_3: Builder :=
    Builder("banana$", 7,
      [Node(-1, Closed(-1), map['a' := 8, 'b' := 1, 'n' := 6], 0, -1),
      Node(0, Open, map[], 0, -1),
      Node(4, Open, map[], 0, -1),
      Node(4, Open, map[], 0, -1),
      Node(2, Closed(3), map['$' := 5, 'n' := 2], 6, -1),
      Node(6, Open, map[], 0, -1),
      Node(2, Closed(3), map['$' := 7, 'n' := 3], 8, -1),
      Node(6, Open, map[], 0, -1),
      Node(1, Closed(1), map['$' := 9, 'n' := 4], 0, -1),
      Node(6, Open, map[], 0, -1)],
      0, 6, 0, 1, 6, Some(8))

  lemma Banana6Step3Arena()
    ensures SplitNodes(Banana6_2.nodes, 0, 'a', 4, 1, 6, '$', 'n') == Banana6_3.nodes[6 := Banana6_3.nodes[6].(link := 0)]
  {
    var x := SplitNodes(Banana6_2.nodes, 0, 'a', 4, 1, 6, '$', 'n');
    var y := Banana6_3.nodes[6 := Banana6_3.nodes[6].(link := 0)];
    assert x[0] == y[0];
    assert x[1] == y[1];
    assert x[2] == y[2];
    assert x[3] == y[3];
    assert x[4] == y[4];
    assert x[5] == y[5];
    assert x[6] == y[6];
    assert x[7] == y[7];
    assert x[8] == y[8];
    assert x[9] == y[9];
  }

  lemma Banana6Step3Link()
    ensures WithLink(Banana6_3.nodes[6 := Banana6_3.nodes[6].(link := 0)], 6, 8) == Banana6_3.nodes
  {
    var z := WithLink(Banana6_3.nodes[6 := Banana6_3.nodes[6].(link := 0)], 6, 8);
    assert z[0] == Banana6_3.nodes[0];
    assert z[1] == Banana6_3.nodes[1];
    assert z[2] == Banana6_3.nodes[2];
    assert z[3] == Banana6_3.nodes[3];
    assert z[4] == Banana6_3.nodes[4];
    assert z[5] == Banana6_3.nodes[5];
    assert z[6] == Banana6_3.nodes[6];
    assert z[7] == Banana6_3.nodes[7];
    assert z[8] == Banana6_3.nodes[8];
    assert z[9] == Banana6_3.nodes[9];
  }

  lemma Banana6Step3Op()
    ensures Split(Banana6_2, 6, 'a', 4, 'n') == Banana6_2.(nodes := Banana6_3.nodes, lastNewNode := Some(8))
  {
    Banana6Step3Arena();
    Banana6Step3Link();
  }

  lemma Banana6Step3Advance()
    ensures Advance(Banana6_2.(nodes := Banana6_3.nodes, lastNewNode := Some(8)), 6) == Banana6_3
  {
  }

  lemma Banana6Step3Walk()
    ensures WalkDown(Banana6_2, 4) == (false, Banana6_2)
  {
  }

  lemma Banana6Step3Edge()
    ensures StepOnEdge(Banana6_2, 6, 'a') == Next(Banana6_3)
  {
    assert Banana6_2.nodes[0].children['a'] == 4;
    Banana6Step3Walk();
    assert CharAt(Banana6_3.text, 2) == Ok('n');
    Banana6Step3Op();
    Banana6Step3Advance();
    EdgeSplit(Banana6_2, 6, 'a');
  }

  lemma Banana6Step3()
    ensures Step(Banana6_2, 6) == Next(Banana6_3)
  {
    assert CharAt(Banana6_3.text, 5) == Ok('a');
    assert 'a' in Banana6_2.nodes[0].children;
    Banana6Step3Edge();
  }

  const Banana6: Builder :=
    Builder("banana$", 7,
      [Node(-1, Closed(-1), map['$' := 10, 'a' := 8, 'b' := 1, 'n' := 6], 0, -1),
      Node(0, Open, map[], 0, -1),
      Node(4, Open, map[], 0, -1),
      Node(4, Open, map[], 0, -1),
      Node(2, Closed(3), map['$' := 5, 'n' := 2], 6, -1),
      Node(6, Open, map[], 0, -1),
      Node(2, Closed(3), map['$' := 7, 'n' := 3], 8, -1),
      Node(6, Open, map[], 0, -1),
      Node(1, Closed(1), map['$' := 9, 'n' := 4], 0, -1),
      Node(6, Open, map[], 0, -1),
      Node(6, Open, map[], 0, -1)],
      0, 6, 0, 0, 6, None)

  lemma Banana6Step4Arena()
    ensures Attach(Banana6_3.nodes, 0, '$', 6) == Banana6.nodes[8 := Banana6.nodes[8].(link := 0)]
  {
    var x := Attach(Banana6_3.nodes, 0, '$', 6);
    var y := Banana6.nodes[8 := Banana6.nodes[8].(link := 0)];
    assert x[0] == y[0];
    assert x[1] == y[1];
    assert x[2] == y[2];
    assert x[3] == y[3];
    assert x[4] == y[4];
    assert x[5] == y[5];
    assert x[6] == y[6];
    assert x[7] == y[7];
    assert x[8] == y[8];
    assert x[9] == y[9];
    assert x[10] == y[10];
  }

  lemma Banana6Step4Link()
    ensures WithLink(Banana6.nodes[8 := Banana6.nodes[8].(link := 0)], 8, 0) == Banana6.nodes
  {
    var z := WithLink(Banana6.nodes[8 := Banana6.nodes[8].(link := 0)], 8, 0);
    assert z[0] == Banana6.nodes[0];
    assert z[1] == Banana6.nodes[1];
    assert z[2] == Banana6.nodes[2];
    assert z[3] == Banana6.nodes[3];
    assert z[4] == Banana6.nodes[4];
    assert z[5] == Banana6.nodes[5];
    assert z[6] == Banana6.nodes[6];
    assert z[7] == Banana6.nodes[7];
    assert z[8] == Banana6.nodes[8];
    assert z[9] == Banana6.nodes[9];
    assert z[10] == Banana6.nodes[10];
  }

  lemma Banana6Step4Op()
    ensures AddLeaf(Banana6_3.(activeEdge := 6), 6, '$') == Banana6_3.(activeEdge := 6).(nodes := Banana6.nodes, lastNewNode := None)
  {
    Banana6Step4Arena();
    Banana6Step4Link();
  }

  lemma Banana6Step4Advance()
    ensures Advance(Banana6_3.(activeEdge := 6).(nodes := Banana6.nodes, lastNewNode := None), 6) == Banana6
  {
  }

  lemma Banana6Step4()
    ensures Step(Banana6_3, 6) == Next(Banana6)
  {
    assert CharAt(Banana6.text, 6) == Ok('$');
    assert '$' !in Banana6_3.nodes[0].children;
    Banana6Step4Op();
    Banana6Step4Advance();
  }

  lemma BananaPhase6()
    ensures Extend(Banana5, 6) == Ok(Banana6)
  {
    Banana6Step1();
    Banana6Step2();
    Banana6Step3();
    Banana6Step4();
  }

  const BananaIndexed1: seq<Node> :=
    [Node(-1, Closed(-1), map['$' := 10, 'a' := 8, 'b' := 1, 'n' := 6], 0, -1),
      Node(0, Open, map[], 0, 0),
      Node(4, Open, map[], 0, -1),
      Node(4, Open, map[], 0, -1),
      Node(2, Closed(3), map['$' := 5, 'n' := 2], 6, -1),
      Node(6, Open, map[], 0, -1),
      Node(2, Closed(3), map['$' := 7, 'n' := 3], 8, -1),
      Node(6, Open, map[], 0, -1),
      Node(1, Closed(1), map['$' := 9, 'n' := 4], 0, -1),
      Node(6, Open, map[], 0, -1),
      Node(6, Open, map[], 0, -1)]

  lemma BananaLeaf1()
    ensures Number(Banana6.nodes, 7, 6, "ban$", 1, 7, 10) == Ok(BananaIndexed1)
  {
    var x := Banana6.nodes[1 := Banana6.nodes[1].(suffixIndex := 0)];
    assert Banana6.nodes[1].children == map[];
    assert Number(Banana6.nodes, 7, 6, "ban$", 1, 7, 10) == Ok(x);
    assert x == BananaIndexed1;
  }

  const BananaIndexed2: seq<Node> :=
    [Node(-1, Closed(-1), map['$' := 10, 'a' := 8, 'b' := 1, 'n' := 6], 0, -1),
      Node(0, Open, map[], 0, 0),
      Node(4, Open, map[], 0, 1),
      Node(4, Open, map[], 0, -1),
      Node(2, Closed(3), map['$' := 5, 'n' := 2], 6, -1),
      Node(6, Open, map[], 0, -1),
      Node(2, Closed(3), map['$' := 7, 'n' := 3], 8, -1),
      Node(6, Open, map[], 0, -1),
      Node(1, Closed(1), map['$' := 9, 'n' := 4], 0, -1),
      Node(6, Open, map[], 0, -1),
      Node(6, Open, map[], 0, -1)]

  lemma BananaLeaf2()
    ensures Number(BananaIndexed1, 7, 6, "ban$", 2, 6, 8) == Ok(BananaIndexed2)
  {
    var x := BananaIndexed1[2 := BananaIndexed1[2].(suffixIndex := 1)];
    assert BananaIndexed1[2].children == map[];
    assert Number(BananaIndexed1, 7, 6, "ban$", 2, 6, 8) == Ok(x);
    assert x == BananaIndexed2;
  }

  const BananaIndexed3: seq<Node> :=
    [Node(-1, Closed(-1), map['$' := 10, 'a' := 8, 'b' := 1, 'n' := 6], 0, -1),
      Node(0, Open, map[], 0, 0),
      Node(4, Open, map[], 0, 1),
      Node(4, Open, map[], 0, -1),
      Node(2, Closed(3), map['$' := 5, 'n' := 2], 6, -1),
      Node(6, Open, map[], 0, 3),
      Node(2, Closed(3), map['$' := 7, 'n' := 3], 8, -1),
      Node(6, Open, map[], 0, -1),
      Node(1, Closed(1), map['$' := 9, 'n' := 4], 0, -1),
      Node(6, Open, map[], 0, -1),
      Node(6, Open, map[], 0, -1)]

  lemma BananaLeaf5()
    ensures Number(BananaIndexed2, 7, 6, "ban$", 5, 4, 8) == Ok(BananaIndexed3)
  {
    var x := BananaIndexed2[5 := BananaIndexed2[5].(suffixIndex := 3)];
    assert BananaIndexed2[5].children == map[];
    assert Number(BananaIndexed2, 7, 6, "ban$", 5, 4, 8) == Ok(x);
    assert x == BananaIndexed3;
  }

  lemma BananaChildren4_1()
    ensures NumberChildren(BananaIndexed2, 7, 6, "ban$", map['$' := 5, 'n' := 2], "$", 3, 8) == Ok(BananaIndexed3)
  {
    assert map['$' := 5, 'n' := 2]['$'] == 5;
    assert EdgeLength(BananaIndexed2[5], 6) == 1;
    assert "$"[1..] == "";
    BananaLeaf5();
  }

  lemma BananaChildren4_0()
    ensures NumberChildren(BananaIndexed1, 7, 6, "ban$", map['$' := 5, 'n' := 2], "n$", 3, 8) == Ok(BananaIndexed3)
  {
    assert map['$' := 5, 'n' := 2]['n'] == 2;
    assert EdgeLength(BananaIndexed1[2], 6) == 3;
    assert "n$"[1..] == "$";
    BananaLeaf2();
    BananaChildren4_1();
  }

  lemma BananaNumber4()
    ensures Number(BananaIndexed1, 7, 6, "ban$", 4, 3, 9) == Ok(BananaIndexed3)
  {
    assert BananaIndexed1[4].children == map['$' := 5, 'n' := 2];
    assert 'b' !in map['$' := 5, 'n' := 2];
    assert "ban$"[1..] == "an$";
    assert 'a' !in map['$' := 5, 'n' := 2];
    assert "an$"[1..] == "n$";
    BananaChildren4_0();
  }

  const BananaIndexed4: seq<Node> :=
    [Node(-1, Closed(-1), map['$' := 10, 'a' := 8, 'b' := 1, 'n' := 6], 0, -1),
      Node(0, Open, map[], 0, 0),
      Node(4, Open, map[], 0, 1),
      Node(4, Open, map[], 0, -1),
      Node(2, Closed(3), map['$' := 5, 'n' := 2], 6, -1),
      Node(6, Open, map[], 0, 3),
      Node(2, Closed(3), map['$' := 7, 'n' := 3], 8, -1),
      Node(6, Open, map[], 0, -1),
      Node(1, Closed(1), map['$' := 9, 'n' := 4], 0, -1),
      Node(6, Open, map[], 0, 5),
      Node(6, Open, map[], 0, -1)]

  lemma BananaLeaf9()
    ensures Number(BananaIndexed3, 7, 6, "ban$", 9, 2, 9) == Ok(BananaIndexed4)
  {
    var x := BananaIndexed3[9 := BananaIndexed3[9].(suffixIndex := 5)];
    assert BananaIndexed3[9].children == map[];
    assert Number(BananaIndexed3, 7, 6, "ban$", 9, 2, 9) == Ok(x);
    assert x == BananaIndexed4;
  }

  lemma BananaChildren8_1()
    ensures NumberChildren(BananaIndexed3, 7, 6, "ban$", map['$' := 9, 'n' := 4], "$", 1, 9) == Ok(BananaIndexed4)
  {
    assert map['$' := 9, 'n' := 4]['$'] == 9;
    assert EdgeLength(BananaIndexed3[9], 6) == 1;
    assert "$"[1..] == "";
    BananaLeaf9();
  }

  lemma BananaChildren8_0()
    ensures NumberChildren(BananaIndexed1, 7, 6, "ban$", map['$' := 9, 'n' := 4], "n$", 1, 9) == Ok(BananaIndexed4)
  {
    assert map['$' := 9, 'n' := 4]['n'] == 4;
    assert EdgeLength(BananaIndexed1[4], 6) == 2;
    assert "n$"[1..] == "$";
    BananaNumber4();
    BananaChildren8_1();
  }

  lemma BananaNumber8()
    ensures Number(BananaIndexed1, 7, 6, "ban$", 8, 1, 10) == Ok(BananaIndexed4)
  {
    assert BananaIndexed1[8].children == map['$' := 9, 'n' := 4];
    assert 'b' !in map['$' := 9, 'n' := 4];
    assert "ban$"[1..] == "an$";
    assert 'a' !in map['$' := 9, 'n' := 4];
    assert "an$"[1..] == "n$";
    BananaChildren8_0();
  }

  const BananaIndexed5: seq<Node> :=
    [Node(-1, Closed(-1), map['$' := 10, 'a' := 8, 'b' := 1, 'n' := 6], 0, -1),
      Node(0, Open, map[], 0, 0),
      Node(4, Open, map[], 0, 1),
      Node(4, Open, map[], 0, 2),
      Node(2, Closed(3), map['$' := 5, 'n' := 2], 6, -1),
      Node(6, Open, map[], 0, 3),
      Node(2, Closed(3), map['$' := 7, 'n' := 3], 8, -1),
      Node(6, Open, map[], 0, -1),
      Node(1, Closed(1), map['$' := 9, 'n' := 4], 0, -1),
      Node(6, Open, map[], 0, 5),
      Node(6, Open, map[], 0, -1)]

  lemma BananaLeaf3()
    ensures Number(BananaIndexed4, 7, 6, "ban$", 3, 5, 9) == Ok(BananaIndexed5)
  {
    var x := BananaIndexed4[3 := BananaIndexed4[3].(suffixIndex := 2)];
    assert BananaIndexed4[3].children == map[];
    assert Number(BananaIndexed4, 7, 6, "ban$", 3, 5, 9) == Ok(x);
    assert x == BananaIndexed5;
  }

  const BananaIndexed6: seq<Node> :=
    [Node(-1, Closed(-1), map['$' := 10, 'a' := 8, 'b' := 1, 'n' := 6], 0, -1),
      Node(0, Open, map[], 0, 0),
      Node(4, Open, map[], 0, 1),
      Node(4, Open, map[], 0, 2),
      Node(2, Closed(3), map['$' := 5, 'n' := 2], 6, -1),
      Node(6, Open, map[], 0, 3),
      Node(2, Closed(3), map['$' := 7, 'n' := 3], 8, -1),
      Node(6, Open, map[], 0, 4),
      Node(1, Closed(1), map['$' := 9, 'n' := 4], 0, -1),
      Node(6, Open, map[], 0, 5),
      Node(6, Open, map[], 0, -1)]

  lemma BananaLeaf7()
    ensures Number(BananaIndexed5, 7, 6, "ban$", 7, 3, 9) == Ok(BananaIndexed6)
  {
    var x := BananaIndexed5[7 := BananaIndexed5[7].(suffixIndex := 4)];
    assert BananaIndexed5[7].children == map[];
    assert Number(BananaIndexed5, 7, 6, "ban$", 7, 3, 9) == Ok(x);
    assert x == BananaIndexed6;
  }

  lemma BananaChildren6_1()
    ensures NumberChildren(BananaIndexed5, 7, 6, "ban$", map['$' := 7, 'n' := 3], "$", 2, 9) == Ok(BananaIndexed6)
  {
    assert map['$' := 7, 'n' := 3]['$'] == 7;
    assert EdgeLength(BananaIndexed5[7], 6) == 1;
    assert "$"[1..] == "";
    BananaLeaf7();
  }

  lemma BananaChildren6_0()
    ensures NumberChildren(BananaIndexed4, 7, 6, "ban$", map['$' := 7, 'n' := 3], "n$", 2, 9) == Ok(BananaIndexed6)
  {
    assert map['$' := 7, 'n' := 3]['n'] == 3;
    assert EdgeLength(BananaIndexed4[3], 6) == 3;
    assert "n$"[1..] == "$";
    BananaLeaf3();
    BananaChildren6_1();
  }

  lemma BananaNumber6()
    ensures Number(BananaIndexed4, 7, 6, "ban$", 6, 2, 10) == Ok(BananaIndexed6)
  {
    assert BananaIndexed4[6].children == map['$' := 7, 'n' := 3];
    assert 'b' !in map['$' := 7, 'n' := 3];
    assert "ban$"[1..] == "an$";
    assert 'a' !in map['$' := 7, 'n' := 3];
    assert "an$"[1..] == "n$";
    BananaChildren6_0();
  }

  const BananaNumbered: seq<Node> :=
    [Node(-1, Closed(-1), map['$' := 10, 'a' := 8, 'b' := 1, 'n' := 6], 0, -1),
      Node(0, Open, map[], 0, 0),
      Node(4, Open, map[], 0, 1),
      Node(4, Open, map[], 0, 2),
      Node(2, Closed(3), map['$' := 5, 'n' := 2], 6, -1),
      Node(6, Open, map[], 0, 3),
      Node(2, Closed(3), map['$' := 7, 'n' := 3], 8, -1),
      Node(6, Open, map[], 0, 4),
      Node(1, Closed(1), map['$' := 9, 'n' := 4], 0, -1),
      Node(6, Open, map[], 0, 5),
      Node(6, Open, map[], 0, 6)]

  lemma BananaLeaf10()
    ensures Number(BananaIndexed6, 7, 6, "ban$", 10, 1, 10) == Ok(BananaNumbered)
  {
    var x := BananaIndexed6[10 := BananaIndexed6[10].(suffixIndex := 6)];
    assert BananaIndexed6[10].children == map[];
    assert Number(BananaIndexed6, 7, 6, "ban$", 10, 1, 10) == Ok(x);
    assert x == BananaNumbered;
  }

  lemma BananaChildren0_3()
    ensures NumberChildren(BananaIndexed6, 7, 6, "ban$", map['$' := 10, 'a' := 8, 'b' := 1, 'n' := 6], "$", 0, 10) == Ok(BananaNumbered)
  {
    assert map['$' := 10, 'a' := 8, 'b' := 1, 'n' := 6]['$'] == 10;
    assert EdgeLength(BananaIndexed6[10], 6) == 1;
    assert "$"[1..] == "";
    BananaLeaf10();
  }

  lemma BananaChildren0_2()
    ensures NumberChildren(BananaIndexed4, 7, 6, "ban$", map['$' := 10, 'a' := 8, 'b' := 1, 'n' := 6], "n$", 0, 10) == Ok(BananaNumbered)
  {
    assert map['$' := 10, 'a' := 8, 'b' := 1, 'n' := 6]['n'] == 6;
    assert EdgeLength(BananaIndexed4[6], 6) == 2;
    assert "n$"[1..] == "$";
    BananaNumber6();
    BananaChildren0_3();
  }

  lemma BananaChildren0_1()
    ensures NumberChildren(BananaIndexed1, 7, 6, "ban$", map['$' := 10, 'a' := 8, 'b' := 1, 'n' := 6], "an$", 0, 10) == Ok(BananaNumbered)
  {
    assert map['$' := 10, 'a' := 8, 'b' := 1, 'n' := 6]['a'] == 8;
    assert EdgeLength(BananaIndexed1[8], 6) == 1;
    assert "an$"[1..] == "n$";
    BananaNumber8();
    BananaChildren0_2();
  }

  lemma BananaChildren0_0()
    ensures NumberChildren(Banana6.nodes, 7, 6, "ban$", map['$' := 10, 'a' := 8, 'b' := 1, 'n' := 6], "ban$", 0, 10) == Ok(BananaNumbered)
  {
    assert map['$' := 10, 'a' := 8, 'b' := 1, 'n' := 6]['b'] == 1;
    assert EdgeLength(Banana6.nodes[1], 6) == 7;
    assert "ban$"[1..] == "an$";
    BananaLeaf1();
    BananaChildren0_1();
  }

  lemma BananaNumber0()
    ensures Number(Banana6.nodes, 7, 6, "ban$", 0, 0, 11) == Ok(BananaNumbered)
  {
    assert Banana6.nodes[0].children == map['$' := 10, 'a' := 8, 'b' := 1, 'n' := 6];
    BananaChildren0_0();
  }

  lemma BananaFrom6()
    ensures Phases(Banana5, 6) == Ok(Banana6)
  {
    BananaPhase6();
  }

  lemma BananaFrom5()
    ensures Phases(Banana4, 5) == Ok(Banana6)
  {
    BananaPhase5();
    BananaFrom6();
  }

  lemma BananaFrom4()
    ensures Phases(Banana3, 4) == Ok(Banana6)
  {
    BananaPhase4();
    BananaFrom5();
  }

  lemma BananaFrom3()
    ensures Phases(Banana2, 3) == Ok(Banana6)
  {
    BananaPhase3();
    BananaFrom4();
  }

  lemma BananaFrom2()
    ensures Phases(Banana1, 2) == Ok(Banana6)
  {
    BananaPhase2();
    BananaFrom3();
  }

  lemma BananaFrom1()
    ensures Phases(Banana0, 1) == Ok(Banana6)
  {
    BananaPhase1();
    BananaFrom2();
  }

  lemma BananaFrom0()
    ensures Phases(BananaStart, 0) == Ok(Banana6)
  {
    BananaPhase0();
    BananaFrom1();
  }

  lemma BananaAlphabet1()
    ensures Alphabet("b") == "b"
  {
    assert "b"[..0] == "";
  }

  lemma BananaAlphabet2()
    ensures Alphabet("ba") == "ba"
  {
    assert "ba"[..1] == "b";
    BananaAlphabet1();
  }

  lemma BananaAlphabet3()
    ensures Alphabet("ban") == "ban"
  {
    assert "ban"[..2] == "ba";
    BananaAlphabet2();
  }

  lemma BananaAlphabet4()
    ensures Alphabet("bana") == "ban"
  {
    assert "bana"[..3] == "ban";
    BananaAlphabet3();
  }

  lemma BananaAlphabet5()
    ensures Alphabet("banan") == "ban"
  {
    assert "banan"[..4] == "bana";
    BananaAlphabet4();
  }

  lemma BananaAlphabet6()
    ensures Alphabet("banana") == "ban"
  {
    assert "banana"[..5] == "banan";
    BananaAlphabet5();
  }

  lemma BananaAlphabet7()
    ensures Alphabet("banana$") == "ban$"
  {
    assert "banana$"[..6] == "banana";
    BananaAlphabet6();
  }

  lemma BananaAlphabet()
    ensures Alphabet("banana$") == "ban$"
  {
    BananaAlphabet7();
  }

  /** The tree `Build("banana")` answers. */
  const BananaTree: Builder := Banana6.(nodes := BananaNumbered)

  lemma BananaBuild()
    ensures Build("banana") == Ok(BananaTree)
  {
    assert WithSentinel("banana") == "banana$";
    assert Init("banana") == BananaStart;
    BananaFrom0();
    BananaAlphabet();
    BananaNumber0();
  }

  lemma BananaArenaOk()
    ensures ArenaOk(BananaNumbered) && BananaTree.text == "banana$" && BananaTree.nodes == BananaNumbered && BananaTree.leafEnd == 6
  {
  }

  lemma BananaWalk0_0()
    ensures Locate("banana$", BananaNumbered, 6, 0, "banana$") == Some([1])
  {
    assert "banana$"[0] == 'b';
    assert 'b' in BananaNumbered[0].children;
    assert BananaNumbered[0].children['b'] == 1;
    assert "banana$"[..7] == "banana$";
    assert "banana$"[7..] == "";
    assert EdgeText("banana$", BananaNumbered[1], 6) == "banana$";
    assert Locate("banana$", BananaNumbered, 6, 1, []) == Some([]);
    assert [1] + [] == [1];
  }

  lemma BananaSuffix0Walk()
    ensures Locate(BananaTree.text, BananaTree.nodes, BananaTree.leafEnd, Root, BananaTree.text[0..]) == Some([1])
  {
    BananaArenaOk();
    assert "banana$"[0..] == "banana$";
    BananaWalk0_0();
  }

  lemma BananaSuffix0Leaf()
    ensures IsLeaf(BananaTree, 1) && BananaTree.nodes[1].suffixIndex == 0
  {
    assert BananaTree.nodes == BananaNumbered;
    assert BananaNumbered[1].children == map[] && BananaNumbered[1].suffixIndex == 0;
  }

  lemma BananaSuffix0()
    ensures SuffixAtLeaf(BananaTree, 0)
    ensures IsLeaf(BananaTree, 1) && LeafReached(BananaTree, 1)
  {
    BananaArenaOk();
    BananaSuffix0Walk();
    BananaSuffix0Leaf();
  }

  lemma BananaWalk1_2()
    ensures Locate("banana$", BananaNumbered, 6, 4, "na$") == Some([2])
  {
    assert "na$"[0] == 'n';
    assert 'n' in BananaNumbered[4].children;
    assert BananaNumbered[4].children['n'] == 2;
    assert "na$"[..3] == "na$";
    assert "na$"[3..] == "";
    assert EdgeText("banana$", BananaNumbered[2], 6) == "na$";
    assert Locate("banana$", BananaNumbered, 6, 2, []) == Some([]);
    assert [2] + [] == [2];
  }

  lemma BananaWalk1_1()
    ensures Locate("banana$", BananaNumbered, 6, 8, "nana$") == Some([4, 2])
  {
    assert "nana$"[0] == 'n';
    assert 'n' in BananaNumbered[8].children;
    assert BananaNumbered[8].children['n'] == 4;
    assert "nana$"[..2] == "na";
    assert "nana$"[2..] == "na$";
    assert EdgeText("banana$", BananaNumbered[4], 6) == "na";
    BananaWalk1_2();
    assert [4] + [2] == [4, 2];
  }

  lemma BananaWalk1_0()
    ensures Locate("banana$", BananaNumbered, 6, 0, "anana$") == Some([8, 4, 2])
  {
    assert "anana$"[0] == 'a';
    assert 'a' in BananaNumbered[0].children;
    assert BananaNumbered[0].children['a'] == 8;
    assert "anana$"[..1] == "a";
    assert "anana$"[1..] == "nana$";
    assert EdgeText("banana$", BananaNumbered[8], 6) == "a";
    BananaWalk1_1();
    assert [8] + [4, 2] == [8, 4, 2];
  }

  lemma BananaSuffix1Walk()
    ensures Locate(BananaTree.text, BananaTree.nodes, BananaTree.leafEnd, Root, BananaTree.text[1..]) == Some([8, 4, 2])
  {
    BananaArenaOk();
    assert "banana$"[1..] == "anana$";
    BananaWalk1_0();
  }

  lemma BananaSuffix1Leaf()
    ensures IsLeaf(BananaTree, 2) && BananaTree.nodes[2].suffixIndex == 1
  {
    assert BananaTree.nodes == BananaNumbered;
    assert BananaNumbered[2].children == map[] && BananaNumbered[2].suffixIndex == 1;
  }

  lemma BananaSuffix1()
    ensures SuffixAtLeaf(BananaTree, 1)
    ensures IsLeaf(BananaTree, 2) && LeafReached(BananaTree, 2)
  {
    BananaArenaOk();
    BananaSuffix1Walk();
    BananaSuffix1Leaf();
  }

  lemma BananaWalk2_1()
    ensures Locate("banana$", BananaNumbered, 6, 6, "na$") == Some([3])
  {
    assert "na$"[0] == 'n';
    assert 'n' in BananaNumbered[6].children;
    assert BananaNumbered[6].children['n'] == 3;
    assert "na$"[..3] == "na$";
    assert "na$"[3..] == "";
    assert EdgeText("banana$", BananaNumbered[3], 6) == "na$";
    assert Locate("banana$", BananaNumbered, 6, 3, []) == Some([]);
    assert [3] + [] == [3];
  }

  lemma BananaWalk2_0()
    ensures Locate("banana$", BananaNumbered, 6, 0, "nana$") == Some([6, 3])
  {
    assert "nana$"[0] == 'n';
    assert 'n' in BananaNumbered[0].children;
    assert BananaNumbered[0].children['n'] == 6;
    assert "nana$"[..2] == "na";
    assert "nana$"[2..] == "na$";
    assert EdgeText("banana$", BananaNumbered[6], 6) == "na";
    BananaWalk2_1();
    assert [6] + [3] == [6, 3];
  }

  lemma BananaSuffix2Walk()
    ensures Locate(BananaTree.text, BananaTree.nodes, BananaTree.leafEnd, Root, BananaTree.text[2..]) == Some([6, 3])
  {
    BananaArenaOk();
    assert "banana$"[2..] == "nana$";
    BananaWalk2_0();
  }

  lemma BananaSuffix2Leaf()
    ensures IsLeaf(BananaTree, 3) && BananaTree.nodes[3].suffixIndex == 2
  {
    assert BananaTree.nodes == BananaNumbered;
    assert BananaNumbered[3].children == map[] && BananaNumbered[3].suffixIndex == 2;
  }

  lemma BananaSuffix2()
    ensures SuffixAtLeaf(BananaTree, 2)
    ensures IsLeaf(BananaTree, 3) && LeafReached(BananaTree, 3)
  {
    BananaArenaOk();
    BananaSuffix2Walk();
    BananaSuffix2Leaf();
  }

  lemma BananaWalk3_2()
    ensures Locate("banana$", BananaNumbered, 6, 4, "$") == Some([5])
  {
    assert "$"[0] == '$';
    assert '$' in BananaNumbered[4].children;
    assert BananaNumbered[4].children['$'] == 5;
    assert "$"[..1] == "$";
    assert "$"[1..] == "";
    assert EdgeText("banana$", BananaNumbered[5], 6) == "$";
    assert Locate("banana$", BananaNumbered, 6, 5, []) == Some([]);
    assert [5] + [] == [5];
  }

  lemma BananaWalk3_1()
    ensures Locate("banana$", BananaNumbered, 6, 8, "na$") == Some([4, 5])
  {
    assert "na$"[0] == 'n';
    assert 'n' in BananaNumbered[8].children;
    assert BananaNumbered[8].children['n'] == 4;
    assert "na$"[..2] == "na";
    assert "na$"[2..] == "$";
    assert EdgeText("banana$", BananaNumbered[4], 6) == "na";
    BananaWalk3_2();
    assert [4] + [5] == [4, 5];
  }

  lemma BananaWalk3_0()
    ensures Locate("banana$", BananaNumbered, 6, 0, "ana$") == Some([8, 4, 5])
  {
    assert "ana$"[0] == 'a';
    assert 'a' in BananaNumbered[0].children;
    assert BananaNumbered[0].children['a'] == 8;
    assert "ana$"[..1] == "a";
    assert "ana$"[1..] == "na$";
    assert EdgeText("banana$", BananaNumbered[8], 6) == "a";
    BananaWalk3_1();
    assert [8] + [4, 5] == [8, 4, 5];
  }

  lemma BananaSuffix3Walk()
    ensures Locate(BananaTree.text, BananaTree.nodes, BananaTree.leafEnd, Root, BananaTree.text[3..]) == Some([8, 4, 5])
  {
    BananaArenaOk();
    assert "banana$"[3..] == "ana$";
    BananaWalk3_0();
  }

  lemma BananaSuffix3Leaf()
    ensures IsLeaf(BananaTree, 5) && BananaTree.nodes[5].suffixIndex == 3
  {
    assert BananaTree.nodes == BananaNumbered;
    assert BananaNumbered[5].children == map[] && BananaNumbered[5].suffixIndex == 3;
  }

  lemma BananaSuffix3()
    ensures SuffixAtLeaf(BananaTree, 3)
    ensures IsLeaf(BananaTree, 5) && LeafReached(BananaTree, 5)
  {
    BananaArenaOk();
    BananaSuffix3Walk();
    BananaSuffix3Leaf();
  }

  lemma BananaWalk4_1()
    ensures Locate("banana$", BananaNumbered, 6, 6, "$") == Some([7])
  {
    assert "$"[0] == '$';
    assert '$' in BananaNumbered[6].children;
    assert BananaNumbered[6].children['$'] == 7;
    assert "$"[..1] == "$";
    assert "$"[1..] == "";
    assert EdgeText("banana$", BananaNumbered[7], 6) == "$";
    assert Locate("banana$", BananaNumbered, 6, 7, []) == Some([]);
    assert [7] + [] == [7];
  }

  lemma BananaWalk4_0()
    ensures Locate("banana$", BananaNumbered, 6, 0, "na$") == Some([6, 7])
  {
    assert "na$"[0] == 'n';
    assert 'n' in BananaNumbered[0].children;
    assert BananaNumbered[0].children['n'] == 6;
    assert "na$"[..2] == "na";
    assert "na$"[2..] == "$";
    assert EdgeText("banana$", BananaNumbered[6], 6) == "na";
    BananaWalk4_1();
    assert [6] + [7] == [6, 7];
  }

  lemma BananaSuffix4Walk()
    ensures Locate(BananaTree.text, BananaTree.nodes, BananaTree.leafEnd, Root, BananaTree.text[4..]) == Some([6, 7])
  {
    BananaArenaOk();
    assert "banana$"[4..] == "na$";
    BananaWalk4_0();
  }

  lemma BananaSuffix4Leaf()
    ensures IsLeaf(BananaTree, 7) && BananaTree.nodes[7].suffixIndex == 4
  {
    assert BananaTree.nodes == BananaNumbered;
    assert BananaNumbered[7].children == map[] && BananaNumbered[7].suffixIndex == 4;
  }

  lemma BananaSuffix4()
    ensures SuffixAtLeaf(BananaTree, 4)
    ensures IsLeaf(BananaTree, 7) && LeafReached(BananaTree, 7)
  {
    BananaArenaOk();
    BananaSuffix4Walk();
    BananaSuffix4Leaf();
  }

  lemma BananaWalk5_1()
    ensures Locate("banana$", BananaNumbered, 6, 8, "$") == Some([9])
  {
    assert "$"[0] == '$';
    assert '$' in BananaNumbered[8].children;
    assert BananaNumbered[8].children['$'] == 9;
    assert "$"[..1] == "$";
    assert "$"[1..] == "";
    assert EdgeText("banana$", BananaNumbered[9], 6) == "$";
    assert Locate("banana$", BananaNumbered, 6, 9, []) == Some([]);
    assert [9] + [] == [9];
  }

  lemma BananaWalk5_0()
    ensures Locate("banana$", BananaNumbered, 6, 0, "a$") == Some([8, 9])
  {
    assert "a$"[0] == 'a';
    assert 'a' in BananaNumbered[0].children;
    assert BananaNumbered[0].children['a'] == 8;
    assert "a$"[..1] == "a";
    assert "a$"[1..] == "$";
    assert EdgeText("banana$", BananaNumbered[8], 6) == "a";
    BananaWalk5_1();
    assert [8] + [9] == [8, 9];
  }

  lemma BananaSuffix5Walk()
    ensures Locate(BananaTree.text, BananaTree.nodes, BananaTree.leafEnd, Root, BananaTree.text[5..]) == Some([8, 9])
  {
    BananaArenaOk();
    assert "banana$"[5..] == "a$";
    BananaWalk5_0();
  }

  lemma BananaSuffix5Leaf()
    ensures IsLeaf(BananaTree, 9) && BananaTree.nodes[9].suffixIndex == 5
  {
    assert BananaTree.nodes == BananaNumbered;
    assert BananaNumbered[9].children == map[] && BananaNumbered[9].suffixIndex == 5;
  }

  lemma BananaSuffix5()
    ensures SuffixAtLeaf(BananaTree, 5)
    ensures IsLeaf(BananaTree, 9) && LeafReached(BananaTree, 9)
  {
    BananaArenaOk();
    BananaSuffix5Walk();
    BananaSuffix5Leaf();
  }

  lemma BananaWalk6_0()
    ensures Locate("banana$", BananaNumbered, 6, 0, "$") == Some([10])
  {
    assert "$"[0] == '$';
    assert '$' in BananaNumbered[0].children;
    assert BananaNumbered[0].children['$'] == 10;
    assert "$"[..1] == "$";
    assert "$"[1..] == "";
    assert EdgeText("banana$", BananaNumbered[10], 6) == "$";
    assert Locate("banana$", BananaNumbered, 6, 10, []) == Some([]);
    assert [10] + [] == [10];
  }

  lemma BananaSuffix6Walk()
    ensures Locate(BananaTree.text, BananaTree.nodes, BananaTree.leafEnd, Root, BananaTree.text[6..]) == Some([10])
  {
    BananaArenaOk();
    assert "banana$"[6..] == "$";
    BananaWalk6_0();
  }

  lemma BananaSuffix6Leaf()
    ensures IsLeaf(BananaTree, 10) && BananaTree.nodes[10].suffixIndex == 6
  {
    assert BananaTree.nodes == BananaNumbered;
    assert BananaNumbered[10].children == map[] && BananaNumbered[10].suffixIndex == 6;
  }

  lemma BananaSuffix6()
    ensures SuffixAtLeaf(BananaTree, 6)
    ensures IsLeaf(BananaTree, 10) && LeafReached(BananaTree, 10)
  {
    BananaArenaOk();
    BananaSuffix6Walk();
    BananaSuffix6Leaf();
  }

  lemma BananaAllSuffixes()
    ensures forall k | 0 <= k < 7 :: SuffixAtLeaf(BananaTree, k)
  {
    BananaArenaOk();
    forall k | 0 <= k < 7
      ensures SuffixAtLeaf(BananaTree, k)
    {
      if k == 0 {
        BananaSuffix0();
      } else if k == 1 {
        BananaSuffix1();
      } else if k == 2 {
        BananaSuffix2();
      } else if k == 3 {
        BananaSuffix3();
      } else if k == 4 {
        BananaSuffix4();
      } else if k == 5 {
        BananaSuffix5();
      } else if k == 6 {
        BananaSuffix6();
      }
    }
  }

  lemma BananaAllLeaves()
    ensures forall id | 0 < id < 11 && IsLeaf(BananaTree, id) :: LeafReached(BananaTree, id)
  {
    BananaArenaOk();
    forall id | 0 < id < 11
      ensures IsLeaf(BananaTree, id) ==> LeafReached(BananaTree, id)
    {
      if id == 1 {
        BananaSuffix0();
      } else if id == 2 {
        BananaSuffix1();
      } else if id == 3 {
        BananaSuffix2();
      } else if id == 4 {
        assert 'n' in BananaNumbered[4].children;
      } else if id == 5 {
        BananaSuffix3();
      } else if id == 6 {
        assert 'n' in BananaNumbered[6].children;
      } else if id == 7 {
        BananaSuffix4();
      } else if id == 8 {
        assert 'n' in BananaNumbered[8].children;
      } else if id == 9 {
        BananaSuffix5();
      } else if id == 10 {
        BananaSuffix6();
      }
    }
  }

  /** Every suffix of "banana$" ends at its own leaf of the tree Ukkonen's builder
      answers, and every leaf is the end of its suffix. */
  lemma BananaIsSuffixTree()
    ensures Build("banana") == Ok(BananaTree) && IsSuffixTree(BananaTree)
  {
    BananaBuild();
    BananaArenaOk();
    BananaAllSuffixes();
    BananaAllLeaves();
  }

  lemma BananaPrepared(input: string)
    requires input == "banana"
    ensures forall k | 0 <= k < |input| :: input[k] != Sentinel
    ensures WithSentinel(input) == BananaTree.text
  {
    assert WithSentinel("banana") == "banana$";
    BananaArenaOk();
  }

  lemma BananaAgrees(input: string)
    requires input == "banana"
    ensures var t := NaiveSuffixTree.Build(input);
      NaiveSuffixTree.WellFormed(t.text, t.root) && LeafLabels(BananaTree) == NaiveSuffixTree.Leaves(t.text, t.root)
  {
    BananaIsSuffixTree();
    BananaPrepared(input);
    WithSentinelUnique(input);
    AgreesWithNaive(input, BananaTree);
  }

  /** Ukkonen's builder and the naive builder agree on "banana": the same
      leaves, with the same suffix indices and path labels. */
  lemma BananaMatchesNaive()
    ensures Build("banana") == Ok(BananaTree) && IsSuffixTree(BananaTree)
    ensures var t := NaiveSuffixTree.Build("banana");
      NaiveSuffixTree.WellFormed(t.text, t.root) && LeafLabels(BananaTree) == NaiveSuffixTree.Leaves(t.text, t.root)
  {
    BananaIsSuffixTree();
    BananaAgrees("banana");
  }

  const AaaaStart: Builder :=
    Builder("aaaa$", 5,
      [Node(-1, Closed(-1), map[], 0, -1)],
      0, -1, 0, 0, -1, None)

  const Aaaa0: Builder :=
    Builder("aaaa$", 5,
      [Node(-1, Closed(-1), map['a' := 1], 0, -1),
      Node(0, Open, map[], 0, -1)],
      0, 0, 0, 0, 0, None)

  lemma Aaaa0Step1Arena()
    ensures Attach(AaaaStart.nodes, 0, 'a', 0) == Aaaa0.nodes
  {
    var x := Attach(AaaaStart.nodes, 0, 'a', 0);
    var y := Aaaa0.nodes;
    assert x[0] == y[0];
    assert x[1] == y[1];
  }

  lemma Aaaa0Step1Op()
    ensures AddLeaf(AaaaStart.(leafEnd := 0, remaining := 1, lastNewNode := None).(activeEdge := 0), 0, 'a') == AaaaStart.(leafEnd := 0, remaining := 1, lastNewNode := None).(activeEdge := 0).(nodes := Aaaa0.nodes, lastNewNode := None)
  {
    Aaaa0Step1Arena();
  }

  lemma Aaaa0Step1Advance()
    ensures Advance(AaaaStart.(leafEnd := 0, remaining := 1, lastNewNode := None).(activeEdge := 0).(nodes := Aaaa0.nodes, lastNewNode := None), 0) == Aaaa0
  {
  }

  lemma Aaaa0Step1()
    ensures Step(AaaaStart.(leafEnd := 0, remaining := 1, lastNewNode := None), 0) == Next(Aaaa0)
  {
    assert CharAt(Aaaa0.text, 0) == Ok('a');
    assert 'a' !in AaaaStart.nodes[0].children;
    Aaaa0Step1Op();
    Aaaa0Step1Advance();
  }

  lemma AaaaPhase0()
    ensures Extend(AaaaStart, 0) == Ok(Aaaa0)
  {
    Aaaa0Step1();
  }

  const Aaaa1: Builder :=
    Builder("aaaa$", 5,
      [Node(-1, Closed(-1), map['a' := 1], 0, -1),
      Node(0, Open, map[], 0, -1)],
      0, 1, 1, 1, 1, None)

  lemma Aaaa1Step1Op()
    ensures Rule3(Aaaa0.(leafEnd := 1, remaining := 1, lastNewNode := None).(activeEdge := 1)) == Aaaa1
  {
  }

  lemma Aaaa1Step1Walk()
    ensures WalkDown(Aaaa0.(leafEnd := 1, remaining := 1, lastNewNode := None).(activeEdge := 1), 1) == (false, Aaaa0.(leafEnd := 1, remaining := 1, lastNewNode := None).(activeEdge := 1))
  {
  }

  lemma Aaaa1Step1Edge()
    ensures StepOnEdge(Aaaa0.(leafEnd := 1, remaining := 1, lastNewNode := None).(activeEdge := 1), 1, 'a') == Stop(Aaaa1)
  {
    assert Aaaa0.nodes[0].children['a'] == 1;
    Aaaa1Step1Walk();
    assert CharAt(Aaaa1.text, 0) == Ok('a');
    Aaaa1Step1Op();
    EdgeRule3(Aaaa0.(leafEnd := 1, remaining := 1, lastNewNode := None).(activeEdge := 1), 1, 'a');
  }

  lemma Aaaa1Step1()
    ensures Step(Aaaa0.(leafEnd := 1, remaining := 1, lastNewNode := None), 1) == Stop(Aaaa1)
  {
    assert CharAt(Aaaa1.text, 1) == Ok('a');
    assert 'a' in Aaaa0.nodes[0].children;
    Aaaa1Step1Edge();
  }

  lemma AaaaPhase1()
    ensures Extend(Aaaa0, 1) == Ok(Aaaa1)
  {
    Aaaa1Step1();
  }

  const Aaaa2: Builder :=
    Builder("aaaa$", 5,
      [Node(-1, Closed(-1), map['a' := 1], 0, -1),
      Node(0, Open, map[], 0, -1)],
      0, 1, 2, 2, 2, None)

  lemma Aaaa2Step1Op()
    ensures Rule3(Aaaa1.(leafEnd := 2, remaining := 2, lastNewNode := None)) == Aaaa2
  {
  }

  lemma Aaaa2Step1Walk()
    ensures WalkDown(Aaaa1.(leafEnd := 2, remaining := 2, lastNewNode := None), 1) == (false, Aaaa1.(leafEnd := 2, remaining := 2, lastNewNode := None))
  {
  }

  lemma Aaaa2Step1Edge()
    ensures StepOnEdge(Aaaa1.(leafEnd := 2, remaining := 2, lastNewNode := None), 2, 'a') == Stop(Aaaa2)
  {
    assert Aaaa1.nodes[0].children['a'] == 1;
    Aaaa2Step1Walk();
    assert CharAt(Aaaa2.text, 1) == Ok('a');
    Aaaa2Step1Op();
    EdgeRule3(Aaaa1.(leafEnd := 2, remaining := 2, lastNewNode := None), 2, 'a');
  }

  lemma Aaaa2Step1()
    ensures Step(Aaaa1.(leafEnd := 2, remaining := 2, lastNewNode := None), 2) == Stop(Aaaa2)
  {
    assert CharAt(Aaaa2.text, 1) == Ok('a');
    assert 'a' in Aaaa1.nodes[0].children;
    Aaaa2Step1Edge();
  }

  lemma AaaaPhase2()
    ensures Extend(Aaaa1, 2) == Ok(Aaaa2)
  {
    Aaaa2Step1();
  }

  const Aaaa3: Builder :=
    Builder("aaaa$", 5,
      [Node(-1, Closed(-1), map['a' := 1], 0, -1),
      Node(0, Open, map[], 0, -1)],
      0, 1, 3, 3, 3, None)

  lemma Aaaa3Step1Op()
    ensures Rule3(Aaaa2.(leafEnd := 3, remaining := 3, lastNewNode := None)) == Aaaa3
  {
  }

  lemma Aaaa3Step1Walk()
    ensures WalkDown(Aaaa2.(leafEnd := 3, remaining := 3, lastNewNode := None), 1) == (false, Aaaa2.(leafEnd := 3, remaining := 3, lastNewNode := None))
  {
  }

  lemma Aaaa3Step1Edge()
    ensures StepOnEdge(Aaaa2.(leafEnd := 3, remaining := 3, lastNewNode := None), 3, 'a') == Stop(Aaaa3)
  {
    assert Aaaa2.nodes[0].children['a'] == 1;
    Aaaa3Step1Walk();
    assert CharAt(Aaaa3.text, 2) == Ok('a');
    Aaaa3Step1Op();
    EdgeRule3(Aaaa2.(leafEnd := 3, remaining := 3, lastNewNode := None), 3, 'a');
  }

  lemma Aaaa3Step1()
    ensures Step(Aaaa2.(leafEnd := 3, remaining := 3, lastNewNode := None), 3) == Stop(Aaaa3)
  {
    assert CharAt(Aaaa3.text, 1) == Ok('a');
    assert 'a' in Aaaa2.nodes[0].children;
    Aaaa3Step1Edge();
  }

  lemma AaaaPhase3()
    ensures Extend(Aaaa2, 3) == Ok(Aaaa3)
  {
    Aaaa3Step1();
  }

  const Aaaa4_1: Builder :=
    Builder("aaaa$", 5,
      [Node(-1, Closed(-1), map['a' := 2], 0, -1),
      Node(3, Open, map[], 0, -1),
      Node(0, Closed(2), map['$' := 3, 'a' := 1], 0, -1),
      Node(4, Open, map[], 0, -1)],
      0, 2, 2, 3, 4, Some(2))

  lemma Aaaa4Step1Arena()
    ensures SplitNodes(Aaaa3.nodes, 0, 'a', 1, 3, 4, '$', 'a') == Aaaa4_1.nodes
  {
    var x := SplitNodes(Aaaa3.nodes, 0, 'a', 1, 3, 4, '$', 'a');
    var y := Aaaa4_1.nodes;
    assert x[0] == y[0];
    assert x[1] == y[1];
    assert x[2] == y[2];
    assert x[3] == y[3];
  }

  lemma Aaaa4Step1Op()
    ensures Split(Aaaa3.(leafEnd := 4, remaining := 4, lastNewNode := None), 4, 'a', 1, 'a') == Aaaa3.(leafEnd := 4, remaining := 4, lastNewNode := None).(nodes := Aaaa4_1.nodes, lastNewNode := Some(2))
  {
    Aaaa4Step1Arena();
  }

  lemma Aaaa4Step1Advance()
    ensures Advance(Aaaa3.(leafEnd := 4, remaining := 4, lastNewNode := None).(nodes := Aaaa4_1.nodes, lastNewNode := Some(2)), 4) == Aaaa4_1
  {
  }

  lemma Aaaa4Step1Walk()
    ensures WalkDown(Aaaa3.(leafEnd := 4, remaining := 4, lastNewNode := None), 1) == (false, Aaaa3.(leafEnd := 4, remaining := 4, lastNewNode := None))
  {
  }

  lemma Aaaa4Step1Edge()
    ensures StepOnEdge(Aaaa3.(leafEnd := 4, remaining := 4, lastNewNode := None), 4, 'a') == Next(Aaaa4_1)
  {
    assert Aaaa3.nodes[0].children['a'] == 1;
    Aaaa4Step1Walk();
    assert CharAt(Aaaa4_1.text, 3) == Ok('a');
    Aaaa4Step1Op();
    Aaaa4Step1Advance();
    EdgeSplit(Aaaa3.(leafEnd := 4, remaining := 4, lastNewNode := None), 4, 'a');
  }

  lemma Aaaa4Step1()
    ensures Step(Aaaa3.(leafEnd := 4, remaining := 4, lastNewNode := None), 4) == Next(Aaaa4_1)
  {
    assert CharAt(Aaaa4_1.text, 1) == Ok('a');
    assert 'a' in Aaaa3.nodes[0].children;
    Aaaa4Step1Edge();
  }

  const Aaaa4_2: Builder :=
    Builder("aaaa$", 5,
      [Node(-1, Closed(-1), map['a' := 4], 0, -1),
      Node(3, Open, map[], 0, -1),
      Node(2, Closed(2), map['$' := 3, 'a' := 1], 4, -1),
      Node(4, Open, map[], 0, -1),
      Node(0, Closed(1), map['$' := 5, 'a' := 2], 0, -1),
      Node(4, Open, map[], 0, -1)],
      0, 3, 1, 2, 4, Some(4))

  lemma Aaaa4Step2Arena()
    ensures SplitNodes(Aaaa4_1.nodes, 0, 'a', 2, 2, 4, '$', 'a') == Aaaa4_2.nodes[2 := Aaaa4_2.nodes[2].(link := 0)]
  {
    var x := SplitNodes(Aaaa4_1.nodes, 0, 'a', 2, 2, 4, '$', 'a');
    var y := Aaaa4_2.nodes[2 := Aaaa4_2.nodes[2].(link := 0)];
    assert x[0] == y[0];
    assert x[1] == y[1];
    assert x[2] == y[2];
    assert x[3] == y[3];
    assert x[4] == y[4];
    assert x[5] == y[5];
  }

  lemma Aaaa4Step2Link()
    ensures WithLink(Aaaa4_2.nodes[2 := Aaaa4_2.nodes[2].(link := 0)], 2, 4) == Aaaa4_2.nodes
  {
    var z := WithLink(Aaaa4_2.nodes[2 := Aaaa4_2.nodes[2].(link := 0)], 2, 4);
    assert z[0] == Aaaa4_2.nodes[0];
    assert z[1] == Aaaa4_2.nodes[1];
    assert z[2] == Aaaa4_2.nodes[2];
    assert z[3] == Aaaa4_2.nodes[3];
    assert z[4] == Aaaa4_2.nodes[4];
    assert z[5] == Aaaa4_2.nodes[5];
  }

  lemma Aaaa4Step2Op()
    ensures Split(Aaaa4_1, 4, 'a', 2, 'a') == Aaaa4_1.(nodes := Aaaa4_2.nodes, lastNewNode := Some(4))
  {
    Aaaa4Step2Arena();
    Aaaa4Step2Link();
  }

  lemma Aaaa4Step2Advance()
    ensures Advance(Aaaa4_1.(nodes := Aaaa4_2.nodes, lastNewNode := Some(4)), 4) == Aaaa4_2
  {
  }

  lemma Aaaa4Step2Walk()
    ensures WalkDown(Aaaa4_1, 2) == (false, Aaaa4_1)
  {
  }

  lemma Aaaa4Step2Edge()
    ensures StepOnEdge(Aaaa4_1, 4, 'a') == Next(Aaaa4_2)
  {
    assert Aaaa4_1.nodes[0].children['a'] == 2;
    Aaaa4Step2Walk();
    assert CharAt(Aaaa4_2.text, 2) == Ok('a');
    Aaaa4Step2Op();
    Aaaa4Step2Advance();
    EdgeSplit(Aaaa4_1, 4, 'a');
  }

  lemma Aaaa4Step2()
    ensures Step(Aaaa4_1, 4) == Next(Aaaa4_2)
  {
    assert CharAt(Aaaa4_2.text, 2) == Ok('a');
    assert 'a' in Aaaa4_1.nodes[0].children;
    Aaaa4Step2Edge();
  }

  const Aaaa4_3: Builder :=
    Builder("aaaa$", 5,
      [Node(-1, Closed(-1), map['a' := 6], 0, -1),
      Node(3, Open, map[], 0, -1),
      Node(2, Closed(2), map['$' := 3, 'a' := 1], 4, -1),
      Node(4, Open, map[], 0, -1),
      Node(1, Closed(1), map['$' := 5, 'a' := 2], 6, -1),
      Node(4, Open, map[], 0, -1),
      Node(0, Closed(0), map['$' := 7, 'a' := 4], 0, -1),
      Node(4, Open, map[], 0, -1)],
      0, 4, 0, 1, 4, Some(6))

  lemma Aaaa4Step3Arena()
    ensures SplitNodes(Aaaa4_2.nodes, 0, 'a', 4, 1, 4, '$', 'a') == Aaaa4_3.nodes[4 := Aaaa4_3.nodes[4].(link := 0)]
  {
    var x := SplitNodes(Aaaa4_2.nodes, 0, 'a', 4, 1, 4, '$', 'a');
    var y := Aaaa4_3.nodes[4 := Aaaa4_3.nodes[4].(link := 0)];
    assert x[0] == y[0];
    assert x[1] == y[1];
    assert x[2] == y[2];
    assert x[3] == y[3];
    assert x[4] == y[4];
    assert x[5] == y[5];
    assert x[6] == y[6];
    assert x[7] == y[7];
  }

  lemma Aaaa4Step3Link()
    ensures WithLink(Aaaa4_3.nodes[4 := Aaaa4_3.nodes[4].(link := 0)], 4, 6) == Aaaa4_3.nodes
  {
    var z := WithLink(Aaaa4_3.nodes[4 := Aaaa4_3.nodes[4].(link := 0)], 4, 6);
    assert z[0] == Aaaa4_3.nodes[0];
    assert z[1] == Aaaa4_3.nodes[1];
    assert z[2] == Aaaa4_3.nodes[2];
    assert z[3] == Aaaa4_3.nodes[3];
    assert z[4] == Aaaa4_3.nodes[4];
    assert z[5] == Aaaa4_3.nodes[5];
    assert z[6] == Aaaa4_3.nodes[6];
    assert z[7] == Aaaa4_3.nodes[7];
  }

  lemma Aaaa4Step3Op()
    ensures Split(Aaaa4_2, 4, 'a', 4, 'a') == Aaaa4_2.(nodes := Aaaa4_3.nodes, lastNewNode := Some(6))
  {
    Aaaa4Step3Arena();
    Aaaa4Step3Link();
  }

  lemma Aaaa4Step3Advance()
    ensures Advance(Aaaa4_2.(nodes := Aaaa4_3.nodes, lastNewNode := Some(6)), 4) == Aaaa4_3
  {
  }

  lemma Aaaa4Step3Walk()
    ensures WalkDown(Aaaa4_2, 4) == (false, Aaaa4_2)
  {
  }

  lemma Aaaa4Step3Edge()
    ensures StepOnEdge(Aaaa4_2, 4, 'a') == Next(Aaaa4_3)
  {
    assert Aaaa4_2.nodes[0].children['a'] == 4;
    Aaaa4Step3Walk();
    assert CharAt(Aaaa4_3.text, 1) == Ok('a');
    Aaaa4Step3Op();
    Aaaa4Step3Advance();
    EdgeSplit(Aaaa4_2, 4, 'a');
  }

  lemma Aaaa4Step3()
    ensures Step(Aaaa4_2, 4) == Next(Aaaa4_3)
  {
    assert CharAt(Aaaa4_3.text, 3) == Ok('a');
    assert 'a' in Aaaa4_2.nodes[0].children;
    Aaaa4Step3Edge();
  }

  const Aaaa4: Builder :=
    Builder("aaaa$", 5,
      [Node(-1, Closed(-1), map['$' := 8, 'a' := 6], 0, -1),
      Node(3, Open, map[], 0, -1),
      Node(2, Closed(2), map['$' := 3, 'a' := 1], 4, -1),
      Node(4, Open, map[], 0, -1),
      Node(1, Closed(1), map['$' := 5, 'a' := 2], 6, -1),
      Node(4, Open, map[], 0, -1),
      Node(0, Closed(0), map['$' := 7, 'a' := 4], 0, -1),
      Node(4, Open, map[], 0, -1),
      Node(4, Open, map[], 0, -1)],
      0, 4, 0, 0, 4, None)

  lemma Aaaa4Step4Arena()
    ensures Attach(Aaaa4_3.nodes, 0, '$', 4) == Aaaa4.nodes[6 := Aaaa4.nodes[6].(link := 0)]
  {
    var x := Attach(Aaaa4_3.nodes, 0, '$', 4);
    var y := Aaaa4.nodes[6 := Aaaa4.nodes[6].(link := 0)];
    assert x[0] == y[0];
    assert x[1] == y[1];
    assert x[2] == y[2];
    assert x[3] == y[3];
    assert x[4] == y[4];
    assert x[5] == y[5];
    assert x[6] == y[6];
    assert x[7] == y[7];
    assert x[8] == y[8];
  }

  lemma Aaaa4Step4Link()
    ensures WithLink(Aaaa4.nodes[6 := Aaaa4.nodes[6].(link := 0)], 6, 0) == Aaaa4.nodes
  {
    var z := WithLink(Aaaa4.nodes[6 := Aaaa4.nodes[6].(link := 0)], 6, 0);
    assert z[0] == Aaaa4.nodes[0];
    assert z[1] == Aaaa4.nodes[1];
    assert z[2] == Aaaa4.nodes[2];
    assert z[3] == Aaaa4.nodes[3];
    assert z[4] == Aaaa4.nodes[4];
    assert z[5] == Aaaa4.nodes[5];
    assert z[6] == Aaaa4.nodes[6];
    assert z[7] == Aaaa4.nodes[7];
    assert z[8] == Aaaa4.nodes[8];
  }

  lemma Aaaa4Step4Op()
    ensures AddLeaf(Aaaa4_3.(activeEdge := 4), 4, '$') == Aaaa4_3.(activeEdge := 4).(nodes := Aaaa4.nodes, lastNewNode := None)
  {
    Aaaa4Step4Arena();
    Aaaa4Step4Link();
  }

  lemma Aaaa4Step4Advance()
    ensures Advance(Aaaa4_3.(activeEdge := 4).(nodes := Aaaa4.nodes, lastNewNode := None), 4) == Aaaa4
  {
  }

  lemma Aaaa4Step4()
    ensures Step(Aaaa4_3, 4) == Next(Aaaa4)
  {
    assert CharAt(Aaaa4.text, 4) == Ok('$');
    assert '$' !in Aaaa4_3.nodes[0].children;
    Aaaa4Step4Op();
    Aaaa4Step4Advance();
  }

  lemma AaaaPhase4()
    ensures Extend(Aaaa3, 4) == Ok(Aaaa4)
  {
    Aaaa4Step1();
    Aaaa4Step2();
    Aaaa4Step3();
    Aaaa4Step4();
  }

  const AaaaIndexed1: seq<Node> :=
    [Node(-1, Closed(-1), map['$' := 8, 'a' := 6], 0, -1),
      Node(3, Open, map[], 0, 0),
      Node(2, Closed(2), map['$' := 3, 'a' := 1], 4, -1),
      Node(4, Open, map[], 0, -1),
      Node(1, Closed(1), map['$' := 5, 'a' := 2], 6, -1),
      Node(4, Open, map[], 0, -1),
      Node(0, Closed(0), map['$' := 7, 'a' := 4], 0, -1),
      Node(4, Open, map[], 0, -1),
      Node(4, Open, map[], 0, -1)]

  lemma AaaaLeaf1()
    ensures Number(Aaaa4.nodes, 5, 4, "a$", 1, 5, 5) == Ok(AaaaIndexed1)
  {
    var x := Aaaa4.nodes[1 := Aaaa4.nodes[1].(suffixIndex := 0)];
    assert Aaaa4.nodes[1].children == map[];
    assert Number(Aaaa4.nodes, 5, 4, "a$", 1, 5, 5) == Ok(x);
    assert x == AaaaIndexed1;
  }

  const AaaaIndexed2: seq<Node> :=
    [Node(-1, Closed(-1), map['$' := 8, 'a' := 6], 0, -1),
      Node(3, Open, map[], 0, 0),
      Node(2, Closed(2), map['$' := 3, 'a' := 1], 4, -1),
      Node(4, Open, map[], 0, 1),
      Node(1, Closed(1), map['$' := 5, 'a' := 2], 6, -1),
      Node(4, Open, map[], 0, -1),
      Node(0, Closed(0), map['$' := 7, 'a' := 4], 0, -1),
      Node(4, Open, map[], 0, -1),
      Node(4, Open, map[], 0, -1)]

  lemma AaaaLeaf3()
    ensures Number(AaaaIndexed1, 5, 4, "a$", 3, 4, 5) == Ok(AaaaIndexed2)
  {
    var x := AaaaIndexed1[3 := AaaaIndexed1[3].(suffixIndex := 1)];
    assert AaaaIndexed1[3].children == map[];
    assert Number(AaaaIndexed1, 5, 4, "a$", 3, 4, 5) == Ok(x);
    assert x == AaaaIndexed2;
  }

  lemma AaaaChildren2_1()
    ensures NumberChildren(AaaaIndexed1, 5, 4, "a$", map['$' := 3, 'a' := 1], "$", 3, 5) == Ok(AaaaIndexed2)
  {
    assert map['$' := 3, 'a' := 1]['$'] == 3;
    assert EdgeLength(AaaaIndexed1[3], 4) == 1;
    assert "$"[1..] == "";
    AaaaLeaf3();
  }

  lemma AaaaChildren2_0()
    ensures NumberChildren(Aaaa4.nodes, 5, 4, "a$", map['$' := 3, 'a' := 1], "a$", 3, 5) == Ok(AaaaIndexed2)
  {
    assert map['$' := 3, 'a' := 1]['a'] == 1;
    assert EdgeLength(Aaaa4.nodes[1], 4) == 2;
    assert "a$"[1..] == "$";
    AaaaLeaf1();
    AaaaChildren2_1();
  }

  lemma AaaaNumber2()
    ensures Number(Aaaa4.nodes, 5, 4, "a$", 2, 3, 6) == Ok(AaaaIndexed2)
  {
    assert Aaaa4.nodes[2].children == map['$' := 3, 'a' := 1];
    AaaaChildren2_0();
  }

  const AaaaIndexed3: seq<Node> :=
    [Node(-1, Closed(-1), map['$' := 8, 'a' := 6], 0, -1),
      Node(3, Open, map[], 0, 0),
      Node(2, Closed(2), map['$' := 3, 'a' := 1], 4, -1),
      Node(4, Open, map[], 0, 1),
      Node(1, Closed(1), map['$' := 5, 'a' := 2], 6, -1),
      Node(4, Open, map[], 0, 2),
      Node(0, Closed(0), map['$' := 7, 'a' := 4], 0, -1),
      Node(4, Open, map[], 0, -1),
      Node(4, Open, map[], 0, -1)]

  lemma AaaaLeaf5()
    ensures Number(AaaaIndexed2, 5, 4, "a$", 5, 3, 6) == Ok(AaaaIndexed3)
  {
    var x := AaaaIndexed2[5 := AaaaIndexed2[5].(suffixIndex := 2)];
    assert AaaaIndexed2[5].children == map[];
    assert Number(AaaaIndexed2, 5, 4, "a$", 5, 3, 6) == Ok(x);
    assert x == AaaaIndexed3;
  }

  lemma AaaaChildren4_1()
    ensures NumberChildren(AaaaIndexed2, 5, 4, "a$", map['$' := 5, 'a' := 2], "$", 2, 6) == Ok(AaaaIndexed3)
  {
    assert map['$' := 5, 'a' := 2]['$'] == 5;
    assert EdgeLength(AaaaIndexed2[5], 4) == 1;
    assert "$"[1..] == "";
    AaaaLeaf5();
  }

  lemma AaaaChildren4_0()
    ensures NumberChildren(Aaaa4.nodes, 5, 4, "a$", map['$' := 5, 'a' := 2], "a$", 2, 6) == Ok(AaaaIndexed3)
  {
    assert map['$' := 5, 'a' := 2]['a'] == 2;
    assert EdgeLength(Aaaa4.nodes[2], 4) == 1;
    assert "a$"[1..] == "$";
    AaaaNumber2();
    AaaaChildren4_1();
  }

  lemma AaaaNumber4()
    ensures Number(Aaaa4.nodes, 5, 4, "a$", 4, 2, 7) == Ok(AaaaIndexed3)
  {
    assert Aaaa4.nodes[4].children == map['$' := 5, 'a' := 2];
    AaaaChildren4_0();
  }

  const AaaaIndexed4: seq<Node> :=
    [Node(-1, Closed(-1), map['$' := 8, 'a' := 6], 0, -1),
      Node(3, Open, map[], 0, 0),
      Node(2, Closed(2), map['$' := 3, 'a' := 1], 4, -1),
      Node(4, Open, map[], 0, 1),
      Node(1, Closed(1), map['$' := 5, 'a' := 2], 6, -1),
      Node(4, Open, map[], 0, 2),
      Node(0, Closed(0), map['$' := 7, 'a' := 4], 0, -1),
      Node(4, Open, map[], 0, 3),
      Node(4, Open, map[], 0, -1)]

  lemma AaaaLeaf7()
    ensures Number(AaaaIndexed3, 5, 4, "a$", 7, 2, 7) == Ok(AaaaIndexed4)
  {
    var x := AaaaIndexed3[7 := AaaaIndexed3[7].(suffixIndex := 3)];
    assert AaaaIndexed3[7].children == map[];
    assert Number(AaaaIndexed3, 5, 4, "a$", 7, 2, 7) == Ok(x);
    assert x == AaaaIndexed4;
  }

  lemma AaaaChildren6_1()
    ensures NumberChildren(AaaaIndexed3, 5, 4, "a$", map['$' := 7, 'a' := 4], "$", 1, 7) == Ok(AaaaIndexed4)
  {
    assert map['$' := 7, 'a' := 4]['$'] == 7;
    assert EdgeLength(AaaaIndexed3[7], 4) == 1;
    assert "$"[1..] == "";
    AaaaLeaf7();
  }

  lemma AaaaChildren6_0()
    ensures NumberChildren(Aaaa4.nodes, 5, 4, "a$", map['$' := 7, 'a' := 4], "a$", 1, 7) == Ok(AaaaIndexed4)
  {
    assert map['$' := 7, 'a' := 4]['a'] == 4;
    assert EdgeLength(Aaaa4.nodes[4], 4) == 1;
    assert "a$"[1..] == "$";
    AaaaNumber4();
    AaaaChildren6_1();
  }

  lemma AaaaNumber6()
    ensures Number(Aaaa4.nodes, 5, 4, "a$", 6, 1, 8) == Ok(AaaaIndexed4)
  {
    assert Aaaa4.nodes[6].children == map['$' := 7, 'a' := 4];
    AaaaChildren6_0();
  }

  const AaaaNumbered: seq<Node> :=
    [Node(-1, Closed(-1), map['$' := 8, 'a' := 6], 0, -1),
      Node(3, Open, map[], 0, 0),
      Node(2, Closed(2), map['$' := 3, 'a' := 1], 4, -1),
      Node(4, Open, map[], 0, 1),
      Node(1, Closed(1), map['$' := 5, 'a' := 2], 6, -1),
      Node(4, Open, map[], 0, 2),
      Node(0, Closed(0), map['$' := 7, 'a' := 4], 0, -1),
      Node(4, Open, map[], 0, 3),
      Node(4, Open, map[], 0, 4)]

  lemma AaaaLeaf8()
    ensures Number(AaaaIndexed4, 5, 4, "a$", 8, 1, 8) == Ok(AaaaNumbered)
  {
    var x := AaaaIndexed4[8 := AaaaIndexed4[8].(suffixIndex := 4)];
    assert AaaaIndexed4[8].children == map[];
    assert Number(AaaaIndexed4, 5, 4, "a$", 8, 1, 8) == Ok(x);
    assert x == AaaaNumbered;
  }

  lemma AaaaChildren0_1()
    ensures NumberChildren(AaaaIndexed4, 5, 4, "a$", map['$' := 8, 'a' := 6], "$", 0, 8) == Ok(AaaaNumbered)
  {
    assert map['$' := 8, 'a' := 6]['$'] == 8;
    assert EdgeLength(AaaaIndexed4[8], 4) == 1;
    assert "$"[1..] == "";
    AaaaLeaf8();
  }

  lemma AaaaChildren0_0()
    ensures NumberChildren(Aaaa4.nodes, 5, 4, "a$", map['$' := 8, 'a' := 6], "a$", 0, 8) == Ok(AaaaNumbered)
  {
    assert map['$' := 8, 'a' := 6]['a'] == 6;
    assert EdgeLength(Aaaa4.nodes[6], 4) == 1;
    assert "a$"[1..] == "$";
    AaaaNumber6();
    AaaaChildren0_1();
  }

  lemma AaaaNumber0()
    ensures Number(Aaaa4.nodes, 5, 4, "a$", 0, 0, 9) == Ok(AaaaNumbered)
  {
    assert Aaaa4.nodes[0].children == map['$' := 8, 'a' := 6];
    AaaaChildren0_0();
  }

  lemma AaaaFrom4()
    ensures Phases(Aaaa3, 4) == Ok(Aaaa4)
  {
    AaaaPhase4();
  }

  lemma AaaaFrom3()
    ensures Phases(Aaaa2, 3) == Ok(Aaaa4)
  {
    AaaaPhase3();
    AaaaFrom4();
  }

  lemma AaaaFrom2()
    ensures Phases(Aaaa1, 2) == Ok(Aaaa4)
  {
    AaaaPhase2();
    AaaaFrom3();
  }

  lemma AaaaFrom1()
    ensures Phases(Aaaa0, 1) == Ok(Aaaa4)
  {
    AaaaPhase1();
    AaaaFrom2();
  }

  lemma AaaaFrom0()
    ensures Phases(AaaaStart, 0) == Ok(Aaaa4)
  {
    AaaaPhase0();
    AaaaFrom1();
  }

  lemma AaaaAlphabet1()
    ensures Alphabet("a") == "a"
  {
    assert "a"[..0] == "";
  }

  lemma AaaaAlphabet2()
    ensures Alphabet("aa") == "a"
  {
    assert "aa"[..1] == "a";
    AaaaAlphabet1();
  }

  lemma AaaaAlphabet3()
    ensures Alphabet("aaa") == "a"
  {
    assert "aaa"[..2] == "aa";
    AaaaAlphabet2();
  }

  lemma AaaaAlphabet4()
    ensures Alphabet("aaaa") == "a"
  {
    assert "aaaa"[..3] == "aaa";
    AaaaAlphabet3();
  }

  lemma AaaaAlphabet5()
    ensures Alphabet("aaaa$") == "a$"
  {
    assert "aaaa$"[..4] == "aaaa";
    AaaaAlphabet4();
  }

  lemma AaaaAlphabet()
    ensures Alphabet("aaaa$") == "a$"
  {
    AaaaAlphabet5();
  }

  /** The tree `Build("aaaa")` answers. */
  const AaaaTree: Builder := Aaaa4.(nodes := AaaaNumbered)

  lemma AaaaBuild()
    ensures Build("aaaa") == Ok(AaaaTree)
  {
    assert WithSentinel("aaaa") == "aaaa$";
    assert Init("aaaa") == AaaaStart;
    AaaaFrom0();
    AaaaAlphabet();
    AaaaNumber0();
  }

  lemma AaaaArenaOk()
    ensures ArenaOk(AaaaNumbered) && AaaaTree.text == "aaaa$" && AaaaTree.nodes == AaaaNumbered && AaaaTree.leafEnd == 4
  {
  }

  lemma AaaaWalk0_3()
    ensures Locate("aaaa$", AaaaNumbered, 4, 2, "a$") == Some([1])
  {
    assert "a$"[0] == 'a';
    assert 'a' in AaaaNumbered[2].children;
    assert AaaaNumbered[2].children['a'] == 1;
    assert "a$"[..2] == "a$";
    assert "a$"[2..] == "";
    assert EdgeText("aaaa$", AaaaNumbered[1], 4) == "a$";
    assert Locate("aaaa$", AaaaNumbered, 4, 1, []) == Some([]);
    assert [1] + [] == [1];
  }

  lemma AaaaWalk0_2()
    ensures Locate("aaaa$", AaaaNumbered, 4, 4, "aa$") == Some([2, 1])
  {
    assert "aa$"[0] == 'a';
    assert 'a' in AaaaNumbered[4].children;
    assert AaaaNumbered[4].children['a'] == 2;
    assert "aa$"[..1] == "a";
    assert "aa$"[1..] == "a$";
    assert EdgeText("aaaa$", AaaaNumbered[2], 4) == "a";
    AaaaWalk0_3();
    assert [2] + [1] == [2, 1];
  }

  lemma AaaaWalk0_1()
    ensures Locate("aaaa$", AaaaNumbered, 4, 6, "aaa$") == Some([4, 2, 1])
  {
    assert "aaa$"[0] == 'a';
    assert 'a' in AaaaNumbered[6].children;
    assert AaaaNumbered[6].children['a'] == 4;
    assert "aaa$"[..1] == "a";
    assert "aaa$"[1..] == "aa$";
    assert EdgeText("aaaa$", AaaaNumbered[4], 4) == "a";
    AaaaWalk0_2();
    assert [4] + [2, 1] == [4, 2, 1];
  }

  lemma AaaaWalk0_0()
    ensures Locate("aaaa$", AaaaNumbered, 4, 0, "aaaa$") == Some([6, 4, 2, 1])
  {
    assert "aaaa$"[0] == 'a';
    assert 'a' in AaaaNumbered[0].children;
    assert AaaaNumbered[0].children['a'] == 6;
    assert "aaaa$"[..1] == "a";
    assert "aaaa$"[1..] == "aaa$";
    assert EdgeText("aaaa$", AaaaNumbered[6], 4) == "a";
    AaaaWalk0_1();
    assert [6] + [4, 2, 1] == [6, 4, 2, 1];
  }

  lemma AaaaSuffix0Walk()
    ensures Locate(AaaaTree.text, AaaaTree.nodes, AaaaTree.leafEnd, Root, AaaaTree.text[0..]) == Some([6, 4, 2, 1])
  {
    AaaaArenaOk();
    assert "aaaa$"[0..] == "aaaa$";
    AaaaWalk0_0();
  }

  lemma AaaaSuffix0Leaf()
    ensures IsLeaf(AaaaTree, 1) && AaaaTree.nodes[1].suffixIndex == 0
  {
    assert AaaaTree.nodes == AaaaNumbered;
    assert AaaaNumbered[1].children == map[] && AaaaNumbered[1].suffixIndex == 0;
  }

  lemma AaaaSuffix0()
    ensures SuffixAtLeaf(AaaaTree, 0)
    ensures IsLeaf(AaaaTree, 1) && LeafReached(AaaaTree, 1)
  {
    AaaaArenaOk();
    AaaaSuffix0Walk();
    AaaaSuffix0Leaf();
  }

  lemma AaaaWalk1_3()
    ensures Locate("aaaa$", AaaaNumbered, 4, 2, "$") == Some([3])
  {
    assert "$"[0] == '$';
    assert '$' in AaaaNumbered[2].children;
    assert AaaaNumbered[2].children['$'] == 3;
    assert "$"[..1] == "$";
    assert "$"[1..] == "";
    assert EdgeText("aaaa$", AaaaNumbered[3], 4) == "$";
    assert Locate("aaaa$", AaaaNumbered, 4, 3, []) == Some([]);
    assert [3] + [] == [3];
  }

  lemma AaaaWalk1_2()
    ensures Locate("aaaa$", AaaaNumbered, 4, 4, "a$") == Some([2, 3])
  {
    assert "a$"[0] == 'a';
    assert 'a' in AaaaNumbered[4].children;
    assert AaaaNumbered[4].children['a'] == 2;
    assert "a$"[..1] == "a";
    assert "a$"[1..] == "$";
    assert EdgeText("aaaa$", AaaaNumbered[2], 4) == "a";
    AaaaWalk1_3();
    assert [2] + [3] == [2, 3];
  }

  lemma AaaaWalk1_1()
    ensures Locate("aaaa$", AaaaNumbered, 4, 6, "aa$") == Some([4, 2, 3])
  {
    assert "aa$"[0] == 'a';
    assert 'a' in AaaaNumbered[6].children;
    assert AaaaNumbered[6].children['a'] == 4;
    assert "aa$"[..1] == "a";
    assert "aa$"[1..] == "a$";
    assert EdgeText("aaaa$", AaaaNumbered[4], 4) == "a";
    AaaaWalk1_2();
    assert [4] + [2, 3] == [4, 2, 3];
  }

  lemma AaaaWalk1_0()
    ensures Locate("aaaa$", AaaaNumbered, 4, 0, "aaa$") == Some([6, 4, 2, 3])
  {
    assert "aaa$"[0] == 'a';
    assert 'a' in AaaaNumbered[0].children;
    assert AaaaNumbered[0].children['a'] == 6;
    assert "aaa$"[..1] == "a";
    assert "aaa$"[1..] == "aa$";
    assert EdgeText("aaaa$", AaaaNumbered[6], 4) == "a";
    AaaaWalk1_1();
    assert [6] + [4, 2, 3] == [6, 4, 2, 3];
  }

  lemma AaaaSuffix1Walk()
    ensures Locate(AaaaTree.text, AaaaTree.nodes, AaaaTree.leafEnd, Root, AaaaTree.text[1..]) == Some([6, 4, 2, 3])
  {
    AaaaArenaOk();
    assert "aaaa$"[1..] == "aaa$";
    AaaaWalk1_0();
  }

  lemma AaaaSuffix1Leaf()
    ensures IsLeaf(AaaaTree, 3) && AaaaTree.nodes[3].suffixIndex == 1
  {
    assert AaaaTree.nodes == AaaaNumbered;
    assert AaaaNumbered[3].children == map[] && AaaaNumbered[3].suffixIndex == 1;
  }

  lemma AaaaSuffix1()
    ensures SuffixAtLeaf(AaaaTree, 1)
    ensures IsLeaf(AaaaTree, 3) && LeafReached(AaaaTree, 3)
  {
    AaaaArenaOk();
    AaaaSuffix1Walk();
    AaaaSuffix1Leaf();
  }

  lemma AaaaWalk2_2()
    ensures Locate("aaaa$", AaaaNumbered, 4, 4, "$") == Some([5])
  {
    assert "$"[0] == '$';
    assert '$' in AaaaNumbered[4].children;
    assert AaaaNumbered[4].children['$'] == 5;
    assert "$"[..1] == "$";
    assert "$"[1..] == "";
    assert EdgeText("aaaa$", AaaaNumbered[5], 4) == "$";
    assert Locate("aaaa$", AaaaNumbered, 4, 5, []) == Some([]);
    assert [5] + [] == [5];
  }

  lemma AaaaWalk2_1()
    ensures Locate("aaaa$", AaaaNumbered, 4, 6, "a$") == Some([4, 5])
  {
    assert "a$"[0] == 'a';
    assert 'a' in AaaaNumbered[6].children;
    assert AaaaNumbered[6].children['a'] == 4;
    assert "a$"[..1] == "a";
    assert "a$"[1..] == "$";
    assert EdgeText("aaaa$", AaaaNumbered[4], 4) == "a";
    AaaaWalk2_2();
    assert [4] + [5] == [4, 5];
  }

  lemma AaaaWalk2_0()
    ensures Locate("aaaa$", AaaaNumbered, 4, 0, "aa$") == Some([6, 4, 5])
  {
    assert "aa$"[0] == 'a';
    assert 'a' in AaaaNumbered[0].children;
    assert AaaaNumbered[0].children['a'] == 6;
    assert "aa$"[..1] == "a";
    assert "aa$"[1..] == "a$";
    assert EdgeText("aaaa$", AaaaNumbered[6], 4) == "a";
    AaaaWalk2_1();
    assert [6] + [4, 5] == [6, 4, 5];
  }

  lemma AaaaSuffix2Walk()
    ensures Locate(AaaaTree.text, AaaaTree.nodes, AaaaTree.leafEnd, Root, AaaaTree.text[2..]) == Some([6, 4, 5])
  {
    AaaaArenaOk();
    assert "aaaa$"[2..] == "aa$";
    AaaaWalk2_0();
  }

  lemma AaaaSuffix2Leaf()
    ensures IsLeaf(AaaaTree, 5) && AaaaTree.nodes[5].suffixIndex == 2
  {
    assert AaaaTree.nodes == AaaaNumbered;
    assert AaaaNumbered[5].children == map[] && AaaaNumbered[5].suffixIndex == 2;
  }

  lemma AaaaSuffix2()
    ensures SuffixAtLeaf(AaaaTree, 2)
    ensures IsLeaf(AaaaTree, 5) && LeafReached(AaaaTree, 5)
  {
    AaaaArenaOk();
    AaaaSuffix2Walk();
    AaaaSuffix2Leaf();
  }

  lemma AaaaWalk3_1()
    ensures Locate("aaaa$", AaaaNumbered, 4, 6, "$") == Some([7])
  {
    assert "$"[0] == '$';
    assert '$' in AaaaNumbered[6].children;
    assert AaaaNumbered[6].children['$'] == 7;
    assert "$"[..1] == "$";
    assert "$"[1..] == "";
    assert EdgeText("aaaa$", AaaaNumbered[7], 4) == "$";
    assert Locate("aaaa$", AaaaNumbered, 4, 7, []) == Some([]);
    assert [7] + [] == [7];
  }

  lemma AaaaWalk3_0()
    ensures Locate("aaaa$", AaaaNumbered, 4, 0, "a$") == Some([6, 7])
  {
    assert "a$"[0] == 'a';
    assert 'a' in AaaaNumbered[0].children;
    assert AaaaNumbered[0].children['a'] == 6;
    assert "a$"[..1] == "a";
    assert "a$"[1..] == "$";
    assert EdgeText("aaaa$", AaaaNumbered[6], 4) == "a";
    AaaaWalk3_1();
    assert [6] + [7] == [6, 7];
  }

  lemma AaaaSuffix3Walk()
    ensures Locate(AaaaTree.text, AaaaTree.nodes, AaaaTree.leafEnd, Root, AaaaTree.text[3..]) == Some([6, 7])
  {
    AaaaArenaOk();
    assert "aaaa$"[3..] == "a$";
    AaaaWalk3_0();
  }

  lemma AaaaSuffix3Leaf()
    ensures IsLeaf(AaaaTree, 7) && AaaaTree.nodes[7].suffixIndex == 3
  {
    assert AaaaTree.nodes == AaaaNumbered;
    assert AaaaNumbered[7].children == map[] && AaaaNumbered[7].suffixIndex == 3;
  }

  lemma AaaaSuffix3()
    ensures SuffixAtLeaf(AaaaTree, 3)
    ensures IsLeaf(AaaaTree, 7) && LeafReached(AaaaTree, 7)
  {
    AaaaArenaOk();
    AaaaSuffix3Walk();
    AaaaSuffix3Leaf();
  }

  lemma AaaaWalk4_0()
    ensures Locate("aaaa$", AaaaNumbered, 4, 0, "$") == Some([8])
  {
    assert "$"[0] == '$';
    assert '$' in AaaaNumbered[0].children;
    assert AaaaNumbered[0].children['$'] == 8;
    assert "$"[..1] == "$";
    assert "$"[1..] == "";
    assert EdgeText("aaaa$", AaaaNumbered[8], 4) == "$";
    assert Locate("aaaa$", AaaaNumbered, 4, 8, []) == Some([]);
    assert [8] + [] == [8];
  }

  lemma AaaaSuffix4Walk()
    ensures Locate(AaaaTree.text, AaaaTree.nodes, AaaaTree.leafEnd, Root, AaaaTree.text[4..]) == Some([8])
  {
    AaaaArenaOk();
    assert "aaaa$"[4..] == "$";
    AaaaWalk4_0();
  }

  lemma AaaaSuffix4Leaf()
    ensures IsLeaf(AaaaTree, 8) && AaaaTree.nodes[8].suffixIndex == 4
  {
    assert AaaaTree.nodes == AaaaNumbered;
    assert AaaaNumbered[8].children == map[] && AaaaNumbered[8].suffixIndex == 4;
  }

  lemma AaaaSuffix4()
    ensures SuffixAtLeaf(AaaaTree, 4)
    ensures IsLeaf(AaaaTree, 8) && LeafReached(AaaaTree, 8)
  {
    AaaaArenaOk();
    AaaaSuffix4Walk();
    AaaaSuffix4Leaf();
  }

  lemma AaaaAllSuffixes()
    ensures forall k | 0 <= k < 5 :: SuffixAtLeaf(AaaaTree, k)
  {
    AaaaArenaOk();
    forall k | 0 <= k < 5
      ensures SuffixAtLeaf(AaaaTree, k)
    {
      if k == 0 {
        AaaaSuffix0();
      } else if k == 1 {
        AaaaSuffix1();
      } else if k == 2 {
        AaaaSuffix2();
      } else if k == 3 {
        AaaaSuffix3();
      } else if k == 4 {
        AaaaSuffix4();
      }
    }
  }

  lemma AaaaAllLeaves()
    ensures forall id | 0 < id < 9 && IsLeaf(AaaaTree, id) :: LeafReached(AaaaTree, id)
  {
    AaaaArenaOk();
    forall id | 0 < id < 9
      ensures IsLeaf(AaaaTree, id) ==> LeafReached(AaaaTree, id)
    {
      if id == 1 {
        AaaaSuffix0();
      } else if id == 2 {
        assert 'a' in AaaaNumbered[2].children;
      } else if id == 3 {
        AaaaSuffix1();
      } else if id == 4 {
        assert 'a' in AaaaNumbered[4].children;
      } else if id == 5 {
        AaaaSuffix2();
      } else if id == 6 {
        assert 'a' in AaaaNumbered[6].children;
      } else if id == 7 {
        AaaaSuffix3();
      } else if id == 8 {
        AaaaSuffix4();
      }
    }
  }

  /** Every suffix of "aaaa$" ends at its own leaf of the tree Ukkonen's builder
      answers, and every leaf is the end of its suffix. */
  lemma AaaaIsSuffixTree()
    ensures Build("aaaa") == Ok(AaaaTree) && IsSuffixTree(AaaaTree)
  {
    AaaaBuild();
    AaaaArenaOk();
    AaaaAllSuffixes();
    AaaaAllLeaves();
  }

  lemma AaaaPrepared(input: string)
    requires input == "aaaa"
    ensures forall k | 0 <= k < |input| :: input[k] != Sentinel
    ensures WithSentinel(input) == AaaaTree.text
  {
    assert WithSentinel("aaaa") == "aaaa$";
    AaaaArenaOk();
  }

  lemma AaaaAgrees(input: string)
    requires input == "aaaa"
    ensures var t := NaiveSuffixTree.Build(input);
      NaiveSuffixTree.WellFormed(t.text, t.root) && LeafLabels(AaaaTree) == NaiveSuffixTree.Leaves(t.text, t.root)
  {
    AaaaIsSuffixTree();
    AaaaPrepared(input);
    WithSentinelUnique(input);
    AgreesWithNaive(input, AaaaTree);
  }

  /** Ukkonen's builder and the naive builder agree on "aaaa": the same
      leaves, with the same suffix indices and path labels. */
  lemma AaaaMatchesNaive()
    ensures Build("aaaa") == Ok(AaaaTree) && IsSuffixTree(AaaaTree)
    ensures var t := NaiveSuffixTree.Build("aaaa");
      NaiveSuffixTree.WellFormed(t.text, t.root) && LeafLabels(AaaaTree) == NaiveSuffixTree.Leaves(t.text, t.root)
  {
    AaaaIsSuffixTree();
    AaaaAgrees("aaaa");
  }

  const AbcStart: Builder :=
    Builder("abcabcabc$", 10,
      [Node(-1, Closed(-1), map[], 0, -1)],
      0, -1, 0, 0, -1, None)

  const Abc0: Builder :=
    Builder("abcabcabc$", 10,
      [Node(-1, Closed(-1), map['a' := 1], 0, -1),
      Node(0, Open, map[], 0, -1)],
      0, 0, 0, 0, 0, None)

  lemma Abc0Step1Arena()
    ensures Attach(AbcStart.nodes, 0, 'a', 0) == Abc0.nodes
  {
    var x := Attach(AbcStart.nodes, 0, 'a', 0);
    var y := Abc0.nodes;
    assert x[0] == y[0];
    assert x[1] == y[1];
  }

  lemma Abc0Step1Op()
    ensures AddLeaf(AbcStart.(leafEnd := 0, remaining := 1, lastNewNode := None).(activeEdge := 0), 0, 'a') == AbcStart.(leafEnd := 0, remaining := 1, lastNewNode := None).(activeEdge := 0).(nodes := Abc0.nodes, lastNewNode := None)
  {
    Abc0Step1Arena();
  }

  lemma Abc0Step1Advance()
    ensures Advance(AbcStart.(leafEnd := 0, remaining := 1, lastNewNode := None).(activeEdge := 0).(nodes := Abc0.nodes, lastNewNode := None), 0) == Abc0
  {
  }

  lemma Abc0Step1()
    ensures Step(AbcStart.(leafEnd := 0, remaining := 1, lastNewNode := None), 0) == Next(Abc0)
  {
    assert CharAt(Abc0.text, 0) == Ok('a');
    assert 'a' !in AbcStart.nodes[0].children;
    Abc0Step1Op();
    Abc0Step1Advance();
  }

  lemma AbcPhase0()
    ensures Extend(AbcStart, 0) == Ok(Abc0)
  {
    Abc0Step1();
  }

  const Abc1: Builder :=
    Builder("abcabcabc$", 10,
      [Node(-1, Closed(-1), map['a' := 1, 'b' := 2], 0, -1),
      Node(0, Open, map[], 0, -1),
      Node(1, Open, map[], 0, -1)],
      0, 1, 0, 0, 1, None)

  lemma Abc1Step1Arena()
    ensures Attach(Abc0.nodes, 0, 'b', 1) == Abc1.nodes
  {
    var x := Attach(Abc0.nodes, 0, 'b', 1);
    var y := Abc1.nodes;
    assert x[0] == y[0];
    assert x[1] == y[1];
    assert x[2] == y[2];
  }

  lemma Abc1Step1Op()
    ensures AddLeaf(Abc0.(leafEnd := 1, remaining := 1, lastNewNode := None).(activeEdge := 1), 1, 'b') == Abc0.(leafEnd := 1, remaining := 1, lastNewNode := None).(activeEdge := 1).(nodes := Abc1.nodes, lastNewNode := None)
  {
    Abc1Step1Arena();
  }

  lemma Abc1Step1Advance()
    ensures Advance(Abc0.(leafEnd := 1, remaining := 1, lastNewNode := None).(activeEdge := 1).(nodes := Abc1.nodes, lastNewNode := None), 1) == Abc1
  {
  }

  lemma Abc1Step1()
    ensures Step(Abc0.(leafEnd := 1, remaining := 1, lastNewNode := None), 1) == Next(Abc1)
  {
    assert CharAt(Abc1.text, 1) == Ok('b');
    assert 'b' !in Abc0.nodes[0].children;
    Abc1Step1Op();
    Abc1Step1Advance();
  }

  lemma AbcPhase1()
    ensures Extend(Abc0, 1) == Ok(Abc1)
  {
    Abc1Step1();
  }

  const Abc2: Builder :=
    Builder("abcabcabc$", 10,
      [Node(-1, Closed(-1), map['a' := 1, 'b' := 2, 'c' := 3], 0, -1),
      Node(0, Open, map[], 0, -1),
      Node(1, Open, map[], 0, -1),
      Node(2, Open, map[], 0, -1)],
      0, 2, 0, 0, 2, None)

  lemma Abc2Step1Arena()
    ensures Attach(Abc1.nodes, 0, 'c', 2) == Abc2.nodes
  {
    var x := Attach(Abc1.nodes, 0, 'c', 2);
    var y := Abc2.nodes;
    assert x[0] == y[0];
    assert x[1] == y[1];
    assert x[2] == y[2];
    assert x[3] == y[3];
  }

  lemma Abc2Step1Op()
    ensures AddLeaf(Abc1.(leafEnd := 2, remaining := 1, lastNewNode := None).(activeEdge := 2), 2, 'c') == Abc1.(leafEnd := 2, remaining := 1, lastNewNode := None).(activeEdge := 2).(nodes := Abc2.nodes, lastNewNode := None)
  {
    Abc2Step1Arena();
  }

  lemma Abc2Step1Advance()
    ensures Advance(Abc1.(leafEnd := 2, remaining := 1, lastNewNode := None).(activeEdge := 2).(nodes := Abc2.nodes, lastNewNode := None), 2) == Abc2
  {
  }

  lemma Abc2Step1()
    ensures Step(Abc1.(leafEnd := 2, remaining := 1, lastNewNode := None), 2) == Next(Abc2)
  {
    assert CharAt(Abc2.text, 2) == Ok('c');
    assert 'c' !in Abc1.nodes[0].children;
    Abc2Step1Op();
    Abc2Step1Advance();
  }

  lemma AbcPhase2()
    ensures Extend(Abc1, 2) == Ok(Abc2)
  {
    Abc2Step1();
  }

  const Abc3: Builder :=
    Builder("abcabcabc$", 10,
      [Node(-1, Closed(-1), map['a' := 1, 'b' := 2, 'c' := 3], 0, -1),
      Node(0, Open, map[], 0, -1),
      Node(1, Open, map[], 0, -1),
      Node(2, Open, map[], 0, -1)],
      0, 3, 1, 1, 3, None)

  lemma Abc3Step1Op()
    ensures Rule3(Abc2.(leafEnd := 3, remaining := 1, lastNewNode := None).(activeEdge := 3)) == Abc3
  {
  }

  lemma Abc3Step1Walk()
    ensures WalkDown(Abc2.(leafEnd := 3, remaining := 1, lastNewNode := None).(activeEdge := 3), 1) == (false, Abc2.(leafEnd := 3, remaining := 1, lastNewNode := None).(activeEdge := 3))
  {
  }

  lemma Abc3Step1Edge()
    ensures StepOnEdge(Abc2.(leafEnd := 3, remaining := 1, lastNewNode := None).(activeEdge := 3), 3, 'a') == Stop(Abc3)
  {
    assert Abc2.nodes[0].children['a'] == 1;
    Abc3Step1Walk();
    assert CharAt(Abc3.text, 0) == Ok('a');
    Abc3Step1Op();
    EdgeRule3(Abc2.(leafEnd := 3, remaining := 1, lastNewNode := None).(activeEdge := 3), 3, 'a');
  }

  lemma Abc3Step1()
    ensures Step(Abc2.(leafEnd := 3, remaining := 1, lastNewNode := None), 3) == Stop(Abc3)
  {
    assert CharAt(Abc3.text, 3) == Ok('a');
    assert 'a' in Abc2.nodes[0].children;
    Abc3Step1Edge();
  }

  lemma AbcPhase3()
    ensures Extend(Abc2, 3) == Ok(Abc3)
  {
    Abc3Step1();
  }

  const Abc4: Builder :=
    Builder("abcabcabc$", 10,
      [Node(-1, Closed(-1), map['a' := 1, 'b' := 2, 'c' := 3], 0, -1),
      Node(0, Open, map[], 0, -1),
      Node(1, Open, map[], 0, -1),
      Node(2, Open, map[], 0, -1)],
      0, 3, 2, 2, 4, None)

  lemma Abc4Step1Op()
    ensures Rule3(Abc3.(leafEnd := 4, remaining := 2, lastNewNode := None)) == Abc4
  {
  }

  lemma Abc4Step1Walk()
    ensures WalkDown(Abc3.(leafEnd := 4, remaining := 2, lastNewNode := None), 1) == (false, Abc3.(leafEnd := 4, remaining := 2, lastNewNode := None))
  {
  }

  lemma Abc4Step1Edge()
    ensures StepOnEdge(Abc3.(leafEnd := 4, remaining := 2, lastNewNode := None), 4, 'a') == Stop(Abc4)
  {
    assert Abc3.nodes[0].children['a'] == 1;
    Abc4Step1Walk();
    assert CharAt(Abc4.text, 1) == Ok('b');
    Abc4Step1Op();
    EdgeRule3(Abc3.(leafEnd := 4, remaining := 2, lastNewNode := None), 4, 'a');
  }

  lemma Abc4Step1()
    ensures Step(Abc3.(leafEnd := 4, remaining := 2, lastNewNode := None), 4) == Stop(Abc4)
  {
    assert CharAt(Abc4.text, 3) == Ok('a');
    assert 'a' in Abc3.nodes[0].children;
    Abc4Step1Edge();
  }

  lemma AbcPhase4()
    ensures Extend(Abc3, 4) == Ok(Abc4)
  {
    Abc4Step1();
  }

  const Abc5: Builder :=
    Builder("abcabcabc$", 10,
      [Node(-1, Closed(-1), map['a' := 1, 'b' := 2, 'c' := 3], 0, -1),
      Node(0, Open, map[], 0, -1),
      Node(1, Open, map[], 0, -1),
      Node(2, Open, map[], 0, -1)],
      0, 3, 3, 3, 5, None)

  lemma Abc5Step1Op()
    ensures Rule3(Abc4.(leafEnd := 5, remaining := 3, lastNewNode := None)) == Abc5
  {
  }

  lemma Abc5Step1Walk()
    ensures WalkDown(Abc4.(leafEnd := 5, remaining := 3, lastNewNode := None), 1) == (false, Abc4.(leafEnd := 5, remaining := 3, lastNewNode := None))
  {
  }

  lemma Abc5Step1Edge()
    ensures StepOnEdge(Abc4.(leafEnd := 5, remaining := 3, lastNewNode := None), 5, 'a') == Stop(Abc5)
  {
    assert Abc4.nodes[0].children['a'] == 1;
    Abc5Step1Walk();
    assert CharAt(Abc5.text, 2) == Ok('c');
    Abc5Step1Op();
    EdgeRule3(Abc4.(leafEnd := 5, remaining := 3, lastNewNode := None), 5, 'a');
  }

  lemma Abc5Step1()
    ensures Step(Abc4.(leafEnd := 5, remaining := 3, lastNewNode := None), 5) == Stop(Abc5)
  {
    assert CharAt(Abc5.text, 3) == Ok('a');
    assert 'a' in Abc4.nodes[0].children;
    Abc5Step1Edge();
  }

  lemma AbcPhase5()
    ensures Extend(Abc4, 5) == Ok(Abc5)
  {
    Abc5Step1();
  }

  const Abc6: Builder :=
    Builder("abcabcabc$", 10,
      [Node(-1, Closed(-1), map['a' := 1, 'b' := 2, 'c' := 3], 0, -1),
      Node(0, Open, map[], 0, -1),
      Node(1, Open, map[], 0, -1),
      Node(2, Open, map[], 0, -1)],
      0, 3, 4, 4, 6, None)

  lemma Abc6Step1Op()
    ensures Rule3(Abc5.(leafEnd := 6, remaining := 4, lastNewNode := None)) == Abc6
  {
  }

  lemma Abc6Step1Walk()
    ensures WalkDown(Abc5.(leafEnd := 6, remaining := 4, lastNewNode := None), 1) == (false, Abc5.(leafEnd := 6, remaining := 4, lastNewNode := None))
  {
  }

  lemma Abc6Step1Edge()
    ensures StepOnEdge(Abc5.(leafEnd := 6, remaining := 4, lastNewNode := None), 6, 'a') == Stop(Abc6)
  {
    assert Abc5.nodes[0].children['a'] == 1;
    Abc6Step1Walk();
    assert CharAt(Abc6.text, 3) == Ok('a');
    Abc6Step1Op();
    EdgeRule3(Abc5.(leafEnd := 6, remaining := 4, lastNewNode := None), 6, 'a');
  }

  lemma Abc6Step1()
    ensures Step(Abc5.(leafEnd := 6, remaining := 4, lastNewNode := None), 6) == Stop(Abc6)
  {
    assert CharAt(Abc6.text, 3) == Ok('a');
    assert 'a' in Abc5.nodes[0].children;
    Abc6Step1Edge();
  }

  lemma AbcPhase6()
    ensures Extend(Abc5, 6) == Ok(Abc6)
  {
    Abc6Step1();
  }

  const Abc7: Builder :=
    Builder("abcabcabc$", 10,
      [Node(-1, Closed(-1), map['a' := 1, 'b' := 2, 'c' := 3], 0, -1),
      Node(0, Open, map[], 0, -1),
      Node(1, Open, map[], 0, -1),
      Node(2, Open, map[], 0, -1)],
      0, 3, 5, 5, 7, None)

  lemma Abc7Step1Op()
    ensures Rule3(Abc6.(leafEnd := 7, remaining := 5, lastNewNode := None)) == Abc7
  {
  }

  lemma Abc7Step1Walk()
    ensures WalkDown(Abc6.(leafEnd := 7, remaining := 5, lastNewNode := None), 1) == (false, Abc6.(leafEnd := 7, remaining := 5, lastNewNode := None))
  {
  }

  lemma Abc7Step1Edge()
    ensures StepOnEdge(Abc6.(leafEnd := 7, remaining := 5, lastNewNode := None), 7, 'a') == Stop(Abc7)
  {
    assert Abc6.nodes[0].children['a'] == 1;
    Abc7Step1Walk();
    assert CharAt(Abc7.text, 4) == Ok('b');
    Abc7Step1Op();
    EdgeRule3(Abc6.(leafEnd := 7, remaining := 5, lastNewNode := None), 7, 'a');
  }

  lemma Abc7Step1()
    ensures Step(Abc6.(leafEnd := 7, remaining := 5, lastNewNode := None), 7) == Stop(Abc7)
  {
    assert CharAt(Abc7.text, 3) == Ok('a');
    assert 'a' in Abc6.nodes[0].children;
    Abc7Step1Edge();
  }

  lemma AbcPhase7()
    ensures Extend(Abc6, 7) == Ok(Abc7)
  {
    Abc7Step1();
  }

  const Abc8: Builder :=
    Builder("abcabcabc$", 10,
      [Node(-1, Closed(-1), map['a' := 1, 'b' := 2, 'c' := 3], 0, -1),
      Node(0, Open, map[], 0, -1),
      Node(1, Open, map[], 0, -1),
      Node(2, Open, map[], 0, -1)],
      0, 3, 6, 6, 8, None)

  lemma Abc8Step1Op()
    ensures Rule3(Abc7.(leafEnd := 8, remaining := 6, lastNewNode := None)) == Abc8
  {
  }

  lemma Abc8Step1Walk()
    ensures WalkDown(Abc7.(leafEnd := 8, remaining := 6, lastNewNode := None), 1) == (false, Abc7.(leafEnd := 8, remaining := 6, lastNewNode := None))
  {
  }

  lemma Abc8Step1Edge()
    ensures StepOnEdge(Abc7.(leafEnd := 8, remaining := 6, lastNewNode := None), 8, 'a') == Stop(Abc8)
  {
    assert Abc7.nodes[0].children['a'] == 1;
    Abc8Step1Walk();
    assert CharAt(Abc8.text, 5) == Ok('c');
    Abc8Step1Op();
    EdgeRule3(Abc7.(leafEnd := 8, remaining := 6, lastNewNode := None), 8, 'a');
  }

  lemma Abc8Step1()
    ensures Step(Abc7.(leafEnd := 8, remaining := 6, lastNewNode := None), 8) == Stop(Abc8)
  {
    assert CharAt(Abc8.text, 3) == Ok('a');
    assert 'a' in Abc7.nodes[0].children;
    Abc8Step1Edge();
  }

  lemma AbcPhase8()
    ensures Extend(Abc7, 8) == Ok(Abc8)
  {
    Abc8Step1();
  }

  const Abc9_1: Builder :=
    Builder("abcabcabc$", 10,
      [Node(-1, Closed(-1), map['a' := 4, 'b' := 2, 'c' := 3], 0, -1),
      Node(6, Open, map[], 0, -1),
      Node(1, Open, map[], 0, -1),
      Node(2, Open, map[], 0, -1),
      Node(0, Closed(5), map['$' := 5, 'a' := 1], 0, -1),
      Node(9, Open, map[], 0, -1)],
      0, 4, 5, 6, 9, Some(4))

  lemma Abc9Step1Arena()
    ensures SplitNodes(Abc8.nodes, 0, 'a', 1, 6, 9, '$', 'a') == Abc9_1.nodes
  {
    var x := SplitNodes(Abc8.nodes, 0, 'a', 1, 6, 9, '$', 'a');
    var y := Abc9_1.nodes;
    assert x[0] == y[0];
    assert x[1] == y[1];
    assert x[2] == y[2];
    assert x[3] == y[3];
    assert x[4] == y[4];
    assert x[5] == y[5];
  }

  lemma Abc9Step1Op()
    ensures Split(Abc8.(leafEnd := 9, remaining := 7, lastNewNode := None), 9, 'a', 1, 'a') == Abc8.(leafEnd := 9, remaining := 7, lastNewNode := None).(nodes := Abc9_1.nodes, lastNewNode := Some(4))
  {
    Abc9Step1Arena();
  }

  lemma Abc9Step1Advance()
    ensures Advance(Abc8.(leafEnd := 9, remaining := 7, lastNewNode := None).(nodes := Abc9_1.nodes, lastNewNode := Some(4)), 9) == Abc9_1
  {
  }

  lemma Abc9Step1Walk()
    ensures WalkDown(Abc8.(leafEnd := 9, remaining := 7, lastNewNode := None), 1) == (false, Abc8.(leafEnd := 9, remaining := 7, lastNewNode := None))
  {
  }

  lemma Abc9Step1Edge()
    ensures StepOnEdge(Abc8.(leafEnd := 9, remaining := 7, lastNewNode := None), 9, 'a') == Next(Abc9_1)
  {
    assert Abc8.nodes[0].children['a'] == 1;
    Abc9Step1Walk();
    assert CharAt(Abc9_1.text, 6) == Ok('a');
    Abc9Step1Op();
    Abc9Step1Advance();
    EdgeSplit(Abc8.(leafEnd := 9, remaining := 7, lastNewNode := None), 9, 'a');
  }

  lemma Abc9Step1()
    ensures Step(Abc8.(leafEnd := 9, remaining := 7, lastNewNode := None), 9) == Next(Abc9_1)
  {
    assert CharAt(Abc9_1.text, 3) == Ok('a');
    assert 'a' in Abc8.nodes[0].children;
    Abc9Step1Edge();
  }

  const Abc9_2: Builder :=
    Builder("abcabcabc$", 10,
      [Node(-1, Closed(-1), map['a' := 4, 'b' := 6, 'c' := 3], 0, -1),
      Node(6, Open, map[], 0, -1),
      Node(6, Open, map[], 0, -1),
      Node(2, Open, map[], 0, -1),
      Node(0, Closed(5), map['$' := 5, 'a' := 1], 6, -1),
      Node(9, Open, map[], 0, -1),
      Node(1, Closed(5), map['$' := 7, 'a' := 2], 0, -1),
      Node(9, Open, map[], 0, -1)],
      0, 5, 4, 5, 9, Some(6))

  lemma Abc9Step2Arena()
    ensures SplitNodes(Abc9_1.nodes, 0, 'b', 2, 5, 9, '$', 'a') == Abc9_2.nodes[4 := Abc9_2.nodes[4].(link := 0)]
  {
    var x := SplitNodes(Abc9_1.nodes, 0, 'b', 2, 5, 9, '$', 'a');
    var y := Abc9_2.nodes[4 := Abc9_2.nodes[4].(link := 0)];
    assert x[0] == y[0];
    assert x[1] == y[1];
    assert x[2] == y[2];
    assert x[3] == y[3];
    assert x[4] == y[4];
    assert x[5] == y[5];
    assert x[6] == y[6];
    assert x[7] == y[7];
  }

  lemma Abc9Step2Link()
    ensures WithLink(Abc9_2.nodes[4 := Abc9_2.nodes[4].(link := 0)], 4, 6) == Abc9_2.nodes
  {
    var z := WithLink(Abc9_2.nodes[4 := Abc9_2.nodes[4].(link := 0)], 4, 6);
    assert z[0] == Abc9_2.nodes[0];
    assert z[1] == Abc9_2.nodes[1];
    assert z[2] == Abc9_2.nodes[2];
    assert z[3] == Abc9_2.nodes[3];
    assert z[4] == Abc9_2.nodes[4];
    assert z[5] == Abc9_2.nodes[5];
    assert z[6] == Abc9_2.nodes[6];
    assert z[7] == Abc9_2.nodes[7];
  }

  lemma Abc9Step2Op()
    ensures Split(Abc9_1, 9, 'b', 2, 'a') == Abc9_1.(nodes := Abc9_2.nodes, lastNewNode := Some(6))
  {
    Abc9Step2Arena();
    Abc9Step2Link();
  }

  lemma Abc9Step2Advance()
    ensures Advance(Abc9_1.(nodes := Abc9_2.nodes, lastNewNode := Some(6)), 9) == Abc9_2
  {
  }

  lemma Abc9Step2Walk()
    ensures WalkDown(Abc9_1, 2) == (false, Abc9_1)
  {
  }

  lemma Abc9Step2Edge()
    ensures StepOnEdge(Abc9_1, 9, 'b') == Next(Abc9_2)
  {
    assert Abc9_1.nodes[0].children['b'] == 2;
    Abc9Step2Walk();
    assert CharAt(Abc9_2.text, 6) == Ok('a');
    Abc9Step2Op();
    Abc9Step2Advance();
    EdgeSplit(Abc9_1, 9, 'b');
  }

  lemma Abc9Step2()
    ensures Step(Abc9_1, 9) == Next(Abc9_2)
  {
    assert CharAt(Abc9_2.text, 4) == Ok('b');
    assert 'b' in Abc9_1.nodes[0].children;
    Abc9Step2Edge();
  }

  const Abc9_3: Builder :=
    Builder("abcabcabc$", 10,
      [Node(-1, Closed(-1), map['a' := 4, 'b' := 6, 'c' := 8], 0, -1),
      Node(6, Open, map[], 0, -1),
      Node(6, Open, map[], 0, -1),
      Node(6, Open, map[], 0, -1),
      Node(0, Closed(5), map['$' := 5, 'a' := 1], 6, -1),
      Node(9, Open, map[], 0, -1),
      Node(1, Closed(5), map['$' := 7, 'a' := 2], 8, -1),
      Node(9, Open, map[], 0, -1),
      Node(2, Closed(5), map['$' := 9, 'a' := 3], 0, -1),
      Node(9, Open, map[], 0, -1)],
      0, 6, 3, 4, 9, Some(8))

  lemma Abc9Step3Arena()
    ensures SplitNodes(Abc9_2.nodes, 0, 'c', 3, 4, 9, '$', 'a') == Abc9_3.nodes[6 := Abc9_3.nodes[6].(link := 0)]
  {
    var x := SplitNodes(Abc9_2.nodes, 0, 'c', 3, 4, 9, '$', 'a');
    var y := Abc9_3.nodes[6 := Abc9_3.nodes[6].(link := 0)];
    assert x[0] == y[0];
    assert x[1] == y[1];
    assert x[2] == y[2];
    assert x[3] == y[3];
    assert x[4] == y[4];
    assert x[5] == y[5];
    assert x[6] == y[6];
    assert x[7] == y[7];
    assert x[8] == y[8];
    assert x[9] == y[9];
  }

  lemma Abc9Step3Link()
    ensures WithLink(Abc9_3.nodes[6 := Abc9_3.nodes[6].(link := 0)], 6, 8) == Abc9_3.nodes
  {
    var z := WithLink(Abc9_3.nodes[6 := Abc9_3.nodes[6].(link := 0)], 6, 8);
    assert z[0] == Abc9_3.nodes[0];
    assert z[1] == Abc9_3.nodes[1];
    assert z[2] == Abc9_3.nodes[2];
    assert z[3] == Abc9_3.nodes[3];
    assert z[4] == Abc9_3.nodes[4];
    assert z[5] == Abc9_3.nodes[5];
    assert z[6] == Abc9_3.nodes[6];
    assert z[7] == Abc9_3.nodes[7];
    assert z[8] == Abc9_3.nodes[8];
    assert z[9] == Abc9_3.nodes[9];
  }

  lemma Abc9Step3Op()
    ensures Split(Abc9_2, 9, 'c', 3, 'a') == Abc9_2.(nodes := Abc9_3.nodes, lastNewNode := Some(8))
  {
    Abc9Step3Arena();
    Abc9Step3Link();
  }

  lemma Abc9Step3Advance()
    ensures Advance(Abc9_2.(nodes := Abc9_3.nodes, lastNewNode := Some(8)), 9) == Abc9_3
  {
  }

  lemma Abc9Step3Walk()
    ensures WalkDown(Abc9_2, 3) == (false, Abc9_2)
  {
  }

  lemma Abc9Step3Edge()
    ensures StepOnEdge(Abc9_2, 9, 'c') == Next(Abc9_3)
  {
    assert Abc9_2.nodes[0].children['c'] == 3;
    Abc9Step3Walk();
    assert CharAt(Abc9_3.text, 6) == Ok('a');
    Abc9Step3Op();
    Abc9Step3Advance();
    EdgeSplit(Abc9_2, 9, 'c');
  }

  lemma Abc9Step3()
    ensures Step(Abc9_2, 9) == Next(Abc9_3)
  {
    assert CharAt(Abc9_3.text, 5) == Ok('c');
    assert 'c' in Abc9_2.nodes[0].children;
    Abc9Step3Edge();
  }

  const Abc9_4: Builder :=
    Builder("abcabcabc$", 10,
      [Node(-1, Closed(-1), map['a' := 10, 'b' := 6, 'c' := 8], 0, -1),
      Node(6, Open, map[], 0, -1),
      Node(6, Open, map[], 0, -1),
      Node(6, Open, map[], 0, -1),
      Node(3, Closed(5), map['$' := 5, 'a' := 1], 6, -1),
      Node(9, Open, map[], 0, -1),
      Node(1, Closed(5), map['$' := 7, 'a' := 2], 8, -1),
      Node(9, Open, map[], 0, -1),
      Node(2, Closed(5), map['$' := 9, 'a' := 3], 10, -1),
      Node(9, Open, map[], 0, -1),
      Node(0, Closed(2), map['$' := 11, 'a' := 4], 0, -1),
      Node(9, Open, map[], 0, -1)],
      0, 7, 2, 3, 9, Some(10))

  lemma Abc9Step4Arena()
    ensures SplitNodes(Abc9_3.nodes, 0, 'a', 4, 3, 9, '$', 'a') == Abc9_4.nodes[8 := Abc9_4.nodes[8].(link := 0)]
  {
    var x := SplitNodes(Abc9_3.nodes, 0, 'a', 4, 3, 9, '$', 'a');
    var y := Abc9_4.nodes[8 := Abc9_4.nodes[8].(link := 0)];
    assert x[0] == y[0];
    assert x[1] == y[1];
    assert x[2] == y[2];
    assert x[3] == y[3];
    assert x[4] == y[4];
    assert x[5] == y[5];
    assert x[6] == y[6];
    assert x[7] == y[7];
    assert x[8] == y[8];
    assert x[9] == y[9];
    assert x[10] == y[10];
    assert x[11] == y[11];
  }

  lemma Abc9Step4Link()
    ensures WithLink(Abc9_4.nodes[8 := Abc9_4.nodes[8].(link := 0)], 8, 10) == Abc9_4.nodes
  {
    var z := WithLink(Abc9_4.nodes[8 := Abc9_4.nodes[8].(link := 0)], 8, 10);
    assert z[0] == Abc9_4.nodes[0];
    assert z[1] == Abc9_4.nodes[1];
    assert z[2] == Abc9_4.nodes[2];
    assert z[3] == Abc9_4.nodes[3];
    assert z[4] == Abc9_4.nodes[4];
    assert z[5] == Abc9_4.nodes[5];
    assert z[6] == Abc9_4.nodes[6];
    assert z[7] == Abc9_4.nodes[7];
    assert z[8] == Abc9_4.nodes[8];
    assert z[9] == Abc9_4.nodes[9];
    assert z[10] == Abc9_4.nodes[10];
    assert z[11] == Abc9_4.nodes[11];
  }

  lemma Abc9Step4Op()
    ensures Split(Abc9_3, 9, 'a', 4, 'a') == Abc9_3.(nodes := Abc9_4.nodes, lastNewNode := Some(10))
  {
    Abc9Step4Arena();
    Abc9Step4Link();
  }

  lemma Abc9Step4Advance()
    ensures Advance(Abc9_3.(nodes := Abc9_4.nodes, lastNewNode := Some(10)), 9) == Abc9_4
  {
  }

  lemma Abc9Step4Walk()
    ensures WalkDown(Abc9_3, 4) == (false, Abc9_3)
  {
  }

  lemma Abc9Step4Edge()
    ensures StepOnEdge(Abc9_3, 9, 'a') == Next(Abc9_4)
  {
    assert Abc9_3.nodes[0].children['a'] == 4;
    Abc9Step4Walk();
    assert CharAt(Abc9_4.text, 3) == Ok('a');
    Abc9Step4Op();
    Abc9Step4Advance();
    EdgeSplit(Abc9_3, 9, 'a');
  }

  lemma Abc9Step4()
    ensures Step(Abc9_3, 9) == Next(Abc9_4)
  {
    assert CharAt(Abc9_4.text, 6) == Ok('a');
    assert 'a' in Abc9_3.nodes[0].children;
    Abc9Step4Edge();
  }

  const Abc9_5: Builder :=
    Builder("abcabcabc$", 10,
      [Node(-1, Closed(-1), map['a' := 10, 'b' := 12, 'c' := 8], 0, -1),
      Node(6, Open, map[], 0, -1),
      Node(6, Open, map[], 0, -1),
      Node(6, Open, map[], 0, -1),
      Node(3, Closed(5), map['$' := 5, 'a' := 1], 6, -1),
      Node(9, Open, map[], 0, -1),
      Node(3, Closed(5), map['$' := 7, 'a' := 2], 8, -1),
      Node(9, Open, map[], 0, -1),
      Node(2, Closed(5), map['$' := 9, 'a' := 3], 10, -1),
      Node(9, Open, map[], 0, -1),
      Node(0, Closed(2), map['$' := 11, 'a' := 4], 12, -1),
      Node(9, Open, map[], 0, -1),
      Node(1, Closed(2), map['$' := 13, 'a' := 6], 0, -1),
      Node(9, Open, map[], 0, -1)],
      0, 8, 1, 2, 9, Some(12))

  lemma Abc9Step5Arena()
    ensures SplitNodes(Abc9_4.nodes, 0, 'b', 6, 2, 9, '$', 'a') == Abc9_5.nodes[10 := Abc9_5.nodes[10].(link := 0)]
  {
    var x := SplitNodes(Abc9_4.nodes, 0, 'b', 6, 2, 9, '$', 'a');
    var y := Abc9_5.nodes[10 := Abc9_5.nodes[10].(link := 0)];
    assert x[0] == y[0];
    assert x[1] == y[1];
    assert x[2] == y[2];
    assert x[3] == y[3];
    assert x[4] == y[4];
    assert x[5] == y[5];
    assert x[6] == y[6];
    assert x[7] == y[7];
    assert x[8] == y[8];
    assert x[9] == y[9];
    assert x[10] == y[10];
    assert x[11] == y[11];
    assert x[12] == y[12];
    assert x[13] == y[13];
  }

  lemma Abc9Step5Link()
    ensures WithLink(Abc9_5.nodes[10 := Abc9_5.nodes[10].(link := 0)], 10, 12) == Abc9_5.nodes
  {
    var z := WithLink(Abc9_5.nodes[10 := Abc9_5.nodes[10].(link := 0)], 10, 12);
    assert z[0] == Abc9_5.nodes[0];
    assert z[1] == Abc9_5.nodes[1];
    assert z[2] == Abc9_5.nodes[2];
    assert z[3] == Abc9_5.nodes[3];
    assert z[4] == Abc9_5.nodes[4];
    assert z[5] == Abc9_5.nodes[5];
    assert z[6] == Abc9_5.nodes[6];
    assert z[7] == Abc9_5.nodes[7];
    assert z[8] == Abc9_5.nodes[8];
    assert z[9] == Abc9_5.nodes[9];
    assert z[10] == Abc9_5.nodes[10];
    assert z[11] == Abc9_5.nodes[11];
    assert z[12] == Abc9_5.nodes[12];
    assert z[13] == Abc9_5.nodes[13];
  }

  lemma Abc9Step5Op()
    ensures Split(Abc9_4, 9, 'b', 6, 'a') == Abc9_4.(nodes := Abc9_5.nodes, lastNewNode := Some(12))
  {
    Abc9Step5Arena();
    Abc9Step5Link();
  }

  lemma Abc9Step5Advance()
    ensures Advance(Abc9_4.(nodes := Abc9_5.nodes, lastNewNode := Some(12)), 9) == Abc9_5
  {
  }

  lemma Abc9Step5Walk()
    ensures WalkDown(Abc9_4, 6) == (false, Abc9_4)
  {
  }

  lemma Abc9Step5Edge()
    ensures StepOnEdge(Abc9_4, 9, 'b') == Next(Abc9_5)
  {
    assert Abc9_4.nodes[0].children['b'] == 6;
    Abc9Step5Walk();
    assert CharAt(Abc9_5.text, 3) == Ok('a');
    Abc9Step5Op();
    Abc9Step5Advance();
    EdgeSplit(Abc9_4, 9, 'b');
  }

  lemma Abc9Step5()
    ensures Step(Abc9_4, 9) == Next(Abc9_5)
  {
    assert CharAt(Abc9_5.text, 7) == Ok('b');
    assert 'b' in Abc9_4.nodes[0].children;
    Abc9Step5Edge();
  }

  const Abc9_6: Builder :=
    Builder("abcabcabc$", 10,
      [Node(-1, Closed(-1), map['a' := 10, 'b' := 12, 'c' := 14], 0, -1),
      Node(6, Open, map[], 0, -1),
      Node(6, Open, map[], 0, -1),
      Node(6, Open, map[], 0, -1),
      Node(3, Closed(5), map['$' := 5, 'a' := 1], 6, -1),
      Node(9, Open, map[], 0, -1),
      Node(3, Closed(5), map['$' := 7, 'a' := 2], 8, -1),
      Node(9, Open, map[], 0, -1),
      Node(3, Closed(5), map['$' := 9, 'a' := 3], 10, -1),
      Node(9, Open, map[], 0, -1),
      Node(0, Closed(2), map['$' := 11, 'a' := 4], 12, -1),
      Node(9, Open, map[], 0, -1),
      Node(1, Closed(2), map['$' := 13, 'a' := 6], 14, -1),
      Node(9, Open, map[], 0, -1),
      Node(2, Closed(2), map['$' := 15, 'a' := 8], 0, -1),
      Node(9, Open, map[], 0, -1)],
      0, 9, 0, 1, 9, Some(14))

  lemma Abc9Step6Arena()
    ensures SplitNodes(Abc9_5.nodes, 0, 'c', 8, 1, 9, '$', 'a') == Abc9_6.nodes[12 := Abc9_6.nodes[12].(link := 0)]
  {
    var x := SplitNodes(Abc9_5.nodes, 0, 'c', 8, 1, 9, '$', 'a');
    var y := Abc9_6.nodes[12 := Abc9_6.nodes[12].(link := 0)];
    assert x[0] == y[0];
    assert x[1] == y[1];
    assert x[2] == y[2];
    assert x[3] == y[3];
    assert x[4] == y[4];
    assert x[5] == y[5];
    assert x[6] == y[6];
    assert x[7] == y[7];
    assert x[8] == y[8];
    assert x[9] == y[9];
    assert x[10] == y[10];
    assert x[11] == y[11];
    assert x[12] == y[12];
    assert x[13] == y[13];
    assert x[14] == y[14];
    assert x[15] == y[15];
  }

  lemma Abc9Step6Link()
    ensures WithLink(Abc9_6.nodes[12 := Abc9_6.nodes[12].(link := 0)], 12, 14) == Abc9_6.nodes
  {
    var z := WithLink(Abc9_6.nodes[12 := Abc9_6.nodes[12].(link := 0)], 12, 14);
    assert z[0] == Abc9_6.nodes[0];
    assert z[1] == Abc9_6.nodes[1];
    assert z[2] == Abc9_6.nodes[2];
    assert z[3] == Abc9_6.nodes[3];
    assert z[4] == Abc9_6.nodes[4];
    assert z[5] == Abc9_6.nodes[5];
    assert z[6] == Abc9_6.nodes[6];
    assert z[7] == Abc9_6.nodes[7];
    assert z[8] == Abc9_6.nodes[8];
    assert z[9] == Abc9_6.nodes[9];
    assert z[10] == Abc9_6.nodes[10];
    assert z[11] == Abc9_6.nodes[11];
    assert z[12] == Abc9_6.nodes[12];
    assert z[13] == Abc9_6.nodes[13];
    assert z[14] == Abc9_6.nodes[14];
    assert z[15] == Abc9_6.nodes[15];
  }

  lemma Abc9Step6Op()
    ensures Split(Abc9_5, 9, 'c', 8, 'a') == Abc9_5.(nodes := Abc9_6.nodes, lastNewNode := Some(14))
  {
    Abc9Step6Arena();
    Abc9Step6Link();
  }

  lemma Abc9Step6Advance()
    ensures Advance(Abc9_5.(nodes := Abc9_6.nodes, lastNewNode := Some(14)), 9) == Abc9_6
  {
  }

  lemma Abc9Step6Walk()
    ensures WalkDown(Abc9_5, 8) == (false, Abc9_5)
  {
  }

  lemma Abc9Step6Edge()
    ensures StepOnEdge(Abc9_5, 9, 'c') == Next(Abc9_6)
  {
    assert Abc9_5.nodes[0].children['c'] == 8;
    Abc9Step6Walk();
    assert CharAt(Abc9_6.text, 3) == Ok('a');
    Abc9Step6Op();
    Abc9Step6Advance();
    EdgeSplit(Abc9_5, 9, 'c');
  }

  lemma Abc9Step6()
    ensures Step(Abc9_5, 9) == Next(Abc9_6)
  {
    assert CharAt(Abc9_6.text, 8) == Ok('c');
    assert 'c' in Abc9_5.nodes[0].children;
    Abc9Step6Edge();
  }

  const Abc9: Builder :=
    Builder("abcabcabc$", 10,
      [Node(-1, Closed(-1), map['$' := 16, 'a' := 10, 'b' := 12, 'c' := 14], 0, -1),
      Node(6, Open, map[], 0, -1),
      Node(6, Open, map[], 0, -1),
      Node(6, Open, map[], 0, -1),
      Node(3, Closed(5), map['$' := 5, 'a' := 1], 6, -1),
      Node(9, Open, map[], 0, -1),
      Node(3, Closed(5), map['$' := 7, 'a' := 2], 8, -1),
      Node(9, Open, map[], 0, -1),
      Node(3, Closed(5), map['$' := 9, 'a' := 3], 10, -1),
      Node(9, Open, map[], 0, -1),
      Node(0, Closed(2), map['$' := 11, 'a' := 4], 12, -1),
      Node(9, Open, map[], 0, -1),
      Node(1, Closed(2), map['$' := 13, 'a' := 6], 14, -1),
      Node(9, Open, map[], 0, -1),
      Node(2, Closed(2), map['$' := 15, 'a' := 8], 0, -1),
      Node(9, Open, map[], 0, -1),
      Node(9, Open, map[], 0, -1)],
      0, 9, 0, 0, 9, None)

  lemma Abc9Step7Arena()
    ensures Attach(Abc9_6.nodes, 0, '$', 9) == Abc9.nodes[14 := Abc9.nodes[14].(link := 0)]
  {
    var x := Attach(Abc9_6.nodes, 0, '$', 9);
    var y := Abc9.nodes[14 := Abc9.nodes[14].(link := 0)];
    assert x[0] == y[0];
    assert x[1] == y[1];
    assert x[2] == y[2];
    assert x[3] == y[3];
    assert x[4] == y[4];
    assert x[5] == y[5];
    assert x[6] == y[6];
    assert x[7] == y[7];
    assert x[8] == y[8];
    assert x[9] == y[9];
    assert x[10] == y[10];
    assert x[11] == y[11];
    assert x[12] == y[12];
    assert x[13] == y[13];
    assert x[14] == y[14];
    assert x[15] == y[15];
    assert x[16] == y[16];
  }

  lemma Abc9Step7Link()
    ensures WithLink(Abc9.nodes[14 := Abc9.nodes[14].(link := 0)], 14, 0) == Abc9.nodes
  {
    var z := WithLink(Abc9.nodes[14 := Abc9.nodes[14].(link := 0)], 14, 0);
    assert z[0] == Abc9.nodes[0];
    assert z[1] == Abc9.nodes[1];
    assert z[2] == Abc9.nodes[2];
    assert z[3] == Abc9.nodes[3];
    assert z[4] == Abc9.nodes[4];
    assert z[5] == Abc9.nodes[5];
    assert z[6] == Abc9.nodes[6];
    assert z[7] == Abc9.nodes[7];
    assert z[8] == Abc9.nodes[8];
    assert z[9] == Abc9.nodes[9];
    assert z[10] == Abc9.nodes[10];
    assert z[11] == Abc9.nodes[11];
    assert z[12] == Abc9.nodes[12];
    assert z[13] == Abc9.nodes[13];
    assert z[14] == Abc9.nodes[14];
    assert z[15] == Abc9.nodes[15];
    assert z[16] == Abc9.nodes[16];
  }

  lemma Abc9Step7Op()
    ensures AddLeaf(Abc9_6.(activeEdge := 9), 9, '$') == Abc9_6.(activeEdge := 9).(nodes := Abc9.nodes, lastNewNode := None)
  {
    Abc9Step7Arena();
    Abc9Step7Link();
  }

  lemma Abc9Step7Advance()
    ensures Advance(Abc9_6.(activeEdge := 9).(nodes := Abc9.nodes, lastNewNode := None), 9) == Abc9
  {
  }

  lemma Abc9Step7()
    ensures Step(Abc9_6, 9) == Next(Abc9)
  {
    assert CharAt(Abc9.text, 9) == Ok('$');
    assert '$' !in Abc9_6.nodes[0].children;
    Abc9Step7Op();
    Abc9Step7Advance();
  }

  lemma AbcPhase9()
    ensures Extend(Abc8, 9) == Ok(Abc9)
  {
    Abc9Step1();
    Abc9Step2();
    Abc9Step3();
    Abc9Step4();
    Abc9Step5();
    Abc9Step6();
    Abc9Step7();
  }

  const AbcIndexed1: seq<Node> :=
    [Node(-1, Closed(-1), map['$' := 16, 'a' := 10, 'b' := 12, 'c' := 14], 0, -1),
      Node(6, Open, map[], 0, 0),
      Node(6, Open, map[], 0, -1),
      Node(6, Open, map[], 0, -1),
      Node(3, Closed(5), map['$' := 5, 'a' := 1], 6, -1),
      Node(9, Open, map[], 0, -1),
      Node(3, Closed(5), map['$' := 7, 'a' := 2], 8, -1),
      Node(9, Open, map[], 0, -1),
      Node(3, Closed(5), map['$' := 9, 'a' := 3], 10, -1),
      Node(9, Open, map[], 0, -1),
      Node(0, Closed(2), map['$' := 11, 'a' := 4], 12, -1),
      Node(9, Open, map[], 0, -1),
      Node(1, Closed(2), map['$' := 13, 'a' := 6], 14, -1),
      Node(9, Open, map[], 0, -1),
      Node(2, Closed(2), map['$' := 15, 'a' := 8], 0, -1),
      Node(9, Open, map[], 0, -1),
      Node(9, Open, map[], 0, -1)]

  lemma AbcLeaf1()
    ensures Number(Abc9.nodes, 10, 9, "abc$", 1, 10, 14) == Ok(AbcIndexed1)
  {
    var x := Abc9.nodes[1 := Abc9.nodes[1].(suffixIndex := 0)];
    assert Abc9.nodes[1].children == map[];
    assert Number(Abc9.nodes, 10, 9, "abc$", 1, 10, 14) == Ok(x);
    assert x == AbcIndexed1;
  }

  const AbcIndexed2: seq<Node> :=
    [Node(-1, Closed(-1), map['$' := 16, 'a' := 10, 'b' := 12, 'c' := 14], 0, -1),
      Node(6, Open, map[], 0, 0),
      Node(6, Open, map[], 0, -1),
      Node(6, Open, map[], 0, -1),
      Node(3, Closed(5), map['$' := 5, 'a' := 1], 6, -1),
      Node(9, Open, map[], 0, 3),
      Node(3, Closed(5), map['$' := 7, 'a' := 2], 8, -1),
      Node(9, Open, map[], 0, -1),
      Node(3, Closed(5), map['$' := 9, 'a' := 3], 10, -1),
      Node(9, Open, map[], 0, -1),
      Node(0, Closed(2), map['$' := 11, 'a' := 4], 12, -1),
      Node(9, Open, map[], 0, -1),
      Node(1, Closed(2), map['$' := 13, 'a' := 6], 14, -1),
      Node(9, Open, map[], 0, -1),
      Node(2, Closed(2), map['$' := 15, 'a' := 8], 0, -1),
      Node(9, Open, map[], 0, -1),
      Node(9, Open, map[], 0, -1)]

  lemma AbcLeaf5()
    ensures Number(AbcIndexed1, 10, 9, "abc$", 5, 7, 14) == Ok(AbcIndexed2)
  {
    var x := AbcIndexed1[5 := AbcIndexed1[5].(suffixIndex := 3)];
    assert AbcIndexed1[5].children == map[];
    assert Number(AbcIndexed1, 10, 9, "abc$", 5, 7, 14) == Ok(x);
    assert x == AbcIndexed2;
  }

  lemma AbcChildren4_1()
    ensures NumberChildren(AbcIndexed1, 10, 9, "abc$", map['$' := 5, 'a' := 1], "$", 6, 14) == Ok(AbcIndexed2)
  {
    assert map['$' := 5, 'a' := 1]['$'] == 5;
    assert EdgeLength(AbcIndexed1[5], 9) == 1;
    assert "$"[1..] == "";
    AbcLeaf5();
  }

  lemma AbcChildren4_0Skip()
    ensures NumberChildren(AbcIndexed1, 10, 9, "abc$", map['$' := 5, 'a' := 1], "bc$", 6, 14) == Ok(AbcIndexed2)
  {
    assert 'b' !in map['$' := 5, 'a' := 1];
    assert "bc$"[1..] == "c$";
    assert 'c' !in map['$' := 5, 'a' := 1];
    assert "c$"[1..] == "$";
    AbcChildren4_1();
  }

  lemma AbcChildren4_0()
    ensures NumberChildren(Abc9.nodes, 10, 9, "abc$", map['$' := 5, 'a' := 1], "abc$", 6, 14) == Ok(AbcIndexed2)
  {
    assert map['$' := 5, 'a' := 1]['a'] == 1;
    assert EdgeLength(Abc9.nodes[1], 9) == 4;
    assert "abc$"[1..] == "bc$";
    AbcLeaf1();
    AbcChildren4_0Skip();
  }

  lemma AbcNumber4()
    ensures Number(Abc9.nodes, 10, 9, "abc$", 4, 6, 15) == Ok(AbcIndexed2)
  {
    assert Abc9.nodes[4].children == map['$' := 5, 'a' := 1];
    AbcChildren4_0();
  }

  const AbcIndexed3: seq<Node> :=
    [Node(-1, Closed(-1), map['$' := 16, 'a' := 10, 'b' := 12, 'c' := 14], 0, -1),
      Node(6, Open, map[], 0, 0),
      Node(6, Open, map[], 0, -1),
      Node(6, Open, map[], 0, -1),
      Node(3, Closed(5), map['$' := 5, 'a' := 1], 6, -1),
      Node(9, Open, map[], 0, 3),
      Node(3, Closed(5), map['$' := 7, 'a' := 2], 8, -1),
      Node(9, Open, map[], 0, -1),
      Node(3, Closed(5), map['$' := 9, 'a' := 3], 10, -1),
      Node(9, Open, map[], 0, -1),
      Node(0, Closed(2), map['$' := 11, 'a' := 4], 12, -1),
      Node(9, Open, map[], 0, 6),
      Node(1, Closed(2), map['$' := 13, 'a' := 6], 14, -1),
      Node(9, Open, map[], 0, -1),
      Node(2, Closed(2), map['$' := 15, 'a' := 8], 0, -1),
      Node(9, Open, map[], 0, -1),
      Node(9, Open, map[], 0, -1)]

  lemma AbcLeaf11()
    ensures Number(AbcIndexed2, 10, 9, "abc$", 11, 4, 15) == Ok(AbcIndexed3)
  {
    var x := AbcIndexed2[11 := AbcIndexed2[11].(suffixIndex := 6)];
    assert AbcIndexed2[11].children == map[];
    assert Number(AbcIndexed2, 10, 9, "abc$", 11, 4, 15) == Ok(x);
    assert x == AbcIndexed3;
  }

  lemma AbcChildren10_1()
    ensures NumberChildren(AbcIndexed2, 10, 9, "abc$", map['$' := 11, 'a' := 4], "$", 3, 15) == Ok(AbcIndexed3)
  {
    assert map['$' := 11, 'a' := 4]['$'] == 11;
    assert EdgeLength(AbcIndexed2[11], 9) == 1;
    assert "$"[1..] == "";
    AbcLeaf11();
  }

  lemma AbcChildren10_0Skip()
    ensures NumberChildren(AbcIndexed2, 10, 9, "abc$", map['$' := 11, 'a' := 4], "bc$", 3, 15) == Ok(AbcIndexed3)
  {
    assert 'b' !in map['$' := 11, 'a' := 4];
    assert "bc$"[1..] == "c$";
    assert 'c' !in map['$' := 11, 'a' := 4];
    assert "c$"[1..] == "$";
    AbcChildren10_1();
  }

  lemma AbcChildren10_0()
    ensures NumberChildren(Abc9.nodes, 10, 9, "abc$", map['$' := 11, 'a' := 4], "abc$", 3, 15) == Ok(AbcIndexed3)
  {
    assert map['$' := 11, 'a' := 4]['a'] == 4;
    assert EdgeLength(Abc9.nodes[4], 9) == 3;
    assert "abc$"[1..] == "bc$";
    AbcNumber4();
    AbcChildren10_0Skip();
  }

  lemma AbcNumber10()
    ensures Number(Abc9.nodes, 10, 9, "abc$", 10, 3, 16) == Ok(AbcIndexed3)
  {
    assert Abc9.nodes[10].children == map['$' := 11, 'a' := 4];
    AbcChildren10_0();
  }

  const AbcIndexed4: seq<Node> :=
    [Node(-1, Closed(-1), map['$' := 16, 'a' := 10, 'b' := 12, 'c' := 14], 0, -1),
      Node(6, Open, map[], 0, 0),
      Node(6, Open, map[], 0, 1),
      Node(6, Open, map[], 0, -1),
      Node(3, Closed(5), map['$' := 5, 'a' := 1], 6, -1),
      Node(9, Open, map[], 0, 3),
      Node(3, Closed(5), map['$' := 7, 'a' := 2], 8, -1),
      Node(9, Open, map[], 0, -1),
      Node(3, Closed(5), map['$' := 9, 'a' := 3], 10, -1),
      Node(9, Open, map[], 0, -1),
      Node(0, Closed(2), map['$' := 11, 'a' := 4], 12, -1),
      Node(9, Open, map[], 0, 6),
      Node(1, Closed(2), map['$' := 13, 'a' := 6], 14, -1),
      Node(9, Open, map[], 0, -1),
      Node(2, Closed(2), map['$' := 15, 'a' := 8], 0, -1),
      Node(9, Open, map[], 0, -1),
      Node(9, Open, map[], 0, -1)]

  lemma AbcLeaf2()
    ensures Number(AbcIndexed3, 10, 9, "abc$", 2, 9, 14) == Ok(AbcIndexed4)
  {
    var x := AbcIndexed3[2 := AbcIndexed3[2].(suffixIndex := 1)];
    assert AbcIndexed3[2].children == map[];
    assert Number(AbcIndexed3, 10, 9, "abc$", 2, 9, 14) == Ok(x);
    assert x == AbcIndexed4;
  }

  const AbcIndexed5: seq<Node> :=
    [Node(-1, Closed(-1), map['$' := 16, 'a' := 10, 'b' := 12, 'c' := 14], 0, -1),
      Node(6, Open, map[], 0, 0),
      Node(6, Open, map[], 0, 1),
      Node(6, Open, map[], 0, -1),
      Node(3, Closed(5), map['$' := 5, 'a' := 1], 6, -1),
      Node(9, Open, map[], 0, 3),
      Node(3, Closed(5), map['$' := 7, 'a' := 2], 8, -1),
      Node(9, Open, map[], 0, 4),
      Node(3, Closed(5), map['$' := 9, 'a' := 3], 10, -1),
      Node(9, Open, map[], 0, -1),
      Node(0, Closed(2), map['$' := 11, 'a' := 4], 12, -1),
      Node(9, Open, map[], 0, 6),
      Node(1, Closed(2), map['$' := 13, 'a' := 6], 14, -1),
      Node(9, Open, map[], 0, -1),
      Node(2, Closed(2), map['$' := 15, 'a' := 8], 0, -1),
      Node(9, Open, map[], 0, -1),
      Node(9, Open, map[], 0, -1)]

  lemma AbcLeaf7()
    ensures Number(AbcIndexed4, 10, 9, "abc$", 7, 6, 14) == Ok(AbcIndexed5)
  {
    var x := AbcIndexed4[7 := AbcIndexed4[7].(suffixIndex := 4)];
    assert AbcIndexed4[7].children == map[];
    assert Number(AbcIndexed4, 10, 9, "abc$", 7, 6, 14) == Ok(x);
    assert x == AbcIndexed5;
  }

  lemma AbcChildren6_1()
    ensures NumberChildren(AbcIndexed4, 10, 9, "abc$", map['$' := 7, 'a' := 2], "$", 5, 14) == Ok(AbcIndexed5)
  {
    assert map['$' := 7, 'a' := 2]['$'] == 7;
    assert EdgeLength(AbcIndexed4[7], 9) == 1;
    assert "$"[1..] == "";
    AbcLeaf7();
  }

  lemma AbcChildren6_0Skip()
    ensures NumberChildren(AbcIndexed4, 10, 9, "abc$", map['$' := 7, 'a' := 2], "bc$", 5, 14) == Ok(AbcIndexed5)
  {
    assert 'b' !in map['$' := 7, 'a' := 2];
    assert "bc$"[1..] == "c$";
    assert 'c' !in map['$' := 7, 'a' := 2];
    assert "c$"[1..] == "$";
    AbcChildren6_1();
  }

  lemma AbcChildren6_0()
    ensures NumberChildren(AbcIndexed3, 10, 9, "abc$", map['$' := 7, 'a' := 2], "abc$", 5, 14) == Ok(AbcIndexed5)
  {
    assert map['$' := 7, 'a' := 2]['a'] == 2;
    assert EdgeLength(AbcIndexed3[2], 9) == 4;
    assert "abc$"[1..] == "bc$";
    AbcLeaf2();
    AbcChildren6_0Skip();
  }

  lemma AbcNumber6()
    ensures Number(AbcIndexed3, 10, 9, "abc$", 6, 5, 15) == Ok(AbcIndexed5)
  {
    assert AbcIndexed3[6].children == map['$' := 7, 'a' := 2];
    AbcChildren6_0();
  }

  const AbcIndexed6: seq<Node> :=
    [Node(-1, Closed(-1), map['$' := 16, 'a' := 10, 'b' := 12, 'c' := 14], 0, -1),
      Node(6, Open, map[], 0, 0),
      Node(6, Open, map[], 0, 1),
      Node(6, Open, map[], 0, -1),
      Node(3, Closed(5), map['$' := 5, 'a' := 1], 6, -1),
      Node(9, Open, map[], 0, 3),
      Node(3, Closed(5), map['$' := 7, 'a' := 2], 8, -1),
      Node(9, Open, map[], 0, 4),
      Node(3, Closed(5), map['$' := 9, 'a' := 3], 10, -1),
      Node(9, Open, map[], 0, -1),
      Node(0, Closed(2), map['$' := 11, 'a' := 4], 12, -1),
      Node(9, Open, map[], 0, 6),
      Node(1, Closed(2), map['$' := 13, 'a' := 6], 14, -1),
      Node(9, Open, map[], 0, 7),
      Node(2, Closed(2), map['$' := 15, 'a' := 8], 0, -1),
      Node(9, Open, map[], 0, -1),
      Node(9, Open, map[], 0, -1)]

  lemma AbcLeaf13()
    ensures Number(AbcIndexed5, 10, 9, "abc$", 13, 3, 15) == Ok(AbcIndexed6)
  {
    var x := AbcIndexed5[13 := AbcIndexed5[13].(suffixIndex := 7)];
    assert AbcIndexed5[13].children == map[];
    assert Number(AbcIndexed5, 10, 9, "abc$", 13, 3, 15) == Ok(x);
    assert x == AbcIndexed6;
  }

  lemma AbcChildren12_1()
    ensures NumberChildren(AbcIndexed5, 10, 9, "abc$", map['$' := 13, 'a' := 6], "$", 2, 15) == Ok(AbcIndexed6)
  {
    assert map['$' := 13, 'a' := 6]['$'] == 13;
    assert EdgeLength(AbcIndexed5[13], 9) == 1;
    assert "$"[1..] == "";
    AbcLeaf13();
  }

  lemma AbcChildren12_0Skip()
    ensures NumberChildren(AbcIndexed5, 10, 9, "abc$", map['$' := 13, 'a' := 6], "bc$", 2, 15) == Ok(AbcIndexed6)
  {
    assert 'b' !in map['$' := 13, 'a' := 6];
    assert "bc$"[1..] == "c$";
    assert 'c' !in map['$' := 13, 'a' := 6];
    assert "c$"[1..] == "$";
    AbcChildren12_1();
  }

  lemma AbcChildren12_0()
    ensures NumberChildren(AbcIndexed3, 10, 9, "abc$", map['$' := 13, 'a' := 6], "abc$", 2, 15) == Ok(AbcIndexed6)
  {
    assert map['$' := 13, 'a' := 6]['a'] == 6;
    assert EdgeLength(AbcIndexed3[6], 9) == 3;
    assert "abc$"[1..] == "bc$";
    AbcNumber6();
    AbcChildren12_0Skip();
  }

  lemma AbcNumber12()
    ensures Number(AbcIndexed3, 10, 9, "abc$", 12, 2, 16) == Ok(AbcIndexed6)
  {
    assert AbcIndexed3[12].children == map['$' := 13, 'a' := 6];
    AbcChildren12_0();
  }

  const AbcIndexed7: seq<Node> :=
    [Node(-1, Closed(-1), map['$' := 16, 'a' := 10, 'b' := 12, 'c' := 14], 0, -1),
      Node(6, Open, map[], 0, 0),
      Node(6, Open, map[], 0, 1),
      Node(6, Open, map[], 0, 2),
      Node(3, Closed(5), map['$' := 5, 'a' := 1], 6, -1),
      Node(9, Open, map[], 0, 3),
      Node(3, Closed(5), map['$' := 7, 'a' := 2], 8, -1),
      Node(9, Open, map[], 0, 4),
      Node(3, Closed(5), map['$' := 9, 'a' := 3], 10, -1),
      Node(9, Open, map[], 0, -1),
      Node(0, Closed(2), map['$' := 11, 'a' := 4], 12, -1),
      Node(9, Open, map[], 0, 6),
      Node(1, Closed(2), map['$' := 13, 'a' := 6], 14, -1),
      Node(9, Open, map[], 0, 7),
      Node(2, Closed(2), map['$' := 15, 'a' := 8], 0, -1),
      Node(9, Open, map[], 0, -1),
      Node(9, Open, map[], 0, -1)]

  lemma AbcLeaf3()
    ensures Number(AbcIndexed6, 10, 9, "abc$", 3, 8, 14) == Ok(AbcIndexed7)
  {
    var x := AbcIndexed6[3 := AbcIndexed6[3].(suffixIndex := 2)];
    assert AbcIndexed6[3].children == map[];
    assert Number(AbcIndexed6, 10, 9, "abc$", 3, 8, 14) == Ok(x);
    assert x == AbcIndexed7;
  }

  const AbcIndexed8: seq<Node> :=
    [Node(-1, Closed(-1), map['$' := 16, 'a' := 10, 'b' := 12, 'c' := 14], 0, -1),
      Node(6, Open, map[], 0, 0),
      Node(6, Open, map[], 0, 1),
      Node(6, Open, map[], 0, 2),
      Node(3, Closed(5), map['$' := 5, 'a' := 1], 6, -1),
      Node(9, Open, map[], 0, 3),
      Node(3, Closed(5), map['$' := 7, 'a' := 2], 8, -1),
      Node(9, Open, map[], 0, 4),
      Node(3, Closed(5), map['$' := 9, 'a' := 3], 10, -1),
      Node(9, Open, map[], 0, 5),
      Node(0, Closed(2), map['$' := 11, 'a' := 4], 12, -1),
      Node(9, Open, map[], 0, 6),
      Node(1, Closed(2), map['$' := 13, 'a' := 6], 14, -1),
      Node(9, Open, map[], 0, 7),
      Node(2, Closed(2), map['$' := 15, 'a' := 8], 0, -1),
      Node(9, Open, map[], 0, -1),
      Node(9, Open, map[], 0, -1)]

  lemma AbcLeaf9()
    ensures Number(AbcIndexed7, 10, 9, "abc$", 9, 5, 14) == Ok(AbcIndexed8)
  {
    var x := AbcIndexed7[9 := AbcIndexed7[9].(suffixIndex := 5)];
    assert AbcIndexed7[9].children == map[];
    assert Number(AbcIndexed7, 10, 9, "abc$", 9, 5, 14) == Ok(x);
    assert x == AbcIndexed8;
  }

  lemma AbcChildren8_1()
    ensures NumberChildren(AbcIndexed7, 10, 9, "abc$", map['$' := 9, 'a' := 3], "$", 4, 14) == Ok(AbcIndexed8)
  {
    assert map['$' := 9, 'a' := 3]['$'] == 9;
    assert EdgeLength(AbcIndexed7[9], 9) == 1;
    assert "$"[1..] == "";
    AbcLeaf9();
  }

  lemma AbcChildren8_0Skip()
    ensures NumberChildren(AbcIndexed7, 10, 9, "abc$", map['$' := 9, 'a' := 3], "bc$", 4, 14) == Ok(AbcIndexed8)
  {
    assert 'b' !in map['$' := 9, 'a' := 3];
    assert "bc$"[1..] == "c$";
    assert 'c' !in map['$' := 9, 'a' := 3];
    assert "c$"[1..] == "$";
    AbcChildren8_1();
  }

  lemma AbcChildren8_0()
    ensures NumberChildren(AbcIndexed6, 10, 9, "abc$", map['$' := 9, 'a' := 3], "abc$", 4, 14) == Ok(AbcIndexed8)
  {
    assert map['$' := 9, 'a' := 3]['a'] == 3;
    assert EdgeLength(AbcIndexed6[3], 9) == 4;
    assert "abc$"[1..] == "bc$";
    AbcLeaf3();
    AbcChildren8_0Skip();
  }

  lemma AbcNumber8()
    ensures Number(AbcIndexed6, 10, 9, "abc$", 8, 4, 15) == Ok(AbcIndexed8)
  {
    assert AbcIndexed6[8].children == map['$' := 9, 'a' := 3];
    AbcChildren8_0();
  }

  const AbcIndexed9: seq<Node> :=
    [Node(-1, Closed(-1), map['$' := 16, 'a' := 10, 'b' := 12, 'c' := 14], 0, -1),
      Node(6, Open, map[], 0, 0),
      Node(6, Open, map[], 0, 1),
      Node(6, Open, map[], 0, 2),
      Node(3, Closed(5), map['$' := 5, 'a' := 1], 6, -1),
      Node(9, Open, map[], 0, 3),
      Node(3, Closed(5), map['$' := 7, 'a' := 2], 8, -1),
      Node(9, Open, map[], 0, 4),
      Node(3, Closed(5), map['$' := 9, 'a' := 3], 10, -1),
      Node(9, Open, map[], 0, 5),
      Node(0, Closed(2), map['$' := 11, 'a' := 4], 12, -1),
      Node(9, Open, map[], 0, 6),
      Node(1, Closed(2), map['$' := 13, 'a' := 6], 14, -1),
      Node(9, Open, map[], 0, 7),
      Node(2, Closed(2), map['$' := 15, 'a' := 8], 0, -1),
      Node(9, Open, map[], 0, 8),
      Node(9, Open, map[], 0, -1)]

  lemma AbcLeaf15()
    ensures Number(AbcIndexed8, 10, 9, "abc$", 15, 2, 15) == Ok(AbcIndexed9)
  {
    var x := AbcIndexed8[15 := AbcIndexed8[15].(suffixIndex := 8)];
    assert AbcIndexed8[15].children == map[];
    assert Number(AbcIndexed8, 10, 9, "abc$", 15, 2, 15) == Ok(x);
    assert x == AbcIndexed9;
  }

  lemma AbcChildren14_1()
    ensures NumberChildren(AbcIndexed8, 10, 9, "abc$", map['$' := 15, 'a' := 8], "$", 1, 15) == Ok(AbcIndexed9)
  {
    assert map['$' := 15, 'a' := 8]['$'] == 15;
    assert EdgeLength(AbcIndexed8[15], 9) == 1;
    assert "$"[1..] == "";
    AbcLeaf15();
  }

  lemma AbcChildren14_0Skip()
    ensures NumberChildren(AbcIndexed8, 10, 9, "abc$", map['$' := 15, 'a' := 8], "bc$", 1, 15) == Ok(AbcIndexed9)
  {
    assert 'b' !in map['$' := 15, 'a' := 8];
    assert "bc$"[1..] == "c$";
    assert 'c' !in map['$' := 15, 'a' := 8];
    assert "c$"[1..] == "$";
    AbcChildren14_1();
  }

  lemma AbcChildren14_0()
    ensures NumberChildren(AbcIndexed6, 10, 9, "abc$", map['$' := 15, 'a' := 8], "abc$", 1, 15) == Ok(AbcIndexed9)
  {
    assert map['$' := 15, 'a' := 8]['a'] == 8;
    assert EdgeLength(AbcIndexed6[8], 9) == 3;
    assert "abc$"[1..] == "bc$";
    AbcNumber8();
    AbcChildren14_0Skip();
  }

  lemma AbcNumber14()
    ensures Number(AbcIndexed6, 10, 9, "abc$", 14, 1, 16) == Ok(AbcIndexed9)
  {
    assert AbcIndexed6[14].children == map['$' := 15, 'a' := 8];
    AbcChildren14_0();
  }

  const AbcNumbered: seq<Node> :=
    [Node(-1, Closed(-1), map['$' := 16, 'a' := 10, 'b' := 12, 'c' := 14], 0, -1),
      Node(6, Open, map[], 0, 0),
      Node(6, Open, map[], 0, 1),
      Node(6, Open, map[], 0, 2),
      Node(3, Closed(5), map['$' := 5, 'a' := 1], 6, -1),
      Node(9, Open, map[], 0, 3),
      Node(3, Closed(5), map['$' := 7, 'a' := 2], 8, -1),
      Node(9, Open, map[], 0, 4),
      Node(3, Closed(5), map['$' := 9, 'a' := 3], 10, -1),
      Node(9, Open, map[], 0, 5),
      Node(0, Closed(2), map['$' := 11, 'a' := 4], 12, -1),
      Node(9, Open, map[], 0, 6),
      Node(1, Closed(2), map['$' := 13, 'a' := 6], 14, -1),
      Node(9, Open, map[], 0, 7),
      Node(2, Closed(2), map['$' := 15, 'a' := 8], 0, -1),
      Node(9, Open, map[], 0, 8),
      Node(9, Open, map[], 0, 9)]

  lemma AbcLeaf16()
    ensures Number(AbcIndexed9, 10, 9, "abc$", 16, 1, 16) == Ok(AbcNumbered)
  {
    var x := AbcIndexed9[16 := AbcIndexed9[16].(suffixIndex := 9)];
    assert AbcIndexed9[16].children == map[];
    assert Number(AbcIndexed9, 10, 9, "abc$", 16, 1, 16) == Ok(x);
    assert x == AbcNumbered;
  }

  lemma AbcChildren0_3()
    ensures NumberChildren(AbcIndexed9, 10, 9, "abc$", map['$' := 16, 'a' := 10, 'b' := 12, 'c' := 14], "$", 0, 16) == Ok(AbcNumbered)
  {
    assert map['$' := 16, 'a' := 10, 'b' := 12, 'c' := 14]['$'] == 16;
    assert EdgeLength(AbcIndexed9[16], 9) == 1;
    assert "$"[1..] == "";
    AbcLeaf16();
  }

  lemma AbcChildren0_2()
    ensures NumberChildren(AbcIndexed6, 10, 9, "abc$", map['$' := 16, 'a' := 10, 'b' := 12, 'c' := 14], "c$", 0, 16) == Ok(AbcNumbered)
  {
    assert map['$' := 16, 'a' := 10, 'b' := 12, 'c' := 14]['c'] == 14;
    assert EdgeLength(AbcIndexed6[14], 9) == 1;
    assert "c$"[1..] == "$";
    AbcNumber14();
    AbcChildren0_3();
  }

  lemma AbcChildren0_1()
    ensures NumberChildren(AbcIndexed3, 10, 9, "abc$", map['$' := 16, 'a' := 10, 'b' := 12, 'c' := 14], "bc$", 0, 16) == Ok(AbcNumbered)
  {
    assert map['$' := 16, 'a' := 10, 'b' := 12, 'c' := 14]['b'] == 12;
    assert EdgeLength(AbcIndexed3[12], 9) == 2;
    assert "bc$"[1..] == "c$";
    AbcNumber12();
    AbcChildren0_2();
  }

  lemma AbcChildren0_0()
    ensures NumberChildren(Abc9.nodes, 10, 9, "abc$", map['$' := 16, 'a' := 10, 'b' := 12, 'c' := 14], "abc$", 0, 16) == Ok(AbcNumbered)
  {
    assert map['$' := 16, 'a' := 10, 'b' := 12, 'c' := 14]['a'] == 10;
    assert EdgeLength(Abc9.nodes[10], 9) == 3;
    assert "abc$"[1..] == "bc$";
    AbcNumber10();
    AbcChildren0_1();
  }

  lemma AbcNumber0()
    ensures Number(Abc9.nodes, 10, 9, "abc$", 0, 0, 17) == Ok(AbcNumbered)
  {
    assert Abc9.nodes[0].children == map['$' := 16, 'a' := 10, 'b' := 12, 'c' := 14];
    AbcChildren0_0();
  }

  lemma AbcFrom9()
    ensures Phases(Abc8, 9) == Ok(Abc9)
  {
    AbcPhase9();
  }

  lemma AbcFrom8()
    ensures Phases(Abc7, 8) == Ok(Abc9)
  {
    AbcPhase8();
    AbcFrom9();
  }

  lemma AbcFrom7()
    ensures Phases(Abc6, 7) == Ok(Abc9)
  {
    AbcPhase7();
    AbcFrom8();
  }

  lemma AbcFrom6()
    ensures Phases(Abc5, 6) == Ok(Abc9)
  {
    AbcPhase6();
    AbcFrom7();
  }

  lemma AbcFrom5()
    ensures Phases(Abc4, 5) == Ok(Abc9)
  {
    AbcPhase5();
    AbcFrom6();
  }

  lemma AbcFrom4()
    ensures Phases(Abc3, 4) == Ok(Abc9)
  {
    AbcPhase4();
    AbcFrom5();
  }

  lemma AbcFrom3()
    ensures Phases(Abc2, 3) == Ok(Abc9)
  {
    AbcPhase3();
    AbcFrom4();
  }

  lemma AbcFrom2()
    ensures Phases(Abc1, 2) == Ok(Abc9)
  {
    AbcPhase2();
    AbcFrom3();
  }

  lemma AbcFrom1()
    ensures Phases(Abc0, 1) == Ok(Abc9)
  {
    AbcPhase1();
    AbcFrom2();
  }

  lemma AbcFrom0()
    ensures Phases(AbcStart, 0) == Ok(Abc9)
  {
    AbcPhase0();
    AbcFrom1();
  }

  lemma AbcAlphabet1()
    ensures Alphabet("a") == "a"
  {
    assert "a"[..0] == "";
  }

  lemma AbcAlphabet2()
    ensures Alphabet("ab") == "ab"
  {
    assert "ab"[..1] == "a";
    AbcAlphabet1();
  }

  lemma AbcAlphabet3()
    ensures Alphabet("abc") == "abc"
  {
    assert "abc"[..2] == "ab";
    AbcAlphabet2();
  }

  lemma AbcAlphabet4()
    ensures Alphabet("abca") == "abc"
  {
    assert "abca"[..3] == "abc";
    AbcAlphabet3();
  }

  lemma AbcAlphabet5()
    ensures Alphabet("abcab") == "abc"
  {
    assert "abcab"[..4] == "abca";
    AbcAlphabet4();
  }

  lemma AbcAlphabet6()
    ensures Alphabet("abcabc") == "abc"
  {
    assert "abcabc"[..5] == "abcab";
    AbcAlphabet5();
  }

  lemma AbcAlphabet7()
    ensures Alphabet("abcabca") == "abc"
  {
    assert "abcabca"[..6] == "abcabc";
    AbcAlphabet6();
  }

  lemma AbcAlphabet8()
    ensures Alphabet("abcabcab") == "abc"
  {
    assert "abcabcab"[..7] == "abcabca";
    AbcAlphabet7();
  }

  lemma AbcAlphabet9()
    ensures Alphabet("abcabcabc") == "abc"
  {
    assert "abcabcabc"[..8] == "abcabcab";
    AbcAlphabet8();
  }

  lemma AbcAlphabet10()
    ensures Alphabet("abcabcabc$") == "abc$"
  {
    assert "abcabcabc$"[..9] == "abcabcabc";
    AbcAlphabet9();
  }

  lemma AbcAlphabet()
    ensures Alphabet("abcabcabc$") == "abc$"
  {
    AbcAlphabet10();
  }

  /** The tree `Build("abcabcabc")` answers. */
  const AbcTree: Builder := Abc9.(nodes := AbcNumbered)

  lemma AbcBuild()
    ensures Build("abcabcabc") == Ok(AbcTree)
  {
    assert WithSentinel("abcabcabc") == "abcabcabc$";
    assert Init("abcabcabc") == AbcStart;
    AbcFrom0();
    AbcAlphabet();
    AbcNumber0();
  }

  lemma AbcArenaOk()
    ensures ArenaOk(AbcNumbered) && AbcTree.text == "abcabcabc$" && AbcTree.nodes == AbcNumbered && AbcTree.leafEnd == 9
  {
  }

  lemma AbcWalk0_2()
    ensures Locate("abcabcabc$", AbcNumbered, 9, 4, "abc$") == Some([1])
  {
    assert "abc$"[0] == 'a';
    assert 'a' in AbcNumbered[4].children;
    assert AbcNumbered[4].children['a'] == 1;
    assert "abc$"[..4] == "abc$";
    assert "abc$"[4..] == "";
    assert EdgeText("abcabcabc$", AbcNumbered[1], 9) == "abc$";
    assert Locate("abcabcabc$", AbcNumbered, 9, 1, []) == Some([]);
    assert [1] + [] == [1];
  }

  lemma AbcWalk0_1()
    ensures Locate("abcabcabc$", AbcNumbered, 9, 10, "abcabc$") == Some([4, 1])
  {
    assert "abcabc$"[0] == 'a';
    assert 'a' in AbcNumbered[10].children;
    assert AbcNumbered[10].children['a'] == 4;
    assert "abcabc$"[..3] == "abc";
    assert "abcabc$"[3..] == "abc$";
    assert EdgeText("abcabcabc$", AbcNumbered[4], 9) == "abc";
    AbcWalk0_2();
    assert [4] + [1] == [4, 1];
  }

  lemma AbcWalk0_0()
    ensures Locate("abcabcabc$", AbcNumbered, 9, 0, "abcabcabc$") == Some([10, 4, 1])
  {
    assert "abcabcabc$"[0] == 'a';
    assert 'a' in AbcNumbered[0].children;
    assert AbcNumbered[0].children['a'] == 10;
    assert "abcabcabc$"[..3] == "abc";
    assert "abcabcabc$"[3..] == "abcabc$";
    assert EdgeText("abcabcabc$", AbcNumbered[10], 9) == "abc";
    AbcWalk0_1();
    assert [10] + [4, 1] == [10, 4, 1];
  }

  lemma AbcSuffix0Walk()
    ensures Locate(AbcTree.text, AbcTree.nodes, AbcTree.leafEnd, Root, AbcTree.text[0..]) == Some([10, 4, 1])
  {
    AbcArenaOk();
    assert "abcabcabc$"[0..] == "abcabcabc$";
    AbcWalk0_0();
  }

  lemma AbcSuffix0Leaf()
    ensures IsLeaf(AbcTree, 1) && AbcTree.nodes[1].suffixIndex == 0
  {
    assert AbcTree.nodes == AbcNumbered;
    assert AbcNumbered[1].children == map[] && AbcNumbered[1].suffixIndex == 0;
  }

  lemma AbcSuffix0()
    ensures SuffixAtLeaf(AbcTree, 0)
    ensures IsLeaf(AbcTree, 1) && LeafReached(AbcTree, 1)
  {
    AbcArenaOk();
    AbcSuffix0Walk();
    AbcSuffix0Leaf();
  }

  lemma AbcWalk1_2()
    ensures Locate("abcabcabc$", AbcNumbered, 9, 6, "abc$") == Some([2])
  {
    assert "abc$"[0] == 'a';
    assert 'a' in AbcNumbered[6].children;
    assert AbcNumbered[6].children['a'] == 2;
    assert "abc$"[..4] == "abc$";
    assert "abc$"[4..] == "";
    assert EdgeText("abcabcabc$", AbcNumbered[2], 9) == "abc$";
    assert Locate("abcabcabc$", AbcNumbered, 9, 2, []) == Some([]);
    assert [2] + [] == [2];
  }

  lemma AbcWalk1_1()
    ensures Locate("abcabcabc$", AbcNumbered, 9, 12, "abcabc$") == Some([6, 2])
  {
    assert "abcabc$"[0] == 'a';
    assert 'a' in AbcNumbered[12].children;
    assert AbcNumbered[12].children['a'] == 6;
    assert "abcabc$"[..3] == "abc";
    assert "abcabc$"[3..] == "abc$";
    assert EdgeText("abcabcabc$", AbcNumbered[6], 9) == "abc";
    AbcWalk1_2();
    assert [6] + [2] == [6, 2];
  }

  lemma AbcWalk1_0()
    ensures Locate("abcabcabc$", AbcNumbered, 9, 0, "bcabcabc$") == Some([12, 6, 2])
  {
    assert "bcabcabc$"[0] == 'b';
    assert 'b' in AbcNumbered[0].children;
    assert AbcNumbered[0].children['b'] == 12;
    assert "bcabcabc$"[..2] == "bc";
    assert "bcabcabc$"[2..] == "abcabc$";
    assert EdgeText("abcabcabc$", AbcNumbered[12], 9) == "bc";
    AbcWalk1_1();
    assert [12] + [6, 2] == [12, 6, 2];
  }

  lemma AbcSuffix1Walk()
    ensures Locate(AbcTree.text, AbcTree.nodes, AbcTree.leafEnd, Root, AbcTree.text[1..]) == Some([12, 6, 2])
  {
    AbcArenaOk();
    assert "abcabcabc$"[1..] == "bcabcabc$";
    AbcWalk1_0();
  }

  lemma AbcSuffix1Leaf()
    ensures IsLeaf(AbcTree, 2) && AbcTree.nodes[2].suffixIndex == 1
  {
    assert AbcTree.nodes == AbcNumbered;
    assert AbcNumbered[2].children == map[] && AbcNumbered[2].suffixIndex == 1;
  }

  lemma AbcSuffix1()
    ensures SuffixAtLeaf(AbcTree, 1)
    ensures IsLeaf(AbcTree, 2) && LeafReached(AbcTree, 2)
  {
    AbcArenaOk();
    AbcSuffix1Walk();
    AbcSuffix1Leaf();
  }

  lemma AbcWalk2_2()
    ensures Locate("abcabcabc$", AbcNumbered, 9, 8, "abc$") == Some([3])
  {
    assert "abc$"[0] == 'a';
    assert 'a' in AbcNumbered[8].children;
    assert AbcNumbered[8].children['a'] == 3;
    assert "abc$"[..4] == "abc$";
    assert "abc$"[4..] == "";
    assert EdgeText("abcabcabc$", AbcNumbered[3], 9) == "abc$";
    assert Locate("abcabcabc$", AbcNumbered, 9, 3, []) == Some([]);
    assert [3] + [] == [3];
  }

  lemma AbcWalk2_1()
    ensures Locate("abcabcabc$", AbcNumbered, 9, 14, "abcabc$") == Some([8, 3])
  {
    assert "abcabc$"[0] == 'a';
    assert 'a' in AbcNumbered[14].children;
    assert AbcNumbered[14].children['a'] == 8;
    assert "abcabc$"[..3] == "abc";
    assert "abcabc$"[3..] == "abc$";
    assert EdgeText("abcabcabc$", AbcNumbered[8], 9) == "abc";
    AbcWalk2_2();
    assert [8] + [3] == [8, 3];
  }

  lemma AbcWalk2_0()
    ensures Locate("abcabcabc$", AbcNumbered, 9, 0, "cabcabc$") == Some([14, 8, 3])
  {
    assert "cabcabc$"[0] == 'c';
    assert 'c' in AbcNumbered[0].children;
    assert AbcNumbered[0].children['c'] == 14;
    assert "cabcabc$"[..1] == "c";
    assert "cabcabc$"[1..] == "abcabc$";
    assert EdgeText("abcabcabc$", AbcNumbered[14], 9) == "c";
    AbcWalk2_1();
    assert [14] + [8, 3] == [14, 8, 3];
  }

  lemma AbcSuffix2Walk()
    ensures Locate(AbcTree.text, AbcTree.nodes, AbcTree.leafEnd, Root, AbcTree.text[2..]) == Some([14, 8, 3])
  {
    AbcArenaOk();
    assert "abcabcabc$"[2..] == "cabcabc$";
    AbcWalk2_0();
  }

  lemma AbcSuffix2Leaf()
    ensures IsLeaf(AbcTree, 3) && AbcTree.nodes[3].suffixIndex == 2
  {
    assert AbcTree.nodes == AbcNumbered;
    assert AbcNumbered[3].children == map[] && AbcNumbered[3].suffixIndex == 2;
  }

  lemma AbcSuffix2()
    ensures SuffixAtLeaf(AbcTree, 2)
    ensures IsLeaf(AbcTree, 3) && LeafReached(AbcTree, 3)
  {
    AbcArenaOk();
    AbcSuffix2Walk();
    AbcSuffix2Leaf();
  }

  lemma AbcWalk3_2()
    ensures Locate("abcabcabc$", AbcNumbered, 9, 4, "$") == Some([5])
  {
    assert "$"[0] == '$';
    assert '$' in AbcNumbered[4].children;
    assert AbcNumbered[4].children['$'] == 5;
    assert "$"[..1] == "$";
    assert "$"[1..] == "";
    assert EdgeText("abcabcabc$", AbcNumbered[5], 9) == "$";
    assert Locate("abcabcabc$", AbcNumbered, 9, 5, []) == Some([]);
    assert [5] + [] == [5];
  }

  lemma AbcWalk3_1()
    ensures Locate("abcabcabc$", AbcNumbered, 9, 10, "abc$") == Some([4, 5])
  {
    assert "abc$"[0] == 'a';
    assert 'a' in AbcNumbered[10].children;
    assert AbcNumbered[10].children['a'] == 4;
    assert "abc$"[..3] == "abc";
    assert "abc$"[3..] == "$";
    assert EdgeText("abcabcabc$", AbcNumbered[4], 9) == "abc";
    AbcWalk3_2();
    assert [4] + [5] == [4, 5];
  }

  lemma AbcWalk3_0()
    ensures Locate("abcabcabc$", AbcNumbered, 9, 0, "abcabc$") == Some([10, 4, 5])
  {
    assert "abcabc$"[0] == 'a';
    assert 'a' in AbcNumbered[0].children;
    assert AbcNumbered[0].children['a'] == 10;
    assert "abcabc$"[..3] == "abc";
    assert "abcabc$"[3..] == "abc$";
    assert EdgeText("abcabcabc$", AbcNumbered[10], 9) == "abc";
    AbcWalk3_1();
    assert [10] + [4, 5] == [10, 4, 5];
  }

  lemma AbcSuffix3Walk()
    ensures Locate(AbcTree.text, AbcTree.nodes, AbcTree.leafEnd, Root, AbcTree.text[3..]) == Some([10, 4, 5])
  {
    AbcArenaOk();
    assert "abcabcabc$"[3..] == "abcabc$";
    AbcWalk3_0();
  }

  lemma AbcSuffix3Leaf()
    ensures IsLeaf(AbcTree, 5) && AbcTree.nodes[5].suffixIndex == 3
  {
    assert AbcTree.nodes == AbcNumbered;
    assert AbcNumbered[5].children == map[] && AbcNumbered[5].suffixIndex == 3;
  }

  lemma AbcSuffix3()
    ensures SuffixAtLeaf(AbcTree, 3)
    ensures IsLeaf(AbcTree, 5) && LeafReached(AbcTree, 5)
  {
    AbcArenaOk();
    AbcSuffix3Walk();
    AbcSuffix3Leaf();
  }

  lemma AbcWalk4_2()
    ensures Locate("abcabcabc$", AbcNumbered, 9, 6, "$") == Some([7])
  {
    assert "$"[0] == '$';
    assert '$' in AbcNumbered[6].children;
    assert AbcNumbered[6].children['$'] == 7;
    assert "$"[..1] == "$";
    assert "$"[1..] == "";
    assert EdgeText("abcabcabc$", AbcNumbered[7], 9) == "$";
    assert Locate("abcabcabc$", AbcNumbered, 9, 7, []) == Some([]);
    assert [7] + [] == [7];
  }

  lemma AbcWalk4_1()
    ensures Locate("abcabcabc$", AbcNumbered, 9, 12, "abc$") == Some([6, 7])
  {
    assert "abc$"[0] == 'a';
    assert 'a' in AbcNumbered[12].children;
    assert AbcNumbered[12].children['a'] == 6;
    assert "abc$"[..3] == "abc";
    assert "abc$"[3..] == "$";
    assert EdgeText("abcabcabc$", AbcNumbered[6], 9) == "abc";
    AbcWalk4_2();
    assert [6] + [7] == [6, 7];
  }

  lemma AbcWalk4_0()
    ensures Locate("abcabcabc$", AbcNumbered, 9, 0, "bcabc$") == Some([12, 6, 7])
  {
    assert "bcabc$"[0] == 'b';
    assert 'b' in AbcNumbered[0].children;
    assert AbcNumbered[0].children['b'] == 12;
    assert "bcabc$"[..2] == "bc";
    assert "bcabc$"[2..] == "abc$";
    assert EdgeText("abcabcabc$", AbcNumbered[12], 9) == "bc";
    AbcWalk4_1();
    assert [12] + [6, 7] == [12, 6, 7];
  }

  lemma AbcSuffix4Walk()
    ensures Locate(AbcTree.text, AbcTree.nodes, AbcTree.leafEnd, Root, AbcTree.text[4..]) == Some([12, 6, 7])
  {
    AbcArenaOk();
    assert "abcabcabc$"[4..] == "bcabc$";
    AbcWalk4_0();
  }

  lemma AbcSuffix4Leaf()
    ensures IsLeaf(AbcTree, 7) && AbcTree.nodes[7].suffixIndex == 4
  {
    assert AbcTree.nodes == AbcNumbered;
    assert AbcNumbered[7].children == map[] && AbcNumbered[7].suffixIndex == 4;
  }

  lemma AbcSuffix4()
    ensures SuffixAtLeaf(AbcTree, 4)
    ensures IsLeaf(AbcTree, 7) && LeafReached(AbcTree, 7)
  {
    AbcArenaOk();
    AbcSuffix4Walk();
    AbcSuffix4Leaf();
  }

  lemma AbcWalk5_2()
    ensures Locate("abcabcabc$", AbcNumbered, 9, 8, "$") == Some([9])
  {
    assert "$"[0] == '$';
    assert '$' in AbcNumbered[8].children;
    assert AbcNumbered[8].children['$'] == 9;
    assert "$"[..1] == "$";
    assert "$"[1..] == "";
    assert EdgeText("abcabcabc$", AbcNumbered[9], 9) == "$";
    assert Locate("abcabcabc$", AbcNumbered, 9, 9, []) == Some([]);
    assert [9] + [] == [9];
  }

  lemma AbcWalk5_1()
    ensures Locate("abcabcabc$", AbcNumbered, 9, 14, "abc$") == Some([8, 9])
  {
    assert "abc$"[0] == 'a';
    assert 'a' in AbcNumbered[14].children;
    assert AbcNumbered[14].children['a'] == 8;
    assert "abc$"[..3] == "abc";
    assert "abc$"[3..] == "$";
    assert EdgeText("abcabcabc$", AbcNumbered[8], 9) == "abc";
    AbcWalk5_2();
    assert [8] + [9] == [8, 9];
  }

  lemma AbcWalk5_0()
    ensures Locate("abcabcabc$", AbcNumbered, 9, 0, "cabc$") == Some([14, 8, 9])
  {
    assert "cabc$"[0] == 'c';
    assert 'c' in AbcNumbered[0].children;
    assert AbcNumbered[0].children['c'] == 14;
    assert "cabc$"[..1] == "c";
    assert "cabc$"[1..] == "abc$";
    assert EdgeText("abcabcabc$", AbcNumbered[14], 9) == "c";
    AbcWalk5_1();
    assert [14] + [8, 9] == [14, 8, 9];
  }

  lemma AbcSuffix5Walk()
    ensures Locate(AbcTree.text, AbcTree.nodes, AbcTree.leafEnd, Root, AbcTree.text[5..]) == Some([14, 8, 9])
  {
    AbcArenaOk();
    assert "abcabcabc$"[5..] == "cabc$";
    AbcWalk5_0();
  }

  lemma AbcSuffix5Leaf()
    ensures IsLeaf(AbcTree, 9) && AbcTree.nodes[9].suffixIndex == 5
  {
    assert AbcTree.nodes == AbcNumbered;
    assert AbcNumbered[9].children == map[] && AbcNumbered[9].suffixIndex == 5;
  }

  lemma AbcSuffix5()
    ensures SuffixAtLeaf(AbcTree, 5)
    ensures IsLeaf(AbcTree, 9) && LeafReached(AbcTree, 9)
  {
    AbcArenaOk();
    AbcSuffix5Walk();
    AbcSuffix5Leaf();
  }

  lemma AbcWalk6_1()
    ensures Locate("abcabcabc$", AbcNumbered, 9, 10, "$") == Some([11])
  {
    assert "$"[0] == '$';
    assert '$' in AbcNumbered[10].children;
    assert AbcNumbered[10].children['$'] == 11;
    assert "$"[..1] == "$";
    assert "$"[1..] == "";
    assert EdgeText("abcabcabc$", AbcNumbered[11], 9) == "$";
    assert Locate("abcabcabc$", AbcNumbered, 9, 11, []) == Some([]);
    assert [11] + [] == [11];
  }

  lemma AbcWalk6_0()
    ensures Locate("abcabcabc$", AbcNumbered, 9, 0, "abc$") == Some([10, 11])
  {
    assert "abc$"[0] == 'a';
    assert 'a' in AbcNumbered[0].children;
    assert AbcNumbered[0].children['a'] == 10;
    assert "abc$"[..3] == "abc";
    assert "abc$"[3..] == "$";
    assert EdgeText("abcabcabc$", AbcNumbered[10], 9) == "abc";
    AbcWalk6_1();
    assert [10] + [11] == [10, 11];
  }

  lemma AbcSuffix6Walk()
    ensures Locate(AbcTree.text, AbcTree.nodes, AbcTree.leafEnd, Root, AbcTree.text[6..]) == Some([10, 11])
  {
    AbcArenaOk();
    assert "abcabcabc$"[6..] == "abc$";
    AbcWalk6_0();
  }

  lemma AbcSuffix6Leaf()
    ensures IsLeaf(AbcTree, 11) && AbcTree.nodes[11].suffixIndex == 6
  {
    assert AbcTree.nodes == AbcNumbered;
    assert AbcNumbered[11].children == map[] && AbcNumbered[11].suffixIndex == 6;
  }

  lemma AbcSuffix6()
    ensures SuffixAtLeaf(AbcTree, 6)
    ensures IsLeaf(AbcTree, 11) && LeafReached(AbcTree, 11)
  {
    AbcArenaOk();
    AbcSuffix6Walk();
    AbcSuffix6Leaf();
  }

  lemma AbcWalk7_1()
    ensures Locate("abcabcabc$", AbcNumbered, 9, 12, "$") == Some([13])
  {
    assert "$"[0] == '$';
    assert '$' in AbcNumbered[12].children;
    assert AbcNumbered[12].children['$'] == 13;
    assert "$"[..1] == "$";
    assert "$"[1..] == "";
    assert EdgeText("abcabcabc$", AbcNumbered[13], 9) == "$";
    assert Locate("abcabcabc$", AbcNumbered, 9, 13, []) == Some([]);
    assert [13] + [] == [13];
  }

  lemma AbcWalk7_0()
    ensures Locate("abcabcabc$", AbcNumbered, 9, 0, "bc$") == Some([12, 13])
  {
    assert "bc$"[0] == 'b';
    assert 'b' in AbcNumbered[0].children;
    assert AbcNumbered[0].children['b'] == 12;
    assert "bc$"[..2] == "bc";
    assert "bc$"[2..] == "$";
    assert EdgeText("abcabcabc$", AbcNumbered[12], 9) == "bc";
    AbcWalk7_1();
    assert [12] + [13] == [12, 13];
  }

  lemma AbcSuffix7Walk()
    ensures Locate(AbcTree.text, AbcTree.nodes, AbcTree.leafEnd, Root, AbcTree.text[7..]) == Some([12, 13])
  {
    AbcArenaOk();
    assert "abcabcabc$"[7..] == "bc$";
    AbcWalk7_0();
  }

  lemma AbcSuffix7Leaf()
    ensures IsLeaf(AbcTree, 13) && AbcTree.nodes[13].suffixIndex == 7
  {
    assert AbcTree.nodes == AbcNumbered;
    assert AbcNumbered[13].children == map[] && AbcNumbered[13].suffixIndex == 7;
  }

  lemma AbcSuffix7()
    ensures SuffixAtLeaf(AbcTree, 7)
    ensures IsLeaf(AbcTree, 13) && LeafReached(AbcTree, 13)
  {
    AbcArenaOk();
    AbcSuffix7Walk();
    AbcSuffix7Leaf();
  }

  lemma AbcWalk8_1()
    ensures Locate("abcabcabc$", AbcNumbered, 9, 14, "$") == Some([15])
  {
    assert "$"[0] == '$';
    assert '$' in AbcNumbered[14].children;
    assert AbcNumbered[14].children['$'] == 15;
    assert "$"[..1] == "$";
    assert "$"[1..] == "";
    assert EdgeText("abcabcabc$", AbcNumbered[15], 9) == "$";
    assert Locate("abcabcabc$", AbcNumbered, 9, 15, []) == Some([]);
    assert [15] + [] == [15];
  }

  lemma AbcWalk8_0()
    ensures Locate("abcabcabc$", AbcNumbered, 9, 0, "c$") == Some([14, 15])
  {
    assert "c$"[0] == 'c';
    assert 'c' in AbcNumbered[0].children;
    assert AbcNumbered[0].children['c'] == 14;
    assert "c$"[..1] == "c";
    assert "c$"[1..] == "$";
    assert EdgeText("abcabcabc$", AbcNumbered[14], 9) == "c";
    AbcWalk8_1();
    assert [14] + [15] == [14, 15];
  }

  lemma AbcSuffix8Walk()
    ensures Locate(AbcTree.text, AbcTree.nodes, AbcTree.leafEnd, Root, AbcTree.text[8..]) == Some([14, 15])
  {
    AbcArenaOk();
    assert "abcabcabc$"[8..] == "c$";
    AbcWalk8_0();
  }

  lemma AbcSuffix8Leaf()
    ensures IsLeaf(AbcTree, 15) && AbcTree.nodes[15].suffixIndex == 8
  {
    assert AbcTree.nodes == AbcNumbered;
    assert AbcNumbered[15].children == map[] && AbcNumbered[15].suffixIndex == 8;
  }

  lemma AbcSuffix8()
    ensures SuffixAtLeaf(AbcTree, 8)
    ensures IsLeaf(AbcTree, 15) && LeafReached(AbcTree, 15)
  {
    AbcArenaOk();
    AbcSuffix8Walk();
    AbcSuffix8Leaf();
  }

  lemma AbcWalk9_0()
    ensures Locate("abcabcabc$", AbcNumbered, 9, 0, "$") == Some([16])
  {
    assert "$"[0] == '$';
    assert '$' in AbcNumbered[0].children;
    assert AbcNumbered[0].children['$'] == 16;
    assert "$"[..1] == "$";
    assert "$"[1..] == "";
    assert EdgeText("abcabcabc$", AbcNumbered[16], 9) == "$";
    assert Locate("abcabcabc$", AbcNumbered, 9, 16, []) == Some([]);
    assert [16] + [] == [16];
  }

  lemma AbcSuffix9Walk()
    ensures Locate(AbcTree.text, AbcTree.nodes, AbcTree.leafEnd, Root, AbcTree.text[9..]) == Some([16])
  {
    AbcArenaOk();
    assert "abcabcabc$"[9..] == "$";
    AbcWalk9_0();
  }

  lemma AbcSuffix9Leaf()
    ensures IsLeaf(AbcTree, 16) && AbcTree.nodes[16].suffixIndex == 9
  {
    assert AbcTree.nodes == AbcNumbered;
    assert AbcNumbered[16].children == map[] && AbcNumbered[16].suffixIndex == 9;
  }

  lemma AbcSuffix9()
    ensures SuffixAtLeaf(AbcTree, 9)
    ensures IsLeaf(AbcTree, 16) && LeafReached(AbcTree, 16)
  {
    AbcArenaOk();
    AbcSuffix9Walk();
    AbcSuffix9Leaf();
  }

  lemma AbcAllSuffixes()
    ensures forall k | 0 <= k < 10 :: SuffixAtLeaf(AbcTree, k)
  {
    AbcArenaOk();
    forall k | 0 <= k < 10
      ensures SuffixAtLeaf(AbcTree, k)
    {
      if k == 0 {
        AbcSuffix0();
      } else if k == 1 {
        AbcSuffix1();
      } else if k == 2 {
        AbcSuffix2();
      } else if k == 3 {
        AbcSuffix3();
      } else if k == 4 {
        AbcSuffix4();
      } else if k == 5 {
        AbcSuffix5();
      } else if k == 6 {
        AbcSuffix6();
      } else if k == 7 {
        AbcSuffix7();
      } else if k == 8 {
        AbcSuffix8();
      } else if k == 9 {
        AbcSuffix9();
      }
    }
  }

  lemma AbcAllLeaves()
    ensures forall id | 0 < id < 17 && IsLeaf(AbcTree, id) :: LeafReached(AbcTree, id)
  {
    AbcArenaOk();
    forall id | 0 < id < 17
      ensures IsLeaf(AbcTree, id) ==> LeafReached(AbcTree, id)
    {
      if id == 1 {
        AbcSuffix0();
      } else if id == 2 {
        AbcSuffix1();
      } else if id == 3 {
        AbcSuffix2();
      } else if id == 4 {
        assert 'a' in AbcNumbered[4].children;
      } else if id == 5 {
        AbcSuffix3();
      } else if id == 6 {
        assert 'a' in AbcNumbered[6].children;
      } else if id == 7 {
        AbcSuffix4();
      } else if id == 8 {
        assert 'a' in AbcNumbered[8].children;
      } else if id == 9 {
        AbcSuffix5();
      } else if id == 10 {
        assert 'a' in AbcNumbered[10].children;
      } else if id == 11 {
        AbcSuffix6();
      } else if id == 12 {
        assert 'a' in AbcNumbered[12].children;
      } else if id == 13 {
        AbcSuffix7();
      } else if id == 14 {
        assert 'a' in AbcNumbered[14].children;
      } else if id == 15 {
        AbcSuffix8();
      } else if id == 16 {
        AbcSuffix9();
      }
    }
  }

  /** Every suffix of "abcabcabc$" ends at its own leaf of the tree Ukkonen's builder
      answers, and every leaf is the end of its suffix. */
  lemma AbcIsSuffixTree()
    ensures Build("abcabcabc") == Ok(AbcTree) && IsSuffixTree(AbcTree)
  {
    AbcBuild();
    AbcArenaOk();
    AbcAllSuffixes();
    AbcAllLeaves();
  }

  lemma AbcPrepared(input: string)
    requires input == "abcabcabc"
    ensures forall k | 0 <= k < |input| :: input[k] != Sentinel
    ensures WithSentinel(input) == AbcTree.text
  {
    assert WithSentinel("abcabcabc") == "abcabcabc$";
    AbcArenaOk();
  }

  lemma AbcAgrees(input: string)
    requires input == "abcabcabc"
    ensures var t := NaiveSuffixTree.Build(input);
      NaiveSuffixTree.WellFormed(t.text, t.root) && LeafLabels(AbcTree) == NaiveSuffixTree.Leaves(t.text, t.root)
  {
    AbcIsSuffixTree();
    AbcPrepared(input);
    WithSentinelUnique(input);
    AgreesWithNaive(input, AbcTree);
  }

  /** Ukkonen's builder and the naive builder agree on "abcabcabc": the same
      leaves, with the same suffix indices and path labels. */
  lemma AbcMatchesNaive()
    ensures Build("abcabcabc") == Ok(AbcTree) && IsSuffixTree(AbcTree)
    ensures var t := NaiveSuffixTree.Build("abcabcabc");
      NaiveSuffixTree.WellFormed(t.text, t.root) && LeafLabels(AbcTree) == NaiveSuffixTree.Leaves(t.text, t.root)
  {
    AbcIsSuffixTree();
    AbcAgrees("abcabcabc");
  }

  const AabaaStart: Builder :=
    Builder("aabaa$", 6,
      [Node(-1, Closed(-1), map[], 0, -1)],
      0, -1, 0, 0, -1, None)

  const Aabaa0: Builder :=
    Builder("aabaa$", 6,
      [Node(-1, Closed(-1), map['a' := 1], 0, -1),
      Node(0, Open, map[], 0, -1)],
      0, 0, 0, 0, 0, None)

  lemma Aabaa0Step1Arena()
    ensures Attach(AabaaStart.nodes, 0, 'a', 0) == Aabaa0.nodes
  {
    var x := Attach(AabaaStart.nodes, 0, 'a', 0);
    var y := Aabaa0.nodes;
    assert x[0] == y[0];
    assert x[1] == y[1];
  }

  lemma Aabaa0Step1Op()
    ensures AddLeaf(AabaaStart.(leafEnd := 0, remaining := 1, lastNewNode := None).(activeEdge := 0), 0, 'a') == AabaaStart.(leafEnd := 0, remaining := 1, lastNewNode := None).(activeEdge := 0).(nodes := Aabaa0.nodes, lastNewNode := None)
  {
    Aabaa0Step1Arena();
  }

  lemma Aabaa0Step1Advance()
    ensures Advance(AabaaStart.(leafEnd := 0, remaining := 1, lastNewNode := None).(activeEdge := 0).(nodes := Aabaa0.nodes, lastNewNode := None), 0) == Aabaa0
  {
  }

  lemma Aabaa0Step1()
    ensures Step(AabaaStart.(leafEnd := 0, remaining := 1, lastNewNode := None), 0) == Next(Aabaa0)
  {
    assert CharAt(Aabaa0.text, 0) == Ok('a');
    assert 'a' !in AabaaStart.nodes[0].children;
    Aabaa0Step1Op();
    Aabaa0Step1Advance();
  }

  lemma AabaaPhase0()
    ensures Extend(AabaaStart, 0) == Ok(Aabaa0)
  {
    Aabaa0Step1();
  }

  const Aabaa1: Builder :=
    Builder("aabaa$", 6,
      [Node(-1, Closed(-1), map['a' := 1], 0, -1),
      Node(0, Open, map[], 0, -1)],
      0, 1, 1, 1, 1, None)

  lemma Aabaa1Step1Op()
    ensures Rule3(Aabaa0.(leafEnd := 1, remaining := 1, lastNewNode := None).(activeEdge := 1)) == Aabaa1
  {
  }

  lemma Aabaa1Step1Walk()
    ensures WalkDown(Aabaa0.(leafEnd := 1, remaining := 1, lastNewNode := None).(activeEdge := 1), 1) == (false, Aabaa0.(leafEnd := 1, remaining := 1, lastNewNode := None).(activeEdge := 1))
  {
  }

  lemma Aabaa1Step1Edge()
    ensures StepOnEdge(Aabaa0.(leafEnd := 1, remaining := 1, lastNewNode := None).(activeEdge := 1), 1, 'a') == Stop(Aabaa1)
  {
    assert Aabaa0.nodes[0].children['a'] == 1;
    Aabaa1Step1Walk();
    assert CharAt(Aabaa1.text, 0) == Ok('a');
    Aabaa1Step1Op();
    EdgeRule3(Aabaa0.(leafEnd := 1, remaining := 1, lastNewNode := None).(activeEdge := 1), 1, 'a');
  }

  lemma Aabaa1Step1()
    ensures Step(Aabaa0.(leafEnd := 1, remaining := 1, lastNewNode := None), 1) == Stop(Aabaa1)
  {
    assert CharAt(Aabaa1.text, 1) == Ok('a');
    assert 'a' in Aabaa0.nodes[0].children;
    Aabaa1Step1Edge();
  }

  lemma AabaaPhase1()
    ensures Extend(Aabaa0, 1) == Ok(Aabaa1)
  {
    Aabaa1Step1();
  }

  const Aabaa2_1: Builder :=
    Builder("aabaa$", 6,
      [Node(-1, Closed(-1), map['a' := 2], 0, -1),
      Node(1, Open, map[], 0, -1),
      Node(0, Closed(0), map['a' := 1, 'b' := 3], 0, -1),
      Node(2, Open, map[], 0, -1)],
      0, 2, 0, 1, 2, Some(2))

  lemma Aabaa2Step1Arena()
    ensures SplitNodes(Aabaa1.nodes, 0, 'a', 1, 1, 2, 'b', 'a') == Aabaa2_1.nodes
  {
    var x := SplitNodes(Aabaa1.nodes, 0, 'a', 1, 1, 2, 'b', 'a');
    var y := Aabaa2_1.nodes;
    assert x[0] == y[0];
    assert x[1] == y[1];
    assert x[2] == y[2];
    assert x[3] == y[3];
  }

  lemma Aabaa2Step1Op()
    ensures Split(Aabaa1.(leafEnd := 2, remaining := 2, lastNewNode := None), 2, 'a', 1, 'a') == Aabaa1.(leafEnd := 2, remaining := 2, lastNewNode := None).(nodes := Aabaa2_1.nodes, lastNewNode := Some(2))
  {
    Aabaa2Step1Arena();
  }

  lemma Aabaa2Step1Advance()
    ensures Advance(Aabaa1.(leafEnd := 2, remaining := 2, lastNewNode := None).(nodes := Aabaa2_1.nodes, lastNewNode := Some(2)), 2) == Aabaa2_1
  {
  }

  lemma Aabaa2Step1Walk()
    ensures WalkDown(Aabaa1.(leafEnd := 2, remaining := 2, lastNewNode := None), 1) == (false, Aabaa1.(leafEnd := 2, remaining := 2, lastNewNode := None))
  {
  }

  lemma Aabaa2Step1Edge()
    ensures StepOnEdge(Aabaa1.(leafEnd := 2, remaining := 2, lastNewNode := None), 2, 'a') == Next(Aabaa2_1)
  {
    assert Aabaa1.nodes[0].children['a'] == 1;
    Aabaa2Step1Walk();
    assert CharAt(Aabaa2_1.text, 1) == Ok('a');
    Aabaa2Step1Op();
    Aabaa2Step1Advance();
    EdgeSplit(Aabaa1.(leafEnd := 2, remaining := 2, lastNewNode := None), 2, 'a');
  }

  lemma Aabaa2Step1()
    ensures Step(Aabaa1.(leafEnd := 2, remaining := 2, lastNewNode := None), 2) == Next(Aabaa2_1)
  {
    assert CharAt(Aabaa2_1.text, 1) == Ok('a');
    assert 'a' in Aabaa1.nodes[0].children;
    Aabaa2Step1Edge();
  }

  const Aabaa2: Builder :=
    Builder("aabaa$", 6,
      [Node(-1, Closed(-1), map['a' := 2, 'b' := 4], 0, -1),
      Node(1, Open, map[], 0, -1),
      Node(0, Closed(0), map['a' := 1, 'b' := 3], 0, -1),
      Node(2, Open, map[], 0, -1),
      Node(2, Open, map[], 0, -1)],
      0, 2, 0, 0, 2, None)

  lemma Aabaa2Step2Arena()
    ensures Attach(Aabaa2_1.nodes, 0, 'b', 2) == Aabaa2.nodes[2 := Aabaa2.nodes[2].(link := 0)]
  {
    var x := Attach(Aabaa2_1.nodes, 0, 'b', 2);
    var y := Aabaa2.nodes[2 := Aabaa2.nodes[2].(link := 0)];
    assert x[0] == y[0];
    assert x[1] == y[1];
    assert x[2] == y[2];
    assert x[3] == y[3];
    assert x[4] == y[4];
  }

  lemma Aabaa2Step2Link()
    ensures WithLink(Aabaa2.nodes[2 := Aabaa2.nodes[2].(link := 0)], 2, 0) == Aabaa2.nodes
  {
    var z := WithLink(Aabaa2.nodes[2 := Aabaa2.nodes[2].(link := 0)], 2, 0);
    assert z[0] == Aabaa2.nodes[0];
    assert z[1] == Aabaa2.nodes[1];
    assert z[2] == Aabaa2.nodes[2];
    assert z[3] == Aabaa2.nodes[3];
    assert z[4] == Aabaa2.nodes[4];
  }

  lemma Aabaa2Step2Op()
    ensures AddLeaf(Aabaa2_1.(activeEdge := 2), 2, 'b') == Aabaa2_1.(activeEdge := 2).(nodes := Aabaa2.nodes, lastNewNode := None)
  {
    Aabaa2Step2Arena();
    Aabaa2Step2Link();
  }

  lemma Aabaa2Step2Advance()
    ensures Advance(Aabaa2_1.(activeEdge := 2).(nodes := Aabaa2.nodes, lastNewNode := None), 2) == Aabaa2
  {
  }

  lemma Aabaa2Step2()
    ensures Step(Aabaa2_1, 2) == Next(Aabaa2)
  {
    assert CharAt(Aabaa2.text, 2) == Ok('b');
    assert 'b' !in Aabaa2_1.nodes[0].children;
    Aabaa2Step2Op();
    Aabaa2Step2Advance();
  }

  lemma AabaaPhase2()
    ensures Extend(Aabaa1, 2) == Ok(Aabaa2)
  {
    Aabaa2Step1();
    Aabaa2Step2();
  }

  const Aabaa3: Builder :=
    Builder("aabaa$", 6,
      [Node(-1, Closed(-1), map['a' := 2, 'b' := 4], 0, -1),
      Node(1, Open, map[], 0, -1),
      Node(0, Closed(0), map['a' := 1, 'b' := 3], 0, -1),
      Node(2, Open, map[], 0, -1),
      Node(2, Open, map[], 0, -1)],
      0, 3, 1, 1, 3, None)

  lemma Aabaa3Step1Op()
    ensures Rule3(Aabaa2.(leafEnd := 3, remaining := 1, lastNewNode := None).(activeEdge := 3)) == Aabaa3
  {
  }

  lemma Aabaa3Step1Walk()
    ensures WalkDown(Aabaa2.(leafEnd := 3, remaining := 1, lastNewNode := None).(activeEdge := 3), 2) == (false, Aabaa2.(leafEnd := 3, remaining := 1, lastNewNode := None).(activeEdge := 3))
  {
  }

  lemma Aabaa3Step1Edge()
    ensures StepOnEdge(Aabaa2.(leafEnd := 3, remaining := 1, lastNewNode := None).(activeEdge := 3), 3, 'a') == Stop(Aabaa3)
  {
    assert Aabaa2.nodes[0].children['a'] == 2;
    Aabaa3Step1Walk();
    assert CharAt(Aabaa3.text, 0) == Ok('a');
    Aabaa3Step1Op();
    EdgeRule3(Aabaa2.(leafEnd := 3, remaining := 1, lastNewNode := None).(activeEdge := 3), 3, 'a');
  }

  lemma Aabaa3Step1()
    ensures Step(Aabaa2.(leafEnd := 3, remaining := 1, lastNewNode := None), 3) == Stop(Aabaa3)
  {
    assert CharAt(Aabaa3.text, 3) == Ok('a');
    assert 'a' in Aabaa2.nodes[0].children;
    Aabaa3Step1Edge();
  }

  lemma AabaaPhase3()
    ensures Extend(Aabaa2, 3) == Ok(Aabaa3)
  {
    Aabaa3Step1();
  }

  const Aabaa4_1: Builder :=
    Builder("aabaa$", 6,
      [Node(-1, Closed(-1), map['a' := 2, 'b' := 4], 0, -1),
      Node(1, Open, map[], 0, -1),
      Node(0, Closed(0), map['a' := 1, 'b' := 3], 0, -1),
      Node(2, Open, map[], 0, -1),
      Node(2, Open, map[], 0, -1)],
      2, 4, 0, 2, 4, None)

  lemma Aabaa4Step1Walk()
    ensures WalkDown(Aabaa3.(leafEnd := 4, remaining := 2, lastNewNode := None), 2) == (true, Aabaa4_1)
  {
  }

  lemma Aabaa4Step1Edge()
    ensures StepOnEdge(Aabaa3.(leafEnd := 4, remaining := 2, lastNewNode := None), 4, 'a') == Next(Aabaa4_1)
  {
    assert Aabaa3.nodes[0].children['a'] == 2;
    Aabaa4Step1Walk();
    EdgeWalk(Aabaa3.(leafEnd := 4, remaining := 2, lastNewNode := None), 4, 'a');
  }

  lemma Aabaa4Step1()
    ensures Step(Aabaa3.(leafEnd := 4, remaining := 2, lastNewNode := None), 4) == Next(Aabaa4_1)
  {
    assert CharAt(Aabaa4_1.text, 3) == Ok('a');
    assert 'a' in Aabaa3.nodes[0].children;
    Aabaa4Step1Edge();
  }

  const Aabaa4: Builder :=
    Builder("aabaa$", 6,
      [Node(-1, Closed(-1), map['a' := 2, 'b' := 4], 0, -1),
      Node(1, Open, map[], 0, -1),
      Node(0, Closed(0), map['a' := 1, 'b' := 3], 0, -1),
      Node(2, Open, map[], 0, -1),
      Node(2, Open, map[], 0, -1)],
      2, 4, 1, 2, 4, None)

  lemma Aabaa4Step2Op()
    ensures Rule3(Aabaa4_1.(activeEdge := 4)) == Aabaa4
  {
  }

  lemma Aabaa4Step2Walk()
    ensures WalkDown(Aabaa4_1.(activeEdge := 4), 1) == (false, Aabaa4_1.(activeEdge := 4))
  {
  }

  lemma Aabaa4Step2Edge()
    ensures StepOnEdge(Aabaa4_1.(activeEdge := 4), 4, 'a') == Stop(Aabaa4)
  {
    assert Aabaa4_1.nodes[2].children['a'] == 1;
    Aabaa4Step2Walk();
    assert CharAt(Aabaa4.text, 1) == Ok('a');
    Aabaa4Step2Op();
    EdgeRule3(Aabaa4_1.(activeEdge := 4), 4, 'a');
  }

  lemma Aabaa4Step2()
    ensures Step(Aabaa4_1, 4) == Stop(Aabaa4)
  {
    assert CharAt(Aabaa4.text, 4) == Ok('a');
    assert 'a' in Aabaa4_1.nodes[2].children;
    Aabaa4Step2Edge();
  }

  lemma AabaaPhase4()
    ensures Extend(Aabaa3, 4) == Ok(Aabaa4)
  {
    Aabaa4Step1();
    Aabaa4Step2();
  }

  const Aabaa5_1: Builder :=
    Builder("aabaa$", 6,
      [Node(-1, Closed(-1), map['a' := 2, 'b' := 4], 0, -1),
      Node(2, Open, map[], 0, -1),
      Node(0, Closed(0), map['a' := 5, 'b' := 3], 0, -1),
      Node(2, Open, map[], 0, -1),
      Node(2, Open, map[], 0, -1),
      Node(1, Closed(1), map['$' := 6, 'b' := 1], 0, -1),
      Node(5, Open, map[], 0, -1)],
      0, 4, 1, 2, 5, Some(5))

  lemma Aabaa5Step1Arena()
    ensures SplitNodes(Aabaa4.nodes, 2, 'a', 1, 1, 5, '$', 'b') == Aabaa5_1.nodes
  {
    var x := SplitNodes(Aabaa4.nodes, 2, 'a', 1, 1, 5, '$', 'b');
    var y := Aabaa5_1.nodes;
    assert x[0] == y[0];
    assert x[1] == y[1];
    assert x[2] == y[2];
    assert x[3] == y[3];
    assert x[4] == y[4];
    assert x[5] == y[5];
    assert x[6] == y[6];
  }

  lemma Aabaa5Step1Op()
    ensures Split(Aabaa4.(leafEnd := 5, remaining := 3, lastNewNode := None), 5, 'a', 1, 'b') == Aabaa4.(leafEnd := 5, remaining := 3, lastNewNode := None).(nodes := Aabaa5_1.nodes, lastNewNode := Some(5))
  {
    Aabaa5Step1Arena();
  }

  lemma Aabaa5Step1Advance()
    ensures Advance(Aabaa4.(leafEnd := 5, remaining := 3, lastNewNode := None).(nodes := Aabaa5_1.nodes, lastNewNode := Some(5)), 5) == Aabaa5_1
  {
  }

  lemma Aabaa5Step1Walk()
    ensures WalkDown(Aabaa4.(leafEnd := 5, remaining := 3, lastNewNode := None), 1) == (false, Aabaa4.(leafEnd := 5, remaining := 3, lastNewNode := None))
  {
  }

  lemma Aabaa5Step1Edge()
    ensures StepOnEdge(Aabaa4.(leafEnd := 5, remaining := 3, lastNewNode := None), 5, 'a') == Next(Aabaa5_1)
  {
    assert Aabaa4.nodes[2].children['a'] == 1;
    Aabaa5Step1Walk();
    assert CharAt(Aabaa5_1.text, 2) == Ok('b');
    Aabaa5Step1Op();
    Aabaa5Step1Advance();
    EdgeSplit(Aabaa4.(leafEnd := 5, remaining := 3, lastNewNode := None), 5, 'a');
  }

  lemma Aabaa5Step1()
    ensures Step(Aabaa4.(leafEnd := 5, remaining := 3, lastNewNode := None), 5) == Next(Aabaa5_1)
  {
    assert CharAt(Aabaa5_1.text, 4) == Ok('a');
    assert 'a' in Aabaa4.nodes[2].children;
    Aabaa5Step1Edge();
  }

  const Aabaa5_2: Builder :=
    Builder("aabaa$", 6,
      [Node(-1, Closed(-1), map['a' := 2, 'b' := 4], 0, -1),
      Node(2, Open, map[], 0, -1),
      Node(0, Closed(0), map['a' := 5, 'b' := 3], 0, -1),
      Node(2, Open, map[], 0, -1),
      Node(2, Open, map[], 0, -1),
      Node(1, Closed(1), map['$' := 6, 'b' := 1], 0, -1),
      Node(5, Open, map[], 0, -1)],
      2, 5, 0, 2, 5, Some(5))

  lemma Aabaa5Step2Walk()
    ensures WalkDown(Aabaa5_1, 2) == (true, Aabaa5_2)
  {
  }

  lemma Aabaa5Step2Edge()
    ensures StepOnEdge(Aabaa5_1, 5, 'a') == Next(Aabaa5_2)
  {
    assert Aabaa5_1.nodes[0].children['a'] == 2;
    Aabaa5Step2Walk();
    EdgeWalk(Aabaa5_1, 5, 'a');
  }

  lemma Aabaa5Step2()
    ensures Step(Aabaa5_1, 5) == Next(Aabaa5_2)
  {
    assert CharAt(Aabaa5_2.text, 4) == Ok('a');
    assert 'a' in Aabaa5_1.nodes[0].children;
    Aabaa5Step2Edge();
  }

  const Aabaa5_3: Builder :=
    Builder("aabaa$", 6,
      [Node(-1, Closed(-1), map['a' := 2, 'b' := 4], 0, -1),
      Node(2, Open, map[], 0, -1),
      Node(0, Closed(0), map['$' := 7, 'a' := 5, 'b' := 3], 0, -1),
      Node(2, Open, map[], 0, -1),
      Node(2, Open, map[], 0, -1),
      Node(1, Closed(1), map['$' := 6, 'b' := 1], 2, -1),
      Node(5, Open, map[], 0, -1),
      Node(5, Open, map[], 0, -1)],
      0, 5, 0, 1, 5, None)

  lemma Aabaa5Step3Arena()
    ensures Attach(Aabaa5_2.nodes, 2, '$', 5) == Aabaa5_3.nodes[5 := Aabaa5_3.nodes[5].(link := 0)]
  {
    var x := Attach(Aabaa5_2.nodes, 2, '$', 5);
    var y := Aabaa5_3.nodes[5 := Aabaa5_3.nodes[5].(link := 0)];
    assert x[0] == y[0];
    assert x[1] == y[1];
    assert x[2] == y[2];
    assert x[3] == y[3];
    assert x[4] == y[4];
    assert x[5] == y[5];
    assert x[6] == y[6];
    assert x[7] == y[7];
  }

  lemma Aabaa5Step3Link()
    ensures WithLink(Aabaa5_3.nodes[5 := Aabaa5_3.nodes[5].(link := 0)], 5, 2) == Aabaa5_3.nodes
  {
    var z := WithLink(Aabaa5_3.nodes[5 := Aabaa5_3.nodes[5].(link := 0)], 5, 2);
    assert z[0] == Aabaa5_3.nodes[0];
    assert z[1] == Aabaa5_3.nodes[1];
    assert z[2] == Aabaa5_3.nodes[2];
    assert z[3] == Aabaa5_3.nodes[3];
    assert z[4] == Aabaa5_3.nodes[4];
    assert z[5] == Aabaa5_3.nodes[5];
    assert z[6] == Aabaa5_3.nodes[6];
    assert z[7] == Aabaa5_3.nodes[7];
  }

  lemma Aabaa5Step3Op()
    ensures AddLeaf(Aabaa5_2.(activeEdge := 5), 5, '$') == Aabaa5_2.(activeEdge := 5).(nodes := Aabaa5_3.nodes, lastNewNode := None)
  {
    Aabaa5Step3Arena();
    Aabaa5Step3Link();
  }

  lemma Aabaa5Step3Advance()
    ensures Advance(Aabaa5_2.(activeEdge := 5).(nodes := Aabaa5_3.nodes, lastNewNode := None), 5) == Aabaa5_3
  {
  }

  lemma Aabaa5Step3()
    ensures Step(Aabaa5_2, 5) == Next(Aabaa5_3)
  {
    assert CharAt(Aabaa5_3.text, 5) == Ok('$');
    assert '$' !in Aabaa5_2.nodes[2].children;
    Aabaa5Step3Op();
    Aabaa5Step3Advance();
  }

  const Aabaa5: Builder :=
    Builder("aabaa$", 6,
      [Node(-1, Closed(-1), map['$' := 8, 'a' := 2, 'b' := 4], 0, -1),
      Node(2, Open, map[], 0, -1),
      Node(0, Closed(0), map['$' := 7, 'a' := 5, 'b' := 3], 0, -1),
      Node(2, Open, map[], 0, -1),
      Node(2, Open, map[], 0, -1),
      Node(1, Closed(1), map['$' := 6, 'b' := 1], 2, -1),
      Node(5, Open, map[], 0, -1),
      Node(5, Open, map[], 0, -1),
      Node(5, Open, map[], 0, -1)],
      0, 5, 0, 0, 5, None)

  lemma Aabaa5Step4Arena()
    ensures Attach(Aabaa5_3.nodes, 0, '$', 5) == Aabaa5.nodes
  {
    var x := Attach(Aabaa5_3.nodes, 0, '$', 5);
    var y := Aabaa5.nodes;
    assert x[0] == y[0];
    assert x[1] == y[1];
    assert x[2] == y[2];
    assert x[3] == y[3];
    assert x[4] == y[4];
    assert x[5] == y[5];
    assert x[6] == y[6];
    assert x[7] == y[7];
    assert x[8] == y[8];
  }

  lemma Aabaa5Step4Op()
    ensures AddLeaf(Aabaa5_3.(activeEdge := 5), 5, '$') == Aabaa5_3.(activeEdge := 5).(nodes := Aabaa5.nodes, lastNewNode := None)
  {
    Aabaa5Step4Arena();
  }

  lemma Aabaa5Step4Advance()
    ensures Advance(Aabaa5_3.(activeEdge := 5).(nodes := Aabaa5.nodes, lastNewNode := None), 5) == Aabaa5
  {
  }

  lemma Aabaa5Step4()
    ensures Step(Aabaa5_3, 5) == Next(Aabaa5)
  {
    assert CharAt(Aabaa5.text, 5) == Ok('$');
    assert '$' !in Aabaa5_3.nodes[0].children;
    Aabaa5Step4Op();
    Aabaa5Step4Advance();
  }

  lemma AabaaPhase5()
    ensures Extend(Aabaa4, 5) == Ok(Aabaa5)
  {
    Aabaa5Step1();
    Aabaa5Step2();
    Aabaa5Step3();
    Aabaa5Step4();
  }

  const AabaaIndexed1: seq<Node> :=
    [Node(-1, Closed(-1), map['$' := 8, 'a' := 2, 'b' := 4], 0, -1),
      Node(2, Open, map[], 0, 0),
      Node(0, Closed(0), map['$' := 7, 'a' := 5, 'b' := 3], 0, -1),
      Node(2, Open, map[], 0, -1),
      Node(2, Open, map[], 0, -1),
      Node(1, Closed(1), map['$' := 6, 'b' := 1], 2, -1),
      Node(5, Open, map[], 0, -1),
      Node(5, Open, map[], 0, -1),
      Node(5, Open, map[], 0, -1)]

  lemma AabaaLeaf1()
    ensures Number(Aabaa5.nodes, 6, 5, "ab$", 1, 6, 6) == Ok(AabaaIndexed1)
  {
    var x := Aabaa5.nodes[1 := Aabaa5.nodes[1].(suffixIndex := 0)];
    assert Aabaa5.nodes[1].children == map[];
    assert Number(Aabaa5.nodes, 6, 5, "ab$", 1, 6, 6) == Ok(x);
    assert x == AabaaIndexed1;
  }

  const AabaaIndexed2: seq<Node> :=
    [Node(-1, Closed(-1), map['$' := 8, 'a' := 2, 'b' := 4], 0, -1),
      Node(2, Open, map[], 0, 0),
      Node(0, Closed(0), map['$' := 7, 'a' := 5, 'b' := 3], 0, -1),
      Node(2, Open, map[], 0, -1),
      Node(2, Open, map[], 0, -1),
      Node(1, Closed(1), map['$' := 6, 'b' := 1], 2, -1),
      Node(5, Open, map[], 0, 3),
      Node(5, Open, map[], 0, -1),
      Node(5, Open, map[], 0, -1)]

  lemma AabaaLeaf6()
    ensures Number(AabaaIndexed1, 6, 5, "ab$", 6, 3, 6) == Ok(AabaaIndexed2)
  {
    var x := AabaaIndexed1[6 := AabaaIndexed1[6].(suffixIndex := 3)];
    assert AabaaIndexed1[6].children == map[];
    assert Number(AabaaIndexed1, 6, 5, "ab$", 6, 3, 6) == Ok(x);
    assert x == AabaaIndexed2;
  }

  lemma AabaaChildren5_1()
    ensures NumberChildren(AabaaIndexed1, 6, 5, "ab$", map['$' := 6, 'b' := 1], "$", 2, 6) == Ok(AabaaIndexed2)
  {
    assert map['$' := 6, 'b' := 1]['$'] == 6;
    assert EdgeLength(AabaaIndexed1[6], 5) == 1;
    assert "$"[1..] == "";
    AabaaLeaf6();
  }

  lemma AabaaChildren5_0()
    ensures NumberChildren(Aabaa5.nodes, 6, 5, "ab$", map['$' := 6, 'b' := 1], "b$", 2, 6) == Ok(AabaaIndexed2)
  {
    assert map['$' := 6, 'b' := 1]['b'] == 1;
    assert EdgeLength(Aabaa5.nodes[1], 5) == 4;
    assert "b$"[1..] == "$";
    AabaaLeaf1();
    AabaaChildren5_1();
  }

  lemma AabaaNumber5()
    ensures Number(Aabaa5.nodes, 6, 5, "ab$", 5, 2, 7) == Ok(AabaaIndexed2)
  {
    assert Aabaa5.nodes[5].children == map['$' := 6, 'b' := 1];
    assert 'a' !in map['$' := 6, 'b' := 1];
    assert "ab$"[1..] == "b$";
    AabaaChildren5_0();
  }

  const AabaaIndexed3: seq<Node> :=
    [Node(-1, Closed(-1), map['$' := 8, 'a' := 2, 'b' := 4], 0, -1),
      Node(2, Open, map[], 0, 0),
      Node(0, Closed(0), map['$' := 7, 'a' := 5, 'b' := 3], 0, -1),
      Node(2, Open, map[], 0, 1),
      Node(2, Open, map[], 0, -1),
      Node(1, Closed(1), map['$' := 6, 'b' := 1], 2, -1),
      Node(5, Open, map[], 0, 3),
      Node(5, Open, map[], 0, -1),
      Node(5, Open, map[], 0, -1)]

  lemma AabaaLeaf3()
    ensures Number(AabaaIndexed2, 6, 5, "ab$", 3, 5, 7) == Ok(AabaaIndexed3)
  {
    var x := AabaaIndexed2[3 := AabaaIndexed2[3].(suffixIndex := 1)];
    assert AabaaIndexed2[3].children == map[];
    assert Number(AabaaIndexed2, 6, 5, "ab$", 3, 5, 7) == Ok(x);
    assert x == AabaaIndexed3;
  }

  const AabaaIndexed4: seq<Node> :=
    [Node(-1, Closed(-1), map['$' := 8, 'a' := 2, 'b' := 4], 0, -1),
      Node(2, Open, map[], 0, 0),
      Node(0, Closed(0), map['$' := 7, 'a' := 5, 'b' := 3], 0, -1),
      Node(2, Open, map[], 0, 1),
      Node(2, Open, map[], 0, -1),
      Node(1, Closed(1), map['$' := 6, 'b' := 1], 2, -1),
      Node(5, Open, map[], 0, 3),
      Node(5, Open, map[], 0, 4),
      Node(5, Open, map[], 0, -1)]

  lemma AabaaLeaf7()
    ensures Number(AabaaIndexed3, 6, 5, "ab$", 7, 2, 7) == Ok(AabaaIndexed4)
  {
    var x := AabaaIndexed3[7 := AabaaIndexed3[7].(suffixIndex := 4)];
    assert AabaaIndexed3[7].children == map[];
    assert Number(AabaaIndexed3, 6, 5, "ab$", 7, 2, 7) == Ok(x);
    assert x == AabaaIndexed4;
  }

  lemma AabaaChildren2_2()
    ensures NumberChildren(AabaaIndexed3, 6, 5, "ab$", map['$' := 7, 'a' := 5, 'b' := 3], "$", 1, 7) == Ok(AabaaIndexed4)
  {
    assert map['$' := 7, 'a' := 5, 'b' := 3]['$'] == 7;
    assert EdgeLength(AabaaIndexed3[7], 5) == 1;
    assert "$"[1..] == "";
    AabaaLeaf7();
  }

  lemma AabaaChildren2_1()
    ensures NumberChildren(AabaaIndexed2, 6, 5, "ab$", map['$' := 7, 'a' := 5, 'b' := 3], "b$", 1, 7) == Ok(AabaaIndexed4)
  {
    assert map['$' := 7, 'a' := 5, 'b' := 3]['b'] == 3;
    assert EdgeLength(AabaaIndexed2[3], 5) == 4;
    assert "b$"[1..] == "$";
    AabaaLeaf3();
    AabaaChildren2_2();
  }

  lemma AabaaChildren2_0()
    ensures NumberChildren(Aabaa5.nodes, 6, 5, "ab$", map['$' := 7, 'a' := 5, 'b' := 3], "ab$", 1, 7) == Ok(AabaaIndexed4)
  {
    assert map['$' := 7, 'a' := 5, 'b' := 3]['a'] == 5;
    assert EdgeLength(Aabaa5.nodes[5], 5) == 1;
    assert "ab$"[1..] == "b$";
    AabaaNumber5();
    AabaaChildren2_1();
  }

  lemma AabaaNumber2()
    ensures Number(Aabaa5.nodes, 6, 5, "ab$", 2, 1, 8) == Ok(AabaaIndexed4)
  {
    assert Aabaa5.nodes[2].children == map['$' := 7, 'a' := 5, 'b' := 3];
    AabaaChildren2_0();
  }

  const AabaaIndexed5: seq<Node> :=
    [Node(-1, Closed(-1), map['$' := 8, 'a' := 2, 'b' := 4], 0, -1),
      Node(2, Open, map[], 0, 0),
      Node(0, Closed(0), map['$' := 7, 'a' := 5, 'b' := 3], 0, -1),
      Node(2, Open, map[], 0, 1),
      Node(2, Open, map[], 0, 2),
      Node(1, Closed(1), map['$' := 6, 'b' := 1], 2, -1),
      Node(5, Open, map[], 0, 3),
      Node(5, Open, map[], 0, 4),
      Node(5, Open, map[], 0, -1)]

  lemma AabaaLeaf4()
    ensures Number(AabaaIndexed4, 6, 5, "ab$", 4, 4, 8) == Ok(AabaaIndexed5)
  {
    var x := AabaaIndexed4[4 := AabaaIndexed4[4].(suffixIndex := 2)];
    assert AabaaIndexed4[4].children == map[];
    assert Number(AabaaIndexed4, 6, 5, "ab$", 4, 4, 8) == Ok(x);
    assert x == AabaaIndexed5;
  }

  const AabaaNumbered: seq<Node> :=
    [Node(-1, Closed(-1), map['$' := 8, 'a' := 2, 'b' := 4], 0, -1),
      Node(2, Open, map[], 0, 0),
      Node(0, Closed(0), map['$' := 7, 'a' := 5, 'b' := 3], 0, -1),
      Node(2, Open, map[], 0, 1),
      Node(2, Open, map[], 0, 2),
      Node(1, Closed(1), map['$' := 6, 'b' := 1], 2, -1),
      Node(5, Open, map[], 0, 3),
      Node(5, Open, map[], 0, 4),
      Node(5, Open, map[], 0, 5)]

  lemma AabaaLeaf8()
    ensures Number(AabaaIndexed5, 6, 5, "ab$", 8, 1, 8) == Ok(AabaaNumbered)
  {
    var x := AabaaIndexed5[8 := AabaaIndexed5[8].(suffixIndex := 5)];
    assert AabaaIndexed5[8].children == map[];
    assert Number(AabaaIndexed5, 6, 5, "ab$", 8, 1, 8) == Ok(x);
    assert x == AabaaNumbered;
  }

  lemma AabaaChildren0_2()
    ensures NumberChildren(AabaaIndexed5, 6, 5, "ab$", map['$' := 8, 'a' := 2, 'b' := 4], "$", 0, 8) == Ok(AabaaNumbered)
  {
    assert map['$' := 8, 'a' := 2, 'b' := 4]['$'] == 8;
    assert EdgeLength(AabaaIndexed5[8], 5) == 1;
    assert "$"[1..] == "";
    AabaaLeaf8();
  }

  lemma AabaaChildren0_1()
    ensures NumberChildren(AabaaIndexed4, 6, 5, "ab$", map['$' := 8, 'a' := 2, 'b' := 4], "b$", 0, 8) == Ok(AabaaNumbered)
  {
    assert map['$' := 8, 'a' := 2, 'b' := 4]['b'] == 4;
    assert EdgeLength(AabaaIndexed4[4], 5) == 4;
    assert "b$"[1..] == "$";
    AabaaLeaf4();
    AabaaChildren0_2();
  }

  lemma AabaaChildren0_0()
    ensures NumberChildren(Aabaa5.nodes, 6, 5, "ab$", map['$' := 8, 'a' := 2, 'b' := 4], "ab$", 0, 8) == Ok(AabaaNumbered)
  {
    assert map['$' := 8, 'a' := 2, 'b' := 4]['a'] == 2;
    assert EdgeLength(Aabaa5.nodes[2], 5) == 1;
    assert "ab$"[1..] == "b$";
    AabaaNumber2();
    AabaaChildren0_1();
  }

  lemma AabaaNumber0()
    ensures Number(Aabaa5.nodes, 6, 5, "ab$", 0, 0, 9) == Ok(AabaaNumbered)
  {
    assert Aabaa5.nodes[0].children == map['$' := 8, 'a' := 2, 'b' := 4];
    AabaaChildren0_0();
  }

  lemma AabaaFrom5()
    ensures Phases(Aabaa4, 5) == Ok(Aabaa5)
  {
    AabaaPhase5();
  }

  lemma AabaaFrom4()
    ensures Phases(Aabaa3, 4) == Ok(Aabaa5)
  {
    AabaaPhase4();
    AabaaFrom5();
  }

  lemma AabaaFrom3()
    ensures Phases(Aabaa2, 3) == Ok(Aabaa5)
  {
    AabaaPhase3();
    AabaaFrom4();
  }

  lemma AabaaFrom2()
    ensures Phases(Aabaa1, 2) == Ok(Aabaa5)
  {
    AabaaPhase2();
    AabaaFrom3();
  }

  lemma AabaaFrom1()
    ensures Phases(Aabaa0, 1) == Ok(Aabaa5)
  {
    AabaaPhase1();
    AabaaFrom2();
  }

  lemma AabaaFrom0()
    ensures Phases(AabaaStart, 0) == Ok(Aabaa5)
  {
    AabaaPhase0();
    AabaaFrom1();
  }

  lemma AabaaAlphabet1()
    ensures Alphabet("a") == "a"
  {
    assert "a"[..0] == "";
  }

  lemma AabaaAlphabet2()
    ensures Alphabet("aa") == "a"
  {
    assert "aa"[..1] == "a";
    AabaaAlphabet1();
  }

  lemma AabaaAlphabet3()
    ensures Alphabet("aab") == "ab"
  {
    assert "aab"[..2] == "aa";
    AabaaAlphabet2();
  }

  lemma AabaaAlphabet4()
    ensures Alphabet("aaba") == "ab"
  {
    assert "aaba"[..3] == "aab";
    AabaaAlphabet3();
  }

  lemma AabaaAlphabet5()
    ensures Alphabet("aabaa") == "ab"
  {
    assert "aabaa"[..4] == "aaba";
    AabaaAlphabet4();
  }

  lemma AabaaAlphabet6()
    ensures Alphabet("aabaa$") == "ab$"
  {
    assert "aabaa$"[..5] == "aabaa";
    AabaaAlphabet5();
  }

  lemma AabaaAlphabet()
    ensures Alphabet("aabaa$") == "ab$"
  {
    AabaaAlphabet6();
  }

  /** The tree `Build("aabaa")` answers. */
  const AabaaTree: Builder := Aabaa5.(nodes := AabaaNumbered)

  lemma AabaaBuild()
    ensures Build("aabaa") == Ok(AabaaTree)
  {
    assert WithSentinel("aabaa") == "aabaa$";
    assert Init("aabaa") == AabaaStart;
    AabaaFrom0();
    AabaaAlphabet();
    AabaaNumber0();
  }

  lemma AabaaArenaOk()
    ensures ArenaOk(AabaaNumbered) && AabaaTree.text == "aabaa$" && AabaaTree.nodes == AabaaNumbered && AabaaTree.leafEnd == 5
  {
  }

  lemma AabaaWalk0_2()
    ensures Locate("aabaa$", AabaaNumbered, 5, 5, "baa$") == Some([1])
  {
    assert "baa$"[0] == 'b';
    assert 'b' in AabaaNumbered[5].children;
    assert AabaaNumbered[5].children['b'] == 1;
    assert "baa$"[..4] == "baa$";
    assert "baa$"[4..] == "";
    assert EdgeText("aabaa$", AabaaNumbered[1], 5) == "baa$";
    assert Locate("aabaa$", AabaaNumbered, 5, 1, []) == Some([]);
    assert [1] + [] == [1];
  }

  lemma AabaaWalk0_1()
    ensures Locate("aabaa$", AabaaNumbered, 5, 2, "abaa$") == Some([5, 1])
  {
    assert "abaa$"[0] == 'a';
    assert 'a' in AabaaNumbered[2].children;
    assert AabaaNumbered[2].children['a'] == 5;
    assert "abaa$"[..1] == "a";
    assert "abaa$"[1..] == "baa$";
    assert EdgeText("aabaa$", AabaaNumbered[5], 5) == "a";
    AabaaWalk0_2();
    assert [5] + [1] == [5, 1];
  }

  lemma AabaaWalk0_0()
    ensures Locate("aabaa$", AabaaNumbered, 5, 0, "aabaa$") == Some([2, 5, 1])
  {
    assert "aabaa$"[0] == 'a';
    assert 'a' in AabaaNumbered[0].children;
    assert AabaaNumbered[0].children['a'] == 2;
    assert "aabaa$"[..1] == "a";
    assert "aabaa$"[1..] == "abaa$";
    assert EdgeText("aabaa$", AabaaNumbered[2], 5) == "a";
    AabaaWalk0_1();
    assert [2] + [5, 1] == [2, 5, 1];
  }

  lemma AabaaSuffix0Walk()
    ensures Locate(AabaaTree.text, AabaaTree.nodes, AabaaTree.leafEnd, Root, AabaaTree.text[0..]) == Some([2, 5, 1])
  {
    AabaaArenaOk();
    assert "aabaa$"[0..] == "aabaa$";
    AabaaWalk0_0();
  }

  lemma AabaaSuffix0Leaf()
    ensures IsLeaf(AabaaTree, 1) && AabaaTree.nodes[1].suffixIndex == 0
  {
    assert AabaaTree.nodes == AabaaNumbered;
    assert AabaaNumbered[1].children == map[] && AabaaNumbered[1].suffixIndex == 0;
  }

  lemma AabaaSuffix0()
    ensures SuffixAtLeaf(AabaaTree, 0)
    ensures IsLeaf(AabaaTree, 1) && LeafReached(AabaaTree, 1)
  {
    AabaaArenaOk();
    AabaaSuffix0Walk();
    AabaaSuffix0Leaf();
  }

  lemma AabaaWalk1_1()
    ensures Locate("aabaa$", AabaaNumbered, 5, 2, "baa$") == Some([3])
  {
    assert "baa$"[0] == 'b';
    assert 'b' in AabaaNumbered[2].children;
    assert AabaaNumbered[2].children['b'] == 3;
    assert "baa$"[..4] == "baa$";
    assert "baa$"[4..] == "";
    assert EdgeText("aabaa$", AabaaNumbered[3], 5) == "baa$";
    assert Locate("aabaa$", AabaaNumbered, 5, 3, []) == Some([]);
    assert [3] + [] == [3];
  }

  lemma AabaaWalk1_0()
    ensures Locate("aabaa$", AabaaNumbered, 5, 0, "abaa$") == Some([2, 3])
  {
    assert "abaa$"[0] == 'a';
    assert 'a' in AabaaNumbered[0].children;
    assert AabaaNumbered[0].children['a'] == 2;
    assert "abaa$"[..1] == "a";
    assert "abaa$"[1..] == "baa$";
    assert EdgeText("aabaa$", AabaaNumbered[2], 5) == "a";
    AabaaWalk1_1();
    assert [2] + [3] == [2, 3];
  }

  lemma AabaaSuffix1Walk()
    ensures Locate(AabaaTree.text, AabaaTree.nodes, AabaaTree.leafEnd, Root, AabaaTree.text[1..]) == Some([2, 3])
  {
    AabaaArenaOk();
    assert "aabaa$"[1..] == "abaa$";
    AabaaWalk1_0();
  }

  lemma AabaaSuffix1Leaf()
    ensures IsLeaf(AabaaTree, 3) && AabaaTree.nodes[3].suffixIndex == 1
  {
    assert AabaaTree.nodes == AabaaNumbered;
    assert AabaaNumbered[3].children == map[] && AabaaNumbered[3].suffixIndex == 1;
  }

  lemma AabaaSuffix1()
    ensures SuffixAtLeaf(AabaaTree, 1)
    ensures IsLeaf(AabaaTree, 3) && LeafReached(AabaaTree, 3)
  {
    AabaaArenaOk();
    AabaaSuffix1Walk();
    AabaaSuffix1Leaf();
  }

  lemma AabaaWalk2_0()
    ensures Locate("aabaa$", AabaaNumbered, 5, 0, "baa$") == Some([4])
  {
    assert "baa$"[0] == 'b';
    assert 'b' in AabaaNumbered[0].children;
    assert AabaaNumbered[0].children['b'] == 4;
    assert "baa$"[..4] == "baa$";
    assert "baa$"[4..] == "";
    assert EdgeText("aabaa$", AabaaNumbered[4], 5) == "baa$";
    assert Locate("aabaa$", AabaaNumbered, 5, 4, []) == Some([]);
    assert [4] + [] == [4];
  }

  lemma AabaaSuffix2Walk()
    ensures Locate(AabaaTree.text, AabaaTree.nodes, AabaaTree.leafEnd, Root, AabaaTree.text[2..]) == Some([4])
  {
    AabaaArenaOk();
    assert "aabaa$"[2..] == "baa$";
    AabaaWalk2_0();
  }

  lemma AabaaSuffix2Leaf()
    ensures IsLeaf(AabaaTree, 4) && AabaaTree.nodes[4].suffixIndex == 2
  {
    assert AabaaTree.nodes == AabaaNumbered;
    assert AabaaNumbered[4].children == map[] && AabaaNumbered[4].suffixIndex == 2;
  }

  lemma AabaaSuffix2()
    ensures SuffixAtLeaf(AabaaTree, 2)
    ensures IsLeaf(AabaaTree, 4) && LeafReached(AabaaTree, 4)
  {
    AabaaArenaOk();
    AabaaSuffix2Walk();
    AabaaSuffix2Leaf();
  }

  lemma AabaaWalk3_2()
    ensures Locate("aabaa$", AabaaNumbered, 5, 5, "$") == Some([6])
  {
    assert "$"[0] == '$';
    assert '$' in AabaaNumbered[5].children;
    assert AabaaNumbered[5].children['$'] == 6;
    assert "$"[..1] == "$";
    assert "$"[1..] == "";
    assert EdgeText("aabaa$", AabaaNumbered[6], 5) == "$";
    assert Locate("aabaa$", AabaaNumbered, 5, 6, []) == Some([]);
    assert [6] + [] == [6];
  }

  lemma AabaaWalk3_1()
    ensures Locate("aabaa$", AabaaNumbered, 5, 2, "a$") == Some([5, 6])
  {
    assert "a$"[0] == 'a';
    assert 'a' in AabaaNumbered[2].children;
    assert AabaaNumbered[2].children['a'] == 5;
    assert "a$"[..1] == "a";
    assert "a$"[1..] == "$";
    assert EdgeText("aabaa$", AabaaNumbered[5], 5) == "a";
    AabaaWalk3_2();
    assert [5] + [6] == [5, 6];
  }

  lemma AabaaWalk3_0()
    ensures Locate("aabaa$", AabaaNumbered, 5, 0, "aa$") == Some([2, 5, 6])
  {
    assert "aa$"[0] == 'a';
    assert 'a' in AabaaNumbered[0].children;
    assert AabaaNumbered[0].children['a'] == 2;
    assert "aa$"[..1] == "a";
    assert "aa$"[1..] == "a$";
    assert EdgeText("aabaa$", AabaaNumbered[2], 5) == "a";
    AabaaWalk3_1();
    assert [2] + [5, 6] == [2, 5, 6];
  }

  lemma AabaaSuffix3Walk()
    ensures Locate(AabaaTree.text, AabaaTree.nodes, AabaaTree.leafEnd, Root, AabaaTree.text[3..]) == Some([2, 5, 6])
  {
    AabaaArenaOk();
    assert "aabaa$"[3..] == "aa$";
    AabaaWalk3_0();
  }

  lemma AabaaSuffix3Leaf()
    ensures IsLeaf(AabaaTree, 6) && AabaaTree.nodes[6].suffixIndex == 3
  {
    assert AabaaTree.nodes == AabaaNumbered;
    assert AabaaNumbered[6].children == map[] && AabaaNumbered[6].suffixIndex == 3;
  }

  lemma AabaaSuffix3()
    ensures SuffixAtLeaf(AabaaTree, 3)
    ensures IsLeaf(AabaaTree, 6) && LeafReached(AabaaTree, 6)
  {
    AabaaArenaOk();
    AabaaSuffix3Walk();
    AabaaSuffix3Leaf();
  }

  lemma AabaaWalk4_1()
    ensures Locate("aabaa$", AabaaNumbered, 5, 2, "$") == Some([7])
  {
    assert "$"[0] == '$';
    assert '$' in AabaaNumbered[2].children;
    assert AabaaNumbered[2].children['$'] == 7;
    assert "$"[..1] == "$";
    assert "$"[1..] == "";
    assert EdgeText("aabaa$", AabaaNumbered[7], 5) == "$";
    assert Locate("aabaa$", AabaaNumbered, 5, 7, []) == Some([]);
    assert [7] + [] == [7];
  }

  lemma AabaaWalk4_0()
    ensures Locate("aabaa$", AabaaNumbered, 5, 0, "a$") == Some([2, 7])
  {
    assert "a$"[0] == 'a';
    assert 'a' in AabaaNumbered[0].children;
    assert AabaaNumbered[0].children['a'] == 2;
    assert "a$"[..1] == "a";
    assert "a$"[1..] == "$";
    assert EdgeText("aabaa$", AabaaNumbered[2], 5) == "a";
    AabaaWalk4_1();
    assert [2] + [7] == [2, 7];
  }

  lemma AabaaSuffix4Walk()
    ensures Locate(AabaaTree.text, AabaaTree.nodes, AabaaTree.leafEnd, Root, AabaaTree.text[4..]) == Some([2, 7])
  {
    AabaaArenaOk();
    assert "aabaa$"[4..] == "a$";
    AabaaWalk4_0();
  }

  lemma AabaaSuffix4Leaf()
    ensures IsLeaf(AabaaTree, 7) && AabaaTree.nodes[7].suffixIndex == 4
  {
    assert AabaaTree.nodes == AabaaNumbered;
    assert AabaaNumbered[7].children == map[] && AabaaNumbered[7].suffixIndex == 4;
  }

  lemma AabaaSuffix4()
    ensures SuffixAtLeaf(AabaaTree, 4)
    ensures IsLeaf(AabaaTree, 7) && LeafReached(AabaaTree, 7)
  {
    AabaaArenaOk();
    AabaaSuffix4Walk();
    AabaaSuffix4Leaf();
  }

  lemma AabaaWalk5_0()
    ensures Locate("aabaa$", AabaaNumbered, 5, 0, "$") == Some([8])
  {
    assert "$"[0] == '$';
    assert '$' in AabaaNumbered[0].children;
    assert AabaaNumbered[0].children['$'] == 8;
    assert "$"[..1] == "$";
    assert "$"[1..] == "";
    assert EdgeText("aabaa$", AabaaNumbered[8], 5) == "$";
    assert Locate("aabaa$", AabaaNumbered, 5, 8, []) == Some([]);
    assert [8] + [] == [8];
  }

  lemma AabaaSuffix5Walk()
    ensures Locate(AabaaTree.text, AabaaTree.nodes, AabaaTree.leafEnd, Root, AabaaTree.text[5..]) == Some([8])
  {
    AabaaArenaOk();
    assert "aabaa$"[5..] == "$";
    AabaaWalk5_0();
  }

  lemma AabaaSuffix5Leaf()
    ensures IsLeaf(AabaaTree, 8) && AabaaTree.nodes[8].suffixIndex == 5
  {
    assert AabaaTree.nodes == AabaaNumbered;
    assert AabaaNumbered[8].children == map[] && AabaaNumbered[8].suffixIndex == 5;
  }

  lemma AabaaSuffix5()
    ensures SuffixAtLeaf(AabaaTree, 5)
    ensures IsLeaf(AabaaTree, 8) && LeafReached(AabaaTree, 8)
  {
    AabaaArenaOk();
    AabaaSuffix5Walk();
    AabaaSuffix5Leaf();
  }

  lemma AabaaAllSuffixes()
    ensures forall k | 0 <= k < 6 :: SuffixAtLeaf(AabaaTree, k)
  {
    AabaaArenaOk();
    forall k | 0 <= k < 6
      ensures SuffixAtLeaf(AabaaTree, k)
    {
      if k == 0 {
        AabaaSuffix0();
      } else if k == 1 {
        AabaaSuffix1();
      } else if k == 2 {
        AabaaSuffix2();
      } else if k == 3 {
        AabaaSuffix3();
      } else if k == 4 {
        AabaaSuffix4();
      } else if k == 5 {
        AabaaSuffix5();
      }
    }
  }

  lemma AabaaAllLeaves()
    ensures forall id | 0 < id < 9 && IsLeaf(AabaaTree, id) :: LeafReached(AabaaTree, id)
  {
    AabaaArenaOk();
    forall id | 0 < id < 9
      ensures IsLeaf(AabaaTree, id) ==> LeafReached(AabaaTree, id)
    {
      if id == 1 {
        AabaaSuffix0();
      } else if id == 2 {
        assert 'a' in AabaaNumbered[2].children;
      } else if id == 3 {
        AabaaSuffix1();
      } else if id == 4 {
        AabaaSuffix2();
      } else if id == 5 {
        assert 'b' in AabaaNumbered[5].children;
      } else if id == 6 {
        AabaaSuffix3();
      } else if id == 7 {
        AabaaSuffix4();
      } else if id == 8 {
        AabaaSuffix5();
      }
    }
  }

  /** Every suffix of "aabaa$" ends at its own leaf of the tree Ukkonen's builder
      answers, and every leaf is the end of its suffix. */
  lemma AabaaIsSuffixTree()
    ensures Build("aabaa") == Ok(AabaaTree) && IsSuffixTree(AabaaTree)
  {
    AabaaBuild();
    AabaaArenaOk();
    AabaaAllSuffixes();
    AabaaAllLeaves();
  }

  lemma AabaaPrepared(input: string)
    requires input == "aabaa"
    ensures forall k | 0 <= k < |input| :: input[k] != Sentinel
    ensures WithSentinel(input) == AabaaTree.text
  {
    assert WithSentinel("aabaa") == "aabaa$";
    AabaaArenaOk();
  }

  lemma AabaaAgrees(input: string)
    requires input == "aabaa"
    ensures var t := NaiveSuffixTree.Build(input);
      NaiveSuffixTree.WellFormed(t.text, t.root) && LeafLabels(AabaaTree) == NaiveSuffixTree.Leaves(t.text, t.root)
  {
    AabaaIsSuffixTree();
    AabaaPrepared(input);
    WithSentinelUnique(input);
    AgreesWithNaive(input, AabaaTree);
  }

  /** Ukkonen's builder and the naive builder agree on "aabaa": the same
      leaves, with the same suffix indices and path labels. */
  lemma AabaaMatchesNaive()
    ensures Build("aabaa") == Ok(AabaaTree) && IsSuffixTree(AabaaTree)
    ensures var t := NaiveSuffixTree.Build("aabaa");
      NaiveSuffixTree.WellFormed(t.text, t.root) && LeafLabels(AabaaTree) == NaiveSuffixTree.Leaves(t.text, t.root)
  {
    AabaaIsSuffixTree();
    AabaaAgrees("aabaa");
  }

  const AbaaabStart: Builder :=
    Builder("abaaab$", 7,
      [Node(-1, Closed(-1), map[], 0, -1)],
      0, -1, 0, 0, -1, None)

  const Abaaab0: Builder :=
    Builder("abaaab$", 7,
      [Node(-1, Closed(-1), map['a' := 1], 0, -1),
      Node(0, Open, map[], 0, -1)],
      0, 0, 0, 0, 0, None)

  lemma Abaaab0Step1Arena()
    ensures Attach(AbaaabStart.nodes, 0, 'a', 0) == Abaaab0.nodes
  {
    var x := Attach(AbaaabStart.nodes, 0, 'a', 0);
    var y := Abaaab0.nodes;
    assert x[0] == y[0];
    assert x[1] == y[1];
  }

  lemma Abaaab0Step1Op()
    ensures AddLeaf(AbaaabStart.(leafEnd := 0, remaining := 1, lastNewNode := None).(activeEdge := 0), 0, 'a') == AbaaabStart.(leafEnd := 0, remaining := 1, lastNewNode := None).(activeEdge := 0).(nodes := Abaaab0.nodes, lastNewNode := None)
  {
    Abaaab0Step1Arena();
  }

  lemma Abaaab0Step1Advance()
    ensures Advance(AbaaabStart.(leafEnd := 0, remaining := 1, lastNewNode := None).(activeEdge := 0).(nodes := Abaaab0.nodes, lastNewNode := None), 0) == Abaaab0
  {
  }

  lemma Abaaab0Step1()
    ensures Step(AbaaabStart.(leafEnd := 0, remaining := 1, lastNewNode := None), 0) == Next(Abaaab0)
  {
    assert CharAt(Abaaab0.text, 0) == Ok('a');
    assert 'a' !in AbaaabStart.nodes[0].children;
    Abaaab0Step1Op();
    Abaaab0Step1Advance();
  }

  lemma AbaaabPhase0()
    ensures Extend(AbaaabStart, 0) == Ok(Abaaab0)
  {
    Abaaab0Step1();
  }

  const Abaaab1: Builder :=
    Builder("abaaab$", 7,
      [Node(-1, Closed(-1), map['a' := 1, 'b' := 2], 0, -1),
      Node(0, Open, map[], 0, -1),
      Node(1, Open, map[], 0, -1)],
      0, 1, 0, 0, 1, None)

  lemma Abaaab1Step1Arena()
    ensures Attach(Abaaab0.nodes, 0, 'b', 1) == Abaaab1.nodes
  {
    var x := Attach(Abaaab0.nodes, 0, 'b', 1);
    var y := Abaaab1.nodes;
    assert x[0] == y[0];
    assert x[1] == y[1];
    assert x[2] == y[2];
  }

  lemma Abaaab1Step1Op()
    ensures AddLeaf(Abaaab0.(leafEnd := 1, remaining := 1, lastNewNode := None).(activeEdge := 1), 1, 'b') == Abaaab0.(leafEnd := 1, remaining := 1, lastNewNode := None).(activeEdge := 1).(nodes := Abaaab1.nodes, lastNewNode := None)
  {
    Abaaab1Step1Arena();
  }

  lemma Abaaab1Step1Advance()
    ensures Advance(Abaaab0.(leafEnd := 1, remaining := 1, lastNewNode := None).(activeEdge := 1).(nodes := Abaaab1.nodes, lastNewNode := None), 1) == Abaaab1
  {
  }

  lemma Abaaab1Step1()
    ensures Step(Abaaab0.(leafEnd := 1, remaining := 1, lastNewNode := None), 1) == Next(Abaaab1)
  {
    assert CharAt(Abaaab1.text, 1) == Ok('b');
    assert 'b' !in Abaaab0.nodes[0].children;
    Abaaab1Step1Op();
    Abaaab1Step1Advance();
  }

  lemma AbaaabPhase1()
    ensures Extend(Abaaab0, 1) == Ok(Abaaab1)
  {
    Abaaab1Step1();
  }

  const Abaaab2: Builder :=
    Builder("abaaab$", 7,
      [Node(-1, Closed(-1), map['a' := 1, 'b' := 2], 0, -1),
      Node(0, Open, map[], 0, -1),
      Node(1, Open, map[], 0, -1)],
      0, 2, 1, 1, 2, None)

  lemma Abaaab2Step1Op()
    ensures Rule3(Abaaab1.(leafEnd := 2, remaining := 1, lastNewNode := None).(activeEdge := 2)) == Abaaab2
  {
  }

  lemma Abaaab2Step1Walk()
    ensures WalkDown(Abaaab1.(leafEnd := 2, remaining := 1, lastNewNode := None).(activeEdge := 2), 1) == (false, Abaaab1.(leafEnd := 2, remaining := 1, lastNewNode := None).(activeEdge := 2))
  {
  }

  lemma Abaaab2Step1Edge()
    ensures StepOnEdge(Abaaab1.(leafEnd := 2, remaining := 1, lastNewNode := None).(activeEdge := 2), 2, 'a') == Stop(Abaaab2)
  {
    assert Abaaab1.nodes[0].children['a'] == 1;
    Abaaab2Step1Walk();
    assert CharAt(Abaaab2.text, 0) == Ok('a');
    Abaaab2Step1Op();
    EdgeRule3(Abaaab1.(leafEnd := 2, remaining := 1, lastNewNode := None).(activeEdge := 2), 2, 'a');
  }

  lemma Abaaab2Step1()
    ensures Step(Abaaab1.(leafEnd := 2, remaining := 1, lastNewNode := None), 2) == Stop(Abaaab2)
  {
    assert CharAt(Abaaab2.text, 2) == Ok('a');
    assert 'a' in Abaaab1.nodes[0].children;
    Abaaab2Step1Edge();
  }

  lemma AbaaabPhase2()
    ensures Extend(Abaaab1, 2) == Ok(Abaaab2)
  {
    Abaaab2Step1();
  }

  const Abaaab3_1: Builder :=
    Builder("abaaab$", 7,
      [Node(-1, Closed(-1), map['a' := 3, 'b' := 2], 0, -1),
      Node(1, Open, map[], 0, -1),
      Node(1, Open, map[], 0, -1),
      Node(0, Closed(0), map['a' := 4, 'b' := 1], 0, -1),
      Node(3, Open, map[], 0, -1)],
      0, 3, 0, 1, 3, Some(3))

  lemma Abaaab3Step1Arena()
    ensures SplitNodes(Abaaab2.nodes, 0, 'a', 1, 1, 3, 'a', 'b') == Abaaab3_1.nodes
  {
    var x := SplitNodes(Abaaab2.nodes, 0, 'a', 1, 1, 3, 'a', 'b');
    var y := Abaaab3_1.nodes;
    assert x[0] == y[0];
    assert x[1] == y[1];
    assert x[2] == y[2];
    assert x[3] == y[3];
    assert x[4] == y[4];
  }

  lemma Abaaab3Step1Op()
    ensures Split(Abaaab2.(leafEnd := 3, remaining := 2, lastNewNode := None), 3, 'a', 1, 'b') == Abaaab2.(leafEnd := 3, remaining := 2, lastNewNode := None).(nodes := Abaaab3_1.nodes, lastNewNode := Some(3))
  {
    Abaaab3Step1Arena();
  }

  lemma Abaaab3Step1Advance()
    ensures Advance(Abaaab2.(leafEnd := 3, remaining := 2, lastNewNode := None).(nodes := Abaaab3_1.nodes, lastNewNode := Some(3)), 3) == Abaaab3_1
  {
  }

  lemma Abaaab3Step1Walk()
    ensures WalkDown(Abaaab2.(leafEnd := 3, remaining := 2, lastNewNode := None), 1) == (false, Abaaab2.(leafEnd := 3, remaining := 2, lastNewNode := None))
  {
  }

  lemma Abaaab3Step1Edge()
    ensures StepOnEdge(Abaaab2.(leafEnd := 3, remaining := 2, lastNewNode := None), 3, 'a') == Next(Abaaab3_1)
  {
    assert Abaaab2.nodes[0].children['a'] == 1;
    Abaaab3Step1Walk();
    assert CharAt(Abaaab3_1.text, 1) == Ok('b');
    Abaaab3Step1Op();
    Abaaab3Step1Advance();
    EdgeSplit(Abaaab2.(leafEnd := 3, remaining := 2, lastNewNode := None), 3, 'a');
  }

  lemma Abaaab3Step1()
    ensures Step(Abaaab2.(leafEnd := 3, remaining := 2, lastNewNode := None), 3) == Next(Abaaab3_1)
  {
    assert CharAt(Abaaab3_1.text, 2) == Ok('a');
    assert 'a' in Abaaab2.nodes[0].children;
    Abaaab3Step1Edge();
  }

  const Abaaab3: Builder :=
    Builder("abaaab$", 7,
      [Node(-1, Closed(-1), map['a' := 3, 'b' := 2], 0, -1),
      Node(1, Open, map[], 0, -1),
      Node(1, Open, map[], 0, -1),
      Node(0, Closed(0), map['a' := 4, 'b' := 1], 0, -1),
      Node(3, Open, map[], 0, -1)],
      0, 3, 1, 1, 3, Some(3))

  lemma Abaaab3Step2Op()
    ensures Rule3(Abaaab3_1.(activeEdge := 3)) == Abaaab3
  {
  }

  lemma Abaaab3Step2Walk()
    ensures WalkDown(Abaaab3_1.(activeEdge := 3), 3) == (false, Abaaab3_1.(activeEdge := 3))
  {
  }

  lemma Abaaab3Step2Edge()
    ensures StepOnEdge(Abaaab3_1.(activeEdge := 3), 3, 'a') == Stop(Abaaab3)
  {
    assert Abaaab3_1.nodes[0].children['a'] == 3;
    Abaaab3Step2Walk();
    assert CharAt(Abaaab3.text, 0) == Ok('a');
    Abaaab3Step2Op();
    EdgeRule3(Abaaab3_1.(activeEdge := 3), 3, 'a');
  }

  lemma Abaaab3Step2()
    ensures Step(Abaaab3_1, 3) == Stop(Abaaab3)
  {
    assert CharAt(Abaaab3.text, 3) == Ok('a');
    assert 'a' in Abaaab3_1.nodes[0].children;
    Abaaab3Step2Edge();
  }

  lemma AbaaabPhase3()
    ensures Extend(Abaaab2, 3) == Ok(Abaaab3)
  {
    Abaaab3Step1();
    Abaaab3Step2();
  }

  const Abaaab4_1: Builder :=
    Builder("abaaab$", 7,
      [Node(-1, Closed(-1), map['a' := 3, 'b' := 2], 0, -1),
      Node(1, Open, map[], 0, -1),
      Node(1, Open, map[], 0, -1),
      Node(0, Closed(0), map['a' := 4, 'b' := 1], 0, -1),
      Node(3, Open, map[], 0, -1)],
      3, 4, 0, 2, 4, None)

  lemma Abaaab4Step1Walk()
    ensures WalkDown(Abaaab3.(leafEnd := 4, remaining := 2, lastNewNode := None), 3) == (true, Abaaab4_1)
  {
  }

  lemma Abaaab4Step1Edge()
    ensures StepOnEdge(Abaaab3.(leafEnd := 4, remaining := 2, lastNewNode := None), 4, 'a') == Next(Abaaab4_1)
  {
    assert Abaaab3.nodes[0].children['a'] == 3;
    Abaaab4Step1Walk();
    EdgeWalk(Abaaab3.(leafEnd := 4, remaining := 2, lastNewNode := None), 4, 'a');
  }

  lemma Abaaab4Step1()
    ensures Step(Abaaab3.(leafEnd := 4, remaining := 2, lastNewNode := None), 4) == Next(Abaaab4_1)
  {
    assert CharAt(Abaaab4_1.text, 3) == Ok('a');
    assert 'a' in Abaaab3.nodes[0].children;
    Abaaab4Step1Edge();
  }

  const Abaaab4: Builder :=
    Builder("abaaab$", 7,
      [Node(-1, Closed(-1), map['a' := 3, 'b' := 2], 0, -1),
      Node(1, Open, map[], 0, -1),
      Node(1, Open, map[], 0, -1),
      Node(0, Closed(0), map['a' := 4, 'b' := 1], 0, -1),
      Node(3, Open, map[], 0, -1)],
      3, 4, 1, 2, 4, None)

  lemma Abaaab4Step2Op()
    ensures Rule3(Abaaab4_1.(activeEdge := 4)) == Abaaab4
  {
  }

  lemma Abaaab4Step2Walk()
    ensures WalkDown(Abaaab4_1.(activeEdge := 4), 4) == (false, Abaaab4_1.(activeEdge := 4))
  {
  }

  lemma Abaaab4Step2Edge()
    ensures StepOnEdge(Abaaab4_1.(activeEdge := 4), 4, 'a') == Stop(Abaaab4)
  {
    assert Abaaab4_1.nodes[3].children['a'] == 4;
    Abaaab4Step2Walk();
    assert CharAt(Abaaab4.text, 3) == Ok('a');
    Abaaab4Step2Op();
    EdgeRule3(Abaaab4_1.(activeEdge := 4), 4, 'a');
  }

  lemma Abaaab4Step2()
    ensures Step(Abaaab4_1, 4) == Stop(Abaaab4)
  {
    assert CharAt(Abaaab4.text, 4) == Ok('a');
    assert 'a' in Abaaab4_1.nodes[3].children;
    Abaaab4Step2Edge();
  }

  lemma AbaaabPhase4()
    ensures Extend(Abaaab3, 4) == Ok(Abaaab4)
  {
    Abaaab4Step1();
    Abaaab4Step2();
  }

  const Abaaab5_1: Builder :=
    Builder("abaaab$", 7,
      [Node(-1, Closed(-1), map['a' := 3, 'b' := 2], 0, -1),
      Node(1, Open, map[], 0, -1),
      Node(1, Open, map[], 0, -1),
      Node(0, Closed(0), map['a' := 5, 'b' := 1], 0, -1),
      Node(4, Open, map[], 0, -1),
      Node(3, Closed(3), map['a' := 4, 'b' := 6], 0, -1),
      Node(5, Open, map[], 0, -1)],
      0, 4, 1, 2, 5, Some(5))

  lemma Abaaab5Step1Arena()
    ensures SplitNodes(Abaaab4.nodes, 3, 'a', 4, 1, 5, 'b', 'a') == Abaaab5_1.nodes
  {
    var x := SplitNodes(Abaaab4.nodes, 3, 'a', 4, 1, 5, 'b', 'a');
    var y := Abaaab5_1.nodes;
    assert x[0] == y[0];
    assert x[1] == y[1];
    assert x[2] == y[2];
    assert x[3] == y[3];
    assert x[4] == y[4];
    assert x[5] == y[5];
    assert x[6] == y[6];
  }

  lemma Abaaab5Step1Op()
    ensures Split(Abaaab4.(leafEnd := 5, remaining := 3, lastNewNode := None), 5, 'a', 4, 'a') == Abaaab4.(leafEnd := 5, remaining := 3, lastNewNode := None).(nodes := Abaaab5_1.nodes, lastNewNode := Some(5))
  {
    Abaaab5Step1Arena();
  }

  lemma Abaaab5Step1Advance()
    ensures Advance(Abaaab4.(leafEnd := 5, remaining := 3, lastNewNode := None).(nodes := Abaaab5_1.nodes, lastNewNode := Some(5)), 5) == Abaaab5_1
  {
  }

  lemma Abaaab5Step1Walk()
    ensures WalkDown(Abaaab4.(leafEnd := 5, remaining := 3, lastNewNode := None), 4) == (false, Abaaab4.(leafEnd := 5, remaining := 3, lastNewNode := None))
  {
  }

  lemma Abaaab5Step1Edge()
    ensures StepOnEdge(Abaaab4.(leafEnd := 5, remaining := 3, lastNewNode := None), 5, 'a') == Next(Abaaab5_1)
  {
    assert Abaaab4.nodes[3].children['a'] == 4;
    Abaaab5Step1Walk();
    assert CharAt(Abaaab5_1.text, 4) == Ok('a');
    Abaaab5Step1Op();
    Abaaab5Step1Advance();
    EdgeSplit(Abaaab4.(leafEnd := 5, remaining := 3, lastNewNode := None), 5, 'a');
  }

  lemma Abaaab5Step1()
    ensures Step(Abaaab4.(leafEnd := 5, remaining := 3, lastNewNode := None), 5) == Next(Abaaab5_1)
  {
    assert CharAt(Abaaab5_1.text, 4) == Ok('a');
    assert 'a' in Abaaab4.nodes[3].children;
    Abaaab5Step1Edge();
  }

  const Abaaab5_2: Builder :=
    Builder("abaaab$", 7,
      [Node(-1, Closed(-1), map['a' := 3, 'b' := 2], 0, -1),
      Node(1, Open, map[], 0, -1),
      Node(1, Open, map[], 0, -1),
      Node(0, Closed(0), map['a' := 5, 'b' := 1], 0, -1),
      Node(4, Open, map[], 0, -1),
      Node(3, Closed(3), map['a' := 4, 'b' := 6], 0, -1),
      Node(5, Open, map[], 0, -1)],
      3, 5, 0, 2, 5, Some(5))

  lemma Abaaab5Step2Walk()
    ensures WalkDown(Abaaab5_1, 3) == (true, Abaaab5_2)
  {
  }

  lemma Abaaab5Step2Edge()
    ensures StepOnEdge(Abaaab5_1, 5, 'a') == Next(Abaaab5_2)
  {
    assert Abaaab5_1.nodes[0].children['a'] == 3;
    Abaaab5Step2Walk();
    EdgeWalk(Abaaab5_1, 5, 'a');
  }

  lemma Abaaab5Step2()
    ensures Step(Abaaab5_1, 5) == Next(Abaaab5_2)
  {
    assert CharAt(Abaaab5_2.text, 4) == Ok('a');
    assert 'a' in Abaaab5_1.nodes[0].children;
    Abaaab5Step2Edge();
  }

  const Abaaab5: Builder :=
    Builder("abaaab$", 7,
      [Node(-1, Closed(-1), map['a' := 3, 'b' := 2], 0, -1),
      Node(1, Open, map[], 0, -1),
      Node(1, Open, map[], 0, -1),
      Node(0, Closed(0), map['a' := 5, 'b' := 1], 0, -1),
      Node(4, Open, map[], 0, -1),
      Node(3, Closed(3), map['a' := 4, 'b' := 6], 3, -1),
      Node(5, Open, map[], 0, -1)],
      3, 5, 1, 2, 5, None)

  lemma Abaaab5Step3Link()
    ensures WithLink(Abaaab5_2.nodes, 5, 3) == Abaaab5.nodes
  {
    var z := WithLink(Abaaab5_2.nodes, 5, 3);
    assert z[0] == Abaaab5.nodes[0];
    assert z[1] == Abaaab5.nodes[1];
    assert z[2] == Abaaab5.nodes[2];
    assert z[3] == Abaaab5.nodes[3];
    assert z[4] == Abaaab5.nodes[4];
    assert z[5] == Abaaab5.nodes[5];
    assert z[6] == Abaaab5.nodes[6];
  }

  lemma Abaaab5Step3Op()
    ensures Rule3(Abaaab5_2.(activeEdge := 5)) == Abaaab5
  {
    Abaaab5Step3Link();
  }

  lemma Abaaab5Step3Walk()
    ensures WalkDown(Abaaab5_2.(activeEdge := 5), 1) == (false, Abaaab5_2.(activeEdge := 5))
  {
  }

  lemma Abaaab5Step3Edge()
    ensures StepOnEdge(Abaaab5_2.(activeEdge := 5), 5, 'b') == Stop(Abaaab5)
  {
    assert Abaaab5_2.nodes[3].children['b'] == 1;
    Abaaab5Step3Walk();
    assert CharAt(Abaaab5.text, 1) == Ok('b');
    Abaaab5Step3Op();
    EdgeRule3(Abaaab5_2.(activeEdge := 5), 5, 'b');
  }

  lemma Abaaab5Step3()
    ensures Step(Abaaab5_2, 5) == Stop(Abaaab5)
  {
    assert CharAt(Abaaab5.text, 5) == Ok('b');
    assert 'b' in Abaaab5_2.nodes[3].children;
    Abaaab5Step3Edge();
  }

  lemma AbaaabPhase5()
    ensures Extend(Abaaab4, 5) == Ok(Abaaab5)
  {
    Abaaab5Step1();
    Abaaab5Step2();
    Abaaab5Step3();
  }

  const Abaaab6_1: Builder :=
    Builder("abaaab$", 7,
      [Node(-1, Closed(-1), map['a' := 3, 'b' := 2], 0, -1),
      Node(2, Open, map[], 0, -1),
      Node(1, Open, map[], 0, -1),
      Node(0, Closed(0), map['a' := 5, 'b' := 7], 0, -1),
      Node(4, Open, map[], 0, -1),
      Node(3, Closed(3), map['a' := 4, 'b' := 6], 3, -1),
      Node(5, Open, map[], 0, -1),
      Node(1, Closed(1), map['$' := 8, 'a' := 1], 0, -1),
      Node(6, Open, map[], 0, -1)],
      0, 5, 1, 2, 6, Some(7))

  lemma Abaaab6Step1Arena()
    ensures SplitNodes(Abaaab5.nodes, 3, 'b', 1, 1, 6, '$', 'a') == Abaaab6_1.nodes
  {
    var x := SplitNodes(Abaaab5.nodes, 3, 'b', 1, 1, 6, '$', 'a');
    var y := Abaaab6_1.nodes;
    assert x[0] == y[0];
    assert x[1] == y[1];
    assert x[2] == y[2];
    assert x[3] == y[3];
    assert x[4] == y[4];
    assert x[5] == y[5];
    assert x[6] == y[6];
    assert x[7] == y[7];
    assert x[8] == y[8];
  }

  lemma Abaaab6Step1Op()
    ensures Split(Abaaab5.(leafEnd := 6, remaining := 3, lastNewNode := None), 6, 'b', 1, 'a') == Abaaab5.(leafEnd := 6, remaining := 3, lastNewNode := None).(nodes := Abaaab6_1.nodes, lastNewNode := Some(7))
  {
    Abaaab6Step1Arena();
  }

  lemma Abaaab6Step1Advance()
    ensures Advance(Abaaab5.(leafEnd := 6, remaining := 3, lastNewNode := None).(nodes := Abaaab6_1.nodes, lastNewNode := Some(7)), 6) == Abaaab6_1
  {
  }

  lemma Abaaab6Step1Walk()
    ensures WalkDown(Abaaab5.(leafEnd := 6, remaining := 3, lastNewNode := None), 1) == (false, Abaaab5.(leafEnd := 6, remaining := 3, lastNewNode := None))
  {
  }

  lemma Abaaab6Step1Edge()
    ensures StepOnEdge(Abaaab5.(leafEnd := 6, remaining := 3, lastNewNode := None), 6, 'b') == Next(Abaaab6_1)
  {
    assert Abaaab5.nodes[3].children['b'] == 1;
    Abaaab6Step1Walk();
    assert CharAt(Abaaab6_1.text, 2) == Ok('a');
    Abaaab6Step1Op();
    Abaaab6Step1Advance();
    EdgeSplit(Abaaab5.(leafEnd := 6, remaining := 3, lastNewNode := None), 6, 'b');
  }

  lemma Abaaab6Step1()
    ensures Step(Abaaab5.(leafEnd := 6, remaining := 3, lastNewNode := None), 6) == Next(Abaaab6_1)
  {
    assert CharAt(Abaaab6_1.text, 5) == Ok('b');
    assert 'b' in Abaaab5.nodes[3].children;
    Abaaab6Step1Edge();
  }

  const Abaaab6_2: Builder :=
    Builder("abaaab$", 7,
      [Node(-1, Closed(-1), map['a' := 3, 'b' := 9], 0, -1),
      Node(2, Open, map[], 0, -1),
      Node(2, Open, map[], 0, -1),
      Node(0, Closed(0), map['a' := 5, 'b' := 7], 0, -1),
      Node(4, Open, map[], 0, -1),
      Node(3, Closed(3), map['a' := 4, 'b' := 6], 3, -1),
      Node(5, Open, map[], 0, -1),
      Node(1, Closed(1), map['$' := 8, 'a' := 1], 9, -1),
      Node(6, Open, map[], 0, -1),
      Node(1, Closed(1), map['$' := 10, 'a' := 2], 0, -1),
      Node(6, Open, map[], 0, -1)],
      0, 6, 0, 1, 6, Some(9))

  lemma Abaaab6Step2Arena()
    ensures SplitNodes(Abaaab6_1.nodes, 0, 'b', 2, 1, 6, '$', 'a') == Abaaab6_2.nodes[7 := Abaaab6_2.nodes[7].(link := 0)]
  {
    var x := SplitNodes(Abaaab6_1.nodes, 0, 'b', 2, 1, 6, '$', 'a');
    var y := Abaaab6_2.nodes[7 := Abaaab6_2.nodes[7].(link := 0)];
    assert x[0] == y[0];
    assert x[1] == y[1];
    assert x[2] == y[2];
    assert x[3] == y[3];
    assert x[4] == y[4];
    assert x[5] == y[5];
    assert x[6] == y[6];
    assert x[7] == y[7];
    assert x[8] == y[8];
    assert x[9] == y[9];
    assert x[10] == y[10];
  }

  lemma Abaaab6Step2Link()
    ensures WithLink(Abaaab6_2.nodes[7 := Abaaab6_2.nodes[7].(link := 0)], 7, 9) == Abaaab6_2.nodes
  {
    var z := WithLink(Abaaab6_2.nodes[7 := Abaaab6_2.nodes[7].(link := 0)], 7, 9);
    assert z[0] == Abaaab6_2.nodes[0];
    assert z[1] == Abaaab6_2.nodes[1];
    assert z[2] == Abaaab6_2.nodes[2];
    assert z[3] == Abaaab6_2.nodes[3];
    assert z[4] == Abaaab6_2.nodes[4];
    assert z[5] == Abaaab6_2.nodes[5];
    assert z[6] == Abaaab6_2.nodes[6];
    assert z[7] == Abaaab6_2.nodes[7];
    assert z[8] == Abaaab6_2.nodes[8];
    assert z[9] == Abaaab6_2.nodes[9];
    assert z[10] == Abaaab6_2.nodes[10];
  }

  lemma Abaaab6Step2Op()
    ensures Split(Abaaab6_1, 6, 'b', 2, 'a') == Abaaab6_1.(nodes := Abaaab6_2.nodes, lastNewNode := Some(9))
  {
    Abaaab6Step2Arena();
    Abaaab6Step2Link();
  }

  lemma Abaaab6Step2Advance()
    ensures Advance(Abaaab6_1.(nodes := Abaaab6_2.nodes, lastNewNode := Some(9)), 6) == Abaaab6_2
  {
  }

  lemma Abaaab6Step2Walk()
    ensures WalkDown(Abaaab6_1, 2) == (false, Abaaab6_1)
  {
  }

  lemma Abaaab6Step2Edge()
    ensures StepOnEdge(Abaaab6_1, 6, 'b') == Next(Abaaab6_2)
  {
    assert Abaaab6_1.nodes[0].children['b'] == 2;
    Abaaab6Step2Walk();
    assert CharAt(Abaaab6_2.text, 2) == Ok('a');
    Abaaab6Step2Op();
    Abaaab6Step2Advance();
    EdgeSplit(Abaaab6_1, 6, 'b');
  }

  lemma Abaaab6Step2()
    ensures Step(Abaaab6_1, 6) == Next(Abaaab6_2)
  {
    assert CharAt(Abaaab6_2.text, 5) == Ok('b');
    assert 'b' in Abaaab6_1.nodes[0].children;
    Abaaab6Step2Edge();
  }

  const Abaaab6: Builder :=
    Builder("abaaab$", 7,
      [Node(-1, Closed(-1), map['$' := 11, 'a' := 3, 'b' := 9], 0, -1),
      Node(2, Open, map[], 0, -1),
      Node(2, Open, map[], 0, -1),
      Node(0, Closed(0), map['a' := 5, 'b' := 7], 0, -1),
      Node(4, Open, map[], 0, -1),
      Node(3, Closed(3), map['a' := 4, 'b' := 6], 3, -1),
      Node(5, Open, map[], 0, -1),
      Node(1, Closed(1), map['$' := 8, 'a' := 1], 9, -1),
      Node(6, Open, map[], 0, -1),
      Node(1, Closed(1), map['$' := 10, 'a' := 2], 0, -1),
      Node(6, Open, map[], 0, -1),
      Node(6, Open, map[], 0, -1)],
      0, 6, 0, 0, 6, None)

  lemma Abaaab6Step3Arena()
    ensures Attach(Abaaab6_2.nodes, 0, '$', 6) == Abaaab6.nodes[9 := Abaaab6.nodes[9].(link := 0)]
  {
    var x := Attach(Abaaab6_2.nodes, 0, '$', 6);
    var y := Abaaab6.nodes[9 := Abaaab6.nodes[9].(link := 0)];
    assert x[0] == y[0];
    assert x[1] == y[1];
    assert x[2] == y[2];
    assert x[3] == y[3];
    assert x[4] == y[4];
    assert x[5] == y[5];
    assert x[6] == y[6];
    assert x[7] == y[7];
    assert x[8] == y[8];
    assert x[9] == y[9];
    assert x[10] == y[10];
    assert x[11] == y[11];
  }

  lemma Abaaab6Step3Link()
    ensures WithLink(Abaaab6.nodes[9 := Abaaab6.nodes[9].(link := 0)], 9, 0) == Abaaab6.nodes
  {
    var z := WithLink(Abaaab6.nodes[9 := Abaaab6.nodes[9].(link := 0)], 9, 0);
    assert z[0] == Abaaab6.nodes[0];
    assert z[1] == Abaaab6.nodes[1];
    assert z[2] == Abaaab6.nodes[2];
    assert z[3] == Abaaab6.nodes[3];
    assert z[4] == Abaaab6.nodes[4];
    assert z[5] == Abaaab6.nodes[5];
    assert z[6] == Abaaab6.nodes[6];
    assert z[7] == Abaaab6.nodes[7];
    assert z[8] == Abaaab6.nodes[8];
    assert z[9] == Abaaab6.nodes[9];
    assert z[10] == Abaaab6.nodes[10];
    assert z[11] == Abaaab6.nodes[11];
  }

  lemma Abaaab6Step3Op()
    ensures AddLeaf(Abaaab6_2.(activeEdge := 6), 6, '$') == Abaaab6_2.(activeEdge := 6).(nodes := Abaaab6.nodes, lastNewNode := None)
  {
    Abaaab6Step3Arena();
    Abaaab6Step3Link();
  }

  lemma Abaaab6Step3Advance()
    ensures Advance(Abaaab6_2.(activeEdge := 6).(nodes := Abaaab6.nodes, lastNewNode := None), 6) == Abaaab6
  {
  }

  lemma Abaaab6Step3()
    ensures Step(Abaaab6_2, 6) == Next(Abaaab6)
  {
    assert CharAt(Abaaab6.text, 6) == Ok('$');
    assert '$' !in Abaaab6_2.nodes[0].children;
    Abaaab6Step3Op();
    Abaaab6Step3Advance();
  }

  lemma AbaaabPhase6()
    ensures Extend(Abaaab5, 6) == Ok(Abaaab6)
  {
    Abaaab6Step1();
    Abaaab6Step2();
    Abaaab6Step3();
  }

  const AbaaabIndexed1: seq<Node> :=
    [Node(-1, Closed(-1), map['$' := 11, 'a' := 3, 'b' := 9], 0, -1),
      Node(2, Open, map[], 0, -1),
      Node(2, Open, map[], 0, -1),
      Node(0, Closed(0), map['a' := 5, 'b' := 7], 0, -1),
      Node(4, Open, map[], 0, 2),
      Node(3, Closed(3), map['a' := 4, 'b' := 6], 3, -1),
      Node(5, Open, map[], 0, -1),
      Node(1, Closed(1), map['$' := 8, 'a' := 1], 9, -1),
      Node(6, Open, map[], 0, -1),
      Node(1, Closed(1), map['$' := 10, 'a' := 2], 0, -1),
      Node(6, Open, map[], 0, -1),
      Node(6, Open, map[], 0, -1)]

  lemma AbaaabLeaf4()
    ensures Number(Abaaab6.nodes, 7, 6, "ab$", 4, 5, 9) == Ok(AbaaabIndexed1)
  {
    var x := Abaaab6.nodes[4 := Abaaab6.nodes[4].(suffixIndex := 2)];
    assert Abaaab6.nodes[4].children == map[];
    assert Number(Abaaab6.nodes, 7, 6, "ab$", 4, 5, 9) == Ok(x);
    assert x == AbaaabIndexed1;
  }

  const AbaaabIndexed2: seq<Node> :=
    [Node(-1, Closed(-1), map['$' := 11, 'a' := 3, 'b' := 9], 0, -1),
      Node(2, Open, map[], 0, -1),
      Node(2, Open, map[], 0, -1),
      Node(0, Closed(0), map['a' := 5, 'b' := 7], 0, -1),
      Node(4, Open, map[], 0, 2),
      Node(3, Closed(3), map['a' := 4, 'b' := 6], 3, -1),
      Node(5, Open, map[], 0, 3),
      Node(1, Closed(1), map['$' := 8, 'a' := 1], 9, -1),
      Node(6, Open, map[], 0, -1),
      Node(1, Closed(1), map['$' := 10, 'a' := 2], 0, -1),
      Node(6, Open, map[], 0, -1),
      Node(6, Open, map[], 0, -1)]

  lemma AbaaabLeaf6()
    ensures Number(AbaaabIndexed1, 7, 6, "ab$", 6, 4, 9) == Ok(AbaaabIndexed2)
  {
    var x := AbaaabIndexed1[6 := AbaaabIndexed1[6].(suffixIndex := 3)];
    assert AbaaabIndexed1[6].children == map[];
    assert Number(AbaaabIndexed1, 7, 6, "ab$", 6, 4, 9) == Ok(x);
    assert x == AbaaabIndexed2;
  }

  lemma AbaaabChildren5_1Skip()
    ensures NumberChildren(AbaaabIndexed2, 7, 6, "ab$", map['a' := 4, 'b' := 6], "$", 2, 9) == Ok(AbaaabIndexed2)
  {
    assert '$' !in map['a' := 4, 'b' := 6];
    assert "$"[1..] == "";
  }

  lemma AbaaabChildren5_1()
    ensures NumberChildren(AbaaabIndexed1, 7, 6, "ab$", map['a' := 4, 'b' := 6], "b$", 2, 9) == Ok(AbaaabIndexed2)
  {
    assert map['a' := 4, 'b' := 6]['b'] == 6;
    assert EdgeLength(AbaaabIndexed1[6], 6) == 2;
    assert "b$"[1..] == "$";
    AbaaabLeaf6();
    AbaaabChildren5_1Skip();
  }

  lemma AbaaabChildren5_0()
    ensures NumberChildren(Abaaab6.nodes, 7, 6, "ab$", map['a' := 4, 'b' := 6], "ab$", 2, 9) == Ok(AbaaabIndexed2)
  {
    assert map['a' := 4, 'b' := 6]['a'] == 4;
    assert EdgeLength(Abaaab6.nodes[4], 6) == 3;
    assert "ab$"[1..] == "b$";
    AbaaabLeaf4();
    AbaaabChildren5_1();
  }

  lemma AbaaabNumber5()
    ensures Number(Abaaab6.nodes, 7, 6, "ab$", 5, 2, 10) == Ok(AbaaabIndexed2)
  {
    assert Abaaab6.nodes[5].children == map['a' := 4, 'b' := 6];
    AbaaabChildren5_0();
  }

  const AbaaabIndexed3: seq<Node> :=
    [Node(-1, Closed(-1), map['$' := 11, 'a' := 3, 'b' := 9], 0, -1),
      Node(2, Open, map[], 0, 0),
      Node(2, Open, map[], 0, -1),
      Node(0, Closed(0), map['a' := 5, 'b' := 7], 0, -1),
      Node(4, Open, map[], 0, 2),
      Node(3, Closed(3), map['a' := 4, 'b' := 6], 3, -1),
      Node(5, Open, map[], 0, 3),
      Node(1, Closed(1), map['$' := 8, 'a' := 1], 9, -1),
      Node(6, Open, map[], 0, -1),
      Node(1, Closed(1), map['$' := 10, 'a' := 2], 0, -1),
      Node(6, Open, map[], 0, -1),
      Node(6, Open, map[], 0, -1)]

  lemma AbaaabLeaf1()
    ensures Number(AbaaabIndexed2, 7, 6, "ab$", 1, 7, 9) == Ok(AbaaabIndexed3)
  {
    var x := AbaaabIndexed2[1 := AbaaabIndexed2[1].(suffixIndex := 0)];
    assert AbaaabIndexed2[1].children == map[];
    assert Number(AbaaabIndexed2, 7, 6, "ab$", 1, 7, 9) == Ok(x);
    assert x == AbaaabIndexed3;
  }

  const AbaaabIndexed4: seq<Node> :=
    [Node(-1, Closed(-1), map['$' := 11, 'a' := 3, 'b' := 9], 0, -1),
      Node(2, Open, map[], 0, 0),
      Node(2, Open, map[], 0, -1),
      Node(0, Closed(0), map['a' := 5, 'b' := 7], 0, -1),
      Node(4, Open, map[], 0, 2),
      Node(3, Closed(3), map['a' := 4, 'b' := 6], 3, -1),
      Node(5, Open, map[], 0, 3),
      Node(1, Closed(1), map['$' := 8, 'a' := 1], 9, -1),
      Node(6, Open, map[], 0, 4),
      Node(1, Closed(1), map['$' := 10, 'a' := 2], 0, -1),
      Node(6, Open, map[], 0, -1),
      Node(6, Open, map[], 0, -1)]

  lemma AbaaabLeaf8()
    ensures Number(AbaaabIndexed3, 7, 6, "ab$", 8, 3, 9) == Ok(AbaaabIndexed4)
  {
    var x := AbaaabIndexed3[8 := AbaaabIndexed3[8].(suffixIndex := 4)];
    assert AbaaabIndexed3[8].children == map[];
    assert Number(AbaaabIndexed3, 7, 6, "ab$", 8, 3, 9) == Ok(x);
    assert x == AbaaabIndexed4;
  }

  lemma AbaaabChildren7_1()
    ensures NumberChildren(AbaaabIndexed3, 7, 6, "ab$", map['$' := 8, 'a' := 1], "$", 2, 9) == Ok(AbaaabIndexed4)
  {
    assert map['$' := 8, 'a' := 1]['$'] == 8;
    assert EdgeLength(AbaaabIndexed3[8], 6) == 1;
    assert "$"[1..] == "";
    AbaaabLeaf8();
  }

  lemma AbaaabChildren7_0Skip()
    ensures NumberChildren(AbaaabIndexed3, 7, 6, "ab$", map['$' := 8, 'a' := 1], "b$", 2, 9) == Ok(AbaaabIndexed4)
  {
    assert 'b' !in map['$' := 8, 'a' := 1];
    assert "b$"[1..] == "$";
    AbaaabChildren7_1();
  }

  lemma AbaaabChildren7_0()
    ensures NumberChildren(AbaaabIndexed2, 7, 6, "ab$", map['$' := 8, 'a' := 1], "ab$", 2, 9) == Ok(AbaaabIndexed4)
  {
    assert map['$' := 8, 'a' := 1]['a'] == 1;
    assert EdgeLength(AbaaabIndexed2[1], 6) == 5;
    assert "ab$"[1..] == "b$";
    AbaaabLeaf1();
    AbaaabChildren7_0Skip();
  }

  lemma AbaaabNumber7()
    ensures Number(AbaaabIndexed2, 7, 6, "ab$", 7, 2, 10) == Ok(AbaaabIndexed4)
  {
    assert AbaaabIndexed2[7].children == map['$' := 8, 'a' := 1];
    AbaaabChildren7_0();
  }

  lemma AbaaabChildren3_1Skip()
    ensures NumberChildren(AbaaabIndexed4, 7, 6, "ab$", map['a' := 5, 'b' := 7], "$", 1, 10) == Ok(AbaaabIndexed4)
  {
    assert '$' !in map['a' := 5, 'b' := 7];
    assert "$"[1..] == "";
  }

  lemma AbaaabChildren3_1()
    ensures NumberChildren(AbaaabIndexed2, 7, 6, "ab$", map['a' := 5, 'b' := 7], "b$", 1, 10) == Ok(AbaaabIndexed4)
  {
    assert map['a' := 5, 'b' := 7]['b'] == 7;
    assert EdgeLength(AbaaabIndexed2[7], 6) == 1;
    assert "b$"[1..] == "$";
    AbaaabNumber7();
    AbaaabChildren3_1Skip();
  }

  lemma AbaaabChildren3_0()
    ensures NumberChildren(Abaaab6.nodes, 7, 6, "ab$", map['a' := 5, 'b' := 7], "ab$", 1, 10) == Ok(AbaaabIndexed4)
  {
    assert map['a' := 5, 'b' := 7]['a'] == 5;
    assert EdgeLength(Abaaab6.nodes[5], 6) == 1;
    assert "ab$"[1..] == "b$";
    AbaaabNumber5();
    AbaaabChildren3_1();
  }

  lemma AbaaabNumber3()
    ensures Number(Abaaab6.nodes, 7, 6, "ab$", 3, 1, 11) == Ok(AbaaabIndexed4)
  {
    assert Abaaab6.nodes[3].children == map['a' := 5, 'b' := 7];
    AbaaabChildren3_0();
  }

  const AbaaabIndexed5: seq<Node> :=
    [Node(-1, Closed(-1), map['$' := 11, 'a' := 3, 'b' := 9], 0, -1),
      Node(2, Open, map[], 0, 0),
      Node(2, Open, map[], 0, 1),
      Node(0, Closed(0), map['a' := 5, 'b' := 7], 0, -1),
      Node(4, Open, map[], 0, 2),
      Node(3, Closed(3), map['a' := 4, 'b' := 6], 3, -1),
      Node(5, Open, map[], 0, 3),
      Node(1, Closed(1), map['$' := 8, 'a' := 1], 9, -1),
      Node(6, Open, map[], 0, 4),
      Node(1, Closed(1), map['$' := 10, 'a' := 2], 0, -1),
      Node(6, Open, map[], 0, -1),
      Node(6, Open, map[], 0, -1)]

  lemma AbaaabLeaf2()
    ensures Number(AbaaabIndexed4, 7, 6, "ab$", 2, 6, 10) == Ok(AbaaabIndexed5)
  {
    var x := AbaaabIndexed4[2 := AbaaabIndexed4[2].(suffixIndex := 1)];
    assert AbaaabIndexed4[2].children == map[];
    assert Number(AbaaabIndexed4, 7, 6, "ab$", 2, 6, 10) == Ok(x);
    assert x == AbaaabIndexed5;
  }

  const AbaaabIndexed6: seq<Node> :=
    [Node(-1, Closed(-1), map['$' := 11, 'a' := 3, 'b' := 9], 0, -1),
      Node(2, Open, map[], 0, 0),
      Node(2, Open, map[], 0, 1),
      Node(0, Closed(0), map['a' := 5, 'b' := 7], 0, -1),
      Node(4, Open, map[], 0, 2),
      Node(3, Closed(3), map['a' := 4, 'b' := 6], 3, -1),
      Node(5, Open, map[], 0, 3),
      Node(1, Closed(1), map['$' := 8, 'a' := 1], 9, -1),
      Node(6, Open, map[], 0, 4),
      Node(1, Closed(1), map['$' := 10, 'a' := 2], 0, -1),
      Node(6, Open, map[], 0, 5),
      Node(6, Open, map[], 0, -1)]

  lemma AbaaabLeaf10()
    ensures Number(AbaaabIndexed5, 7, 6, "ab$", 10, 2, 10) == Ok(AbaaabIndexed6)
  {
    var x := AbaaabIndexed5[10 := AbaaabIndexed5[10].(suffixIndex := 5)];
    assert AbaaabIndexed5[10].children == map[];
    assert Number(AbaaabIndexed5, 7, 6, "ab$", 10, 2, 10) == Ok(x);
    assert x == AbaaabIndexed6;
  }

  lemma AbaaabChildren9_1()
    ensures NumberChildren(AbaaabIndexed5, 7, 6, "ab$", map['$' := 10, 'a' := 2], "$", 1, 10) == Ok(AbaaabIndexed6)
  {
    assert map['$' := 10, 'a' := 2]['$'] == 10;
    assert EdgeLength(AbaaabIndexed5[10], 6) == 1;
    assert "$"[1..] == "";
    AbaaabLeaf10();
  }

  lemma AbaaabChildren9_0Skip()
    ensures NumberChildren(AbaaabIndexed5, 7, 6, "ab$", map['$' := 10, 'a' := 2], "b$", 1, 10) == Ok(AbaaabIndexed6)
  {
    assert 'b' !in map['$' := 10, 'a' := 2];
    assert "b$"[1..] == "$";
    AbaaabChildren9_1();
  }

  lemma AbaaabChildren9_0()
    ensures NumberChildren(AbaaabIndexed4, 7, 6, "ab$", map['$' := 10, 'a' := 2], "ab$", 1, 10) == Ok(AbaaabIndexed6)
  {
    assert map['$' := 10, 'a' := 2]['a'] == 2;
    assert EdgeLength(AbaaabIndexed4[2], 6) == 5;
    assert "ab$"[1..] == "b$";
    AbaaabLeaf2();
    AbaaabChildren9_0Skip();
  }

  lemma AbaaabNumber9()
    ensures Number(AbaaabIndexed4, 7, 6, "ab$", 9, 1, 11) == Ok(AbaaabIndexed6)
  {
    assert AbaaabIndexed4[9].children == map['$' := 10, 'a' := 2];
    AbaaabChildren9_0();
  }

  const AbaaabNumbered: seq<Node> :=
    [Node(-1, Closed(-1), map['$' := 11, 'a' := 3, 'b' := 9], 0, -1),
      Node(2, Open, map[], 0, 0),
      Node(2, Open, map[], 0, 1),
      Node(0, Closed(0), map['a' := 5, 'b' := 7], 0, -1),
      Node(4, Open, map[], 0, 2),
      Node(3, Closed(3), map['a' := 4, 'b' := 6], 3, -1),
      Node(5, Open, map[], 0, 3),
      Node(1, Closed(1), map['$' := 8, 'a' := 1], 9, -1),
      Node(6, Open, map[], 0, 4),
      Node(1, Closed(1), map['$' := 10, 'a' := 2], 0, -1),
      Node(6, Open, map[], 0, 5),
      Node(6, Open, map[], 0, 6)]

  lemma AbaaabLeaf11()
    ensures Number(AbaaabIndexed6, 7, 6, "ab$", 11, 1, 11) == Ok(AbaaabNumbered)
  {
    var x := AbaaabIndexed6[11 := AbaaabIndexed6[11].(suffixIndex := 6)];
    assert AbaaabIndexed6[11].children == map[];
    assert Number(AbaaabIndexed6, 7, 6, "ab$", 11, 1, 11) == Ok(x);
    assert x == AbaaabNumbered;
  }

  lemma AbaaabChildren0_2()
    ensures NumberChildren(AbaaabIndexed6, 7, 6, "ab$", map['$' := 11, 'a' := 3, 'b' := 9], "$", 0, 11) == Ok(AbaaabNumbered)
  {
    assert map['$' := 11, 'a' := 3, 'b' := 9]['$'] == 11;
    assert EdgeLength(AbaaabIndexed6[11], 6) == 1;
    assert "$"[1..] == "";
    AbaaabLeaf11();
  }

  lemma AbaaabChildren0_1()
    ensures NumberChildren(AbaaabIndexed4, 7, 6, "ab$", map['$' := 11, 'a' := 3, 'b' := 9], "b$", 0, 11) == Ok(AbaaabNumbered)
  {
    assert map['$' := 11, 'a' := 3, 'b' := 9]['b'] == 9;
    assert EdgeLength(AbaaabIndexed4[9], 6) == 1;
    assert "b$"[1..] == "$";
    AbaaabNumber9();
    AbaaabChildren0_2();
  }

  lemma AbaaabChildren0_0()
    ensures NumberChildren(Abaaab6.nodes, 7, 6, "ab$", map['$' := 11, 'a' := 3, 'b' := 9], "ab$", 0, 11) == Ok(AbaaabNumbered)
  {
    assert map['$' := 11, 'a' := 3, 'b' := 9]['a'] == 3;
    assert EdgeLength(Abaaab6.nodes[3], 6) == 1;
    assert "ab$"[1..] == "b$";
    AbaaabNumber3();
    AbaaabChildren0_1();
  }

  lemma AbaaabNumber0()
    ensures Number(Abaaab6.nodes, 7, 6, "ab$", 0, 0, 12) == Ok(AbaaabNumbered)
  {
    assert Abaaab6.nodes[0].children == map['$' := 11, 'a' := 3, 'b' := 9];
    AbaaabChildren0_0();
  }

  lemma AbaaabFrom6()
    ensures Phases(Abaaab5, 6) == Ok(Abaaab6)
  {
    AbaaabPhase6();
  }

  lemma AbaaabFrom5()
    ensures Phases(Abaaab4, 5) == Ok(Abaaab6)
  {
    AbaaabPhase5();
    AbaaabFrom6();
  }

  lemma AbaaabFrom4()
    ensures Phases(Abaaab3, 4) == Ok(Abaaab6)
  {
    AbaaabPhase4();
    AbaaabFrom5();
  }

  lemma AbaaabFrom3()
    ensures Phases(Abaaab2, 3) == Ok(Abaaab6)
  {
    AbaaabPhase3();
    AbaaabFrom4();
  }

  lemma AbaaabFrom2()
    ensures Phases(Abaaab1, 2) == Ok(Abaaab6)
  {
    AbaaabPhase2();
    AbaaabFrom3();
  }

  lemma AbaaabFrom1()
    ensures Phases(Abaaab0, 1) == Ok(Abaaab6)
  {
    AbaaabPhase1();
    AbaaabFrom2();
  }

  lemma AbaaabFrom0()
    ensures Phases(AbaaabStart, 0) == Ok(Abaaab6)
  {
    AbaaabPhase0();
    AbaaabFrom1();
  }

  lemma AbaaabAlphabet1()
    ensures Alphabet("a") == "a"
  {
    assert "a"[..0] == "";
  }

  lemma AbaaabAlphabet2()
    ensures Alphabet("ab") == "ab"
  {
    assert "ab"[..1] == "a";
    AbaaabAlphabet1();
  }

  lemma AbaaabAlphabet3()
    ensures Alphabet("aba") == "ab"
  {
    assert "aba"[..2] == "ab";
    AbaaabAlphabet2();
  }

  lemma AbaaabAlphabet4()
    ensures Alphabet("abaa") == "ab"
  {
    assert "abaa"[..3] == "aba";
    AbaaabAlphabet3();
  }

  lemma AbaaabAlphabet5()
    ensures Alphabet("abaaa") == "ab"
  {
    assert "abaaa"[..4] == "abaa";
    AbaaabAlphabet4();
  }

  lemma AbaaabAlphabet6()
    ensures Alphabet("abaaab") == "ab"
  {
    assert "abaaab"[..5] == "abaaa";
    AbaaabAlphabet5();
  }

  lemma AbaaabAlphabet7()
    ensures Alphabet("abaaab$") == "ab$"
  {
    assert "abaaab$"[..6] == "abaaab";
    AbaaabAlphabet6();
  }

  lemma AbaaabAlphabet()
    ensures Alphabet("abaaab$") == "ab$"
  {
    AbaaabAlphabet7();
  }

  /** The tree `Build("abaaab")` answers. */
  const AbaaabTree: Builder := Abaaab6.(nodes := AbaaabNumbered)

  lemma AbaaabBuild()
    ensures Build("abaaab") == Ok(AbaaabTree)
  {
    assert WithSentinel("abaaab") == "abaaab$";
    assert Init("abaaab") == AbaaabStart;
    AbaaabFrom0();
    AbaaabAlphabet();
    AbaaabNumber0();
  }

  lemma AbaaabArenaOk()
    ensures ArenaOk(AbaaabNumbered) && AbaaabTree.text == "abaaab$" && AbaaabTree.nodes == AbaaabNumbered && AbaaabTree.leafEnd == 6
  {
  }

  lemma AbaaabWalk0_2()
    ensures Locate("abaaab$", AbaaabNumbered, 6, 7, "aaab$") == Some([1])
  {
    assert "aaab$"[0] == 'a';
    assert 'a' in AbaaabNumbered[7].children;
    assert AbaaabNumbered[7].children['a'] == 1;
    assert "aaab$"[..5] == "aaab$";
    assert "aaab$"[5..] == "";
    assert EdgeText("abaaab$", AbaaabNumbered[1], 6) == "aaab$";
    assert Locate("abaaab$", AbaaabNumbered, 6, 1, []) == Some([]);
    assert [1] + [] == [1];
  }

  lemma AbaaabWalk0_1()
    ensures Locate("abaaab$", AbaaabNumbered, 6, 3, "baaab$") == Some([7, 1])
  {
    assert "baaab$"[0] == 'b';
    assert 'b' in AbaaabNumbered[3].children;
    assert AbaaabNumbered[3].children['b'] == 7;
    assert "baaab$"[..1] == "b";
    assert "baaab$"[1..] == "aaab$";
    assert EdgeText("abaaab$", AbaaabNumbered[7], 6) == "b";
    AbaaabWalk0_2();
    assert [7] + [1] == [7, 1];
  }

  lemma AbaaabWalk0_0()
    ensures Locate("abaaab$", AbaaabNumbered, 6, 0, "abaaab$") == Some([3, 7, 1])
  {
    assert "abaaab$"[0] == 'a';
    assert 'a' in AbaaabNumbered[0].children;
    assert AbaaabNumbered[0].children['a'] == 3;
    assert "abaaab$"[..1] == "a";
    assert "abaaab$"[1..] == "baaab$";
    assert EdgeText("abaaab$", AbaaabNumbered[3], 6) == "a";
    AbaaabWalk0_1();
    assert [3] + [7, 1] == [3, 7, 1];
  }

  lemma AbaaabSuffix0Walk()
    ensures Locate(AbaaabTree.text, AbaaabTree.nodes, AbaaabTree.leafEnd, Root, AbaaabTree.text[0..]) == Some([3, 7, 1])
  {
    AbaaabArenaOk();
    assert "abaaab$"[0..] == "abaaab$";
    AbaaabWalk0_0();
  }

  lemma AbaaabSuffix0Leaf()
    ensures IsLeaf(AbaaabTree, 1) && AbaaabTree.nodes[1].suffixIndex == 0
  {
    assert AbaaabTree.nodes == AbaaabNumbered;
    assert AbaaabNumbered[1].children == map[] && AbaaabNumbered[1].suffixIndex == 0;
  }

  lemma AbaaabSuffix0()
    ensures SuffixAtLeaf(AbaaabTree, 0)
    ensures IsLeaf(AbaaabTree, 1) && LeafReached(AbaaabTree, 1)
  {
    AbaaabArenaOk();
    AbaaabSuffix0Walk();
    AbaaabSuffix0Leaf();
  }

  lemma AbaaabWalk1_1()
    ensures Locate("abaaab$", AbaaabNumbered, 6, 9, "aaab$") == Some([2])
  {
    assert "aaab$"[0] == 'a';
    assert 'a' in AbaaabNumbered[9].children;
    assert AbaaabNumbered[9].children['a'] == 2;
    assert "aaab$"[..5] == "aaab$";
    assert "aaab$"[5..] == "";
    assert EdgeText("abaaab$", AbaaabNumbered[2], 6) == "aaab$";
    assert Locate("abaaab$", AbaaabNumbered, 6, 2, []) == Some([]);
    assert [2] + [] == [2];
  }

  lemma AbaaabWalk1_0()
    ensures Locate("abaaab$", AbaaabNumbered, 6, 0, "baaab$") == Some([9, 2])
  {
    assert "baaab$"[0] == 'b';
    assert 'b' in AbaaabNumbered[0].children;
    assert AbaaabNumbered[0].children['b'] == 9;
    assert "baaab$"[..1] == "b";
    assert "baaab$"[1..] == "aaab$";
    assert EdgeText("abaaab$", AbaaabNumbered[9], 6) == "b";
    AbaaabWalk1_1();
    assert [9] + [2] == [9, 2];
  }

  lemma AbaaabSuffix1Walk()
    ensures Locate(AbaaabTree.text, AbaaabTree.nodes, AbaaabTree.leafEnd, Root, AbaaabTree.text[1..]) == Some([9, 2])
  {
    AbaaabArenaOk();
    assert "abaaab$"[1..] == "baaab$";
    AbaaabWalk1_0();
  }

  lemma AbaaabSuffix1Leaf()
    ensures IsLeaf(AbaaabTree, 2) && AbaaabTree.nodes[2].suffixIndex == 1
  {
    assert AbaaabTree.nodes == AbaaabNumbered;
    assert AbaaabNumbered[2].children == map[] && AbaaabNumbered[2].suffixIndex == 1;
  }

  lemma AbaaabSuffix1()
    ensures SuffixAtLeaf(AbaaabTree, 1)
    ensures IsLeaf(AbaaabTree, 2) && LeafReached(AbaaabTree, 2)
  {
    AbaaabArenaOk();
    AbaaabSuffix1Walk();
    AbaaabSuffix1Leaf();
  }

  lemma AbaaabWalk2_2()
    ensures Locate("abaaab$", AbaaabNumbered, 6, 5, "ab$") == Some([4])
  {
    assert "ab$"[0] == 'a';
    assert 'a' in AbaaabNumbered[5].children;
    assert AbaaabNumbered[5].children['a'] == 4;
    assert "ab$"[..3] == "ab$";
    assert "ab$"[3..] == "";
    assert EdgeText("abaaab$", AbaaabNumbered[4], 6) == "ab$";
    assert Locate("abaaab$", AbaaabNumbered, 6, 4, []) == Some([]);
    assert [4] + [] == [4];
  }

  lemma AbaaabWalk2_1()
    ensures Locate("abaaab$", AbaaabNumbered, 6, 3, "aab$") == Some([5, 4])
  {
    assert "aab$"[0] == 'a';
    assert 'a' in AbaaabNumbered[3].children;
    assert AbaaabNumbered[3].children['a'] == 5;
    assert "aab$"[..1] == "a";
    assert "aab$"[1..] == "ab$";
    assert EdgeText("abaaab$", AbaaabNumbered[5], 6) == "a";
    AbaaabWalk2_2();
    assert [5] + [4] == [5, 4];
  }

  lemma AbaaabWalk2_0()
    ensures Locate("abaaab$", AbaaabNumbered, 6, 0, "aaab$") == Some([3, 5, 4])
  {
    assert "aaab$"[0] == 'a';
    assert 'a' in AbaaabNumbered[0].children;
    assert AbaaabNumbered[0].children['a'] == 3;
    assert "aaab$"[..1] == "a";
    assert "aaab$"[1..] == "aab$";
    assert EdgeText("abaaab$", AbaaabNumbered[3], 6) == "a";
    AbaaabWalk2_1();
    assert [3] + [5, 4] == [3, 5, 4];
  }

  lemma AbaaabSuffix2Walk()
    ensures Locate(AbaaabTree.text, AbaaabTree.nodes, AbaaabTree.leafEnd, Root, AbaaabTree.text[2..]) == Some([3, 5, 4])
  {
    AbaaabArenaOk();
    assert "abaaab$"[2..] == "aaab$";
    AbaaabWalk2_0();
  }

  lemma AbaaabSuffix2Leaf()
    ensures IsLeaf(AbaaabTree, 4) && AbaaabTree.nodes[4].suffixIndex == 2
  {
    assert AbaaabTree.nodes == AbaaabNumbered;
    assert AbaaabNumbered[4].children == map[] && AbaaabNumbered[4].suffixIndex == 2;
  }

  lemma AbaaabSuffix2()
    ensures SuffixAtLeaf(AbaaabTree, 2)
    ensures IsLeaf(AbaaabTree, 4) && LeafReached(AbaaabTree, 4)
  {
    AbaaabArenaOk();
    AbaaabSuffix2Walk();
    AbaaabSuffix2Leaf();
  }

  lemma AbaaabWalk3_2()
    ensures Locate("abaaab$", AbaaabNumbered, 6, 5, "b$") == Some([6])
  {
    assert "b$"[0] == 'b';
    assert 'b' in AbaaabNumbered[5].children;
    assert AbaaabNumbered[5].children['b'] == 6;
    assert "b$"[..2] == "b$";
    assert "b$"[2..] == "";
    assert EdgeText("abaaab$", AbaaabNumbered[6], 6) == "b$";
    assert Locate("abaaab$", AbaaabNumbered, 6, 6, []) == Some([]);
    assert [6] + [] == [6];
  }

  lemma AbaaabWalk3_1()
    ensures Locate("abaaab$", AbaaabNumbered, 6, 3, "ab$") == Some([5, 6])
  {
    assert "ab$"[0] == 'a';
    assert 'a' in AbaaabNumbered[3].children;
    assert AbaaabNumbered[3].children['a'] == 5;
    assert "ab$"[..1] == "a";
    assert "ab$"[1..] == "b$";
    assert EdgeText("abaaab$", AbaaabNumbered[5], 6) == "a";
    AbaaabWalk3_2();
    assert [5] + [6] == [5, 6];
  }

  lemma AbaaabWalk3_0()
    ensures Locate("abaaab$", AbaaabNumbered, 6, 0, "aab$") == Some([3, 5, 6])
  {
    assert "aab$"[0] == 'a';
    assert 'a' in AbaaabNumbered[0].children;
    assert AbaaabNumbered[0].children['a'] == 3;
    assert "aab$"[..1] == "a";
    assert "aab$"[1..] == "ab$";
    assert EdgeText("abaaab$", AbaaabNumbered[3], 6) == "a";
    AbaaabWalk3_1();
    assert [3] + [5, 6] == [3, 5, 6];
  }

  lemma AbaaabSuffix3Walk()
    ensures Locate(AbaaabTree.text, AbaaabTree.nodes, AbaaabTree.leafEnd, Root, AbaaabTree.text[3..]) == Some([3, 5, 6])
  {
    AbaaabArenaOk();
    assert "abaaab$"[3..] == "aab$";
    AbaaabWalk3_0();
  }

  lemma AbaaabSuffix3Leaf()
    ensures IsLeaf(AbaaabTree, 6) && AbaaabTree.nodes[6].suffixIndex == 3
  {
    assert AbaaabTree.nodes == AbaaabNumbered;
    assert AbaaabNumbered[6].children == map[] && AbaaabNumbered[6].suffixIndex == 3;
  }

  lemma AbaaabSuffix3()
    ensures SuffixAtLeaf(AbaaabTree, 3)
    ensures IsLeaf(AbaaabTree, 6) && LeafReached(AbaaabTree, 6)
  {
    AbaaabArenaOk();
    AbaaabSuffix3Walk();
    AbaaabSuffix3Leaf();
  }

  lemma AbaaabWalk4_2()
    ensures Locate("abaaab$", AbaaabNumbered, 6, 7, "$") == Some([8])
  {
    assert "$"[0] == '$';
    assert '$' in AbaaabNumbered[7].children;
    assert AbaaabNumbered[7].children['$'] == 8;
    assert "$"[..1] == "$";
    assert "$"[1..] == "";
    assert EdgeText("abaaab$", AbaaabNumbered[8], 6) == "$";
    assert Locate("abaaab$", AbaaabNumbered, 6, 8, []) == Some([]);
    assert [8] + [] == [8];
  }

  lemma AbaaabWalk4_1()
    ensures Locate("abaaab$", AbaaabNumbered, 6, 3, "b$") == Some([7, 8])
  {
    assert "b$"[0] == 'b';
    assert 'b' in AbaaabNumbered[3].children;
    assert AbaaabNumbered[3].children['b'] == 7;
    assert "b$"[..1] == "b";
    assert "b$"[1..] == "$";
    assert EdgeText("abaaab$", AbaaabNumbered[7], 6) == "b";
    AbaaabWalk4_2();
    assert [7] + [8] == [7, 8];
  }

  lemma AbaaabWalk4_0()
    ensures Locate("abaaab$", AbaaabNumbered, 6, 0, "ab$") == Some([3, 7, 8])
  {
    assert "ab$"[0] == 'a';
    assert 'a' in AbaaabNumbered[0].children;
    assert AbaaabNumbered[0].children['a'] == 3;
    assert "ab$"[..1] == "a";
    assert "ab$"[1..] == "b$";
    assert EdgeText("abaaab$", AbaaabNumbered[3], 6) == "a";
    AbaaabWalk4_1();
    assert [3] + [7, 8] == [3, 7, 8];
  }

  lemma AbaaabSuffix4Walk()
    ensures Locate(AbaaabTree.text, AbaaabTree.nodes, AbaaabTree.leafEnd, Root, AbaaabTree.text[4..]) == Some([3, 7, 8])
  {
    AbaaabArenaOk();
    assert "abaaab$"[4..] == "ab$";
    AbaaabWalk4_0();
  }

  lemma AbaaabSuffix4Leaf()
    ensures IsLeaf(AbaaabTree, 8) && AbaaabTree.nodes[8].suffixIndex == 4
  {
    assert AbaaabTree.nodes == AbaaabNumbered;
    assert AbaaabNumbered[8].children == map[] && AbaaabNumbered[8].suffixIndex == 4;
  }

  lemma AbaaabSuffix4()
    ensures SuffixAtLeaf(AbaaabTree, 4)
    ensures IsLeaf(AbaaabTree, 8) && LeafReached(AbaaabTree, 8)
  {
    AbaaabArenaOk();
    AbaaabSuffix4Walk();
    AbaaabSuffix4Leaf();
  }

  lemma AbaaabWalk5_1()
    ensures Locate("abaaab$", AbaaabNumbered, 6, 9, "$") == Some([10])
  {
    assert "$"[0] == '$';
    assert '$' in AbaaabNumbered[9].children;
    assert AbaaabNumbered[9].children['$'] == 10;
    assert "$"[..1] == "$";
    assert "$"[1..] == "";
    assert EdgeText("abaaab$", AbaaabNumbered[10], 6) == "$";
    assert Locate("abaaab$", AbaaabNumbered, 6, 10, []) == Some([]);
    assert [10] + [] == [10];
  }

  lemma AbaaabWalk5_0()
    ensures Locate("abaaab$", AbaaabNumbered, 6, 0, "b$") == Some([9, 10])
  {
    assert "b$"[0] == 'b';
    assert 'b' in AbaaabNumbered[0].children;
    assert AbaaabNumbered[0].children['b'] == 9;
    assert "b$"[..1] == "b";
    assert "b$"[1..] == "$";
    assert EdgeText("abaaab$", AbaaabNumbered[9], 6) == "b";
    AbaaabWalk5_1();
    assert [9] + [10] == [9, 10];
  }

  lemma AbaaabSuffix5Walk()
    ensures Locate(AbaaabTree.text, AbaaabTree.nodes, AbaaabTree.leafEnd, Root, AbaaabTree.text[5..]) == Some([9, 10])
  {
    AbaaabArenaOk();
    assert "abaaab$"[5..] == "b$";
    AbaaabWalk5_0();
  }

  lemma AbaaabSuffix5Leaf()
    ensures IsLeaf(AbaaabTree, 10) && AbaaabTree.nodes[10].suffixIndex == 5
  {
    assert AbaaabTree.nodes == AbaaabNumbered;
    assert AbaaabNumbered[10].children == map[] && AbaaabNumbered[10].suffixIndex == 5;
  }

  lemma AbaaabSuffix5()
    ensures SuffixAtLeaf(AbaaabTree, 5)
    ensures IsLeaf(AbaaabTree, 10) && LeafReached(AbaaabTree, 10)
  {
    AbaaabArenaOk();
    AbaaabSuffix5Walk();
    AbaaabSuffix5Leaf();
  }

  lemma AbaaabWalk6_0()
    ensures Locate("abaaab$", AbaaabNumbered, 6, 0, "$") == Some([11])
  {
    assert "$"[0] == '$';
    assert '$' in AbaaabNumbered[0].children;
    assert AbaaabNumbered[0].children['$'] == 11;
    assert "$"[..1] == "$";
    assert "$"[1..] == "";
    assert EdgeText("abaaab$", AbaaabNumbered[11], 6) == "$";
    assert Locate("abaaab$", AbaaabNumbered, 6, 11, []) == Some([]);
    assert [11] + [] == [11];
  }

  lemma AbaaabSuffix6Walk()
    ensures Locate(AbaaabTree.text, AbaaabTree.nodes, AbaaabTree.leafEnd, Root, AbaaabTree.text[6..]) == Some([11])
  {
    AbaaabArenaOk();
    assert "abaaab$"[6..] == "$";
    AbaaabWalk6_0();
  }

  lemma AbaaabSuffix6Leaf()
    ensures IsLeaf(AbaaabTree, 11) && AbaaabTree.nodes[11].suffixIndex == 6
  {
    assert AbaaabTree.nodes == AbaaabNumbered;
    assert AbaaabNumbered[11].children == map[] && AbaaabNumbered[11].suffixIndex == 6;
  }

  lemma AbaaabSuffix6()
    ensures SuffixAtLeaf(AbaaabTree, 6)
    ensures IsLeaf(AbaaabTree, 11) && LeafReached(AbaaabTree, 11)
  {
    AbaaabArenaOk();
    AbaaabSuffix6Walk();
    AbaaabSuffix6Leaf();
  }

  lemma AbaaabAllSuffixes()
    ensures forall k | 0 <= k < 7 :: SuffixAtLeaf(AbaaabTree, k)
  {
    AbaaabArenaOk();
    forall k | 0 <= k < 7
      ensures SuffixAtLeaf(AbaaabTree, k)
    {
      if k == 0 {
        AbaaabSuffix0();
      } else if k == 1 {
        AbaaabSuffix1();
      } else if k == 2 {
        AbaaabSuffix2();
      } else if k == 3 {
        AbaaabSuffix3();
      } else if k == 4 {
        AbaaabSuffix4();
      } else if k == 5 {
        AbaaabSuffix5();
      } else if k == 6 {
        AbaaabSuffix6();
      }
    }
  }

  lemma AbaaabAllLeaves()
    ensures forall id | 0 < id < 12 && IsLeaf(AbaaabTree, id) :: LeafReached(AbaaabTree, id)
  {
    AbaaabArenaOk();
    forall id | 0 < id < 12
      ensures IsLeaf(AbaaabTree, id) ==> LeafReached(AbaaabTree, id)
    {
      if id == 1 {
        AbaaabSuffix0();
      } else if id == 2 {
        AbaaabSuffix1();
      } else if id == 3 {
        assert 'a' in AbaaabNumbered[3].children;
      } else if id == 4 {
        AbaaabSuffix2();
      } else if id == 5 {
        assert 'a' in AbaaabNumbered[5].children;
      } else if id == 6 {
        AbaaabSuffix3();
      } else if id == 7 {
        assert 'a' in AbaaabNumbered[7].children;
      } else if id == 8 {
        AbaaabSuffix4();
      } else if id == 9 {
        assert 'a' in AbaaabNumbered[9].children;
      } else if id == 10 {
        AbaaabSuffix5();
      } else if id == 11 {
        AbaaabSuffix6();
      }
    }
  }

  /** Every suffix of "abaaab$" ends at its own leaf of the tree Ukkonen's builder
      answers, and every leaf is the end of its suffix. */
  lemma AbaaabIsSuffixTree()
    ensures Build("abaaab") == Ok(AbaaabTree) && IsSuffixTree(AbaaabTree)
  {
    AbaaabBuild();
    AbaaabArenaOk();
    AbaaabAllSuffixes();
    AbaaabAllLeaves();
  }

  lemma AbaaabPrepared(input: string)
    requires input == "abaaab"
    ensures forall k | 0 <= k < |input| :: input[k] != Sentinel
    ensures WithSentinel(input) == AbaaabTree.text
  {
    assert WithSentinel("abaaab") == "abaaab$";
    AbaaabArenaOk();
  }

  lemma AbaaabAgrees(input: string)
    requires input == "abaaab"
    ensures var t := NaiveSuffixTree.Build(input);
      NaiveSuffixTree.WellFormed(t.text, t.root) && LeafLabels(AbaaabTree) == NaiveSuffixTree.Leaves(t.text, t.root)
  {
    AbaaabIsSuffixTree();
    AbaaabPrepared(input);
    WithSentinelUnique(input);
    AgreesWithNaive(input, AbaaabTree);
  }

  /** Ukkonen's builder and the naive builder agree on "abaaab": the same
      leaves, with the same suffix indices and path labels. */
  lemma AbaaabMatchesNaive()
    ensures Build("abaaab") == Ok(AbaaabTree) && IsSuffixTree(AbaaabTree)
    ensures var t := NaiveSuffixTree.Build("abaaab");
      NaiveSuffixTree.WellFormed(t.text, t.root) && LeafLabels(AbaaabTree) == NaiveSuffixTree.Leaves(t.text, t.root)
  {
    AbaaabIsSuffixTree();
    AbaaabAgrees("abaaab");
  }

}
